=== FILE: README.md ===
# agent-workspace: completion pipeline and argument parsers, in Dafny

This project models the pure core of the `agent-workspace` launcher: the shell
tab-completion pipeline (`completion/`), the runtime selection (`runtime.rs`),
the name and repository helpers of `launcher.rs`, the argument parsers of every
launcher subcommand on the host (`launcher/*.rs`), and the parsers and naming
helpers of the container launcher (`launcher/container.rs`). Every operation is a
pure function over strings and sequences of strings. The contracts and lemmas
state what these functions promise.

Layout, one module per file:

- `wrappers.dfy` (`Wrappers`): `Option` and `Result`. An error is the exact
  message string the launcher prints.
- `strings.dfy` (`Strings`): the Rust standard-library text operations the code
  uses. These are Unicode `trim` and `split_whitespace`, ASCII lower-casing,
  `trim_*_matches`, `strip_prefix`/`strip_suffix`, `parse::<uN>` and decimal
  rendering.
- `token_scan.dfy` (`TokenScan`): the argument loop every parser shares. A
  step sees the current token and the next one. It continues (consuming one
  or two tokens), stops early, or fails. Generic lemmas cover concatenated
  argument lists.
- `runtime.dfy` (`Runtime`): `parse_runtime_value` and `resolve_runtime`.
- `protocol.dfy` (`Protocol`): the hidden `__complete` request. It covers the
  option loop, the words blob, the cursor, shell, format and mode, and the
  runtime hint read from the words before the cursor.
- `candidates.dfy` (`Candidates`): candidate construction and `finalize`.
  `finalize` keeps the candidates matching the prefix, drops duplicate values
  keeping the first description, and sorts them.
- `output.dfy` (`Output`): the plain and described renderers.
- `engine_scan.dfy` (`EngineScan`) and `engine.dfy` (`Engine`): the completion
  engine. This includes subcommand detection, runtime-token stripping,
  positional scans, the value-option slot, the generators of every
  subcommand, and the workspace-name cache `WorkspaceContext`. The cache is
  threaded as an explicit value that counts provider calls.
- `launcher.dfy` (`Launcher`): workspace prefixes, name variants and the
  resolution order, slugs, repository specs, and JSON escaping.
- `exec_args.dfy`, `tunnel_args.dfy`, `ls_args.dfy`, `rm_args.dfy`,
  `auth_args.dfy`, `create_args.dfy`, `reset_args.dfy`: the subcommand
  parsers. Where the host and the container launcher each have a parser of
  the same name, one definition takes the side (`Runtime.Container` or
  `Runtime.Host`) as a parameter.
- `container_names.dfy` (`ContainerNames`): the primary prefix, container
  names, volume names, and tunnel names.
- `repo_paths.dfy` (`RepoPaths`): `map_workspace_repo_path` and
  `map_container_repo_path`.

Environment variables are an explicit `map<string, string>`. The workspace
provider is a function from runtime to `Result<seq<string>>`.

## Model

| member | source | states |
|---|---|---|
| Candidates.PushValues | crates/agent-workspace/src/completion/candidates.rs:33-37 | appends one undescribed candidate per value, in order, and leaves the existing candidates untouched |
| Candidates.PushDescribedValues | crates/agent-workspace/src/completion/candidates.rs:39-43 | appends one described candidate per (value, description) pair, in order, after the existing ones |
| Candidates.PushGlobalOptions | crates/agent-workspace/src/completion/candidates.rs:25-47 | appends exactly the five global options `--runtime`, `--help`, `--version`, `-h`, `-V` with their descriptions, and changes nothing before them |
| Candidates.WithPrefix | crates/agent-workspace/src/completion/candidates.rs:49-55 | keeps length and order; candidate i is the undescribed `prefix + values[i]` |
| Candidates.WithDescribedPrefix | crates/agent-workspace/src/completion/candidates.rs:57-66 | keeps length and order; candidate i is `prefix + value i` with description i |
| Candidates.LexLessIrreflexive | crates/agent-workspace/src/completion/candidates.rs:69 | the key order of the `BTreeMap<String, _>` is irreflexive |
| Candidates.LexLessTransitive | crates/agent-workspace/src/completion/candidates.rs:69 | the key order is transitive |
| Candidates.LexLessTotal | crates/agent-workspace/src/completion/candidates.rs:69 | any two distinct keys are ordered one way or the other |
| Candidates.LexLessAsymmetric | crates/agent-workspace/src/completion/candidates.rs:69 | the key order is asymmetric |
| Candidates.Upsert | crates/agent-workspace/src/completion/candidates.rs:75-78 | inserting into the sorted map keeps it sorted, adds exactly the value, and sets its description only when the entry had none |
| Candidates.UpsertAbove | crates/agent-workspace/src/completion/candidates.rs:75-78 | a value above every key is appended at the end |
| Candidates.Finalize | crates/agent-workspace/src/completion/candidates.rs:68-85 | the result is strictly ascending by value, its values are exactly the input values that start with the prefix, and each value carries the first description the input gave it |
| Candidates.FinalizePrefixed | crates/agent-workspace/src/completion/candidates.rs:71-74 | every value in the result starts with the prefix |
| Candidates.FirstDescriptionIsEarliest | crates/agent-workspace/src/completion/candidates.rs:75-78 | the kept description is present iff some input with that value has one, and it is the one of the earliest such input |
| Candidates.DescOfAt | crates/agent-workspace/src/completion/candidates.rs:81-84 | in a sorted result, looking up a candidate's value finds that candidate's description |
| Candidates.FinalizeFixpoint | crates/agent-workspace/src/completion/candidates.rs:68-85 | a sorted list whose values all start with the prefix comes back unchanged |
| Candidates.FinalizeIdempotent | crates/agent-workspace/src/completion/candidates.rs:68-85 | finalizing twice gives the same list as finalizing once |
| Output.SanitizeSegment | crates/agent-workspace/src/completion/output.rs:44-46 | keeps the length, turns each newline, carriage return and tab into one space, keeps every other character, and leaves none of the three |
| Output.SanitizeKeepsClean | crates/agent-workspace/src/completion/output.rs:44-46 | a segment without those characters is returned unchanged |
| Output.SanitizeIdempotent | crates/agent-workspace/src/completion/output.rs:44-46 | sanitizing twice is sanitizing once |
| Output.EscapeForShell | crates/agent-workspace/src/completion/output.rs:37-42 | both shells get the sanitized value |
| Output.Line | crates/agent-workspace/src/completion/output.rs:17-32 | a line has no newline; it is the value alone in plain format or without a description, else `value\tdescription` with both sanitized |
| Output.Lines | crates/agent-workspace/src/completion/output.rs:15-35 | one line per candidate, in order |
| Output.RenderPlain | crates/agent-workspace/src/completion/output.rs:15-21 | no candidates give the empty string; otherwise the output splits at newlines into exactly the sanitized values, one per candidate, in order |
| Output.RenderDescribed | crates/agent-workspace/src/completion/output.rs:23-35 | no candidates give the empty string; otherwise line i is the sanitized value, followed by a tab and the sanitized description when candidate i has one |
| Output.Render | crates/agent-workspace/src/completion/output.rs:4-34 | no candidates render as the empty string |
| Output.RenderSplitsIntoLines | crates/agent-workspace/src/completion/output.rs:15-35 | splitting the output at newlines gives back exactly the per-candidate lines, so the line count is the candidate count |
| Output.PlainLineIsValue | crates/agent-workspace/src/completion/output.rs:15-21 | line i of plain output is the sanitized value of candidate i |
| Output.DescribedLineFields | crates/agent-workspace/src/completion/output.rs:23-35 | line i of described output splits at its tab into the sanitized value and description, or is the value alone with no tab |
| Output.ShellsRenderAlike | crates/agent-workspace/src/completion/output.rs:37-42 | bash and zsh render identically |
| Output.UndescribedRenderAlike | crates/agent-workspace/src/completion/output.rs:15-35 | without descriptions, described output equals plain output |
| Output.PlainIgnoresDescriptions | crates/agent-workspace/src/completion/output.rs:15-21 | plain output depends only on the values |
| Protocol.CurrentWord | crates/agent-workspace/src/completion/protocol.rs:133-138 | the word under the cursor, or the empty string when the cursor is past the end |
| Protocol.WordsBeforeCursor | crates/agent-workspace/src/completion/protocol.rs:140-142 | exactly `cword` words, and together with the words from the cursor on they make up the whole list |
| Protocol.ParseShell | crates/agent-workspace/src/completion/protocol.rs:145-151 | a rejected value gives the error naming the raw value and the accepted ones |
| Protocol.ParseShellSpec | crates/agent-workspace/src/completion/protocol.rs:145-151 | a shell is accepted exactly when the trimmed, ASCII-lowercased value is its name |
| Protocol.ParseShellName | crates/agent-workspace/src/completion/protocol.rs:145-151 | each shell's own name parses back to it |
| Protocol.ParseOutput | crates/agent-workspace/src/completion/protocol.rs:153-161 | a rejected value gives the error naming the raw value |
| Protocol.ParseOutputSpec | crates/agent-workspace/src/completion/protocol.rs:153-161 | `plain` gives Plain and `describe` or `described` give Describe after trim and lowercase, and nothing else is accepted |
| Protocol.ParseFormatName | crates/agent-workspace/src/completion/protocol.rs:153-161 | each format's own name parses back to it |
| Protocol.ParseCword | crates/agent-workspace/src/completion/protocol.rs:163-167 | succeeds exactly when the trimmed value is a decimal below the `usize` bound, with that value; otherwise the error names the raw value |
| Protocol.ParseModeValue | crates/agent-workspace/src/completion/protocol.rs:190-198 | a rejected value gives the error naming the raw value and the accepted ones |
| Protocol.ParseModeValueSpec | crates/agent-workspace/src/completion/protocol.rs:190-198 | the empty string and `rust` give Rust and `legacy` gives Legacy after trim and lowercase, and nothing else is accepted |
| Protocol.ParseModeName | crates/agent-workspace/src/completion/protocol.rs:190-198 | each mode's own name parses back to it |
| Protocol.ModeFromEnv | crates/agent-workspace/src/completion/protocol.rs:184-188 | an unset variable means Rust; a set one is parsed |
| Protocol.ParseWordsBlob | crates/agent-workspace/src/completion/protocol.rs:169-182 | never empty, and a blob ending in whitespace ends with an empty word |
| Protocol.WordsBlobRoundTrip | crates/agent-workspace/src/completion/protocol.rs:169-182 | words without whitespace, joined by spaces, split back into the same words |
| Protocol.WordsBlobCursor | crates/agent-workspace/src/completion/protocol.rs:172-175 | the same words followed by a trailing space come back with one extra empty word for the cursor |
| Protocol.ParseTrimmed | crates/agent-workspace/src/completion/protocol.rs:208-234 | trimming a runtime value before parsing it changes nothing |
| Protocol.LenientRuntimeFromEnv | crates/agent-workspace/src/completion/protocol.rs:232-240 | a valid `AGENT_WORKSPACE_RUNTIME` decides; the host runtime comes only from a variable set to a valid host value, so the fallback is the container |
| Protocol.EnvHintSpec | crates/agent-workspace/src/completion/protocol.rs:232-236 | a variable hints at a runtime exactly when it is set and its value parses to that runtime |
| Protocol.LenientAgreesWithStrict | crates/agent-workspace/src/completion/protocol.rs:232-240 | when the launcher's strict environment lookup succeeds, the completion fallback picks the same runtime |
| Protocol.LenientSkipsInvalid | crates/agent-workspace/src/completion/protocol.rs:232-238 | an invalid `AGENT_WORKSPACE_RUNTIME` is skipped by completion although the launcher rejects it |
| Protocol.ClassifySpec | crates/agent-workspace/src/completion/protocol.rs:205-219 | a word is the separate flag iff it trims to `--runtime`, inline iff it trims to `--runtime=<value>`, and the inline value is what follows the prefix |
| Protocol.HintStep | crates/agent-workspace/src/completion/protocol.rs:204-226 | each loop iteration moves the index forward |
| Protocol.ResolveRuntimeFromWords | crates/agent-workspace/src/completion/protocol.rs:200-241 | the result is the environment's runtime or one named by a word the loop looks at, from index 1 up to the cursor (a `--runtime` whose value is also before the cursor, or a valid `--runtime=<value>`); when no such word names a valid runtime, the environment decides, so invalid values and a `--runtime` whose value is not before the cursor are ignored |
| Protocol.FlagProvenance | crates/agent-workspace/src/completion/protocol.rs:204-227 | a runtime the loop ends with was there at the start or was named by a word the loop looked at |
| Protocol.StepSets | crates/agent-workspace/src/completion/protocol.rs:206-224 | a step that changes the runtime found so far reads a word that names it |
| Protocol.StepKeeps | crates/agent-workspace/src/completion/protocol.rs:206-224 | a step whose word names no valid runtime keeps the runtime found so far |
| Protocol.VisitsAfterStep | crates/agent-workspace/src/completion/protocol.rs:204-226 | a word the loop looks at after one step is looked at from the step's start too |
| Protocol.VisitsFrom | crates/agent-workspace/src/completion/protocol.rs:204-226 | the loop's index only moves forward |
| Protocol.NoSettingKeepsFound | crates/agent-workspace/src/completion/protocol.rs:204-227 | when no word the loop looks at names a valid runtime, the loop ends with what it started with |
| Protocol.LastSettingWins | crates/agent-workspace/src/completion/protocol.rs:204-227 | the last word the loop looks at that names a valid runtime decides the loop's result |
| Protocol.RuntimeHintLastSettingWins | crates/agent-workspace/src/completion/protocol.rs:200-230 | the last valid runtime named before the cursor wins over the environment, wherever earlier flags stand |
| Protocol.RuntimeHintInvalidValueIgnored | crates/agent-workspace/src/completion/protocol.rs:206-212 | `--runtime k8s` names nothing, so the environment decides |
| Protocol.NoSettingOnePair | crates/agent-workspace/src/completion/protocol.rs:204-216 | a lone `--runtime` pair with an invalid value names nothing |
| Protocol.RuntimeHintValueAtCursorIgnored | crates/agent-workspace/src/completion/protocol.rs:206-216 | a `--runtime` whose value sits at the cursor names nothing, so the environment decides |
| Protocol.RuntimeHintIgnoresWordsAfterCursor | crates/agent-workspace/src/completion/protocol.rs:204 | words at or after the cursor do not affect the result |
| Protocol.FlagBeforeCursorSkipsPlain | crates/agent-workspace/src/completion/protocol.rs:204-226 | words that are not `--runtime` tokens leave the scan's result unchanged |
| Protocol.RuntimeHintFromEnv | crates/agent-workspace/src/completion/protocol.rs:228-240 | without any `--runtime` token before the cursor the environment decides |
| Protocol.FlagPairAtEnd | crates/agent-workspace/src/completion/protocol.rs:206-212 | a valid `--runtime <value>` that ends the words before the cursor wins when no separate `--runtime` comes between the scan position and it |
| Protocol.InlineFlagAtEnd | crates/agent-workspace/src/completion/protocol.rs:219-223 | a valid `--runtime=<value>` that ends the words before the cursor wins under the same condition |
| Protocol.RuntimeHintLastFlagWins | crates/agent-workspace/src/completion/protocol.rs:204-230 | a valid `--runtime <value>` just before the cursor selects the runtime whatever the environment says |
| Protocol.RuntimeHintLastInlineFlagWins | crates/agent-workspace/src/completion/protocol.rs:219-230 | a valid `--runtime=<value>` just before the cursor selects the runtime whatever the environment says |
| Protocol.ValueStep | crates/agent-workspace/src/completion/protocol.rs:45-79 | a value option always consumes the following token and never stops the scan |
| Protocol.InlineStep | crates/agent-workspace/src/completion/protocol.rs:80-97 | an `--option=value` token consumes only itself |
| Protocol.ParseStepWellFormed | crates/agent-workspace/src/completion/protocol.rs:42-100 | the option loop reads the next token only as the value of the option before it |
| Protocol.RequestWords | crates/agent-workspace/src/completion/protocol.rs:102-109 | the words are never empty, and they are missing exactly when no `--word` was given and no `--words` blob either |
| Protocol.Finish | crates/agent-workspace/src/completion/protocol.rs:102-131 | a built request has a cursor inside a non-empty word list, the shell, cursor and format that were given, the environment's mode, and the runtime the words resolve to |
| Protocol.Parse | crates/agent-workspace/src/completion/protocol.rs:34-131 | every accepted request has non-empty words and a cursor below their count |
| Protocol.FinishErrors | crates/agent-workspace/src/completion/protocol.rs:102-119 | the missing-words, missing-cursor, out-of-range-cursor and missing-shell errors, with their messages, in the order they are checked |
| Protocol.WordsNeverEmpty | crates/agent-workspace/src/completion/protocol.rs:107-109 | the "completion words cannot be empty" error can never be returned |
| Protocol.FinishIgnoresBlob | crates/agent-workspace/src/completion/protocol.rs:102-105 | once a `--word` was given, the `--words` blob is ignored |
| Protocol.RunWordArgs | crates/agent-workspace/src/completion/protocol.rs:59-65 | a run of `--word` options appends their values in order |
| Protocol.RunRequestArgs | crates/agent-workspace/src/completion/protocol.rs:42-100 | the argument vector a shell script builds scans to exactly the shell, cursor, words and format it encodes |
| Protocol.RequestRoundTrip | crates/agent-workspace/src/completion/protocol.rs:34-131 | such an argument vector with an in-range cursor parses to the request it encodes |
| Protocol.CursorOutOfRange | crates/agent-workspace/src/completion/protocol.rs:112-117 | the same vector with a cursor at or past the word count fails with the "invalid --cword index" message |
| Protocol.WordOverridesBlob | crates/agent-workspace/src/completion/protocol.rs:59-105 | appending a `--words` blob after some `--word` changes nothing |
| Protocol.UnknownOptionFails | crates/agent-workspace/src/completion/protocol.rs:95-97 | an unknown token stops the parse with "unknown option for __complete" |
| Protocol.TrailingOptionFails | crates/agent-workspace/src/completion/protocol.rs:45-79 | a value option as the last argument fails with "missing value for" that option |
| Protocol.FlagPairStep | crates/agent-workspace/src/completion/protocol.rs:206-212 | a separate `--runtime` followed by a valid value is one step of the scan that records that runtime and moves past both words |
| Protocol.FlagPairLast | crates/agent-workspace/src/completion/protocol.rs:206-212 | a valid `--runtime <value>` pair that ends the words is what the flag scan settles on |
| Protocol.InlineFlagLast | crates/agent-workspace/src/completion/protocol.rs:219-223 | a valid `--runtime=<value>` that ends the words is what the flag scan settles on |
| Runtime.ParseRuntimeValue | crates/agent-workspace/src/runtime.rs:47-58 | an accepted value is one of the runtime's spellings after trimming and ASCII lower-casing; any other value is an "invalid runtime value: " error (see Runtime.ParseRuntimeValueSpec and Runtime.ParseRuntimeValueError for both directions and the messages) |
| Runtime.ParseRuntimeValueSpec | crates/agent-workspace/src/runtime.rs:47-51 | a runtime is accepted exactly when the trimmed, ASCII-lowercased value is one of its two names (`container`/`docker`, `host`/`native`) |
| Runtime.ParseRuntimeValueError | crates/agent-workspace/src/runtime.rs:52-58 | any other value is an error, with the "empty" message for a blank value and the raw value in the message otherwise |
| Runtime.ParseAlias | crates/agent-workspace/src/runtime.rs:47-51 | each lower-case alias parses to its runtime |
| Runtime.ParseRuntimeName | crates/agent-workspace/src/runtime.rs:47-51 | each runtime's name parses back to it |
| Runtime.RuntimeStep | crates/agent-workspace/src/runtime.rs:14-32 | a plain token is appended to the cleaned list; a `--runtime` token sets the flag and is not kept; only the separate `--runtime` consumes the next token, and only when there is one |
| Runtime.RuntimeStepWellFormed | crates/agent-workspace/src/runtime.rs:14-32 | the loop reads the next token only as the value of `--runtime` |
| Runtime.RuntimeFromEnv | crates/agent-workspace/src/runtime.rs:34-42 | `AGENT_WORKSPACE_RUNTIME` first, then `AWL_RUNTIME`, each parsed strictly, else the container runtime |
| Runtime.ResolveRuntime | crates/agent-workspace/src/runtime.rs:9-45 | on success the cleaned arguments are exactly what the flag scan kept: no `--runtime` token is left and they are no longer than the input; an error of the scan is returned as it is |
| Runtime.CleanedHasNoRuntimeTokens | crates/agent-workspace/src/runtime.rs:14-32 | the scan never keeps a `--runtime` token |
| Runtime.ScanPassesPlainTokens | crates/agent-workspace/src/runtime.rs:29 | tokens that are not `--runtime` tokens are kept in order |
| Runtime.EnvDecidesWithoutFlag | crates/agent-workspace/src/runtime.rs:34-44 | without a flag the environment decides and the arguments are returned unchanged |
| Runtime.LastFlagWins | crates/agent-workspace/src/runtime.rs:17-35 | a valid `--runtime <value>` at the end overrides every earlier flag and the environment, and is removed |
| Runtime.LastInlineFlagWins | crates/agent-workspace/src/runtime.rs:25-35 | a valid `--runtime=<value>` at the end does the same |
| Runtime.TrailingFlagIsMissingValue | crates/agent-workspace/src/runtime.rs:17-21 | a final `--runtime` fails with "missing value for --runtime" |
| Runtime.InvalidFlagValueFails | crates/agent-workspace/src/runtime.rs:22-23 | an invalid flag value fails with the value parser's error |
| Runtime.ExampleDefault | crates/agent-workspace/src/runtime.rs:65-77 | no arguments and no environment give the container runtime and nothing cleaned |
| Runtime.LeadingFlagDecides | crates/agent-workspace/src/runtime.rs:79-101 | a leading `--runtime <value>` decides whatever the environment says, and the rest is kept |
| Runtime.LeadingInlineFlagDecides | crates/agent-workspace/src/runtime.rs:103-114 | a leading `--runtime=<value>` decides, and the rest is kept |
| Runtime.ExampleInvalidValue | crates/agent-workspace/src/runtime.rs:116-120 | `--runtime k8s` fails with the "expected: container\|host" message |
| EngineScan.FirstBare | crates/agent-workspace/src/completion/engine.rs:631-639 | the index of the first token not starting with `-`: every token before it is dashed, and without one every token is |
| EngineScan.FirstPositional | crates/agent-workspace/src/completion/engine.rs:631-639 | `first_positional`: present exactly when some token is not dashed, and then it is the first such token |
| EngineScan.FirstPositionalSkipping | crates/agent-workspace/src/completion/engine.rs:641-676 | a token it returns is one of the arguments and is not dashed |
| EngineScan.SkippingWithoutOptionTokens | crates/agent-workspace/src/completion/engine.rs:641-676 | when no argument is one of the dashed value options, skipping them agrees with `first_positional` |
| EngineScan.OptionValueSkipped | crates/agent-workspace/src/completion/engine.rs:649-652 | a value option in space form hides the token after it |
| EngineScan.DetectFrom | crates/agent-workspace/src/completion/engine.rs:707-726 | a token found is at or after the start index, is the token at that position, and is not dashed |
| EngineScan.DetectSubcommand | crates/agent-workspace/src/completion/engine.rs:702-729 | no subcommand with at most one word before the cursor; otherwise a found one is a non-dashed word at an index of at least 1 |
| EngineScan.DetectSubcommandIsFirstPositional | crates/agent-workspace/src/completion/engine.rs:702-751 | the subcommand is the first positional of the words after the program name once the `--runtime` tokens are stripped |
| EngineScan.StripRuntimeTokens | crates/agent-workspace/src/completion/engine.rs:731-751 | no `--runtime` token survives, every surviving token was an input token, and the output is no longer than the input |
| EngineScan.StripNothing | crates/agent-workspace/src/completion/engine.rs:746-747 | tokens that are not `--runtime` tokens are kept unchanged and in order |
| EngineScan.StripFlagAndValue | crates/agent-workspace/src/completion/engine.rs:736-739 | a `--runtime` removes exactly itself and the token after it; the tokens around it keep their order |
| EngineScan.ResolveRuntimeCleaned | crates/agent-workspace/src/runtime.rs:14-32 | whenever `resolve_runtime` succeeds, its cleaned arguments are the input without every `--runtime` token and the value after a separate one, in order |
| EngineScan.StripAgreesWithResolve | crates/agent-workspace/src/completion/engine.rs:731-751 | on arguments the launcher's `resolve_runtime` accepts, the engine strips exactly what the launcher cleans away |
| EngineScan.InlineOption | crates/agent-workspace/src/completion/engine.rs:754-759 | the first option, in list order, whose `opt=` starts the current word; none exactly when no option does |
| EngineScan.ValueOption | crates/agent-workspace/src/completion/engine.rs:753-768 | an inline match comes first, in list order; otherwise the last word before the cursor when it is one of the options; none exactly when neither holds |
| EngineScan.ValueSuggestions | crates/agent-workspace/src/completion/engine.rs:770-778 | one undescribed suggestion per value |
| EngineScan.InlineBareSuggestionsPrefixed | crates/agent-workspace/src/completion/engine.rs:770-778 | inline suggestions are the space-form ones with `option=` in front |
| EngineScan.ValueSuggestionsDescribed | crates/agent-workspace/src/completion/engine.rs:780-792 | one suggestion per value carrying that value's description |
| EngineScan.InlineSuggestionsPrefixed | crates/agent-workspace/src/completion/engine.rs:780-792 | inline described suggestions are the space-form ones with `option=` in front and the same descriptions |
| EngineScan.FilterDescribedValues | crates/agent-workspace/src/completion/engine.rs:794-804 | keeps exactly the pairs whose value starts with the prefix |
| EngineScan.StripAgreesWithRun | crates/agent-workspace/src/completion/engine.rs:731-751 | the completion engine's `strip_runtime_tokens` removes exactly what the launcher's `resolve_runtime` loop removes, whenever that loop succeeds |
| EngineScan.DetectFromStripped | crates/agent-workspace/src/completion/engine.rs:702-729 | the subcommand found from an index is the first positional of the words from there with the runtime tokens stripped |
| Engine.NewContext | crates/agent-workspace/src/completion/engine.rs:814-821 | a fresh context for the request's runtime has made no lookups and is consistent with any provider |
| Engine.WorkspaceNames | crates/agent-workspace/src/completion/engine.rs:840-855 | the provider is asked only when nothing is cached; the first error is kept; the names are the provider's list, or none after an error |
| Engine.WorkspaceNamesCached | crates/agent-workspace/src/completion/engine.rs:840-855 | asking twice calls the provider once and gives the same names |
| Engine.NameCandidates | crates/agent-workspace/src/completion/engine.rs:823-838 | one undescribed candidate per name, as `flag=name` in the inline value slot and as the bare name otherwise |
| Engine.WorkspaceCandidates | crates/agent-workspace/src/completion/engine.rs:823-838 | the workspace names of the context turned into candidates, with the context updated by the lookup |
| Engine.AtMostOneLookupValid | crates/agent-workspace/src/completion/engine.rs:838-849 | a context that has looked up at most once stays consistent with the provider and keeps its runtime |
| Engine.Menu | crates/agent-workspace/src/completion/engine.rs:84-106 | a generator's static menu is its own flags, in order, followed by the five global options |
| Engine.WithNames | crates/agent-workspace/src/completion/engine.rs:212-214 | workspace names are appended after the static candidates exactly when they are offered, and the provider is not asked otherwise |
| Engine.CompleteTopLevel | crates/agent-workspace/src/completion/engine.rs:53-69 | without a subcommand the seven subcommands are offered, then the global options |
| Engine.CompleteRuntimeValue | crates/agent-workspace/src/completion/engine.rs:678-700 | a runtime slot exists exactly when the current word starts with `--runtime=` or the last word is `--runtime`; inline candidates are `--runtime=<name>` matching the typed word, and the separate slot offers `container` and `host` |
| Engine.CompleteCreate | crates/agent-workspace/src/completion/engine.rs:71-107 | outside a value slot the create menu is offered; in the `--ref` slot the two branch names |
| Engine.CompleteLs | crates/agent-workspace/src/completion/engine.rs:109-126 | outside a value slot the ls menu; in the `--output` slot only `json` |
| Engine.RmScanSpec | crates/agent-workspace/src/completion/engine.rs:132-145 | the rm scan finds neither `--all` nor a workspace exactly when no bare token comes and `--all` is absent |
| Engine.CompleteRm | crates/agent-workspace/src/completion/engine.rs:128-166 | the rm menu always comes first; names follow exactly when no bare token and no `--all` precede |
| Engine.CompleteExec | crates/agent-workspace/src/completion/engine.rs:168-218 | in the `--user` slot no lookup; otherwise the exec menu, with names until a positional is found that is not the `--user` value |
| Engine.CompleteTunnel | crates/agent-workspace/src/completion/engine.rs:220-267 | in a value slot no lookup; otherwise the tunnel menu, with names until a positional is found that is not a `--name` or `--output` value |
| Engine.AuthScan | crates/agent-workspace/src/completion/engine.rs:303-334 | once a provider or a workspace is found it stays found |
| Engine.AuthProviderIsFirstPositional | crates/agent-workspace/src/completion/engine.rs:306-333 | the provider is the first bare token when the auth value options and their values are skipped |
| Engine.AuthValues | crates/agent-workspace/src/completion/engine.rs:274-300 | the `--container`/`--workspace` slot offers workspace names, as `flag=name` when inline; the other slots ask no provider |
| Engine.AuthOffer | crates/agent-workspace/src/completion/engine.rs:336-393 | without a provider the menu plus the three providers and no names; with one, the menu plus that provider's flags, and names unless a workspace is already given |
| Engine.CompleteAuth | crates/agent-workspace/src/completion/engine.rs:269-396 | a value slot is answered by its values and otherwise the offer after the scan is made |
| Engine.CompleteResetRepo | crates/agent-workspace/src/completion/engine.rs:478-514 | outside the `--ref` slot the menu, with names until `first_positional` finds a token (the `--ref` value counts as one) |
| Engine.CompleteResetWorkRepos | crates/agent-workspace/src/completion/engine.rs:516-578 | outside a value slot the menu, with names until a positional is found that is not a `--root`, `--depth` or `--ref` value |
| Engine.CompleteResetSimple | crates/agent-workspace/src/completion/engine.rs:580-629 | `opt-repos` and `private-repo` offer their menus, with names until `first_positional` finds a token |
| Engine.CompleteReset | crates/agent-workspace/src/completion/engine.rs:398-476 | without a bare token the four nested commands, the reset help and the global options; an unknown nested name gives only the four nested commands |
| Engine.Generate | crates/agent-workspace/src/completion/engine.rs:19-45 | the provider is asked at most once, and not at all in the runtime value slot |
| Engine.Complete | crates/agent-workspace/src/completion/engine.rs:19-51 | the candidates are strictly ascending and all start with the current word; a reported error is the provider's, and a successful lookup reports none |
| Engine.RuntimeSlotOffersOnlyRuntimes | crates/agent-workspace/src/completion/engine.rs:678-700 | in the runtime value slot only runtime names are produced and no lookup error can appear |
| Engine.FailedLookupKeepsStatic | crates/agent-workspace/src/completion/engine.rs:840-855 | a failed lookup contributes no names, so the static rm candidates are all that is left |
| Engine.RmOffersAll | crates/agent-workspace/src/completion/engine.rs:147-158 | `--all` is always offered for rm |
| Engine.ExecUserValueSkipped | crates/agent-workspace/src/completion/engine.rs:189-190 | the token after `--user` does not count as the workspace |
| Launcher.TrimmedNonempty | crates/agent-workspace/src/launcher.rs:482-489 | a result is trimmed and non-empty and no longer than the input; an already trimmed non-empty input is returned as is |
| Launcher.TrimmedNonemptyBlank | crates/agent-workspace/src/launcher.rs:482-489 | there is no result exactly when the input is blank |
| Launcher.PushUnique | crates/agent-workspace/src/launcher.rs:491-495 | appends the value only when it is absent: the old values stay in front, membership grows by exactly the value, and no duplicates appear |
| Launcher.PushAll | crates/agent-workspace/src/launcher.rs:491-495 | pushing several values keeps the old ones in front, adds exactly the new ones, and keeps the list free of duplicates |
| Launcher.PushAllFresh | crates/agent-workspace/src/launcher.rs:491-495 | values that are all new are appended as they are |
| Launcher.EnvValue | crates/agent-workspace/src/launcher.rs:233-243 | a prefix read from the environment is present and trimmed non-empty |
| Launcher.WorkspacePrefixes | crates/agent-workspace/src/launcher.rs:230-248 | no duplicates; exactly the configured prefixes and `agent-ws`, `codex-ws`; a configured prefix comes first, `AGENT_WORKSPACE_PREFIX` before `CODEX_WORKSPACE_PREFIX` |
| Launcher.DefaultWorkspacePrefixes | crates/agent-workspace/src/launcher.rs:245-247 | without configuration the prefixes are `agent-ws` then `codex-ws` |
| Launcher.ConfiguredPrefixesFirst | crates/agent-workspace/src/launcher.rs:230-248 | distinct configured prefixes come first, in order, followed by the two defaults |
| Launcher.StripByPrefixes | crates/agent-workspace/src/launcher.rs:258-268 | the first prefix whose `<prefix>-` starts the name and leaves something gives a strictly shorter trimmed name |
| Launcher.StripByPrefixesRemoves | crates/agent-workspace/src/launcher.rs:258-268 | such a result is what is left after removing one of the prefixes and its dash and trimming |
| Launcher.StripOnce | crates/agent-workspace/src/launcher.rs:258-276 | one stripping step, trying the prefixes and then `ws-`, gives a strictly shorter trimmed name |
| Launcher.StripOnceRemovesPrefix | crates/agent-workspace/src/launcher.rs:258-276 | its result is the name without one `<prefix>-` or `ws-`, trimmed |
| Launcher.ShrinkingNoDup | crates/agent-workspace/src/launcher.rs:282-284 | strictly shrinking variants are distinct, so the duplicate check never stops the loop |
| Launcher.VariantsFrom | crates/agent-workspace/src/launcher.rs:256-286 | the loop extends the list, keeps each step a prefix strip of the one before, and stops only when the last variant cannot be stripped |
| Launcher.WorkspaceNameVariants | crates/agent-workspace/src/launcher.rs:250-289 | empty exactly for a blank input; otherwise starts with the trimmed input; every variant is trimmed and non-empty, each is the previous one stripped and strictly shorter, they are distinct, and the last cannot be stripped |
| Launcher.VariantsAreStripChain | crates/agent-workspace/src/launcher.rs:250-289 | the variants are the chain of stripping steps from the trimmed input |
| Launcher.VariantsExample | crates/agent-workspace/src/launcher.rs:597-602 | `agent-ws-ws-demo` with the default prefixes gives `agent-ws-ws-demo`, `ws-demo`, `demo` |
| Launcher.Prefixed | crates/agent-workspace/src/launcher.rs:301-305 | the prefixed form starts with `<prefix>-` and ends with the variant, keeping an already prefixed variant |
| Launcher.PrefixedAll | crates/agent-workspace/src/launcher.rs:299-308 | the prefixed forms are exactly the prefixed variants for each variant and prefix |
| Launcher.WorkspaceResolutionCandidates | crates/agent-workspace/src/launcher.rs:291-311 | no duplicates; starts with exactly the variants in order; every entry is a variant or a prefixed variant and all of those occur; a blank name gives none |
| Launcher.SlugBuildChars | crates/agent-workspace/src/launcher.rs:326-333 | the character loop only ever writes `[a-z0-9_-]` |
| Launcher.SlugifyName | crates/agent-workspace/src/launcher.rs:323-341 | the result is non-empty, only `[a-z0-9_-]`, and has no `-` at either end; Launcher.SlugifyFallback gives the `workspace` fallback |
| Launcher.SlugBuildDashes | crates/agent-workspace/src/launcher.rs:326-333 | without a letter, digit or `_`, the character loop writes only dashes |
| Launcher.SlugifyFallback | crates/agent-workspace/src/launcher.rs:323-341 | a name with no ASCII letter, digit or `_` slugifies to `workspace` |
| Launcher.SlugifyKeepsSlug | crates/agent-workspace/src/launcher.rs:323-341 | a slug is its own slugification |
| Launcher.SlugifyIdempotent | crates/agent-workspace/src/launcher.rs:323-341 | slugifying twice is slugifying once |
| Launcher.NormalizeWorkspaceNameForCreate | crates/agent-workspace/src/launcher.rs:313-321 | the result is a slug |
| Launcher.NormalizeUsesStrippedName | crates/agent-workspace/src/launcher.rs:313-321 | it slugifies the last variant, which cannot be stripped further; a blank name gives `workspace` |
| Launcher.NormalizeExample | crates/agent-workspace/src/launcher.rs:604-610 | `agent-ws-ws-demo` normalizes to `demo` |
| Launcher.JsonEscape | crates/agent-workspace/src/launcher.rs:517-530 | the output has no raw newline, carriage return or tab |
| Launcher.JsonEscapeClean | crates/agent-workspace/src/launcher.rs:517-530 | an input without quote, backslash, newline, carriage return or tab is returned unchanged |
| Launcher.JsonEscapeRoundTrip | crates/agent-workspace/src/launcher.rs:517-530 | unescaping the output gives back the input |
| Launcher.RepoLocation | crates/agent-workspace/src/launcher.rs:97-113 | an input that is not a URL form uses the default host and keeps the whole input as owner/repo |
| Launcher.OwnerRepoPart | crates/agent-workspace/src/launcher.rs:115-118 | trimming `.git` and trailing `/` leaves a prefix of the path |
| Launcher.PrefixLacks | crates/agent-workspace/src/launcher.rs:115-121 | a prefix of a path without `/` has none either |
| Launcher.SplitOnLacking | crates/agent-workspace/src/launcher.rs:120 | a string without `/` splits into itself alone |
| Launcher.MissingRepo | crates/agent-workspace/src/launcher.rs:115-126 | a spec whose `owner/repo` part has no `/` is refused (`octo`, `https://github.com/octo`) |
| Launcher.BlankOwner | crates/agent-workspace/src/launcher.rs:115-126 | a spec whose owner piece is blank is refused (`/demo`) |
| Launcher.BlankOwnerPieces | crates/agent-workspace/src/launcher.rs:115-126 | once `.git` and trailing slashes are removed from `owner/rest` with a blank owner, the path splits into fewer than two pieces or its first piece is blank |
| Launcher.SlashesOnlyAfterOwner | crates/agent-workspace/src/launcher.rs:115-126 | a spec whose owner is followed only by slashes is refused (`octo/`, `octo//`) |
| Launcher.SlashesTrimmedAway | crates/agent-workspace/src/launcher.rs:115-118 | trimming `owner/` plus slashes leaves at most the owner |
| Launcher.ParseRepoSpec | crates/agent-workspace/src/launcher.rs:91-135 | a blank input fails; a result has trimmed non-empty owner and repo without `/`, `owner_repo` is `owner/repo`, and the clone URL is `https://<host>/<owner>/<repo>.git` with the parsed host, or the default host for a short spec; Launcher.OwnerRepoFromPieces ties owner and repo to the first two `/` pieces of the path, and Launcher.MissingRepo, Launcher.BlankOwner, Launcher.SlashesOnlyAfterOwner and Launcher.OwnerRepoFromPieces give the failures |
| Launcher.FirstTwoPieces | crates/agent-workspace/src/launcher.rs:120-122 | in `owner/repo` followed by nothing or by more `/` pieces, the first two pieces are `owner` and `repo` |
| Launcher.OwnerRepoFromPieces | crates/agent-workspace/src/launcher.rs:115-131 | when the path left after the suffix trims is `owner/repo` plus nothing or more `/` pieces, the spec is refused exactly when the trimmed owner or repo is blank (`octo//demo`, `octo/ /demo`); otherwise its owner and repo are the trimmed first two pieces and later pieces are dropped |
| Launcher.HttpsLocation | crates/agent-workspace/src/launcher.rs:100-104 | an `https://` spec gives the host up to the first `/` and the path after it |
| Launcher.PartKept | crates/agent-workspace/src/launcher.rs:115-118 | a path that ends in neither `/` nor `.git` is left whole by the suffix trims |
| Launcher.HttpsUrlParses | crates/agent-workspace/src/launcher.rs:100-131 | `https://<host>/<owner>/<repo>` with or without further pieces (`https://github.com/octo/demo`, `.../octo/demo/tree/main`) parses to that owner and repo with the clone URL on that host |
| Launcher.BlankRepoPieceExample | crates/agent-workspace/src/launcher.rs:122-124 | `octo//demo` is refused |
| Launcher.OwnerRepoPieces | crates/agent-workspace/src/launcher.rs:115-125 | `owner/repo` survives the suffix trimming and splits into its two pieces |
| Launcher.ShortSpecParses | crates/agent-workspace/src/launcher.rs:580-587 | `owner/repo` parses to its pieces with a clone URL on the default host |
| Launcher.CloneUrlParses | crates/agent-workspace/src/launcher.rs:589-595 | a clone URL the parser builds parses back to the same spec |
| Launcher.CloneUrlLocation | crates/agent-workspace/src/launcher.rs:100-104 | an `https://<host>/<owner>/<repo>.git` URL is already trimmed and is read as its host and the path after the first `/` |
| Launcher.GitPathPieces | crates/agent-workspace/src/launcher.rs:115-122 | `owner/repo.git` loses its `.git` suffix and splits into the two names |
| ExecArgs.ExecStep | crates/agent-workspace/src/launcher/exec.rs:21-57 | once the workspace is known every token is appended to the command unchanged; no step clears the help flag |
| ExecArgs.ExecStepWellFormed | crates/agent-workspace/src/launcher/exec.rs:21-57 | the loop reads the next token only as the value of `--user` |
| ExecArgs.ParseExecArgs | crates/agent-workspace/src/launcher/exec.rs:17-64 | a successful parse without help has a workspace; one with help has neither workspace nor command; no arguments is "missing workspace name" |
| ExecArgs.ExecScanShape | crates/agent-workspace/src/launcher/exec.rs:21-57 | a completed scan never sets help, and a stopped one has set help before any workspace |
| ExecArgs.CommandTakesRest | crates/agent-workspace/src/launcher/exec.rs:22-25 | after the workspace, all remaining arguments, dashed or not, become the command verbatim and in order |
| ExecArgs.WorkspaceThenCommand | crates/agent-workspace/src/launcher/exec.rs:52-54 | the first bare token is the workspace and the rest is the command |
| ExecArgs.ExecExample | crates/agent-workspace/src/launcher.rs:622-657 | `--user agent ws-test git status` gives user `agent`, workspace `ws-test` and command `git status` |
| ExecArgs.HelpReturnsAtOnce | crates/agent-workspace/src/launcher/exec.rs:30-33 | `-h`/`--help` before the workspace returns at once with help set, ignoring the rest |
| ExecArgs.RootKeepsChosenUser | crates/agent-workspace/src/launcher/exec.rs:34-38 | `--root` sets the user to `0` only when none was chosen |
| ExecArgs.UserOverrides | crates/agent-workspace/src/launcher/exec.rs:39-48 | `--user X` and `--user=X` always overwrite the user |
| ExecArgs.TrailingUserFails | crates/agent-workspace/src/launcher/exec.rs:39-43 | a final `--user` fails with "missing value for --user" |
| ExecArgs.UnknownOptionFails | crates/agent-workspace/src/launcher/exec.rs:49-51 | an unknown dashed token before the workspace fails naming it |
| TunnelArgs.OutputChoice | crates/agent-workspace/src/launcher/tunnel.rs:35-55 | an output value is accepted exactly when it is `json`, and then sets JSON output |
| TunnelArgs.TunnelStep | crates/agent-workspace/src/launcher/tunnel.rs:23-67 | no step stops the scan, and once set `detach` stays set |
| TunnelArgs.TunnelStepWellFormed | crates/agent-workspace/src/launcher/tunnel.rs:23-67 | the loop reads the next token only as the value of `--name` or `--output` |
| TunnelArgs.ParseTunnelArgs | crates/agent-workspace/src/launcher/tunnel.rs:19-70 | a stored tunnel name is trimmed and non-empty; no arguments give the defaults |
| TunnelArgs.NamesTrimmed | crates/agent-workspace/src/launcher/tunnel.rs:28-34 | every name the scan stores is trimmed and non-empty |
| TunnelArgs.SecondWorkspaceFails | crates/agent-workspace/src/launcher/tunnel.rs:59-64 | a second bare token fails with "unexpected arg for tunnel" |
| TunnelArgs.OutputOnlyJson | crates/agent-workspace/src/launcher/tunnel.rs:35-55 | `--output X` and `--output=X` set JSON output when X is `json` and fail with "unsupported --output value" otherwise |
| TunnelArgs.NameIsTrimmed | crates/agent-workspace/src/launcher/tunnel.rs:28-34 | `--name X` and `--name=X` store X trimmed, or nothing when it is blank |
| TunnelArgs.DetachAnywhere | crates/agent-workspace/src/launcher/tunnel.rs:27 | `--detach` sets `detach` wherever it appears |
| TunnelArgs.UnknownOptionFails | crates/agent-workspace/src/launcher/tunnel.rs:56-58 | an unknown dashed token fails naming it |
| TunnelArgs.TrailingValueOptionFails | crates/agent-workspace/src/launcher/tunnel.rs:28-38 | a final `--name` or `--output` fails with "missing value for" it |
| TunnelArgs.TunnelExample | crates/agent-workspace/src/launcher.rs:670-683 | `ws-test --detach --output json` gives the workspace with detach and JSON output |
| TunnelArgs.ParseAfter | crates/agent-workspace/src/launcher/tunnel.rs:23-67 | once a prefix of the arguments scans cleanly, the rest is parsed from the state it left |
| LsArgs.LsStep | crates/agent-workspace/src/launcher/ls.rs:17-44 | no step stops the scan |
| LsArgs.LsStepWellFormed | crates/agent-workspace/src/launcher/ls.rs:17-44 | the loop reads the next token only as the value of `--output` |
| LsArgs.ParseLsArgs | crates/agent-workspace/src/launcher/ls.rs:13-47 | accepted exactly when every argument is a help flag, `--json`, `--output=json` or `--output json`; `json` is set iff some JSON request appears and help iff some help flag does |
| LsArgs.LsScan | crates/agent-workspace/src/launcher/ls.rs:17-44 | the scan completes exactly on that grammar and collects the two flags |
| LsArgs.PositionalFails | crates/agent-workspace/src/launcher/ls.rs:41 | any positional argument fails with "unexpected arg for ls" |
| LsArgs.UnsupportedOutputFails | crates/agent-workspace/src/launcher/ls.rs:22-39 | an `--output` value other than `json` fails naming it |
| LsArgs.UnknownOptionFails | crates/agent-workspace/src/launcher/ls.rs:40 | an unknown dashed token fails naming it |
| LsArgs.TrailingOutputFails | crates/agent-workspace/src/launcher/ls.rs:22-26 | a final `--output` fails with "missing value for --output" |
| LsArgs.LsExample | crates/agent-workspace/src/launcher/ls.rs:13-47 | `--output json --help` gives JSON output with help |
| RmArgs.RmStep | crates/agent-workspace/src/launcher/container.rs:1287-1303 | a dashed token fails exactly when it is not an `rm` option of that side, and a bare one exactly when a workspace is already set; each flag sets its own field, `--volumes` clears `keep_volumes` |
| RmArgs.ParseRmArgs | crates/agent-workspace/src/launcher/container.rs:1281-1306 | accepted exactly when every dashed token is a known option and there is at most one positional; each flag is set iff it occurs, `keep_volumes` iff the last of `--keep-volumes`/`--volumes` is `--keep-volumes`, and the workspace is the single positional |
| RmArgs.KeepsVolumesCons | crates/agent-workspace/src/launcher/container.rs:1293-1294 | the later of `--keep-volumes` and `--volumes` wins |
| RmArgs.RmScan | crates/agent-workspace/src/launcher/container.rs:1287-1303 | the scan from any state never stops early and ends with the flags and workspace described by the whole argument list |
| RmArgs.FirstStep | crates/agent-workspace/src/launcher/container.rs:1287-1303 | the scan of a non-empty list is its first step followed by the scan of the rest |
| RmArgs.RmScanAccepts | crates/agent-workspace/src/launcher/container.rs:1287-1303 | the scan completes exactly on known options with at most one free positional slot, and otherwise fails with one of the two errors |
| RmArgs.RmScanFlags | crates/agent-workspace/src/launcher/container.rs:1290-1292 | help, all and yes are set exactly when their flags occur |
| RmArgs.RmScanVolumes | crates/agent-workspace/src/launcher/container.rs:1293-1294 | `keep_volumes` follows the last volume option |
| RmArgs.RmScanWorkspace | crates/agent-workspace/src/launcher/container.rs:1296-1301 | the workspace is the first positional |
| RmArgs.HostRejectsVolumeOptions | crates/agent-workspace/src/launcher/rm.rs:16-38 | the host parser has no volume options, so `--keep-volumes` or `--volumes` fails there |
| RmArgs.RmExample | crates/agent-workspace/src/launcher/container.rs:1281-1306 | `--keep-volumes -y ws-test --volumes` gives yes, workspace `ws-test` and volumes removed |
| RmArgs.ExampleOptions | crates/agent-workspace/src/launcher/container.rs:1289-1295 | the example's options are all known and `ws-test` is its only positional |
| RmArgs.ExamplePositionals | crates/agent-workspace/src/launcher/container.rs:1296-1301 | `ws-test` is the example's only positional |
| RmArgs.ExampleFlags | crates/agent-workspace/src/launcher/container.rs:1290-1292 | the example asks for yes and neither help nor all |
| RmArgs.ExampleVolumes | crates/agent-workspace/src/launcher/container.rs:1293-1294 | the example ends with `--volumes`, so volumes are not kept |
| AuthArgs.SetOption | crates/agent-workspace/src/launcher/auth.rs:33-75 | each value option, spelled either way, stores into its own field and nothing else |
| AuthArgs.InlineOption | crates/agent-workspace/src/launcher/auth.rs:61-75 | an inline `--option=value` token is dashed and names a value option |
| AuthArgs.InlineOptionsDashed | crates/agent-workspace/src/launcher/auth.rs:61-75 | every inline option token starts with `-` |
| AuthArgs.AssignPositional | crates/agent-workspace/src/launcher/auth.rs:94-102 | a positional is accepted exactly while provider or workspace is still free |
| AuthArgs.AssignAll | crates/agent-workspace/src/launcher/auth.rs:76-90 | the arguments after `--` fill the provider and then the workspace, and one more fails with "unexpected arg" naming it; other fields are unchanged |
| AuthArgs.AuthStep | crates/agent-workspace/src/launcher/auth.rs:29-106 | no step stops the scan, and once past `--` the scan stays positional-only |
| AuthArgs.PositionalStep | crates/agent-workspace/src/launcher/auth.rs:78-88 | a positional-only step keeps that mode and reads no value |
| AuthArgs.AuthStepWellFormed | crates/agent-workspace/src/launcher/auth.rs:29-106 | the loop reads the next token only as the value of a value option |
| AuthArgs.ParseAuthArgs | crates/agent-workspace/src/launcher/auth.rs:25-109 | no arguments give the defaults; in the container a provider is never a dashed token |
| AuthArgs.ContainerProviderIsPlain | crates/agent-workspace/src/launcher/container.rs:1359-1371 | without `--` the container parser takes providers only from bare tokens |
| AuthArgs.PositionalOnlyScan | crates/agent-workspace/src/launcher/auth.rs:76-90 | past `--` the scan is exactly the slot filling of `AssignAll` |
| AuthArgs.DashDashTakesRest | crates/agent-workspace/src/launcher/auth.rs:76-90 | on the host, `--` hands all remaining arguments, dashed or not, to the slots |
| AuthArgs.ContainerRejectsDashDash | crates/agent-workspace/src/launcher/container.rs:1359-1361 | the container parser has no `--` case and rejects it as an unknown option |
| AuthArgs.ContainerStaysOptional | crates/agent-workspace/src/launcher/container.rs:1312-1374 | the container scan never enters positional-only mode |
| AuthArgs.PositionalFillsSlots | crates/agent-workspace/src/launcher/auth.rs:94-102 | a bare token takes the next free slot or fails, and scanning continues after it |
| AuthArgs.PlainIsNotAuthOption | crates/agent-workspace/src/launcher/auth.rs:31-93 | a bare token matches none of the option cases |
| AuthArgs.ValueOptionSets | crates/agent-workspace/src/launcher/auth.rs:33-60 | `--option value` stores the value and scanning continues after it |
| AuthArgs.InlineOptionSets | crates/agent-workspace/src/launcher/auth.rs:61-75 | `--option=value` stores the text after `=` and scanning continues |
| AuthArgs.InlineOptionOf | crates/agent-workspace/src/launcher/auth.rs:61-75 | the inline prefix of `option=value` is the option and the value is the text after it |
| AuthArgs.TrailingValueOptionFails | crates/agent-workspace/src/launcher/auth.rs:33-60 | a final value option fails with "missing value for" it |
| AuthArgs.UnknownOptionFails | crates/agent-workspace/src/launcher/auth.rs:91-93 | any other dashed token fails with "unknown option for auth" |
| AuthArgs.AuthExample | crates/agent-workspace/src/launcher/auth.rs:25-109 | `codex ws-test --profile work` gives provider, workspace and profile |
| CreateArgs.InlineOption | crates/agent-workspace/src/launcher/container.rs:1237-1256 | an inline `--option=value` token names a value option of that side and starts with it |
| CreateArgs.AddRepo | crates/agent-workspace/src/launcher/create.rs:99-103 | positionals are appended to the repository list in order, the first becoming the primary one |
| CreateArgs.CreateStep | crates/agent-workspace/src/launcher/container.rs:1169-1272 | no step stops the scan; after `--` every token, dashed or not, is the next repository; every step keeps the state tidy (slug name, trimmed values, no container options on the host) |
| CreateArgs.TidySetOption | crates/agent-workspace/src/launcher/create.rs:53-89 | every value option stores a trimmed non-empty value or nothing, and the name a normalized slug |
| CreateArgs.SlugIsTrimmed | crates/agent-workspace/src/launcher/create.rs:68-69 | a normalized name has no outer whitespace, so trimming it changes nothing |
| CreateArgs.CreateStepWellFormed | crates/agent-workspace/src/launcher/create.rs:32-105 | the loop reads the next token only as the value of a value option |
| CreateArgs.CreateStepWellFormedAt | crates/agent-workspace/src/launcher/create.rs:53-66 | a step asks for a value only when one is there, and otherwise ignores the next token |
| CreateArgs.StepKeepsConflict | crates/agent-workspace/src/launcher/create.rs:36-104 | no step clears `--no-work-repos` or forgets that a repository was named |
| CreateArgs.SetOptionKeepsRepos | crates/agent-workspace/src/launcher/create.rs:53-89 | a value option changes neither `--no-work-repos` nor the repositories |
| CreateArgs.FinishCreate | crates/agent-workspace/src/launcher/create.rs:107-111 | after the loop, `--no-work-repos` together with any repository is the error "--no-work-repos does not accept repo args"; otherwise the parse is returned unchanged |
| CreateArgs.ParseCreateArgs | crates/agent-workspace/src/launcher/create.rs:27-112 | a successful parse is tidy and never combines `--no-work-repos` with repositories; no arguments give the defaults |
| CreateArgs.FlagSets | crates/agent-workspace/src/launcher/create.rs:43-52 | before `--`, `--no-work-repos` and `--no-extras` (and `--no-pull` in the container) each set their own flag and parsing goes on with the next token |
| CreateArgs.FlagSpellings | crates/agent-workspace/src/launcher/container.rs:1177-1191 | the three flags are distinct and none is a help flag |
| CreateArgs.PrivateRepoSets | crates/agent-workspace/src/launcher/create.rs:53-82 | `--private-repo v` and `--private-repo=v` both store `v` trimmed, or nothing when it is blank, and parsing goes on after the value |
| CreateArgs.PrivateRepoStep | crates/agent-workspace/src/launcher/create.rs:53-61 | the `--private-repo` step consumes the next token and stores it trimmed |
| CreateArgs.InlinePrivateRepoStep | crates/agent-workspace/src/launcher/create.rs:78-82 | the `--private-repo=v` step stores `v` trimmed and reads no further token |
| CreateArgs.TrimmedNonemptyOfTrim | crates/agent-workspace/src/launcher/create.rs:79 | trimming before `trimmed_nonempty` changes nothing |
| CreateArgs.ConflictAnywhere | crates/agent-workspace/src/launcher/create.rs:43-111 | once `--no-work-repos` is read as an option, any later repository argument (a bare token, or any token after `--`) ends the parse in the conflict error, unless a later token fails first |
| CreateArgs.ConflictPersists | crates/agent-workspace/src/launcher/create.rs:107-109 | once a state names a repository under `--no-work-repos`, no later token undoes either, so the parse ends in the conflict error or an earlier scan error |
| CreateArgs.StaysTidy | crates/agent-workspace/src/launcher/create.rs:32-105 | every state the loop reaches is tidy |
| CreateArgs.PositionalOnlyScan | crates/agent-workspace/src/launcher/create.rs:73-77 | after `--` the remaining tokens are appended to the repositories in order and nothing else changes |
| CreateArgs.DashDashTakesRest | crates/agent-workspace/src/launcher/create.rs:73-77 | `--` hands everything after it to the repository list, and the conflict check still applies |
| CreateArgs.PositionalIsRepo | crates/agent-workspace/src/launcher/create.rs:95-104 | before `--`, a bare token is the next repository |
| CreateArgs.PlainIsNotCreateOption | crates/agent-workspace/src/launcher/create.rs:37-95 | a bare token matches none of the option cases |
| CreateArgs.UnknownOptionIgnored | crates/agent-workspace/src/launcher/create.rs:90-94 | an unknown dashed token is recorded in `ignored_options`, in order, and parsing goes on |
| CreateArgs.NameIsNormalized | crates/agent-workspace/src/launcher/create.rs:62-72 | `--name v` stores the normalized `v` |
| CreateArgs.NameStep | crates/agent-workspace/src/launcher/create.rs:62-72 | the `--name` step consumes the next token and stores its normalization |
| CreateArgs.NameSpelling | crates/agent-workspace/src/launcher/create.rs:62 | `--name` is a value option and no flag |
| CreateArgs.InlineNameIsNormalized | crates/agent-workspace/src/launcher/create.rs:83-89 | `--name=v` stores the normalized trimmed `v` |
| CreateArgs.InlineNameStep | crates/agent-workspace/src/launcher/create.rs:83-89 | the `--name=v` step stores the normalized trimmed `v` and reads no further token |
| CreateArgs.InlineNameToken | crates/agent-workspace/src/launcher/create.rs:83-84 | `--name=v` is read only as the inline name option, with value `v` |
| CreateArgs.TrailingValueOptionFails | crates/agent-workspace/src/launcher/create.rs:53-66 | a final value option fails with "missing value for" it |
| CreateArgs.HostIgnoresContainerOptions | crates/agent-workspace/src/launcher/create.rs:90-94 | on the host `--no-pull`, `--image` and `--ref` are unknown options and are set aside |
| CreateArgs.ContainerSpellings | crates/agent-workspace/src/launcher/container.rs:1187-1229 | the container-only options are dashed and none of the host's options |
| CreateArgs.NoWorkReposExample | crates/agent-workspace/src/launcher.rs:612-620 | `--no-work-repos octo/demo` is refused with the conflict error |
| ResetArgs.Spellings | crates/agent-workspace/src/launcher/reset.rs:548-572 | every option spelling the reset parsers compare against starts with `-` |
| ResetArgs.PlainToken | crates/agent-workspace/src/launcher/reset.rs:548-572 | a bare token matches none of the reset option cases |
| ResetArgs.InlineRefToken | crates/agent-workspace/src/launcher/reset.rs:559-561 | `--ref=v` is read only as the inline ref, with value `v` |
| ResetArgs.ParsePositiveU32 | crates/agent-workspace/src/launcher/container.rs:1514-1525 | accepts exactly the trimmed decimal numbers from 1 to 2^32-1, and otherwise gives "must be a positive integer (got: ...)" quoting the raw text |
| ResetArgs.PositiveU32RoundTrip | crates/agent-workspace/src/launcher/container.rs:1514-1525 | every count from 1 to 2^32-1, written in decimal, parses back to itself |
| ResetArgs.ZeroIsNotPositive | crates/agent-workspace/src/launcher/container.rs:1519-1523 | `0` is refused with the quoted message |
| ResetArgs.RepoPositional | crates/agent-workspace/src/launcher/reset.rs:563-571 | the first positional is the workspace and the second the repository directory, so a directory never comes without a workspace |
| ResetArgs.RepoStep | crates/agent-workspace/src/launcher/reset.rs:547-574 | no step stops the scan, and the directory-after-workspace order is kept |
| ResetArgs.RepoStepWellFormed | crates/agent-workspace/src/launcher/reset.rs:547-574 | the loop reads the next token only as the value of `--ref` |
| ResetArgs.ParseResetRepoArgs | crates/agent-workspace/src/launcher/reset.rs:543-577 | a parsed repository directory always comes with a workspace; no arguments give the defaults with ref `origin/main` |
| ResetArgs.RepoPositionalFills | crates/agent-workspace/src/launcher/reset.rs:563-571 | a bare token fills the workspace, then the directory, and a third fails with "unexpected arg" (host) or "unexpected arg for reset repo" (container) |
| ResetArgs.RepoRefSets | crates/agent-workspace/src/launcher/reset.rs:551-561 | `--ref v` and `--ref=v` set the ref to `v`, the last one winning |
| ResetArgs.RepoTrailingRefFails | crates/agent-workspace/src/launcher/reset.rs:551-555 | a final `--ref` fails with "missing value for --ref" |
| ResetArgs.RepoUnknownOptionFails | crates/agent-workspace/src/launcher/reset.rs:562 | any other dashed token fails with "unknown arg" (host) or "unknown option for reset repo" (container) |
| ResetArgs.DepthValue | crates/agent-workspace/src/launcher/reset.rs:619-644 | a depth value is a 32-bit number, positive in the container launcher |
| ResetArgs.SetDepth | crates/agent-workspace/src/launcher/reset.rs:619-644 | storing a depth changes only the depth and keeps it in range |
| ResetArgs.WorkStep | crates/agent-workspace/src/launcher/reset.rs:608-659 | no step stops the scan and every step keeps the depth in range |
| ResetArgs.WorkStepWellFormed | crates/agent-workspace/src/launcher/reset.rs:608-659 | the loop reads the next token only as the value of `--root`, `--depth` or `--ref` |
| ResetArgs.ParseResetWorkReposArgs | crates/agent-workspace/src/launcher/reset.rs:602-666 | a successful parse has a depth from 1 to 2^32-1; no arguments give root `/work`, depth 3 on the host and 4 in the container, and ref `origin/main` |
| ResetArgs.DepthOption | crates/agent-workspace/src/launcher/reset.rs:619-628 | `--depth v` stores the parsed value or fails with the parse error |
| ResetArgs.DepthRoundTrip | crates/agent-workspace/src/launcher/reset.rs:619-628 | every positive 32-bit depth written in decimal is taken as given |
| ResetArgs.ZeroDepth | crates/agent-workspace/src/launcher/reset.rs:661-663 | a zero depth fails: on the host after the loop with the plain message, in the container at once quoting `0` |
| ResetArgs.WorkSecondWorkspaceFails | crates/agent-workspace/src/launcher/reset.rs:649-655 | a second workspace name fails with the side's "unexpected arg" message |
| ResetArgs.WorkUnknownOptionFails | crates/agent-workspace/src/launcher/reset.rs:648 | any other dashed token fails with the side's "unknown" message |
| ResetArgs.SimpleStep | crates/agent-workspace/src/launcher/container.rs:1484-1509 | no step stops the scan, and `opt-repos` never changes the ref |
| ResetArgs.SimpleStepWellFormed | crates/agent-workspace/src/launcher/container.rs:1484-1509 | the loop reads the next token only as the value of `--ref` |
| ResetArgs.ParseResetSimpleArgs | crates/agent-workspace/src/launcher/container.rs:1475-1512 | `opt-repos` always keeps the default ref; no arguments give the defaults |
| ResetArgs.SimplePositional | crates/agent-workspace/src/launcher/reset.rs:684-690 | the first bare token is the workspace and a second fails with "unexpected arg" |
| ResetArgs.SimpleRef | crates/agent-workspace/src/launcher/container.rs:1490-1499 | `--ref v` sets the ref where the parser knows it, and is an unknown arg for the host's `opt-repos` |
| ResetArgs.SimpleUnknownOptionFails | crates/agent-workspace/src/launcher/container.rs:1500 | any other dashed token fails with "unknown option" (container) or "unknown arg" (host) |
| ContainerNames.PrimaryWorkspacePrefix | crates/agent-workspace/src/launcher/container.rs:1527-1532 | the primary prefix is the first configured prefix, or `agent-ws` when none is configured, and is always one of the workspace prefixes |
| ContainerNames.UnconfiguredPrefixes | crates/agent-workspace/src/launcher/container.rs:1527-1532 | with no prefix variables set the prefixes are `agent-ws` and `codex-ws` |
| ContainerNames.NormalizeContainerName | crates/agent-workspace/src/launcher/container.rs:1534-1549 | the result always starts with `prefix-`; a name that already does is kept, and otherwise the name's tail follows the prefix |
| ContainerNames.TrimRepeated | crates/agent-workspace/src/launcher/container.rs:1541-1543 | `trim_start_matches` removes every leading copy of the pattern and nothing after them |
| ContainerNames.NormalizeDropsWsRun | crates/agent-workspace/src/launcher/container.rs:1540-1548 | with a prefix ending in `-ws`, a name of one or more `ws-` followed by more text loses all of them |
| ContainerNames.WsRunStartsWithWs | crates/agent-workspace/src/launcher/container.rs:1540 | a run of `ws-` starts with `ws-` |
| ContainerNames.NormalizeKeepsBareWs | crates/agent-workspace/src/launcher/container.rs:1540-1548 | a name made only of `ws-` copies is kept whole, because stripping would leave nothing |
| ContainerNames.NormalizeOtherPrefix | crates/agent-workspace/src/launcher/container.rs:1540-1548 | with a prefix not ending in `-ws` the name is only prefixed |
| ContainerNames.NormalizeIdempotent | crates/agent-workspace/src/launcher/container.rs:1534-1549 | normalizing a normalized name changes nothing |
| ContainerNames.VolumeNames | crates/agent-workspace/src/launcher/container.rs:2266-2272 | the three volume names are distinct and each is the container name plus its own suffix |
| ContainerNames.VolumesOfDifferentContainers | crates/agent-workspace/src/launcher/container.rs:2266-2272 | different containers never share a volume name |
| ContainerNames.TunnelBuildChars | crates/agent-workspace/src/launcher/container.rs:2278-2284 | the character loop emits only lower-case letters, digits and `-` |
| ContainerNames.TunnelBuildCopies | crates/agent-workspace/src/launcher/container.rs:2278-2284 | the loop copies a string made only of those characters unchanged |
| ContainerNames.TunnelBuildDashes | crates/agent-workspace/src/launcher/container.rs:2278-2284 | a string with no letter or digit becomes dashes only |
| ContainerNames.TrimmedTunnelChars | crates/agent-workspace/src/launcher/container.rs:2286 | trimming dashes keeps only tunnel characters |
| ContainerNames.TrimDashesNoOp | crates/agent-workspace/src/launcher/container.rs:2286 | trimming dashes leaves a string that neither starts nor ends with one |
| ContainerNames.TunnelBase | crates/agent-workspace/src/launcher/container.rs:2275-2287 | before truncation the name is non-empty, made of tunnel characters and does not start with `-` |
| ContainerNames.TunnelBaseOf | crates/agent-workspace/src/launcher/container.rs:2275-2287 | a string already in that form passes unchanged |
| ContainerNames.TunnelBuildOfTunnelChars | crates/agent-workspace/src/launcher/container.rs:2275-2284 | lower-casing and the loop leave tunnel characters unchanged |
| ContainerNames.TakeTunnel | crates/agent-workspace/src/launcher/container.rs:2289 | `take(20)` keeps the first twenty characters |
| ContainerNames.SanitizeTunnelName | crates/agent-workspace/src/launcher/container.rs:2274-2290 | the result has 1 to 20 characters, all lower-case letters, digits or `-`, and does not start with `-` |
| ContainerNames.SanitizeKeepsTunnelName | crates/agent-workspace/src/launcher/container.rs:2274-2290 | a valid tunnel name is left unchanged |
| ContainerNames.TruncationMayEndInDash | crates/agent-workspace/src/launcher/container.rs:2286-2289 | truncation comes after the trim, so a result can end in `-`, and sanitizing it again drops that dash: the function is not idempotent |
| ContainerNames.CutAfterDash | crates/agent-workspace/src/launcher/container.rs:2289 | nineteen characters, `-` and more are cut right after the dash |
| ContainerNames.DashEndedBase | crates/agent-workspace/src/launcher/container.rs:2275-2287 | a valid name followed by `-` loses the dash in the trim |
| ContainerNames.TrimOneTrailingDash | crates/agent-workspace/src/launcher/container.rs:2286 | trimming dashes from `w-` gives `w` when `w` has no dash at either end |
| ContainerNames.SanitizeFallback | crates/agent-workspace/src/launcher/container.rs:2287 | input with no letter or digit becomes `ws` |
| ContainerNames.DefaultTunnelName | crates/agent-workspace/src/launcher/container.rs:2292-2305 | the default tunnel name is always a sanitized name: 1 to 20 tunnel characters, not starting with `-` |
| ContainerNames.DefaultTunnelNameRoundTrip | crates/agent-workspace/src/launcher/container.rs:2292-2305 | a container named `prefix-n`, with or without the zero timestamp suffix, has tunnel name `n` for every valid `n` |
| RepoPaths.PathJoin | crates/agent-workspace/src/launcher/reset.rs:500-519 | joining an absolute path gives that path; otherwise the base is followed by the path, with at most one separator added |
| RepoPaths.JoinAddsSeparator | crates/agent-workspace/src/launcher/reset.rs:500-519 | a relative path joined onto a base not ending in `/` gets exactly one `/` |
| RepoPaths.MapMount | crates/agent-workspace/src/launcher/reset.rs:493-515 | a mount mapping applies exactly to the mount point and the paths below it |
| RepoPaths.MountHead | crates/agent-workspace/src/launcher/reset.rs:493-515 | a path under a mount point begins like it |
| RepoPaths.MountsDisjoint | crates/agent-workspace/src/launcher/reset.rs:493-515 | no path is under two mount points, so the order of the checks does not matter |
| RepoPaths.MapWorkspaceRepoPath | crates/agent-workspace/src/launcher/reset.rs:487-520 | a blank input is the workspace itself; outside the mount points an absolute path is kept and a relative one joined onto the workspace |
| RepoPaths.MountedPaths | crates/agent-workspace/src/launcher/reset.rs:493-515 | `/work`, `/opt` and `~/.private` map to the workspace's `work`, `opt` and `private`, and what follows them is joined on |
| RepoPaths.UnderWork | crates/agent-workspace/src/launcher/reset.rs:493-498 | `/work/rest` maps to the workspace's `work` joined with `rest` |
| RepoPaths.AbsoluteRestReplaces | crates/agent-workspace/src/launcher/reset.rs:496-498 | `/work//etc` maps to `/etc`, since joining an absolute path replaces the base |
| RepoPaths.MapContainerRepoPath | crates/agent-workspace/src/launcher/container.rs:2252-2264 | a blank input is the root and an absolute one is kept; a relative one lands below the root without its trailing `/`, without a leading `./`, and is a suffix of the input |
| RepoPaths.ContainerPathIsAbsolute | crates/agent-workspace/src/launcher/container.rs:2252-2264 | with an absolute root every result is absolute |
| RepoPaths.WorkRootKept | crates/agent-workspace/src/launcher/container.rs:2262 | trimming `/` from `/work` changes nothing |
| RepoPaths.WorkPathUnpadded | crates/agent-workspace/src/launcher/container.rs:2253 | the tail of a trimmed input keeps the mapped path free of outer whitespace |
| RepoPaths.ContainerWorkPath | crates/agent-workspace/src/launcher/container.rs:2252-2264 | a relative input in the default root `/work` becomes `/work/` followed by the input without `./` |
| RepoPaths.RelativeContainerPath | crates/agent-workspace/src/launcher/container.rs:2261-2263 | a relative input becomes the root without trailing `/`, a `/` and the input without leading `./` |
| RepoPaths.HostMirrorsContainer | crates/agent-workspace/src/launcher/reset.rs:496-498 | a relative input that the container places under `/work` is mapped by the host to the workspace's `work` directory joined with the input without `./`; the two mappings agree unless that remainder is itself absolute |
| RepoPaths.ContainerAbsoluteTailEscapes | crates/agent-workspace/src/launcher/reset.rs:496-498 | when the remainder after `./` is absolute (`.//etc`), the host's join discards the `work` directory and yields that absolute path |

## Left out

- The `run`/`dispatch` functions of every launcher module and of the container launcher. They spawn docker, git, gh, gpg and code, read and write files, and prompt on a terminal.
- The embedded shell scripts (`RESET_REPO_SCRIPT`, `LIST_GIT_REPOS_SCRIPT`, `CLONE_SCRIPT`, `SYNC_BASELINE_SCRIPT`), which are data passed to a shell.
- The filesystem and Docker lookups: `list_workspaces_on_disk`, `resolve_workspace`, `resolve_container`, the auth resolvers, `container_exists`, `list_workspace_containers`, `workspace_storage_root` and the codex/gpg lookups. Only their search order, `workspace_resolution_candidates`, is modelled.
- Reads of `std::env`: every environment lookup takes an explicit map, and the container launcher's primary prefix is a parameter.
- The workspace provider: an arbitrary function value. The one-line delegation in `completion/providers/workspaces.rs` is not part of this model.
- `generate_workspace_name` and the timestamps it uses, because they depend on the clock.
- `OsString::to_string_lossy`: every argument is already a string.
- `cli.rs`, `lib.rs` and the `run` glue of `completion/mod.rs`, which handle clap, argv, stdout/stderr and exit codes.
- The Python end-to-end suite under `tests/`, which drives the binary through subprocesses.
- RepoPaths.MapWorkspaceRepoPath: paths are strings with `/` as separator, not `Path` component lists. `PathBuf::join` is modelled as "an absolute path replaces the base, otherwise one `/` is inserted". Path equality up to components (`a//b` and `a/b` name the same path) is not modelled.
- Engine: for `reset repo`, `reset private-repo` and `reset opt-repos`, the engine finds the workspace with `first_positional`. That function does not skip the value after `--ref`, so a ref value counts as the workspace; the model follows the code. `reset work-repos` skips the values of `--root`, `--depth` and `--ref`.
- Strings: `char::is_whitespace` is modelled by the Unicode `White_Space` set. Sorting by `String` order is code-point order, which is the same as the UTF-8 byte order the source compares.

=== FILE: auth_args.dfy ===
/** The arguments of `auth`, on the host (`launcher/auth.rs`) and in the container
    launcher (`launcher/container.rs`): a provider and a workspace, given as
    positional arguments or options, and the provider's settings. On the host, `--`
    ends the options; the container launcher has no such marker. */
module AuthArgs {
  import opened Wrappers
  import opened Strings
  import opened TokenScan
  import opened Runtime

  datatype ParsedAuth = ParsedAuth(
    showHelp: bool, provider: Option<string>, workspace: Option<string>,
    profile: Option<string>, host: Option<string>, key: Option<string>)

  /** The loop's state: the parse so far, and whether `--` has been seen. */
  datatype AuthScan = AuthScan(parsed: ParsedAuth, positionalOnly: bool)

  const INITIAL := ParsedAuth(false, None, None, None, None, None)
  const END_OF_OPTIONS := "--"

  /** The spellings of the options that take a value. */
  predicate IsWorkspaceOption(t: string) { t == "--container" || t == "--workspace" }
  predicate IsValueOption(t: string) { IsWorkspaceOption(t) || t == "--profile" || t == "--host" || t == "--key" }

  /** Stores the value of a value option. */
  function SetOption(p: ParsedAuth, option: string, v: string): (r: ParsedAuth)
    requires IsValueOption(option)
    ensures IsWorkspaceOption(option) ==> r == p.(workspace := Some(v))
    ensures option == "--profile" ==> r == p.(profile := Some(v))
    ensures option == "--host" ==> r == p.(host := Some(v))
    ensures option == "--key" ==> r == p.(key := Some(v))
  {
    if IsWorkspaceOption(option) then p.(workspace := Some(v))
    else if option == "--profile" then p.(profile := Some(v))
    else if option == "--host" then p.(host := Some(v))
    else p.(key := Some(v))
  }

  /** The value option an inline `--option=value` token names, if any. */
  function InlineOption(t: string): (r: Option<string>)
    ensures r.Some? ==> IsValueOption(r.value) && StartsWith(t, r.value + "=") && IsDash(t)
  {
    InlineOptionsDashed(t);
    if StartsWith(t, "--container=") then Some("--container")
    else if StartsWith(t, "--workspace=") then Some("--workspace")
    else if StartsWith(t, "--profile=") then Some("--profile")
    else if StartsWith(t, "--host=") then Some("--host")
    else if StartsWith(t, "--key=") then Some("--key")
    else None
  }

  lemma InlineOptionsDashed(t: string)
    ensures (StartsWith(t, "--container=") || StartsWith(t, "--workspace=") || StartsWith(t, "--profile=")
             || StartsWith(t, "--host=") || StartsWith(t, "--key=")) ==> IsDash(t)
  {
    if |t| > 0 && t[0] != '-' {
      assert !StartsWith(t, "--container=") by { assert "--container="[0] == '-'; }
      assert !StartsWith(t, "--workspace=") by { assert "--workspace="[0] == '-'; }
      assert !StartsWith(t, "--profile=") by { assert "--profile="[0] == '-'; }
      assert !StartsWith(t, "--host=") by { assert "--host="[0] == '-'; }
      assert !StartsWith(t, "--key=") by { assert "--key="[0] == '-'; }
    }
  }

  /** A positional argument fills the provider, then the workspace. */
  function AssignPositional(p: ParsedAuth, t: string): (r: Result<ParsedAuth>)
    ensures r.Ok? <==> p.provider.None? || p.workspace.None?
  {
    if p.provider.None? then Ok(p.(provider := Some(t)))
    else if p.workspace.None? then Ok(p.(workspace := Some(t)))
    else Err("unexpected arg: " + t)
  }

  /** How many positional arguments still have a place. */
  function Slots(p: ParsedAuth): nat {
    (if p.provider.None? then 1 else 0) + (if p.workspace.None? then 1 else 0)
  }

  /** Every token after `--` is positional, in order. */
  function AssignAll(p: ParsedAuth, rest: seq<string>): (r: Result<ParsedAuth>)
    ensures r.Ok? <==> |rest| <= Slots(p)
    ensures r.Err? ==> r.error == "unexpected arg: " + rest[Slots(p)]
    ensures r.Ok? ==> (r.value.showHelp == p.showHelp && r.value.profile == p.profile
      && r.value.host == p.host && r.value.key == p.key)
    ensures r.Ok? && p.provider.None? && |rest| >= 1 ==> r.value.provider == Some(rest[0])
    ensures r.Ok? && (p.provider.Some? || |rest| == 0) ==> r.value.provider == p.provider
    ensures r.Ok? && p.workspace.None? && |rest| == Slots(p) && |rest| >= 1 ==> r.value.workspace == Some(rest[|rest| - 1])
    ensures r.Ok? && |rest| < Slots(p) ==> r.value.workspace == p.workspace
    decreases |rest|
  {
    if |rest| == 0 then Ok(p)
    else
      var first := AssignPositional(p, rest[0]);
      if first.Err? then Err(first.error) else AssignAll(first.value, rest[1..])
  }

  /** One iteration of the `while idx < args.len()` loop. */
  function AuthStep(side: Runtime, st: AuthScan, t: string, next: Option<string>): (r: Step<AuthScan>)
    ensures !r.Stop?
    ensures st.positionalOnly && r.Next? ==> r.state.positionalOnly
  {
    var p := st.parsed;
    if st.positionalOnly then PositionalStep(st, t)
    else if IsHelpFlag(t) then Next(st.(parsed := p.(showHelp := true)), false)
    else if IsValueOption(t) then
      (match next
       case None => Fail("missing value for " + t)
       case Some(v) => Next(st.(parsed := SetOption(p, t, v)), true))
    else if InlineOption(t).Some? then
      var option := InlineOption(t).value;
      Next(st.(parsed := SetOption(p, option, t[|option| + 1..])), false)
    else if side == Host && t == END_OF_OPTIONS then Next(st.(positionalOnly := true), false)
    else if IsDash(t) then Fail("unknown option for auth: " + t)
    else PositionalStep(st, t)
  }

  function PositionalStep(st: AuthScan, t: string): (r: Step<AuthScan>)
    ensures r.Next? ==> r.state.positionalOnly == st.positionalOnly && !r.takesValue
  {
    var placed := AssignPositional(st.parsed, t);
    if placed.Err? then Fail(placed.error) else Next(st.(parsed := placed.value), false)
  }

  function AuthSteps(side: Runtime): StepFn<AuthScan> {
    (s, t, n) => AuthStep(side, s, t, n)
  }

  lemma AuthStepWellFormed(side: Runtime)
    ensures WellFormed(AuthSteps(side))
  {
    assert forall s: AuthScan, t: string :: AuthStep(side, s, t, None).Next? ==> !AuthStep(side, s, t, None).takesValue;
    assert forall s: AuthScan, t: string, n: string ::
      !AuthStep(side, s, t, None).Fail? ==> AuthStep(side, s, t, Some(n)) == AuthStep(side, s, t, None);
  }

  function FinishAuth(o: Outcome<AuthScan>): Result<ParsedAuth> {
    match o
    case Failed(e) => Err(e)
    case Completed(s) => Ok(s.parsed)
    case Stopped(s) => Ok(s.parsed)
  }

  /** `parse_auth_args`; in the container launcher no option ever becomes the provider. */
  function ParseAuthArgs(side: Runtime, args: seq<string>): (r: Result<ParsedAuth>)
    ensures |args| == 0 ==> r == Ok(INITIAL)
    ensures side == Container && r.Ok? && r.value.provider.Some? ==> !IsDash(r.value.provider.value)
  {
    ContainerProviderIsPlain(args);
    FinishAuth(Run(AuthSteps(side), args, AuthScan(INITIAL, false)))
  }

  lemma ContainerProviderIsPlain(args: seq<string>)
    ensures var o := Run(AuthSteps(Container), args, AuthScan(INITIAL, false));
      !o.Failed? && o.state.parsed.provider.Some? ==> !IsDash(o.state.parsed.provider.value)
  {
    var inv := (s: AuthScan) => !s.positionalOnly && (s.parsed.provider.Some? ==> !IsDash(s.parsed.provider.value));
    RunInvariant(AuthSteps(Container), inv, args, AuthScan(INITIAL, false));
  }

  /** After `--`, the scan only assigns positionals. */
  lemma {:induction false} PositionalOnlyScan(side: Runtime, p: ParsedAuth, rest: seq<string>)
    ensures FinishAuth(Run(AuthSteps(side), rest, AuthScan(p, true))) == AssignAll(p, rest)
    decreases |rest|
  {
    if |rest| > 0 {
      var first := AssignPositional(p, rest[0]);
      if first.Ok? {
        PositionalOnlyScan(side, first.value, rest[1..]);
      }
    }
  }

  /** On the host, every token after `--` is positional, options included. */
  lemma DashDashTakesRest(opts: seq<string>, rest: seq<string>, s: ParsedAuth)
    requires Run(AuthSteps(Host), opts, AuthScan(INITIAL, false)) == Completed(AuthScan(s, false))
    ensures ParseAuthArgs(Host, opts + [END_OF_OPTIONS] + rest) == AssignAll(s, rest)
  {
    AuthStepWellFormed(Host);
    RunAfter(AuthSteps(Host), opts, END_OF_OPTIONS, rest, AuthScan(INITIAL, false));
    assert AuthStep(Host, AuthScan(s, false), END_OF_OPTIONS, Lookahead([END_OF_OPTIONS] + rest))
      == Next(AuthScan(s, true), false) by {
      assert InlineOption(END_OF_OPTIONS).None?;
    }
    PositionalOnlyScan(Host, s, rest);
  }

  /** The container launcher does not know `--`. */
  lemma ContainerRejectsDashDash(opts: seq<string>, rest: seq<string>, s: AuthScan)
    requires Run(AuthSteps(Container), opts, AuthScan(INITIAL, false)) == Completed(s)
    ensures ParseAuthArgs(Container, opts + [END_OF_OPTIONS] + rest) == Err("unknown option for auth: --")
  {
    AuthStepWellFormed(Container);
    ContainerStaysOptional(opts);
    RunAfter(AuthSteps(Container), opts, END_OF_OPTIONS, rest, AuthScan(INITIAL, false));
    assert InlineOption(END_OF_OPTIONS).None?;
    assert IsDash(END_OF_OPTIONS);
  }

  lemma ContainerStaysOptional(args: seq<string>)
    ensures var o := Run(AuthSteps(Container), args, AuthScan(INITIAL, false)); !o.Failed? ==> !o.state.positionalOnly
  {
    RunInvariant(AuthSteps(Container), (s: AuthScan) => !s.positionalOnly, args, AuthScan(INITIAL, false));
  }

  /** Before `--`, a positional argument fills the provider, then the workspace,
      and a third is an error. */
  lemma PositionalFillsSlots(side: Runtime, opts: seq<string>, t: string, rest: seq<string>, s: ParsedAuth)
    requires Run(AuthSteps(side), opts, AuthScan(INITIAL, false)) == Completed(AuthScan(s, false))
    requires !IsDash(t)
    ensures var placed := AssignPositional(s, t);
      ParseAuthArgs(side, opts + [t] + rest)
        == if placed.Err? then Err(placed.error) else FinishAuth(Run(AuthSteps(side), rest, AuthScan(placed.value, false)))
  {
    AuthStepWellFormed(side);
    RunAfter(AuthSteps(side), opts, t, rest, AuthScan(INITIAL, false));
    PlainIsNotAuthOption(t);
  }

  /** A token that does not start with `-` is none of the options. */
  lemma PlainIsNotAuthOption(t: string)
    requires !IsDash(t)
    ensures !IsHelpFlag(t) && !IsValueOption(t) && InlineOption(t).None? && t != END_OF_OPTIONS
  {
    PlainIsNotHelp(t);
    assert "--container"[0] == '-' && "--workspace"[0] == '-' && "--profile"[0] == '-';
    assert "--host"[0] == '-' && "--key"[0] == '-' && "--"[0] == '-';
  }

  /** A value option stores the token after it, and the inline form the text after
      `=`; a later occurrence replaces an earlier one. */
  lemma ValueOptionSets(side: Runtime, opts: seq<string>, option: string, v: string, rest: seq<string>, s: ParsedAuth)
    requires Run(AuthSteps(side), opts, AuthScan(INITIAL, false)) == Completed(AuthScan(s, false))
    requires IsValueOption(option)
    ensures ParseAuthArgs(side, opts + [option, v] + rest)
      == FinishAuth(Run(AuthSteps(side), rest, AuthScan(SetOption(s, option, v), false)))
  {
    AuthStepWellFormed(side);
    assert opts + [option, v] + rest == opts + [option] + ([v] + rest);
    RunAfter(AuthSteps(side), opts, option, [v] + rest, AuthScan(INITIAL, false));
    assert ([v] + rest)[1..] == rest;
    assert !IsHelpFlag(option) by {
      assert |option| > 2;
    }
  }

  lemma InlineOptionSets(side: Runtime, opts: seq<string>, option: string, v: string, rest: seq<string>, s: ParsedAuth)
    requires Run(AuthSteps(side), opts, AuthScan(INITIAL, false)) == Completed(AuthScan(s, false))
    requires IsValueOption(option)
    ensures ParseAuthArgs(side, opts + [option + "=" + v] + rest)
      == FinishAuth(Run(AuthSteps(side), rest, AuthScan(SetOption(s, option, v), false)))
  {
    AuthStepWellFormed(side);
    var t := option + "=" + v;
    RunAfter(AuthSteps(side), opts, t, rest, AuthScan(INITIAL, false));
    InlineOptionOf(option, v);
    assert !IsHelpFlag(t) && !IsValueOption(t) by {
      assert |t| > |option|;
      assert t[|option|] == '=';
    }
  }

  /** An inline token names exactly the option written before its `=`. */
  lemma InlineOptionOf(option: string, v: string)
    requires IsValueOption(option)
    ensures InlineOption(option + "=" + v) == Some(option)
    ensures (option + "=" + v)[|option| + 1..] == v
  {
    var t := option + "=" + v;
    assert t[..|option| + 1] == option + "=";
    assert t[|option| + 1..] == v;
    assert t[2] == option[2];
    assert "--container="[2] == 'c' && "--workspace="[2] == 'w' && "--profile="[2] == 'p';
    assert "--host="[2] == 'h' && "--key="[2] == 'k';
    assert StartsWith(t, "--container=") ==> t[2] == 'c';
    assert StartsWith(t, "--workspace=") ==> t[2] == 'w';
    assert StartsWith(t, "--profile=") ==> t[2] == 'p';
    assert StartsWith(t, "--host=") ==> t[2] == 'h';
  }

  /** A value option at the very end is an error naming it. */
  lemma TrailingValueOptionFails(side: Runtime, opts: seq<string>, option: string, s: ParsedAuth)
    requires Run(AuthSteps(side), opts, AuthScan(INITIAL, false)) == Completed(AuthScan(s, false))
    requires IsValueOption(option)
    ensures ParseAuthArgs(side, opts + [option]) == Err("missing value for " + option)
  {
    AuthStepWellFormed(side);
    RunSnoc(AuthSteps(side), opts, option, AuthScan(INITIAL, false));
    assert !IsHelpFlag(option) by {
      assert |option| > 2;
    }
  }

  /** An option the parser does not know is an error. */
  lemma UnknownOptionFails(side: Runtime, opts: seq<string>, t: string, rest: seq<string>, s: ParsedAuth)
    requires Run(AuthSteps(side), opts, AuthScan(INITIAL, false)) == Completed(AuthScan(s, false))
    requires IsDash(t) && !IsHelpFlag(t) && !IsValueOption(t) && InlineOption(t).None? && t != END_OF_OPTIONS
    ensures ParseAuthArgs(side, opts + [t] + rest) == Err("unknown option for auth: " + t)
  {
    AuthStepWellFormed(side);
    RunAfter(AuthSteps(side), opts, t, rest, AuthScan(INITIAL, false));
  }

  /** An example: `codex ws-test --profile work`. */
  lemma AuthExample(side: Runtime)
    ensures ParseAuthArgs(side, ["codex", "ws-test", "--profile", "work"])
      == Ok(INITIAL.(provider := Some("codex"), workspace := Some("ws-test"), profile := Some("work")))
  {
    var s0 := AuthScan(INITIAL, false);
    assert "codex"[0] == 'c' && "ws-test"[0] == 'w';
    PlainIsNotAuthOption("codex");
    PlainIsNotAuthOption("ws-test");
    var p1 := INITIAL.(provider := Some("codex"));
    var p2 := p1.(workspace := Some("ws-test"));
    PositionalFillsSlots(side, [], "codex", ["ws-test", "--profile", "work"], INITIAL);
    assert Run(AuthSteps(side), ["codex"], s0) == Completed(AuthScan(p1, false));
    PositionalFillsSlots(side, ["codex"], "ws-test", ["--profile", "work"], p1);
    assert Run(AuthSteps(side), ["codex", "ws-test"], s0) == Completed(AuthScan(p2, false)) by {
      AuthStepWellFormed(side);
      RunSnoc(AuthSteps(side), ["codex"], "ws-test", s0);
    }
    ValueOptionSets(side, ["codex", "ws-test"], "--profile", "work", [], p2);
    assert ["codex", "ws-test"] + ["--profile", "work"] + [] == ["codex", "ws-test", "--profile", "work"];
  }
}

=== FILE: candidates.dfy ===
/** Completion candidates (`completion/candidates.rs`): construction helpers and
    `finalize`, which keeps the candidates matching the word being completed,
    removes duplicates (keeping the first description seen) and sorts them the
    way a `BTreeMap<String, _>` iterates. */
module Candidates {
  import opened Wrappers
  import opened Strings

  datatype Candidate = Candidate(value: string, description: Option<string>)

  /** `Candidate::value` */
  function Bare(value: string): Candidate { Candidate(value, None) }

  /** `Candidate::described` */
  function Described(value: string, description: string): Candidate { Candidate(value, Some(description)) }

  /** The options every command level offers, with their descriptions. */
  const GLOBAL_OPTIONS: seq<(string, string)> := [
    ("--runtime", "Select runtime backend (container or host)"),
    ("--help", "Show help for command"),
    ("--version", "Show CLI version"),
    ("-h", "Show help for command"),
    ("-V", "Show CLI version")
  ]

  // ---------------------------------------------------------------------------
  // Construction

  /** `push_values`: one undescribed candidate per value, appended in order. */
  function PushValues(target: seq<Candidate>, values: seq<string>): (r: seq<Candidate>)
    ensures |r| == |target| + |values| && r[..|target|] == target
    ensures forall i :: 0 <= i < |values| ==> r[|target| + i] == Bare(values[i])
    decreases |values|
  {
    if |values| == 0 then target
    else PushValues(target + [Bare(values[0])], values[1..])
  }

  /** `push_described_values`: one described candidate per pair, appended in order. */
  function PushDescribedValues(target: seq<Candidate>, values: seq<(string, string)>): (r: seq<Candidate>)
    ensures |r| == |target| + |values| && r[..|target|] == target
    ensures forall i :: 0 <= i < |values| ==> r[|target| + i] == Described(values[i].0, values[i].1)
    decreases |values|
  {
    if |values| == 0 then target
    else PushDescribedValues(target + [Described(values[0].0, values[0].1)], values[1..])
  }

  /** `push_global_options` */
  function PushGlobalOptions(target: seq<Candidate>): (r: seq<Candidate>)
    ensures |r| == |target| + 5 && r[..|target|] == target
    ensures forall i :: 0 <= i < 5 ==> r[|target| + i].value == GLOBAL_OPTIONS[i].0
    ensures forall i :: 0 <= i < 5 ==> r[|target| + i].description == Some(GLOBAL_OPTIONS[i].1)
  {
    PushDescribedValues(target, GLOBAL_OPTIONS)
  }

  /** `with_prefix`: each value glued to `prefix`, undescribed. */
  function WithPrefix(prefix: string, values: seq<string>): (r: seq<Candidate>)
    ensures |r| == |values|
    ensures forall i :: 0 <= i < |values| ==> r[i] == Bare(prefix + values[i])
    decreases |values|
  {
    if |values| == 0 then [] else [Bare(prefix + values[0])] + WithPrefix(prefix, values[1..])
  }

  /** `with_described_prefix`: each value glued to `prefix`, keeping its description. */
  function WithDescribedPrefix(prefix: string, values: seq<(string, string)>): (r: seq<Candidate>)
    ensures |r| == |values|
    ensures forall i :: 0 <= i < |values| ==> r[i] == Described(prefix + values[i].0, values[i].1)
    decreases |values|
  {
    if |values| == 0 then []
    else [Described(prefix + values[0].0, values[0].1)] + WithDescribedPrefix(prefix, values[1..])
  }

  // ---------------------------------------------------------------------------
  // The order of `String` keys in a `BTreeMap`

  /** Lexicographic order on strings. Rust compares the UTF-8 bytes, which orders
      strings exactly as comparing their scalar values one by one. */
  predicate LexLess(a: string, b: string)
    decreases |a|
  {
    |b| > 0 && (|a| == 0 || a[0] < b[0] || (a[0] == b[0] && LexLess(a[1..], b[1..])))
  }

  lemma {:induction false} LexLessIrreflexive(a: string)
    ensures !LexLess(a, a)
    decreases |a|
  {
    if |a| > 0 {
      LexLessIrreflexive(a[1..]);
    }
  }

  lemma {:induction false} LexLessTransitive(a: string, b: string, c: string)
    requires LexLess(a, b) && LexLess(b, c)
    ensures LexLess(a, c)
    decreases |a|
  {
    if |a| > 0 && a[0] == b[0] && b[0] == c[0] {
      LexLessTransitive(a[1..], b[1..], c[1..]);
    }
  }

  lemma {:induction false} LexLessTotal(a: string, b: string)
    requires a != b
    ensures LexLess(a, b) || LexLess(b, a)
    decreases |a|
  {
    if |a| > 0 && |b| > 0 && a[0] == b[0] {
      assert a == [a[0]] + a[1..] && b == [b[0]] + b[1..];
      LexLessTotal(a[1..], b[1..]);
    }
  }

  lemma {:induction false} LexLessAsymmetric(a: string, b: string)
    requires LexLess(a, b)
    ensures !LexLess(b, a)
    decreases |a|
  {
    if |a| > 0 && a[0] == b[0] {
      LexLessAsymmetric(a[1..], b[1..]);
    }
  }

  // ---------------------------------------------------------------------------
  // The candidate map

  /** Strictly increasing values: no duplicates, `BTreeMap` iteration order. */
  ghost predicate Sorted(s: seq<Candidate>) {
    forall i, j :: 0 <= i < j < |s| ==> LexLess(s[i].value, s[j].value)
  }

  ghost function Values(s: seq<Candidate>): set<string> {
    set i | 0 <= i < |s| :: s[i].value
  }

  /** The description attached to `v`, as a map lookup would report it. */
  function DescOf(s: seq<Candidate>, v: string): Option<string>
    decreases |s|
  {
    if |s| == 0 then None else if s[0].value == v then s[0].description else DescOf(s[1..], v)
  }

  /** The description of the first candidate for `v` that has one. */
  function FirstDescription(cs: seq<Candidate>, v: string): Option<string>
    decreases |cs|
  {
    if |cs| == 0 then None
    else if cs[0].value == v && cs[0].description.Some? then cs[0].description
    else FirstDescription(cs[1..], v)
  }

  /** `deduped.entry(value).or_insert(None)`, then a missing description is filled in. */
  function Upsert(m: seq<Candidate>, c: Candidate): (r: seq<Candidate>)
    requires Sorted(m)
    ensures Sorted(r)
    ensures Values(r) == Values(m) + {c.value}
    ensures forall v :: DescOf(r, v) == if v == c.value && DescOf(m, v).None? then c.description else DescOf(m, v)
    decreases |m|
  {
    if |m| == 0 then
      assert Values([c]) == {c.value} by { assert [c][0].value == c.value; }
      [c]
    else if m[0].value == c.value then
      var head := m[0].(description := if m[0].description.None? then c.description else m[0].description);
      ValuesCons(head, m[1..]);
      ValuesCons(m[0], m[1..]);
      assert m == [m[0]] + m[1..];
      SortedTail(m);
      SortedCons(head, m[1..]);
      [head] + m[1..]
    else if LexLess(c.value, m[0].value) then
      ValuesCons(c, m);
      SortedBelowHead(c.value, m);
      SortedCons(c, m);
      assert DescOf(m, c.value) == None by { DescOfAbsent(m, c.value); }
      [c] + m
    else
      LexLessTotal(c.value, m[0].value);
      SortedTail(m);
      var tail := Upsert(m[1..], c);
      ValuesCons(m[0], tail);
      ValuesCons(m[0], m[1..]);
      assert m == [m[0]] + m[1..];
      SortedHeadBelow(m);
      SortedCons(m[0], tail);
      [m[0]] + tail
  }

  lemma ValuesCons(x: Candidate, s: seq<Candidate>)
    ensures Values([x] + s) == {x.value} + Values(s)
  {
    var r := [x] + s;
    forall v | v in Values(r) ensures v in {x.value} + Values(s) {
      var i :| 0 <= i < |r| && r[i].value == v;
      if i > 0 { assert s[i - 1].value == v; }
    }
    forall v | v in Values(s) ensures v in Values(r) {
      var i :| 0 <= i < |s| && s[i].value == v;
      assert r[i + 1].value == v;
    }
    assert r[0].value == x.value;
  }

  /** Prepending a value below every value of a sorted sequence keeps it sorted. */
  lemma SortedCons(x: Candidate, s: seq<Candidate>)
    requires Sorted(s)
    requires forall v :: v in Values(s) ==> LexLess(x.value, v)
    ensures Sorted([x] + s)
  {
    var r := [x] + s;
    forall i, j | 0 <= i < j < |r| ensures LexLess(r[i].value, r[j].value) {
      if i == 0 {
        assert s[j - 1].value in Values(s);
      } else {
        assert r[i] == s[i - 1] && r[j] == s[j - 1];
      }
    }
  }

  lemma SortedHeadBelow(m: seq<Candidate>)
    requires Sorted(m) && |m| > 0
    ensures forall v :: v in Values(m[1..]) ==> LexLess(m[0].value, v)
  {
    forall v | v in Values(m[1..]) ensures LexLess(m[0].value, v) {
      var i :| 0 <= i < |m[1..]| && m[1..][i].value == v;
      assert m[i + 1].value == v;
    }
  }

  lemma SortedBelowHead(x: string, m: seq<Candidate>)
    requires Sorted(m) && |m| > 0 && LexLess(x, m[0].value)
    ensures forall v :: v in Values(m) ==> LexLess(x, v)
  {
    forall v | v in Values(m) ensures LexLess(x, v) {
      var i :| 0 <= i < |m| && m[i].value == v;
      if i > 0 { LexLessTransitive(x, m[0].value, v); }
    }
  }

  /** In a sorted sequence, a value smaller than the first is absent. */
  lemma DescOfAbsent(m: seq<Candidate>, v: string)
    requires Sorted(m)
    requires |m| == 0 || LexLess(v, m[0].value)
    ensures DescOf(m, v) == None
  {
    if |m| > 0 {
      LexLessIrreflexive(v);
      assert m[0].value != v;
      if |m| > 1 {
        LexLessTransitive(v, m[0].value, m[1].value);
      }
      SortedTail(m);
      DescOfAbsent(m[1..], v);
    }
  }

  lemma SortedTail(m: seq<Candidate>)
    requires Sorted(m) && |m| > 0
    ensures Sorted(m[1..])
  {
    forall i, j | 0 <= i < j < |m[1..]| ensures LexLess(m[1..][i].value, m[1..][j].value) {
      assert m[1..][i] == m[i + 1] && m[1..][j] == m[j + 1];
    }
  }

  /** The values of the candidates that start with `prefix`. */
  ghost function PrefixedValues(cs: seq<Candidate>, prefix: string): set<string> {
    set i | 0 <= i < |cs| && StartsWith(cs[i].value, prefix) :: cs[i].value
  }

  lemma PrefixedValuesSnoc(cs: seq<Candidate>, prefix: string)
    requires |cs| > 0
    ensures PrefixedValues(cs, prefix)
         == PrefixedValues(cs[..|cs| - 1], prefix)
            + (if StartsWith(cs[|cs| - 1].value, prefix) then {cs[|cs| - 1].value} else {})
  {
    var before := PrefixedValues(cs[..|cs| - 1], prefix);
    forall v | v in PrefixedValues(cs, prefix)
      ensures v in before || (StartsWith(cs[|cs| - 1].value, prefix) && v == cs[|cs| - 1].value)
    {
      var i :| 0 <= i < |cs| && StartsWith(cs[i].value, prefix) && cs[i].value == v;
      if i < |cs| - 1 { assert cs[..|cs| - 1][i] == cs[i]; }
    }
    forall v | v in before ensures v in PrefixedValues(cs, prefix) {
      var i :| 0 <= i < |cs| - 1 && StartsWith(cs[..|cs| - 1][i].value, prefix) && cs[..|cs| - 1][i].value == v;
      assert cs[i] == cs[..|cs| - 1][i];
    }
  }

  /** `finalize`: keeps the candidates whose value starts with `prefix`, one per
      value, in increasing order; each keeps the first description given for its
      value. */
  function Finalize(cs: seq<Candidate>, prefix: string): (r: seq<Candidate>)
    ensures Sorted(r)
    ensures Values(r) == PrefixedValues(cs, prefix)
    ensures forall v :: StartsWith(v, prefix) ==> DescOf(r, v) == FirstDescription(cs, v)
    decreases |cs|
  {
    if |cs| == 0 then []
    else
      var init := cs[..|cs| - 1];
      var last := cs[|cs| - 1];
      var m := Finalize(init, prefix);
      PrefixedValuesSnoc(cs, prefix);
      assert init + [last] == cs;
      var r := if StartsWith(last.value, prefix) then Upsert(m, last) else m;
      forall v | StartsWith(v, prefix) ensures DescOf(r, v) == FirstDescription(cs, v) {
        FirstDescriptionSnoc(init, last, v);
      }
      r
  }

  /** Every candidate `Finalize` keeps starts with the prefix. */
  lemma FinalizePrefixed(cs: seq<Candidate>, prefix: string)
    ensures forall i :: 0 <= i < |Finalize(cs, prefix)| ==> StartsWith(Finalize(cs, prefix)[i].value, prefix)
  {
    var r := Finalize(cs, prefix);
    forall i | 0 <= i < |r| ensures StartsWith(r[i].value, prefix) {
      assert r[i].value in Values(r);
    }
  }

  lemma {:induction false} FirstDescriptionSnoc(init: seq<Candidate>, last: Candidate, v: string)
    ensures FirstDescription(init + [last], v)
         == if FirstDescription(init, v).None? && last.value == v then last.description else FirstDescription(init, v)
    decreases |init|
  {
    if |init| == 0 {
      assert init + [last] == [last];
    } else {
      assert (init + [last])[1..] == init[1..] + [last];
      FirstDescriptionSnoc(init[1..], last, v);
    }
  }

  /** `FirstDescription` is the description of the earliest described candidate for `v`. */
  lemma {:induction false} FirstDescriptionIsEarliest(cs: seq<Candidate>, v: string)
    ensures FirstDescription(cs, v).Some?
        <==> exists i :: 0 <= i < |cs| && cs[i].value == v && cs[i].description.Some?
    ensures FirstDescription(cs, v).Some? ==>
      exists i :: 0 <= i < |cs| && cs[i].value == v && cs[i].description == FirstDescription(cs, v)
        && forall j :: 0 <= j < i ==> !(cs[j].value == v && cs[j].description.Some?)
    decreases |cs|
  {
    if |cs| > 0 {
      FirstDescriptionIsEarliest(cs[1..], v);
      if !(cs[0].value == v && cs[0].description.Some?) {
        if exists i :: 0 <= i < |cs| && cs[i].value == v && cs[i].description.Some? {
          var i :| 0 <= i < |cs| && cs[i].value == v && cs[i].description.Some?;
          assert cs[1..][i - 1] == cs[i];
        }
        if FirstDescription(cs, v).Some? {
          var i :| 0 <= i < |cs[1..]| && cs[1..][i].value == v && cs[1..][i].description == FirstDescription(cs, v)
            && forall j :: 0 <= j < i ==> !(cs[1..][j].value == v && cs[1..][j].description.Some?);
          assert cs[i + 1] == cs[1..][i];
          forall j | 0 <= j < i + 1 ensures !(cs[j].value == v && cs[j].description.Some?) {
            if j > 0 { assert cs[j] == cs[1..][j - 1]; }
          }
        }
      }
    }
  }

  /** In a sorted sequence the lookup of a value finds its own entry. */
  lemma {:induction false} DescOfAt(s: seq<Candidate>, i: nat)
    requires Sorted(s) && i < |s|
    ensures DescOf(s, s[i].value) == s[i].description
    decreases i
  {
    if i > 0 {
      assert LexLess(s[0].value, s[i].value);
      LexLessIrreflexive(s[i].value);
      SortedTail(s);
      assert s[1..][i - 1] == s[i];
      DescOfAt(s[1..], i - 1);
    }
  }

  /** Inserting a value above every present value appends it. */
  lemma {:induction false} UpsertAbove(m: seq<Candidate>, c: Candidate)
    requires Sorted(m)
    requires forall v :: v in Values(m) ==> LexLess(v, c.value)
    ensures Upsert(m, c) == m + [c]
    decreases |m|
  {
    if |m| > 0 {
      assert m[0].value in Values(m);
      LexLessIrreflexive(c.value);
      LexLessAsymmetric(m[0].value, c.value);
      SortedTail(m);
      forall v | v in Values(m[1..]) ensures LexLess(v, c.value) {
        var k :| 0 <= k < |m[1..]| && m[1..][k].value == v;
        assert m[k + 1].value == v;
      }
      UpsertAbove(m[1..], c);
      assert m == [m[0]] + m[1..];
    }
  }

  /** A sorted, prefixed sequence is left as it is by `Finalize`. */
  lemma {:induction false} FinalizeFixpoint(s: seq<Candidate>, prefix: string)
    requires Sorted(s)
    requires forall i :: 0 <= i < |s| ==> StartsWith(s[i].value, prefix)
    ensures Finalize(s, prefix) == s
    decreases |s|
  {
    if |s| > 0 {
      var init := s[..|s| - 1];
      var last := s[|s| - 1];
      assert Sorted(init) by {
        forall i, j | 0 <= i < j < |init| ensures LexLess(init[i].value, init[j].value) {
          assert init[i] == s[i] && init[j] == s[j];
        }
      }
      FinalizeFixpoint(init, prefix);
      forall v | v in Values(init) ensures LexLess(v, last.value) {
        var k :| 0 <= k < |init| && init[k].value == v;
        assert s[k] == init[k];
      }
      UpsertAbove(init, last);
      assert init + [last] == s;
    }
  }

  /** Finalizing twice is finalizing once. */
  lemma FinalizeIdempotent(cs: seq<Candidate>, prefix: string)
    ensures Finalize(Finalize(cs, prefix), prefix) == Finalize(cs, prefix)
  {
    FinalizePrefixed(cs, prefix);
    FinalizeFixpoint(Finalize(cs, prefix), prefix);
  }
}

=== FILE: container_names.dfy ===
/** Names the container launcher derives (`launcher/container.rs`): the primary
    workspace prefix, container names, the three volume names of a container, and
    tunnel names. */
module ContainerNames {
  import opened Wrappers
  import opened Strings
  import opened Runtime
  import opened Launcher

  // ---------------------------------------------------------------------------
  // primary_workspace_prefix

  /** `primary_workspace_prefix`: the first configured prefix. The fallback
      `agent-ws` is never needed, since the defaults are always in the list. */
  function PrimaryWorkspacePrefix(env: Env): (r: string)
    ensures r in WorkspacePrefixes(env)
    ensures |EnvPrefixes(env)| > 0 ==> r == EnvPrefixes(env)[0]
    ensures |EnvPrefixes(env)| == 0 ==> r == "agent-ws"
  {
    var prefixes := WorkspacePrefixes(env);
    assert "agent-ws" in prefixes by { assert DEFAULT_PREFIXES[0] == "agent-ws"; }
    UnconfiguredPrefixes(env);
    if |prefixes| > 0 then prefixes[0] else "agent-ws"
  }

  /** With no prefix configured through the environment the list is the defaults. */
  lemma UnconfiguredPrefixes(env: Env)
    ensures |EnvPrefixes(env)| == 0 ==> WorkspacePrefixes(env) == DEFAULT_PREFIXES
  {
    if |EnvPrefixes(env)| == 0 {
      assert EnvPrefixes(env) + DEFAULT_PREFIXES == DEFAULT_PREFIXES;
      assert "agent-ws"[0] != "codex-ws"[0];
      ConfiguredPrefixesFirst(env);
    }
  }

  // ---------------------------------------------------------------------------
  // normalize_container_name

  const WS_PREFIX := "ws-"

  /** `k` copies of `s`. */
  function Repeat(s: string, k: nat): string {
    if k == 0 then "" else s + Repeat(s, k - 1)
  }

  /** `normalize_container_name` with the primary prefix as a parameter: a name that
      already carries `prefix-` is kept, so normalizing twice changes nothing; other
      names get `prefix-` in front. When the prefix ends in `-ws`, a leading run of
      `ws-` is dropped first, unless nothing would remain. */
  function NormalizeContainerName(name: string, prefix: string): (r: string)
    ensures StartsWith(r, prefix + "-")
    ensures StartsWith(name, prefix + "-") ==> r == name
    ensures !StartsWith(name, prefix + "-") ==> EndsWith(name, r[|prefix| + 1..])
  {
    if StartsWith(name, prefix + "-") then name
    else
      var stripped := TrimStartMatches(name, WS_PREFIX);
      var normalized := if EndsWith(prefix, "-ws") && StartsWith(name, WS_PREFIX) && |stripped| > 0 then stripped else name;
      var r := prefix + "-" + normalized;
      StartsWithConcat(prefix + "-", normalized);
      assert r[|prefix| + 1..] == normalized;
      r
  }

  /** `p + x` starts with `p`, and dropping `p` gives `x` back. */
  lemma DropPrefix(p: string, x: string)
    ensures StartsWith(p + x, p) && (p + x)[|p|..] == x
  {
    StartsWithConcat(p, x);
  }

  lemma RepeatCons(p: string, k: nat, rest: string)
    requires k > 0
    ensures Repeat(p, k) + rest == p + (Repeat(p, k - 1) + rest)
  {
  }

  /** One leading copy of `p` is stripped. */
  lemma TrimStartStep(p: string, tail: string)
    requires |p| > 0
    ensures TrimStartMatches(p + tail, p) == TrimStartMatches(tail, p)
  {
    DropPrefix(p, tail);
  }

  lemma TrimRepeatedNone(p: string, rest: string)
    requires |p| > 0 && !StartsWith(rest, p)
    ensures TrimStartMatches(Repeat(p, 0) + rest, p) == rest
  {
    assert Repeat(p, 0) + rest == rest;
  }

  lemma TrimRepeatedStep(p: string, k: nat, rest: string)
    requires |p| > 0 && k > 0
    ensures TrimStartMatches(Repeat(p, k) + rest, p) == TrimStartMatches(Repeat(p, k - 1) + rest, p)
  {
    var tail := Repeat(p, k - 1) + rest;
    assert Repeat(p, k) + rest == p + tail;
    TrimStartStep(p, tail);
  }

  /** Stripping every leading copy of `p` leaves the first part that is not one. */
  lemma {:induction false} TrimRepeated(p: string, k: nat, rest: string)
    requires |p| > 0 && !StartsWith(rest, p)
    ensures TrimStartMatches(Repeat(p, k) + rest, p) == rest
  {
    if k == 0 {
      TrimRepeatedNone(p, rest);
    } else {
      TrimRepeated(p, k - 1, rest);
      TrimRepeatedStep(p, k, rest);
    }
  }

  /** With a `-ws` prefix, `ws-ws-demo` becomes `prefix-demo`: the whole run of
      `ws-` goes. */
  lemma NormalizeDropsWsRun(prefix: string, k: nat, rest: string)
    requires EndsWith(prefix, "-ws") && k > 0 && |rest| > 0 && !StartsWith(rest, WS_PREFIX)
    requires !StartsWith(Repeat(WS_PREFIX, k) + rest, prefix + "-")
    ensures NormalizeContainerName(Repeat(WS_PREFIX, k) + rest, prefix) == prefix + "-" + rest
  {
    TrimRepeated(WS_PREFIX, k, rest);
    WsRunStartsWithWs(k, rest);
  }

  lemma WsRunStartsWithWs(k: nat, rest: string)
    requires k > 0
    ensures StartsWith(Repeat(WS_PREFIX, k) + rest, WS_PREFIX)
  {
    RepeatCons(WS_PREFIX, k, rest);
    DropPrefix(WS_PREFIX, Repeat(WS_PREFIX, k - 1) + rest);
  }

  /** A name made only of `ws-` is kept whole: stripping would leave nothing. */
  lemma NormalizeKeepsBareWs(prefix: string, k: nat)
    requires k > 0 && !StartsWith(Repeat(WS_PREFIX, k), prefix + "-")
    ensures NormalizeContainerName(Repeat(WS_PREFIX, k), prefix) == prefix + "-" + Repeat(WS_PREFIX, k)
  {
    assert !StartsWith("", WS_PREFIX);
    TrimRepeated(WS_PREFIX, k, "");
    assert Repeat(WS_PREFIX, k) + "" == Repeat(WS_PREFIX, k);
  }

  /** Without a `-ws` prefix nothing is stripped. */
  lemma NormalizeOtherPrefix(name: string, prefix: string)
    requires !EndsWith(prefix, "-ws") && !StartsWith(name, prefix + "-")
    ensures NormalizeContainerName(name, prefix) == prefix + "-" + name
  {
  }

  /** Normalizing an already normalized name changes nothing. */
  lemma NormalizeIdempotent(name: string, prefix: string)
    ensures NormalizeContainerName(NormalizeContainerName(name, prefix), prefix) == NormalizeContainerName(name, prefix)
  {
  }

  // ---------------------------------------------------------------------------
  // volume_names

  const WORK_SUFFIX := "-work"
  const HOME_SUFFIX := "-home"
  const AGENT_HOME_SUFFIX := "-agent-home"

  /** `volume_names`: the work, home and agent-home volumes of a container. The
      three differ, and each gives back the container name without its suffix. */
  function VolumeNames(container: string): (r: (string, string, string))
    ensures r.0 != r.1 && r.1 != r.2 && r.0 != r.2
    ensures StripSuffix(r.0, WORK_SUFFIX) == Some(container)
    ensures StripSuffix(r.1, HOME_SUFFIX) == Some(container)
    ensures StripSuffix(r.2, AGENT_HOME_SUFFIX) == Some(container)
  {
    var r := (container + WORK_SUFFIX, container + HOME_SUFFIX, container + AGENT_HOME_SUFFIX);
    var n := |container|;
    assert r.0[n + 1] == 'w' && r.1[n + 1] == 'h' && r.2[n + 1] == 'a';
    assert r.0[n..] == WORK_SUFFIX && r.1[n..] == HOME_SUFFIX && r.2[n..] == AGENT_HOME_SUFFIX;
    r
  }

  /** Different containers never share a volume. */
  lemma VolumesOfDifferentContainers(c: string, d: string)
    requires c != d
    ensures VolumeNames(c).0 != VolumeNames(d).0
    ensures VolumeNames(c).1 != VolumeNames(d).1
    ensures VolumeNames(c).2 != VolumeNames(d).2
  {
  }

  // ---------------------------------------------------------------------------
  // sanitize_tunnel_name and default_tunnel_name

  const TUNNEL_NAME_MAX := 20
  const TUNNEL_FALLBACK := "ws"

  predicate IsTunnelChar(c: char) { IsAsciiLower(c) || IsAsciiDigit(c) || c == '-' }

  predicate AllTunnelChars(s: string) { forall i :: 0 <= i < |s| ==> IsTunnelChar(s[i]) }

  /** What `sanitize_tunnel_name` leaves alone. */
  predicate IsTunnelName(s: string) {
    0 < |s| <= TUNNEL_NAME_MAX && AllTunnelChars(s) && s[0] != '-' && s[|s| - 1] != '-'
  }

  /** One iteration of the character loop: tunnel characters are kept, any other
      becomes one `-` unless the output already ends in one. */
  function TunnelPush(out: string, c: char): string {
    if IsTunnelChar(c) then out + [c]
    else if !EndsWith(out, "-") then out + ['-']
    else out
  }

  function TunnelBuild(out: string, s: string): string
    decreases |s|
  {
    if |s| == 0 then out else TunnelBuild(TunnelPush(out, s[0]), s[1..])
  }

  lemma {:induction false} TunnelBuildChars(out: string, s: string)
    requires AllTunnelChars(out)
    ensures AllTunnelChars(TunnelBuild(out, s))
    decreases |s|
  {
    if |s| > 0 {
      TunnelBuildChars(TunnelPush(out, s[0]), s[1..]);
    }
  }

  /** Tunnel characters are copied through unchanged. */
  lemma {:induction false} TunnelBuildCopies(out: string, s: string)
    requires AllTunnelChars(s)
    ensures TunnelBuild(out, s) == out + s
    decreases |s|
  {
    if |s| > 0 {
      assert TunnelPush(out, s[0]) == out + [s[0]];
      TunnelBuildCopies(out + [s[0]], s[1..]);
      assert out + [s[0]] + s[1..] == out + s;
    }
  }

  /** Without letters or digits the loop produces only dashes. */
  lemma {:induction false} TunnelBuildDashes(out: string, s: string)
    requires forall i :: 0 <= i < |out| ==> out[i] == '-'
    requires forall i :: 0 <= i < |s| ==> !IsAsciiLower(s[i]) && !IsAsciiDigit(s[i])
    ensures forall i :: 0 <= i < |TunnelBuild(out, s)| ==> TunnelBuild(out, s)[i] == '-'
    decreases |s|
  {
    if |s| > 0 {
      TunnelBuildDashes(TunnelPush(out, s[0]), s[1..]);
    }
  }

  /** Trimming dashes off tunnel characters leaves tunnel characters. */
  lemma TrimmedTunnelChars(built: string)
    requires AllTunnelChars(built)
    ensures AllTunnelChars(TrimMatchesChar(built, '-'))
  {
    var r := TrimMatchesChar(built, '-');
    forall i | 0 <= i < |r|
      ensures IsTunnelChar(r[i])
    {
      assert r[i] in r;
      var j :| 0 <= j < |built| && built[j] == r[i];
    }
  }

  /** A string with no dash at either end is its own dash-trim. */
  lemma TrimDashesNoOp(s: string)
    requires |s| > 0 && s[0] != '-' && s[|s| - 1] != '-'
    ensures TrimMatchesChar(s, '-') == s
  {
    assert !StartsWith(s, "-") by { assert s[..1] == [s[0]]; }
    assert TrimStartMatches(s, "-") == s;
    assert !EndsWith(s, "-") by { assert s[|s| - 1..] == [s[|s| - 1]]; }
    assert TrimEndMatches(s, "-") == s;
  }

  /** The loop and the trim of `sanitize_tunnel_name`, with the `ws` fallback,
      before truncation. */
  function TunnelBase(input: string): (r: string)
    ensures 0 < |r| && AllTunnelChars(r) && r[0] != '-'
  {
    var built := TunnelBuild("", ToAsciiLower(input));
    TunnelBuildChars("", ToAsciiLower(input));
    var trimmed := TrimMatchesChar(built, '-');
    TrimmedTunnelChars(built);
    if |trimmed| == 0 then TUNNEL_FALLBACK else trimmed
  }

  /** Tunnel characters without a dash at either end pass the loop and the trim
      unchanged. */
  lemma TunnelBaseOf(s: string)
    requires |s| > 0 && AllTunnelChars(s) && s[0] != '-' && s[|s| - 1] != '-'
    ensures TunnelBase(s) == s
  {
    TunnelBuildOfTunnelChars(s);
    TrimDashesNoOp(s);
  }

  /** The loop copies a string of tunnel characters. */
  lemma TunnelBuildOfTunnelChars(s: string)
    requires AllTunnelChars(s)
    ensures TunnelBuild("", ToAsciiLower(s)) == s
  {
    ToAsciiLowerNoUpper(s);
    TunnelBuildCopies("", s);
    assert "" + s == s;
  }

  /** The first 20 characters of a longer tunnel-character string. */
  function TakeTunnel(s: string): (r: string)
    requires |s| > TUNNEL_NAME_MAX && AllTunnelChars(s)
    ensures |r| == TUNNEL_NAME_MAX && AllTunnelChars(r) && r == s[..TUNNEL_NAME_MAX]
  {
    s[..TUNNEL_NAME_MAX]
  }

  /** `sanitize_tunnel_name`: lower-cased, over `[a-z0-9-]`, not starting with `-`,
      between 1 and 20 characters. */
  function SanitizeTunnelName(input: string): (r: string)
    ensures 0 < |r| <= TUNNEL_NAME_MAX
    ensures AllTunnelChars(r)
    ensures r[0] != '-'
  {
    var base := TunnelBase(input);
    if |base| <= TUNNEL_NAME_MAX then base else TakeTunnel(base)
  }

  /** A name that is already a tunnel name is kept as it is. */
  lemma SanitizeKeepsTunnelName(s: string)
    requires IsTunnelName(s)
    ensures SanitizeTunnelName(s) == s
  {
    TunnelBaseOf(s);
  }

  /** Truncation comes after trimming, so a cut that falls right behind a `-`
      leaves the name ending in `-`: sanitizing is not idempotent. */
  lemma TruncationMayEndInDash(w: string)
    requires IsTunnelName(w) && |w| == TUNNEL_NAME_MAX - 1
    ensures SanitizeTunnelName(w + "-b") == w + "-"
    ensures SanitizeTunnelName(SanitizeTunnelName(w + "-b")) == w
  {
    var s := w + "-b";
    assert AllTunnelChars(s);
    TunnelBaseOf(s);
    CutAfterDash(w);
    DashEndedBase(w);
    SanitizeKeepsTunnelName(w);
  }

  lemma CutAfterDash(w: string)
    requires |w| == TUNNEL_NAME_MAX - 1
    ensures (w + "-b")[..TUNNEL_NAME_MAX] == w + "-"
  {
  }

  /** A trailing dash is trimmed away. */
  lemma DashEndedBase(w: string)
    requires IsTunnelName(w)
    ensures TunnelBase(w + "-") == w
  {
    var t := w + "-";
    assert AllTunnelChars(t);
    TunnelBuildOfTunnelChars(t);
    TrimOneTrailingDash(w);
  }

  /** Trimming dashes off a string that has none at either end, plus one dash,
      gives back the string. */
  lemma TrimOneTrailingDash(w: string)
    requires |w| > 0 && w[0] != '-' && w[|w| - 1] != '-'
    ensures TrimMatchesChar(w + "-", '-') == w
  {
    var t := w + "-";
    NoLeadingDash(t);
    TrimEndOneDash(w);
  }

  lemma NoLeadingDash(t: string)
    requires |t| > 0 && t[0] != '-'
    ensures TrimStartMatches(t, "-") == t
  {
    assert t[..1] == [t[0]];
  }

  lemma TrimEndOneDash(w: string)
    requires |w| > 0 && w[|w| - 1] != '-'
    ensures TrimEndMatches(w + "-", "-") == w
  {
    var t := w + "-";
    assert t[|t| - 1..] == "-";
    assert t[..|t| - 1] == w;
    assert w[|w| - 1..] == [w[|w| - 1]];
  }

  /** An input without ASCII letters or digits falls back to `ws`. */
  lemma SanitizeFallback(input: string)
    requires forall i :: 0 <= i < |input| ==> !IsAsciiAlphanumeric(input[i])
    ensures SanitizeTunnelName(input) == TUNNEL_FALLBACK
  {
    var lowered := ToAsciiLower(input);
    TunnelBuildDashes("", lowered);
    var built := TunnelBuild("", lowered);
    var trimmed := TrimMatchesChar(built, '-');
  }

  const TIMESTAMP_SUFFIX := "-00000000-000000"

  /** `default_tunnel_name`: the container name without the `prefix-` it carries and
      without the all-zero timestamp suffix, sanitized. */
  function DefaultTunnelName(container: string, prefix: string): (r: string)
    ensures 0 < |r| <= TUNNEL_NAME_MAX && AllTunnelChars(r) && r[0] != '-'
  {
    var unprefixed := if StartsWith(container, prefix + "-") then container[|prefix| + 1..] else container;
    var stripped := StripSuffix(unprefixed, TIMESTAMP_SUFFIX);
    SanitizeTunnelName(if stripped.Some? then stripped.value else unprefixed)
  }

  lemma ConcatAssoc(a: string, b: string, c: string)
    ensures a + b + c == a + (b + c)
  {
  }

  /** `prefix-` followed by `x` loses exactly its prefix. */
  lemma Unprefix(prefix: string, x: string)
    ensures StartsWith(prefix + "-" + x, prefix + "-") && (prefix + "-" + x)[|prefix| + 1..] == x
  {
    DropPrefix(prefix + "-", x);
  }

  /** The tunnel name of a container named after a tunnel name `n`, with or
      without the timestamp suffix, is `n` again. */
  lemma DefaultTunnelNameRoundTrip(n: string, prefix: string)
    requires IsTunnelName(n) && !EndsWith(n, TIMESTAMP_SUFFIX)
    ensures DefaultTunnelName(prefix + "-" + n, prefix) == n
    ensures DefaultTunnelName(prefix + "-" + n + TIMESTAMP_SUFFIX, prefix) == n
  {
    SanitizeKeepsTunnelName(n);
    Unprefix(prefix, n);
    Unprefix(prefix, n + TIMESTAMP_SUFFIX);
    ConcatAssoc(prefix + "-", n, TIMESTAMP_SUFFIX);
    assert StripSuffix(n + TIMESTAMP_SUFFIX, TIMESTAMP_SUFFIX) == Some(n) by {
      assert (n + TIMESTAMP_SUFFIX)[|n|..] == TIMESTAMP_SUFFIX;
    }
  }
}

=== FILE: create_args.dfy ===
/** The arguments of `create`, on the host (`launcher/create.rs`) and in the
    container launcher (`launcher/container.rs`): flags, the workspace name, the
    private repository, and the repositories to clone. Unknown options are kept
    aside rather than rejected, and `--` ends the options. The container launcher
    also knows `--no-pull`, `--image` and `--ref`. */
module CreateArgs {
  import opened Wrappers
  import opened Strings
  import opened TokenScan
  import opened Runtime
  import opened Launcher

  datatype ParsedCreate = ParsedCreate(
    showHelp: bool, noExtras: bool, noWorkRepos: bool,
    privateRepo: Option<string>, workspaceName: Option<string>,
    primaryRepo: Option<string>, extraRepos: seq<string>, ignoredOptions: seq<string>,
    image: Option<string>, noPull: bool, refspec: Option<string>)

  /** The loop's state: the parse so far, and whether `--` has been seen. */
  datatype CreateScan = CreateScan(parsed: ParsedCreate, positionalOnly: bool)

  const INITIAL := ParsedCreate(false, false, false, None, None, None, [], [], None, false, None)
  const END_OF_OPTIONS := "--"
  const NO_WORK_REPOS := "--no-work-repos"
  const CONFLICT := "--no-work-repos does not accept repo args"

  /** The options that take a value, on each side. */
  predicate IsValueOption(side: Runtime, t: string) {
    t == "--private-repo" || t == "--name" || (side == Container && (t == "--image" || t == "--ref"))
  }

  /** Stores the value of a value option: the name is normalized, the others only
      trimmed; a blank value clears the option. */
  function SetOption(p: ParsedCreate, prefixes: seq<string>, option: string, v: string): ParsedCreate {
    if option == "--name" then p.(workspaceName := TrimmedNonempty(NormalizeWorkspaceNameForCreate(v, prefixes)))
    else if option == "--image" then p.(image := TrimmedNonempty(v))
    else if option == "--ref" then p.(refspec := TrimmedNonempty(v))
    else p.(privateRepo := TrimmedNonempty(v))
  }

  /** The value option an inline `--option=value` token names, if any. */
  function InlineOption(side: Runtime, t: string): (r: Option<string>)
    ensures r.Some? ==> IsValueOption(side, r.value) && StartsWith(t, r.value + "=")
  {
    if StartsWith(t, "--private-repo=") then Some("--private-repo")
    else if StartsWith(t, "--name=") then Some("--name")
    else if side == Container && StartsWith(t, "--image=") then Some("--image")
    else if side == Container && StartsWith(t, "--ref=") then Some("--ref")
    else None
  }

  /** The repositories named so far, in order. */
  function Repos(p: ParsedCreate): seq<string> {
    (if p.primaryRepo.Some? then [p.primaryRepo.value] else []) + p.extraRepos
  }

  /** A positional argument is the primary repository, then an extra one. */
  function AddRepo(p: ParsedCreate, t: string): (r: ParsedCreate)
    ensures (p.extraRepos != [] ==> p.primaryRepo.Some?) ==> Repos(r) == Repos(p) + [t]
    ensures r.extraRepos != [] ==> r.primaryRepo.Some?
  {
    if p.primaryRepo.None? then p.(primaryRepo := Some(t)) else p.(extraRepos := p.extraRepos + [t])
  }

  /** Some repository has been named: exactly what `--no-work-repos` forbids. */
  predicate NamesRepo(p: ParsedCreate) {
    p.primaryRepo.Some? || p.extraRepos != []
  }

  /** The facts every state of the loop keeps. */
  predicate Tidy(side: Runtime, p: ParsedCreate) {
    && (p.workspaceName.Some? ==> IsSlug(p.workspaceName.value))
    && (p.privateRepo.Some? ==> IsTrimmedName(p.privateRepo.value))
    && (p.image.Some? ==> IsTrimmedName(p.image.value))
    && (p.refspec.Some? ==> IsTrimmedName(p.refspec.value))
    && (p.extraRepos != [] ==> p.primaryRepo.Some?)
    && (side == Host ==> p.image.None? && p.refspec.None? && !p.noPull)
  }

  /** One iteration of the `while idx < args.len()` loop. */
  function CreateStep(side: Runtime, prefixes: seq<string>, st: CreateScan, t: string, next: Option<string>): (r: Step<CreateScan>)
    ensures !r.Stop?
    ensures r.Next? && st.positionalOnly ==> r.state == st.(parsed := AddRepo(st.parsed, t)) && !r.takesValue
    ensures r.Next? && Tidy(side, st.parsed) ==> Tidy(side, r.state.parsed)
  {
    var p := st.parsed;
    if st.positionalOnly then Next(st.(parsed := AddRepo(p, t)), false)
    else if IsHelpFlag(t) then Next(st.(parsed := p.(showHelp := true)), false)
    else if t == NO_WORK_REPOS then Next(st.(parsed := p.(noWorkRepos := true)), false)
    else if t == "--no-extras" then Next(st.(parsed := p.(noExtras := true)), false)
    else if side == Container && t == "--no-pull" then Next(st.(parsed := p.(noPull := true)), false)
    else if IsValueOption(side, t) then
      (match next
       case None => Fail("missing value for " + t)
       case Some(v) => TidySetOption(side, p, prefixes, t, v); Next(st.(parsed := SetOption(p, prefixes, t, v)), true))
    else if t == END_OF_OPTIONS then Next(st.(positionalOnly := true), false)
    else if InlineOption(side, t).Some? then
      var option := InlineOption(side, t).value;
      TidySetOption(side, p, prefixes, option, Trim(t[|option| + 1..]));
      Next(st.(parsed := SetOption(p, prefixes, option, Trim(t[|option| + 1..]))), false)
    else if IsDash(t) then Next(st.(parsed := p.(ignoredOptions := p.ignoredOptions + [t])), false)
    else Next(st.(parsed := AddRepo(p, t)), false)
  }

  /** No step clears `--no-work-repos` or forgets that a repository was named. */
  lemma StepKeepsConflict(side: Runtime, prefixes: seq<string>, st: CreateScan, t: string, next: Option<string>)
    ensures var r := CreateStep(side, prefixes, st, t, next);
      r.Next? ==> (st.parsed.noWorkRepos ==> r.state.parsed.noWorkRepos) && (NamesRepo(st.parsed) ==> NamesRepo(r.state.parsed))
  {
    var p := st.parsed;
    if st.positionalOnly || IsHelpFlag(t) || t == NO_WORK_REPOS || t == "--no-extras" || (side == Container && t == "--no-pull") {
    } else if IsValueOption(side, t) {
      if next.Some? {
        SetOptionKeepsRepos(p, prefixes, t, next.value);
      }
    } else if t == END_OF_OPTIONS {
    } else if InlineOption(side, t).Some? {
      var option := InlineOption(side, t).value;
      SetOptionKeepsRepos(p, prefixes, option, Trim(t[|option| + 1..]));
    }
  }

  /** A value option touches neither the flags nor the repositories. */
  lemma SetOptionKeepsRepos(p: ParsedCreate, prefixes: seq<string>, option: string, v: string)
    ensures var q := SetOption(p, prefixes, option, v);
      q.noWorkRepos == p.noWorkRepos && q.primaryRepo == p.primaryRepo && q.extraRepos == p.extraRepos
  {
  }

  /** Every value option stores a trimmed value, and the name a slug. */
  lemma TidySetOption(side: Runtime, p: ParsedCreate, prefixes: seq<string>, option: string, v: string)
    requires IsValueOption(side, option)
    ensures Tidy(side, p) ==> Tidy(side, SetOption(p, prefixes, option, v))
  {
    if option == "--name" {
      SlugIsTrimmed(NormalizeWorkspaceNameForCreate(v, prefixes));
    }
  }

  /** A slug has no outer whitespace, so keeping it trimmed keeps it whole. */
  lemma SlugIsTrimmed(s: string)
    requires IsSlug(s)
    ensures IsTrimmedName(s) && TrimmedNonempty(s) == Some(s)
  {
    assert IsSlugChar(s[0]) && IsSlugChar(s[|s| - 1]);
  }

  function CreateSteps(side: Runtime, prefixes: seq<string>): StepFn<CreateScan> {
    (s, t, n) => CreateStep(side, prefixes, s, t, n)
  }

  lemma CreateStepWellFormed(side: Runtime, prefixes: seq<string>)
    ensures WellFormed(CreateSteps(side, prefixes))
  {
    forall s: CreateScan, t: string, n: string {
      CreateStepWellFormedAt(side, prefixes, s, t, n);
    }
  }

  /** The lookahead matters only to a value option, and then only whether there is one. */
  lemma CreateStepWellFormedAt(side: Runtime, prefixes: seq<string>, s: CreateScan, t: string, n: string)
    ensures CreateStep(side, prefixes, s, t, None).Next? ==> !CreateStep(side, prefixes, s, t, None).takesValue
    ensures !CreateStep(side, prefixes, s, t, None).Fail? ==> CreateStep(side, prefixes, s, t, Some(n)) == CreateStep(side, prefixes, s, t, None)
  {
  }

  /** After the loop: `--no-work-repos` forbids repository arguments. */
  function FinishCreate(o: Outcome<CreateScan>): (r: Result<ParsedCreate>)
    ensures o.Failed? ==> r == Err(o.error)
    ensures !o.Failed? ==> (r.Ok? <==> !(o.state.parsed.noWorkRepos && Repos(o.state.parsed) != []))
    ensures r.Ok? ==> r.value == o.state.parsed
  {
    match o
    case Failed(e) => Err(e)
    case _ =>
      var p := o.state.parsed;
      if p.noWorkRepos && NamesRepo(p) then Err(CONFLICT) else Ok(p)
  }

  /** `parse_create_args`; `prefixes` are the workspace prefixes the environment
      configures (`workspace_prefixes`). */
  function ParseCreateArgs(side: Runtime, prefixes: seq<string>, args: seq<string>): (r: Result<ParsedCreate>)
    ensures r.Ok? ==> Tidy(side, r.value)
    ensures r.Ok? ==> !(r.value.noWorkRepos && Repos(r.value) != [])
    ensures |args| == 0 ==> r == Ok(INITIAL)
  {
    var o := Run(CreateSteps(side, prefixes), args, CreateScan(INITIAL, false));
    StaysTidy(side, prefixes, args);
    FinishCreate(o)
  }

  lemma StaysTidy(side: Runtime, prefixes: seq<string>, args: seq<string>)
    ensures var o := Run(CreateSteps(side, prefixes), args, CreateScan(INITIAL, false));
      !o.Failed? ==> Tidy(side, o.state.parsed)
  {
    RunInvariant(CreateSteps(side, prefixes), (s: CreateScan) => Tidy(side, s.parsed), args, CreateScan(INITIAL, false));
  }

  /** After `--`, every token is a repository, in order, options included. */
  lemma {:induction false} PositionalOnlyScan(side: Runtime, prefixes: seq<string>, p: ParsedCreate, rest: seq<string>)
    requires p.extraRepos != [] ==> p.primaryRepo.Some?
    ensures var o := Run(CreateSteps(side, prefixes), rest, CreateScan(p, true));
      o.Completed? && o.state.positionalOnly && Repos(o.state.parsed) == Repos(p) + rest
      && o.state.parsed.(primaryRepo := p.primaryRepo, extraRepos := p.extraRepos) == p
    decreases |rest|
  {
    if |rest| == 0 {
      assert Repos(p) + rest == Repos(p);
    } else {
      var q := AddRepo(p, rest[0]);
      PositionalOnlyScan(side, prefixes, q, rest[1..]);
      assert Repos(p) + [rest[0]] + rest[1..] == Repos(p) + rest;
    }
  }

  lemma DashDashTakesRest(side: Runtime, prefixes: seq<string>, opts: seq<string>, rest: seq<string>, s: ParsedCreate)
    requires Run(CreateSteps(side, prefixes), opts, CreateScan(INITIAL, false)) == Completed(CreateScan(s, false))
    ensures var r := ParseCreateArgs(side, prefixes, opts + [END_OF_OPTIONS] + rest);
      r.Ok? <==> !(s.noWorkRepos && Repos(s) + rest != [])
    ensures var r := ParseCreateArgs(side, prefixes, opts + [END_OF_OPTIONS] + rest);
      r.Ok? ==> Repos(r.value) == Repos(s) + rest && r.value.(primaryRepo := s.primaryRepo, extraRepos := s.extraRepos) == s
  {
    CreateStepWellFormed(side, prefixes);
    StaysTidy(side, prefixes, opts);
    RunAfter(CreateSteps(side, prefixes), opts, END_OF_OPTIONS, rest, CreateScan(INITIAL, false));
    assert !IsHelpFlag(END_OF_OPTIONS) && !IsValueOption(side, END_OF_OPTIONS) && END_OF_OPTIONS != NO_WORK_REPOS;
    PositionalOnlyScan(side, prefixes, s, rest);
  }

  /** Before `--`, a plain token is the next repository. */
  lemma PositionalIsRepo(side: Runtime, prefixes: seq<string>, opts: seq<string>, t: string, rest: seq<string>, s: CreateScan)
    requires Run(CreateSteps(side, prefixes), opts, CreateScan(INITIAL, false)) == Completed(s)
    requires !IsDash(t)
    ensures ParseCreateArgs(side, prefixes, opts + [t] + rest)
      == FinishCreate(Run(CreateSteps(side, prefixes), rest, s.(parsed := AddRepo(s.parsed, t))))
  {
    CreateStepWellFormed(side, prefixes);
    RunAfter(CreateSteps(side, prefixes), opts, t, rest, CreateScan(INITIAL, false));
    PlainIsNotCreateOption(side, t);
  }

  lemma PlainIsNotCreateOption(side: Runtime, t: string)
    requires !IsDash(t)
    ensures !IsHelpFlag(t) && !IsValueOption(side, t) && InlineOption(side, t).None? && t != END_OF_OPTIONS
    ensures t != NO_WORK_REPOS && t != "--no-extras" && t != "--no-pull"
  {
    PlainIsNotHelp(t);
    assert "--private-repo"[0] == '-' && "--name"[0] == '-' && "--image"[0] == '-' && "--ref"[0] == '-';
    assert "--"[0] == '-' && "--no-work-repos"[0] == '-' && "--no-extras"[0] == '-' && "--no-pull"[0] == '-';
  }

  /** Before `--`, an option the parser does not know is set aside, in order. */
  lemma UnknownOptionIgnored(side: Runtime, prefixes: seq<string>, opts: seq<string>, t: string, rest: seq<string>, s: CreateScan)
    requires Run(CreateSteps(side, prefixes), opts, CreateScan(INITIAL, false)) == Completed(s) && !s.positionalOnly
    requires IsDash(t) && !IsHelpFlag(t) && !IsValueOption(side, t) && InlineOption(side, t).None?
    requires t != END_OF_OPTIONS && t != NO_WORK_REPOS && t != "--no-extras" && !(side == Container && t == "--no-pull")
    ensures ParseCreateArgs(side, prefixes, opts + [t] + rest)
      == FinishCreate(Run(CreateSteps(side, prefixes), rest,
           s.(parsed := s.parsed.(ignoredOptions := s.parsed.ignoredOptions + [t]))))
  {
    CreateStepWellFormed(side, prefixes);
    RunAfter(CreateSteps(side, prefixes), opts, t, rest, CreateScan(INITIAL, false));
  }

  /** `--name <v>` stores the normalized name, and `--name=<v>` the normalized
      trimmed text after `=`. */
  lemma NameIsNormalized(side: Runtime, prefixes: seq<string>, opts: seq<string>, v: string, rest: seq<string>, s: CreateScan)
    requires Run(CreateSteps(side, prefixes), opts, CreateScan(INITIAL, false)) == Completed(s) && !s.positionalOnly
    ensures ParseCreateArgs(side, prefixes, opts + ["--name", v] + rest)
      == FinishCreate(Run(CreateSteps(side, prefixes), rest,
           s.(parsed := s.parsed.(workspaceName := Some(NormalizeWorkspaceNameForCreate(v, prefixes))))))
  {
    CreateStepWellFormed(side, prefixes);
    assert opts + ["--name", v] + rest == opts + ["--name"] + ([v] + rest);
    RunAfter(CreateSteps(side, prefixes), opts, "--name", [v] + rest, CreateScan(INITIAL, false));
    assert ([v] + rest)[1..] == rest;
    NameStep(side, prefixes, s, v, rest);
  }

  lemma NameStep(side: Runtime, prefixes: seq<string>, s: CreateScan, v: string, rest: seq<string>)
    requires !s.positionalOnly
    ensures CreateStep(side, prefixes, s, "--name", Lookahead(["--name"] + ([v] + rest)))
      == Next(s.(parsed := s.parsed.(workspaceName := Some(NormalizeWorkspaceNameForCreate(v, prefixes)))), true)
  {
    assert Lookahead(["--name"] + ([v] + rest)) == Some(v);
    NameSpelling(side);
    SlugIsTrimmed(NormalizeWorkspaceNameForCreate(v, prefixes));
  }

  lemma NameSpelling(side: Runtime)
    ensures !IsHelpFlag("--name") && "--name" != NO_WORK_REPOS && "--name" != "--no-extras" && "--name" != "--no-pull"
    ensures IsValueOption(side, "--name")
  {
    assert "--name"[3] == 'a' && "--no-extras"[3] == 'o' && "--no-pull"[3] == 'o' && "--no-work-repos"[3] == 'o';
  }

  lemma InlineNameIsNormalized(side: Runtime, prefixes: seq<string>, opts: seq<string>, v: string, rest: seq<string>, s: CreateScan)
    requires Run(CreateSteps(side, prefixes), opts, CreateScan(INITIAL, false)) == Completed(s) && !s.positionalOnly
    ensures ParseCreateArgs(side, prefixes, opts + ["--name=" + v] + rest)
      == FinishCreate(Run(CreateSteps(side, prefixes), rest,
           s.(parsed := s.parsed.(workspaceName := Some(NormalizeWorkspaceNameForCreate(Trim(v), prefixes))))))
  {
    CreateStepWellFormed(side, prefixes);
    RunAfter(CreateSteps(side, prefixes), opts, "--name=" + v, rest, CreateScan(INITIAL, false));
    InlineNameStep(side, prefixes, s, v, Lookahead(["--name=" + v] + rest));
  }

  lemma InlineNameStep(side: Runtime, prefixes: seq<string>, s: CreateScan, v: string, next: Option<string>)
    requires !s.positionalOnly
    ensures CreateStep(side, prefixes, s, "--name=" + v, next)
      == Next(s.(parsed := s.parsed.(workspaceName := Some(NormalizeWorkspaceNameForCreate(Trim(v), prefixes)))), false)
  {
    SlugIsTrimmed(NormalizeWorkspaceNameForCreate(Trim(v), prefixes));
    InlineNameToken(side, v);
  }

  /** `--name=<v>` is read as the inline name option and nothing else. */
  lemma InlineNameToken(side: Runtime, v: string)
    ensures var t := "--name=" + v;
      && InlineOption(side, t) == Some("--name") && t[|"--name"| + 1..] == v
      && !IsHelpFlag(t) && !IsValueOption(side, t) && t != END_OF_OPTIONS
      && t != NO_WORK_REPOS && t != "--no-extras" && t != "--no-pull"
  {
    var t := "--name=" + v;
    StartsWithConcat("--name=", v);
    assert t[|"--name"| + 1..] == v;
    assert t[2] == 'n' && t[3] == 'a' && t[6] == '=';
    assert "--private-repo="[2] == 'p';
  }

  /** A value option at the very end is an error naming it. */
  lemma TrailingValueOptionFails(side: Runtime, prefixes: seq<string>, opts: seq<string>, option: string, s: CreateScan)
    requires Run(CreateSteps(side, prefixes), opts, CreateScan(INITIAL, false)) == Completed(s) && !s.positionalOnly
    requires IsValueOption(side, option)
    ensures ParseCreateArgs(side, prefixes, opts + [option]) == Err("missing value for " + option)
  {
    CreateStepWellFormed(side, prefixes);
    RunSnoc(CreateSteps(side, prefixes), opts, option, CreateScan(INITIAL, false));
  }

  /** The host launcher knows no container options: they are set aside. */
  lemma HostIgnoresContainerOptions(prefixes: seq<string>, opts: seq<string>, t: string, rest: seq<string>, s: CreateScan)
    requires Run(CreateSteps(Host, prefixes), opts, CreateScan(INITIAL, false)) == Completed(s) && !s.positionalOnly
    requires t == "--no-pull" || t == "--image" || t == "--ref"
    ensures ParseCreateArgs(Host, prefixes, opts + [t] + rest)
      == FinishCreate(Run(CreateSteps(Host, prefixes), rest,
           s.(parsed := s.parsed.(ignoredOptions := s.parsed.ignoredOptions + [t]))))
  {
    ContainerSpellings(t);
    UnknownOptionIgnored(Host, prefixes, opts, t, rest, s);
  }

  lemma ContainerSpellings(t: string)
    requires t == "--no-pull" || t == "--image" || t == "--ref"
    ensures IsDash(t) && !IsHelpFlag(t) && !IsValueOption(Host, t) && InlineOption(Host, t).None?
    ensures t != END_OF_OPTIONS && t != NO_WORK_REPOS && t != "--no-extras"
  {
    assert t[0] == '-';
    assert "--private-repo="[2] == 'p' && "--name="[3] == 'a';
    if t == "--no-pull" {
      assert t[3] == 'o' && t[4] == '-';
    } else {
      assert t[2] == 'i' || t[2] == 'r';
    }
  }

  /** The example the launcher's tests give: `--no-work-repos octo/demo` is refused. */
  lemma NoWorkReposExample(side: Runtime, prefixes: seq<string>)
    ensures ParseCreateArgs(side, prefixes, [NO_WORK_REPOS, "octo/demo"]) == Err(CONFLICT)
  {
    var s1 := CreateScan(INITIAL.(noWorkRepos := true), false);
    assert Run(CreateSteps(side, prefixes), [NO_WORK_REPOS], CreateScan(INITIAL, false)) == Completed(s1);
    assert "octo/demo"[0] == 'o';
    PositionalIsRepo(side, prefixes, [NO_WORK_REPOS], "octo/demo", [], s1);
    assert [NO_WORK_REPOS] + ["octo/demo"] + [] == [NO_WORK_REPOS, "octo/demo"];
  }

  /** Before `--`, `--no-work-repos`, `--no-extras` and (in the container) `--no-pull`
      each set their own flag, and the scan goes on with the next token. */
  lemma FlagSets(side: Runtime, prefixes: seq<string>, opts: seq<string>, t: string, rest: seq<string>, s: CreateScan)
    requires Run(CreateSteps(side, prefixes), opts, CreateScan(INITIAL, false)) == Completed(s) && !s.positionalOnly
    requires t == NO_WORK_REPOS || t == "--no-extras" || (side == Container && t == "--no-pull")
    ensures var p := s.parsed;
      ParseCreateArgs(side, prefixes, opts + [t] + rest)
      == FinishCreate(Run(CreateSteps(side, prefixes), rest, s.(parsed :=
           if t == NO_WORK_REPOS then p.(noWorkRepos := true)
           else if t == "--no-extras" then p.(noExtras := true)
           else p.(noPull := true))))
  {
    CreateStepWellFormed(side, prefixes);
    RunAfter(CreateSteps(side, prefixes), opts, t, rest, CreateScan(INITIAL, false));
    FlagSpellings(t);
  }

  lemma FlagSpellings(t: string)
    requires t == NO_WORK_REPOS || t == "--no-extras" || t == "--no-pull"
    ensures !IsHelpFlag(t)
    ensures t == "--no-extras" ==> t != NO_WORK_REPOS
    ensures t == "--no-pull" ==> t != NO_WORK_REPOS && t != "--no-extras"
  {
    assert t[2] == 'n' && "--help"[2] == 'h';
    assert "--no-work-repos"[5] == 'w' && "--no-extras"[5] == 'e' && "--no-pull"[5] == 'p';
  }

  /** `--private-repo <v>` and `--private-repo=<v>` both store `v` trimmed, or
      nothing when it is blank. */
  lemma PrivateRepoSets(side: Runtime, prefixes: seq<string>, opts: seq<string>, v: string, rest: seq<string>, s: CreateScan)
    requires Run(CreateSteps(side, prefixes), opts, CreateScan(INITIAL, false)) == Completed(s) && !s.positionalOnly
    ensures ParseCreateArgs(side, prefixes, opts + ["--private-repo", v] + rest)
      == FinishCreate(Run(CreateSteps(side, prefixes), rest, s.(parsed := s.parsed.(privateRepo := TrimmedNonempty(v)))))
    ensures ParseCreateArgs(side, prefixes, opts + ["--private-repo=" + v] + rest)
      == FinishCreate(Run(CreateSteps(side, prefixes), rest, s.(parsed := s.parsed.(privateRepo := TrimmedNonempty(v)))))
  {
    CreateStepWellFormed(side, prefixes);
    assert opts + ["--private-repo", v] + rest == opts + ["--private-repo"] + ([v] + rest);
    RunAfter(CreateSteps(side, prefixes), opts, "--private-repo", [v] + rest, CreateScan(INITIAL, false));
    assert ([v] + rest)[1..] == rest;
    PrivateRepoStep(side, prefixes, s, v, rest);
    RunAfter(CreateSteps(side, prefixes), opts, "--private-repo=" + v, rest, CreateScan(INITIAL, false));
    InlinePrivateRepoStep(side, prefixes, s, v, Lookahead(["--private-repo=" + v] + rest));
  }

  lemma PrivateRepoStep(side: Runtime, prefixes: seq<string>, s: CreateScan, v: string, rest: seq<string>)
    requires !s.positionalOnly
    ensures CreateStep(side, prefixes, s, "--private-repo", Lookahead(["--private-repo"] + ([v] + rest)))
      == Next(s.(parsed := s.parsed.(privateRepo := TrimmedNonempty(v))), true)
  {
    assert Lookahead(["--private-repo"] + ([v] + rest)) == Some(v);
    assert "--private-repo"[2] == 'p';
  }

  lemma InlinePrivateRepoStep(side: Runtime, prefixes: seq<string>, s: CreateScan, v: string, next: Option<string>)
    requires !s.positionalOnly
    ensures CreateStep(side, prefixes, s, "--private-repo=" + v, next)
      == Next(s.(parsed := s.parsed.(privateRepo := TrimmedNonempty(v))), false)
  {
    var t := "--private-repo=" + v;
    StartsWithConcat("--private-repo=", v);
    assert t[|"--private-repo"| + 1..] == v;
    assert t[2] == 'p' && |t| > |"--private-repo"|;
    assert !IsHelpFlag(t) && !IsValueOption(side, t) && t != END_OF_OPTIONS;
    assert t != NO_WORK_REPOS && t != "--no-extras" && t != "--no-pull";
    TrimmedNonemptyOfTrim(v);
  }

  lemma TrimmedNonemptyOfTrim(v: string)
    ensures TrimmedNonempty(Trim(v)) == TrimmedNonempty(v)
  {
    TrimIdempotent(v);
  }

  /** Once `--no-work-repos` has been read as an option, any later repository
      argument (a plain token, or any token after `--`) makes the parse fail: with
      the conflict error, unless a later token fails first. */
  lemma ConflictAnywhere(side: Runtime, prefixes: seq<string>, opts: seq<string>, mid: seq<string>, t: string, rest: seq<string>, s: CreateScan, m: CreateScan)
    requires Run(CreateSteps(side, prefixes), opts, CreateScan(INITIAL, false)) == Completed(s) && !s.positionalOnly
    requires Run(CreateSteps(side, prefixes), opts + [NO_WORK_REPOS] + mid, CreateScan(INITIAL, false)) == Completed(m)
    requires !IsDash(t) || m.positionalOnly
    ensures var args := opts + [NO_WORK_REPOS] + mid + [t] + rest;
      var o := Run(CreateSteps(side, prefixes), args, CreateScan(INITIAL, false));
      ParseCreateArgs(side, prefixes, args) == if o.Failed? then Err(o.error) else Err(CONFLICT)
  {
    var step := CreateSteps(side, prefixes);
    var init := CreateScan(INITIAL, false);
    CreateStepWellFormed(side, prefixes);
    FlagSpellings(NO_WORK_REPOS);
    RunSnoc(step, opts, NO_WORK_REPOS, init);
    var s1 := s.(parsed := s.parsed.(noWorkRepos := true));
    assert Run(step, opts + [NO_WORK_REPOS], init) == Completed(s1);
    RunConcat(step, opts + [NO_WORK_REPOS], mid, init);
    forall x: CreateScan, w: string, n: Option<string> {
      StepKeepsConflict(side, prefixes, x, w, n);
    }
    RunInvariant(step, (x: CreateScan) => x.parsed.noWorkRepos, mid, s1);
    assert m.parsed.noWorkRepos;
    RunAfter(step, opts + [NO_WORK_REPOS] + mid, t, rest, init);
    var m1 := m.(parsed := AddRepo(m.parsed, t));
    if !m.positionalOnly {
      PlainIsNotCreateOption(side, t);
    }
    assert step(m, t, Lookahead([t] + rest)) == Next(m1, false);
    ConflictPersists(side, prefixes, m1, rest);
  }

  /** A state that already names a repository under `--no-work-repos` can only end
      in the conflict error, or in an error of a later token. */
  lemma ConflictPersists(side: Runtime, prefixes: seq<string>, st: CreateScan, rest: seq<string>)
    requires st.parsed.noWorkRepos && NamesRepo(st.parsed)
    ensures var o := Run(CreateSteps(side, prefixes), rest, st);
      FinishCreate(o) == if o.Failed? then Err(o.error) else Err(CONFLICT)
  {
    forall x: CreateScan, w: string, n: Option<string> {
      StepKeepsConflict(side, prefixes, x, w, n);
    }
    RunInvariant(CreateSteps(side, prefixes), (x: CreateScan) => x.parsed.noWorkRepos && NamesRepo(x.parsed), rest, st);
  }
}

=== FILE: engine.dfy ===
/** The completion engine (`completion/engine.rs`): from a parsed request to the
    candidates offered. The runtime value slot is checked first, then the
    subcommand; each subcommand's generator offers either the values of the
    option under the cursor or its flags, the global options and, while no
    workspace has been given, the workspace names. The names come from a
    provider that is asked at most once per request. */
module Engine {
  import opened Wrappers
  import opened Strings
  import opened TokenScan
  import opened Runtime
  import opened Candidates
  import opened Protocol
  import opened EngineScan

  // ---------------------------------------------------------------------------
  // The workspace provider and its cache

  /** `WorkspaceProvider::list_workspaces`, as a function of the runtime. */
  type Provider = Runtime -> Result<seq<string>>

  /** `WorkspaceContext`; `lookups` counts the calls made to the provider. */
  datatype WorkspaceContext = WorkspaceContext(
    runtime: Runtime,
    cache: Option<Result<seq<string>>>,
    workspaceError: Option<string>,
    lookups: nat)

  /** What the context can hold for a provider: the provider's answer once it has
      been asked, asked at most once, and its error recorded. */
  predicate Valid(ctx: WorkspaceContext, p: Provider) {
    ctx.lookups <= 1
    && (ctx.cache.None? <==> ctx.lookups == 0)
    && (ctx.cache.Some? ==> ctx.cache.value == p(ctx.runtime))
    && ctx.workspaceError == (if ctx.cache.Some? && ctx.cache.value.Err? then Some(ctx.cache.value.error) else None)
  }

  /** `WorkspaceContext::new` */
  function NewContext(runtime: Runtime): (r: WorkspaceContext)
    ensures r.runtime == runtime && r.lookups == 0
    ensures forall p: Provider :: Valid(r, p)
  {
    WorkspaceContext(runtime, None, None, 0)
  }

  /** The names a provider answer contributes: none when it failed. */
  function Listing(answer: Result<seq<string>>): seq<string> {
    match answer
    case Ok(names) => names
    case Err(_) => []
  }

  /** `workspace_names`: asks the provider on first use only; a failure gives no
      names and is recorded unless an error already was. */
  function WorkspaceNames(ctx: WorkspaceContext, p: Provider): (r: (seq<string>, WorkspaceContext))
    ensures r.1.runtime == ctx.runtime
    ensures r.1.lookups == if ctx.cache.None? then ctx.lookups + 1 else ctx.lookups
    ensures ctx.workspaceError.Some? ==> r.1.workspaceError == ctx.workspaceError
    ensures Valid(ctx, p) ==> Valid(r.1, p) && r.0 == Listing(p(ctx.runtime))
  {
    var filled := if ctx.cache.None? then ctx.(cache := Some(p(ctx.runtime)), lookups := ctx.lookups + 1) else ctx;
    match filled.cache.value
    case Ok(names) => (names, filled)
    case Err(e) => ([], if filled.workspaceError.None? then filled.(workspaceError := Some(e)) else filled)
  }

  /** Asking twice asks the provider once and answers the same. */
  lemma WorkspaceNamesCached(ctx: WorkspaceContext, p: Provider)
    requires Valid(ctx, p)
    ensures var (names1, ctx1) := WorkspaceNames(ctx, p);
            var (names2, ctx2) := WorkspaceNames(ctx1, p);
            names2 == names1 && ctx2 == ctx1 && ctx2.lookups == 1
  {
  }

  /** A workspace name as offered: `flag=name` in an inline value slot. */
  function NameValue(option: Option<(string, bool)>, name: string): string {
    match option
    case Some((flag, true)) => flag + "=" + name
    case _ => name
  }

  function NameCandidates(option: Option<(string, bool)>, names: seq<string>): (r: seq<Candidate>)
    ensures |r| == |names|
    ensures forall i :: 0 <= i < |names| ==> r[i] == Bare(NameValue(option, names[i]))
  {
    seq(|names|, i requires 0 <= i < |names| => Bare(NameValue(option, names[i])))
  }

  /** A generator's candidates and the context it leaves. */
  datatype Gen = Gen(cands: seq<Candidate>, ctx: WorkspaceContext)

  /** `workspace_candidates` */
  function WorkspaceCandidates(ctx: WorkspaceContext, p: Provider, option: Option<(string, bool)>): (r: Gen)
    ensures r.ctx == WorkspaceNames(ctx, p).1
    ensures Valid(ctx, p) ==> r.cands == NameCandidates(option, Listing(p(ctx.runtime)))
  {
    var (names, ctx1) := WorkspaceNames(ctx, p);
    if |names| == 0 then Gen([], ctx1) else Gen(NameCandidates(option, names), ctx1)
  }

  /** The context a generator leaves: untouched, or after one `workspace_names`. */
  predicate AtMostOneLookup(ctx: WorkspaceContext, p: Provider, after: WorkspaceContext) {
    after == ctx || after == WorkspaceNames(ctx, p).1
  }

  lemma AtMostOneLookupValid(ctx: WorkspaceContext, p: Provider, after: WorkspaceContext)
    requires Valid(ctx, p) && AtMostOneLookup(ctx, p, after)
    ensures Valid(after, p) && after.runtime == ctx.runtime
  {
  }

  // ---------------------------------------------------------------------------
  // The offered values and flags

  const TOP_LEVEL: seq<(string, string)> := [
    ("auth", "Update auth material in workspace"),
    ("create", "Create a new workspace"),
    ("ls", "List workspaces"),
    ("rm", "Remove workspace(s)"),
    ("exec", "Run command in workspace"),
    ("reset", "Reset repos in workspace"),
    ("tunnel", "Start VS Code tunnel")
  ]

  const RUNTIME_VALUES: seq<(string, string)> := [
    ("container", "Use container runtime"),
    ("host", "Use host runtime")
  ]

  const REF_VALUES: seq<(string, string)> := [
    ("origin/main", "Default remote branch"),
    ("origin/master", "Legacy default branch")
  ]

  const JSON_VALUES: seq<(string, string)> := [("json", "JSON output format")]

  const CREATE_OPTIONS: seq<string> := ["--name", "--image", "--ref", "--private-repo"]
  const CREATE_FLAGS: seq<(string, string)> := [
    ("--name", "Set workspace name"),
    ("--image", "Use custom agent image"),
    ("--ref", "Pin work repos to git ref"),
    ("--private-repo", "Attach private repository"),
    ("--no-work-repos", "Skip cloning work repositories"),
    ("--no-extras", "Skip optional setup extras"),
    ("--no-pull", "Do not pull image before create"),
    ("--help", "Show help for create"),
    ("-h", "Show help for create")
  ]

  const LS_OPTIONS: seq<string> := ["--output"]
  const LS_FLAGS: seq<(string, string)> := [
    ("--json", "Shortcut for --output json"),
    ("--output", "Set output format"),
    ("--help", "Show help for ls"),
    ("-h", "Show help for ls")
  ]

  const RM_FLAGS: seq<(string, string)> := [
    ("--all", "Remove all workspaces"),
    ("--yes", "Skip confirmation prompt"),
    ("-y", "Skip confirmation prompt"),
    ("--keep-volumes", "Keep attached volumes"),
    ("--volumes", "Remove attached volumes"),
    ("--help", "Show help for rm"),
    ("-h", "Show help for rm")
  ]

  const EXEC_OPTIONS: seq<string> := ["--user"]
  const USER_VALUES: seq<(string, string)> := [
    ("0", "UID 0 (root)"),
    ("root", "Root user"),
    ("agent", "Default agent user"),
    ("codex", "Alternate codex user")
  ]
  const EXEC_FLAGS: seq<(string, string)> := [
    ("--root", "Run command as root user"),
    ("--user", "Run command as specific user"),
    ("--help", "Show help for exec"),
    ("-h", "Show help for exec")
  ]

  const TUNNEL_OPTIONS: seq<string> := ["--name", "--output"]
  const TUNNEL_FLAGS: seq<(string, string)> := [
    ("--name", "Set tunnel display name"),
    ("--detach", "Start tunnel in background"),
    ("--output", "Set output format"),
    ("--help", "Show help for tunnel"),
    ("-h", "Show help for tunnel")
  ]

  const AUTH_OPTIONS: seq<string> := ["--container", "--workspace", "--profile", "--host", "--key"]
  const HOST_VALUES: seq<(string, string)> := [
    ("github.com", "GitHub.com"),
    ("ghe.local", "Example GitHub Enterprise host")
  ]
  const PROFILE_VALUES: seq<(string, string)> := [
    ("default", "Default Codex profile"),
    ("work", "Example work profile")
  ]
  const AUTH_FLAGS: seq<(string, string)> := [
    ("--container", "Target workspace by container name"),
    ("--workspace", "Target workspace by workspace name"),
    ("--profile", "Select Codex profile"),
    ("--host", "Set GitHub host"),
    ("--key", "Set GPG key id"),
    ("--help", "Show help for auth"),
    ("-h", "Show help for auth")
  ]
  const AUTH_PROVIDERS: seq<(string, string)> := [
    ("github", "Sync GitHub token to workspace"),
    ("codex", "Sync Codex auth file to workspace"),
    ("gpg", "Import GPG signing key into workspace")
  ]
  const GITHUB_FLAGS: seq<(string, string)> := [
    ("--host", "Set GitHub host"),
    ("--container", "Target workspace by container name"),
    ("--workspace", "Target workspace by workspace name")
  ]
  const CODEX_FLAGS: seq<(string, string)> := [
    ("--profile", "Select Codex profile"),
    ("--container", "Target workspace by container name"),
    ("--workspace", "Target workspace by workspace name")
  ]
  const GPG_FLAGS: seq<(string, string)> := [
    ("--key", "Set GPG key id"),
    ("--container", "Target workspace by container name"),
    ("--workspace", "Target workspace by workspace name")
  ]

  const RESET_NESTED: seq<(string, string)> := [
    ("repo", "Reset one repo to remote ref"),
    ("work-repos", "Reset all work repos"),
    ("opt-repos", "Reset repos under /opt"),
    ("private-repo", "Reset private repo")
  ]
  const RESET_HELP: seq<(string, string)> := [
    ("--help", "Show help for reset"),
    ("-h", "Show help for reset")
  ]
  const RESET_REPO_OPTIONS: seq<string> := ["--ref"]
  const RESET_REPO_FLAGS: seq<(string, string)> := [
    ("--ref", "Set git ref to reset"),
    ("--yes", "Skip confirmation prompt"),
    ("-y", "Skip confirmation prompt"),
    ("--help", "Show help for reset repo"),
    ("-h", "Show help for reset repo")
  ]
  const WORK_REPOS_OPTIONS: seq<string> := ["--root", "--depth", "--ref"]
  const ROOT_VALUES: seq<(string, string)> := [
    ("/work", "Default work repositories root"),
    ("/opt", "Optional repositories root")
  ]
  const DEPTH_VALUES: seq<(string, string)> := [
    ("1", "Only immediate repositories"),
    ("2", "Shallow tree scan"),
    ("3", "Default scan depth"),
    ("5", "Deeper scan depth")
  ]
  const WORK_REPOS_FLAGS: seq<(string, string)> := [
    ("--root", "Set repository root directory"),
    ("--depth", "Set fetch depth"),
    ("--ref", "Set git ref to reset"),
    ("--yes", "Skip confirmation prompt"),
    ("-y", "Skip confirmation prompt"),
    ("--help", "Show help for reset work-repos"),
    ("-h", "Show help for reset work-repos")
  ]
  const PRIVATE_REPO_FLAGS: seq<(string, string)> := [
    ("--ref", "Set git ref to reset"),
    ("--yes", "Skip confirmation prompt"),
    ("-y", "Skip confirmation prompt"),
    ("--help", "Show help for reset private-repo"),
    ("-h", "Show help for reset private-repo")
  ]
  const OPT_REPOS_FLAGS: seq<(string, string)> := [
    ("--yes", "Skip confirmation prompt"),
    ("-y", "Skip confirmation prompt"),
    ("--help", "Show help for reset opt-repos"),
    ("-h", "Show help for reset opt-repos")
  ]

  /** A generator's fixed part: its flags, then the global options. */
  function Menu(flags: seq<(string, string)>): (r: seq<Candidate>)
    ensures |r| == |flags| + 5
    ensures forall i :: 0 <= i < |flags| ==> r[i] == Described(flags[i].0, flags[i].1)
    ensures forall i :: 0 <= i < 5 ==> r[|flags| + i] == Described(GLOBAL_OPTIONS[i].0, GLOBAL_OPTIONS[i].1)
  {
    var none: seq<Candidate> := [];
    var flagged := PushDescribedValues(none, flags);
    assert forall i :: 0 <= i < |flags| ==> flagged[|none| + i] == Described(flags[i].0, flags[i].1);
    PushGlobalOptions(flagged)
  }

  /** Generators that offer workspace names append them after a fixed part. */
  function WithNames(fixed: seq<Candidate>, offer: bool, ctx: WorkspaceContext, p: Provider): (r: Gen)
    ensures AtMostOneLookup(ctx, p, r.ctx)
    ensures !offer ==> r == Gen(fixed, ctx)
    ensures Valid(ctx, p) && offer ==> r.cands == fixed + NameCandidates(None, Listing(p(ctx.runtime)))
  {
    if offer then
      var g := WorkspaceCandidates(ctx, p, None);
      Gen(fixed + g.cands, g.ctx)
    else Gen(fixed, ctx)
  }

  // ---------------------------------------------------------------------------
  // Generators

  /** `complete_top_level` */
  function CompleteTopLevel(): (r: seq<Candidate>)
    ensures r == Menu(TOP_LEVEL)
  {
    PushGlobalOptions(PushDescribedValues([], TOP_LEVEL))
  }

  /** `complete_runtime_value`: the runtime names when the cursor is on the value
      of `--runtime`, inline (filtered by what is typed) or separate. */
  function CompleteRuntimeValue(before: seq<string>, current: string): (r: Option<seq<Candidate>>)
    ensures r.Some? <==> StartsWith(current, RUNTIME_INLINE) || (|before| > 0 && before[|before| - 1] == RUNTIME_FLAG)
    ensures r.Some? && StartsWith(current, RUNTIME_INLINE) ==>
      forall c :: c in r.value ==>
        StartsWith(c.value, current) && exists x :: x in RUNTIME_VALUES && c == Described(RUNTIME_INLINE + x.0, x.1)
    ensures r.Some? && !StartsWith(current, RUNTIME_INLINE) ==> r.value == PushDescribedValues([], RUNTIME_VALUES)
  {
    match StripPrefix(current, RUNTIME_INLINE)
    case Some(typed) =>
      var kept := FilterDescribedValues(RUNTIME_VALUES, typed);
      var r := WithDescribedPrefix(RUNTIME_INLINE, kept);
      assert forall c :: c in r ==>
        StartsWith(c.value, current) && exists x :: x in RUNTIME_VALUES && c == Described(RUNTIME_INLINE + x.0, x.1) by {
        forall c | c in r
          ensures StartsWith(c.value, current)
          ensures exists x :: x in RUNTIME_VALUES && c == Described(RUNTIME_INLINE + x.0, x.1)
        {
          var i :| 0 <= i < |r| && r[i] == c;
          assert kept[i] in kept;
          PrefixedStartsWith(RUNTIME_INLINE, kept[i].0, typed);
          assert current == RUNTIME_INLINE + typed;
        }
      }
      Some(r)
    case None =>
      if |before| > 0 && before[|before| - 1] == RUNTIME_FLAG then Some(PushDescribedValues([], RUNTIME_VALUES))
      else None
  }

  lemma PrefixedStartsWith(p: string, a: string, b: string)
    requires StartsWith(a, b)
    ensures StartsWith(p + a, p + b)
  {
    assert (p + a)[..|p + b|] == p + a[..|b|];
  }

  /** `complete_create` */
  function CompleteCreate(current: string, before: seq<string>): (r: seq<Candidate>)
    ensures ValueOption(before, current, CREATE_OPTIONS).None? ==> r == Menu(CREATE_FLAGS)
    ensures ValueOption(before, current, CREATE_OPTIONS) == Some(("--ref", false)) ==> r == PushDescribedValues([], REF_VALUES)
  {
    match ValueOption(before, current, CREATE_OPTIONS)
    case Some((option, inline)) =>
      if option == "--ref" then ValueSuggestionsDescribed(option, inline, REF_VALUES)
      else ValueSuggestions(option, inline, [])
    case None => Menu(CREATE_FLAGS)
  }

  /** `complete_ls` */
  function CompleteLs(current: string, before: seq<string>): (r: seq<Candidate>)
    ensures ValueOption(before, current, LS_OPTIONS).None? ==> r == Menu(LS_FLAGS)
    ensures ValueOption(before, current, LS_OPTIONS).Some? ==> |r| == 1 && r[0].description == Some("JSON output format")
  {
    match ValueOption(before, current, LS_OPTIONS)
    case Some((option, inline)) => ValueSuggestionsDescribed(option, inline, JSON_VALUES)
    case None => Menu(LS_FLAGS)
  }

  /** The `complete_rm` scan: whether `--all` comes before the first positional,
      and whether there is a positional. */
  function RmScan(args: seq<string>): (r: (bool, bool))
    decreases |args|
  {
    if |args| == 0 then (false, false)
    else if args[0] == "--all" then (true, RmScan(args[1..]).1)
    else if IsDash(args[0]) then RmScan(args[1..])
    else (false, true)
  }

  /** Names are offered exactly when there is no positional and no `--all`. */
  lemma {:induction false} RmScanSpec(args: seq<string>)
    ensures !RmScan(args).0 && !RmScan(args).1 <==> FirstBare(args).None? && "--all" !in args
    decreases |args|
  {
    if |args| > 0 {
      RmScanSpec(args[1..]);
      assert args == [args[0]] + args[1..];
      if args[0] == "--all" {
        assert "--all" in args;
      } else if IsDash(args[0]) {
        assert "--all" in args <==> "--all" in args[1..];
      }
    }
  }

  /** `complete_rm`: its flags and the global options always; the workspace names
      while neither a name nor `--all` has been given. */
  function CompleteRm(before: seq<string>, ctx: WorkspaceContext, p: Provider): (r: Gen)
    ensures AtMostOneLookup(ctx, p, r.ctx)
    ensures |r.cands| >= |Menu(RM_FLAGS)| && r.cands[..|Menu(RM_FLAGS)|] == Menu(RM_FLAGS)
    ensures Valid(ctx, p) ==>
      r.cands[|Menu(RM_FLAGS)|..]
        == if FirstBare(before).None? && "--all" !in before then NameCandidates(None, Listing(p(ctx.runtime))) else []
  {
    var (hasAll, seen) := RmScan(before);
    RmScanSpec(before);
    var r := WithNames(Menu(RM_FLAGS), !hasAll && !seen, ctx, p);
    assert r.cands[..|Menu(RM_FLAGS)|] == Menu(RM_FLAGS);
    r
  }

  /** `complete_exec` */
  function CompleteExec(current: string, before: seq<string>, ctx: WorkspaceContext, p: Provider): (r: Gen)
    ensures AtMostOneLookup(ctx, p, r.ctx)
    ensures ValueOption(before, current, EXEC_OPTIONS).Some? ==> r.ctx == ctx
    ensures ValueOption(before, current, EXEC_OPTIONS).None? ==>
      r == WithNames(Menu(EXEC_FLAGS), FirstPositionalSkipping(before, EXEC_OPTIONS).None?, ctx, p)
  {
    match ValueOption(before, current, EXEC_OPTIONS)
    case Some((option, inline)) => Gen(ValueSuggestionsDescribed(option, inline, USER_VALUES), ctx)
    case None => WithNames(Menu(EXEC_FLAGS), FirstPositionalSkipping(before, EXEC_OPTIONS).None?, ctx, p)
  }

  /** `complete_tunnel` */
  function CompleteTunnel(current: string, before: seq<string>, ctx: WorkspaceContext, p: Provider): (r: Gen)
    ensures AtMostOneLookup(ctx, p, r.ctx)
    ensures ValueOption(before, current, TUNNEL_OPTIONS).Some? ==> r.ctx == ctx
    ensures ValueOption(before, current, TUNNEL_OPTIONS).None? ==>
      r == WithNames(Menu(TUNNEL_FLAGS), FirstPositionalSkipping(before, TUNNEL_OPTIONS).None?, ctx, p)
  {
    match ValueOption(before, current, TUNNEL_OPTIONS)
    case Some((option, inline)) =>
      if option == "--output" then Gen(ValueSuggestionsDescribed(option, inline, JSON_VALUES), ctx)
      else Gen(ValueSuggestions(option, inline, []), ctx)
    case None => WithNames(Menu(TUNNEL_FLAGS), FirstPositionalSkipping(before, TUNNEL_OPTIONS).None?, ctx, p)
  }

  // ---------------------------------------------------------------------------
  // auth

  /** The `complete_auth` scan from `idx`: the provider (first positional) and
      whether a workspace has been given (`--container`/`--workspace` with a
      non-empty value, their inline forms, or a second positional). */
  function AuthScan(args: seq<string>, idx: nat, provider: Option<string>, seen: bool): (r: (Option<string>, bool))
    ensures provider.Some? ==> r.0 == provider
    ensures seen ==> r.1
    decreases |args| - idx
  {
    if idx >= |args| then (provider, seen)
    else
      var t := args[idx];
      if t in AUTH_OPTIONS then
        if t == "--container" || t == "--workspace" then
          AuthScan(args, idx + 2, provider, seen || (idx + 1 < |args| && args[idx + 1] != ""))
        else AuthScan(args, idx + 2, provider, seen)
      else if IsInlineOf(AUTH_OPTIONS, t) then
        AuthScan(args, idx + 1, provider, seen || StartsWith(t, "--container=") || StartsWith(t, "--workspace="))
      else if IsDash(t) then AuthScan(args, idx + 1, provider, seen)
      else if provider.None? then AuthScan(args, idx + 1, Some(t), seen)
      else AuthScan(args, idx + 1, provider, true)
  }

  /** The provider the auth scan finds is the first positional once the values of
      the auth options are skipped. */
  lemma {:induction false} AuthProviderIsFirstPositional(args: seq<string>, idx: nat, seen: bool)
    ensures AuthScan(args, idx, None, seen).0 == SkipFrom(args, AUTH_OPTIONS, idx)
    decreases |args| - idx
  {
    if idx < |args| {
      var t := args[idx];
      if t in AUTH_OPTIONS {
        AuthProviderIsFirstPositional(args, idx + 2, seen || (idx + 1 < |args| && args[idx + 1] != ""));
        AuthProviderIsFirstPositional(args, idx + 2, seen);
      } else if IsInlineOf(AUTH_OPTIONS, t) {
        AuthProviderIsFirstPositional(args, idx + 1, seen || StartsWith(t, "--container=") || StartsWith(t, "--workspace="));
      } else if IsDash(t) {
        AuthProviderIsFirstPositional(args, idx + 1, seen);
      }
    }
  }

  /** The flags a provider adds. */
  function ProviderFlags(provider: string): seq<(string, string)> {
    if provider == "github" then GITHUB_FLAGS
    else if provider == "codex" then CODEX_FLAGS
    else if provider == "gpg" then GPG_FLAGS
    else []
  }

  /** The value slot of an auth option: workspace names for `--container` and
      `--workspace` (as `flag=name` inline), fixed examples for the others. */
  function AuthValues(option: string, inline: bool, ctx: WorkspaceContext, p: Provider): (r: Gen)
    ensures AtMostOneLookup(ctx, p, r.ctx)
    ensures Valid(ctx, p) && (option == "--container" || option == "--workspace")
            ==> r.cands == NameCandidates(Some((option, inline)), Listing(p(ctx.runtime)))
    ensures option != "--container" && option != "--workspace" ==> r.ctx == ctx
  {
    if option == "--container" || option == "--workspace" then
      WorkspaceCandidates(ctx, p, Some((option, inline)))
    else if option == "--host" then Gen(ValueSuggestionsDescribed(option, inline, HOST_VALUES), ctx)
    else if option == "--profile" then Gen(ValueSuggestionsDescribed(option, inline, PROFILE_VALUES), ctx)
    else Gen(ValueSuggestions(option, inline, []), ctx)
  }

  /** Outside a value slot: the auth flags and global options, then either the
      providers (none chosen yet) or the chosen provider's flags and, while no
      workspace is given, the workspace names. */
  function AuthOffer(before: seq<string>, ctx: WorkspaceContext, p: Provider): (r: Gen)
    ensures AtMostOneLookup(ctx, p, r.ctx)
    ensures FirstPositionalSkipping(before, AUTH_OPTIONS).None?
            ==> r == Gen(PushDescribedValues(Menu(AUTH_FLAGS), AUTH_PROVIDERS), ctx)
    ensures FirstPositionalSkipping(before, AUTH_OPTIONS).Some?
            ==> r == WithNames(PushDescribedValues(Menu(AUTH_FLAGS), ProviderFlags(FirstPositionalSkipping(before, AUTH_OPTIONS).value)),
                               !AuthScan(before, 0, None, false).1, ctx, p)
  {
    var (provider, seen) := AuthScan(before, 0, None, false);
    AuthProviderIsFirstPositional(before, 0, false);
    var fixed := Menu(AUTH_FLAGS);
    match provider
    case Some(name) => WithNames(PushDescribedValues(fixed, ProviderFlags(name)), !seen, ctx, p)
    case None => Gen(PushDescribedValues(fixed, AUTH_PROVIDERS), ctx)
  }

  /** `complete_auth` */
  function CompleteAuth(current: string, before: seq<string>, ctx: WorkspaceContext, p: Provider): (r: Gen)
    ensures AtMostOneLookup(ctx, p, r.ctx)
    ensures ValueOption(before, current, AUTH_OPTIONS).Some? ==>
      r == AuthValues(ValueOption(before, current, AUTH_OPTIONS).value.0, ValueOption(before, current, AUTH_OPTIONS).value.1, ctx, p)
    ensures ValueOption(before, current, AUTH_OPTIONS).None? ==> r == AuthOffer(before, ctx, p)
  {
    match ValueOption(before, current, AUTH_OPTIONS)
    case Some((option, inline)) => AuthValues(option, inline, ctx, p)
    case None => AuthOffer(before, ctx, p)
  }

  // ---------------------------------------------------------------------------
  // reset

  /** What `reset` offers before a nested command is chosen. */
  function ResetMenu(): seq<Candidate> {
    PushGlobalOptions(PushDescribedValues(PushDescribedValues([], RESET_NESTED), RESET_HELP))
  }

  /** `complete_reset_repo`: the workspace is detected with `first_positional`, so
      the value after `--ref` counts as one. */
  function CompleteResetRepo(current: string, before: seq<string>, ctx: WorkspaceContext, p: Provider): (r: Gen)
    ensures AtMostOneLookup(ctx, p, r.ctx)
    ensures ValueOption(before, current, RESET_REPO_OPTIONS).None? ==>
      r == WithNames(Menu(RESET_REPO_FLAGS), FirstPositional(before).None?, ctx, p)
  {
    match ValueOption(before, current, RESET_REPO_OPTIONS)
    case Some((option, inline)) => Gen(ValueSuggestionsDescribed(option, inline, REF_VALUES), ctx)
    case None => WithNames(Menu(RESET_REPO_FLAGS), FirstPositional(before).None?, ctx, p)
  }

  /** `complete_reset_work_repos`: the values of `--root`, `--depth` and `--ref` are
      skipped when looking for the workspace. */
  function CompleteResetWorkRepos(current: string, before: seq<string>, ctx: WorkspaceContext, p: Provider): (r: Gen)
    ensures AtMostOneLookup(ctx, p, r.ctx)
    ensures ValueOption(before, current, WORK_REPOS_OPTIONS).None? ==>
      r == WithNames(Menu(WORK_REPOS_FLAGS), FirstPositionalSkipping(before, WORK_REPOS_OPTIONS).None?, ctx, p)
  {
    match ValueOption(before, current, WORK_REPOS_OPTIONS)
    case Some((option, inline)) =>
      if option == "--root" then Gen(ValueSuggestionsDescribed(option, inline, ROOT_VALUES), ctx)
      else if option == "--depth" then Gen(ValueSuggestionsDescribed(option, inline, DEPTH_VALUES), ctx)
      else if option == "--ref" then Gen(ValueSuggestionsDescribed(option, inline, REF_VALUES), ctx)
      else Gen(ValueSuggestions(option, inline, []), ctx)
    case None => WithNames(Menu(WORK_REPOS_FLAGS), FirstPositionalSkipping(before, WORK_REPOS_OPTIONS).None?, ctx, p)
  }

  /** `complete_reset_simple`: `opt-repos` (without `--ref`) and `private-repo`
      (with it). */
  function CompleteResetSimple(current: string, before: seq<string>, ctx: WorkspaceContext, p: Provider, withRef: bool): (r: Gen)
    ensures AtMostOneLookup(ctx, p, r.ctx)
    ensures !withRef || ValueOption(before, current, RESET_REPO_OPTIONS).None? ==>
      r == WithNames(Menu(if withRef then PRIVATE_REPO_FLAGS else OPT_REPOS_FLAGS), FirstPositional(before).None?, ctx, p)
  {
    if withRef && ValueOption(before, current, RESET_REPO_OPTIONS).Some? then
      var (option, inline) := ValueOption(before, current, RESET_REPO_OPTIONS).value;
      Gen(ValueSuggestionsDescribed(option, inline, REF_VALUES), ctx)
    else
      WithNames(Menu(if withRef then PRIVATE_REPO_FLAGS else OPT_REPOS_FLAGS), FirstPositional(before).None?, ctx, p)
  }

  /** The nested commands of `reset`. */
  predicate IsResetCommand(cmd: string) {
    cmd == "repo" || cmd == "work-repos" || cmd == "opt-repos" || cmd == "private-repo"
  }

  /** `complete_reset`: dispatches on the first positional to a nested command. */
  function CompleteReset(current: string, before: seq<string>, ctx: WorkspaceContext, p: Provider): (r: Gen)
    ensures AtMostOneLookup(ctx, p, r.ctx)
    ensures FirstBare(before).None? ==> r == Gen(ResetMenu(), ctx)
    ensures FirstBare(before).Some? && !IsResetCommand(before[FirstBare(before).value])
            ==> r == Gen(PushDescribedValues([], RESET_NESTED), ctx)
  {
    if |before| == 0 then Gen(ResetMenu(), ctx)
    else match FirstBare(before)
      case None => Gen(ResetMenu(), ctx)
      case Some(i) =>
        var nested := before[i + 1..];
        var cmd := before[i];
        if cmd == "repo" then CompleteResetRepo(current, nested, ctx, p)
        else if cmd == "work-repos" then CompleteResetWorkRepos(current, nested, ctx, p)
        else if cmd == "opt-repos" then CompleteResetSimple(current, nested, ctx, p, false)
        else if cmd == "private-repo" then CompleteResetSimple(current, nested, ctx, p, true)
        else Gen(PushDescribedValues([], RESET_NESTED), ctx)
  }

  // ---------------------------------------------------------------------------
  // complete

  /** `CompletionResult` */
  datatype CompletionResult = CompletionResult(candidates: seq<Candidate>, workspaceError: Option<string>)

  /** The candidates before `finalize`, and the context they leave. */
  function Generate(request: CompletionRequest, p: Provider): (r: Gen)
    requires request.cword <= |request.words|
    ensures r.ctx.runtime == request.runtime
    ensures Valid(r.ctx, p) && r.ctx.lookups <= 1
    ensures CompleteRuntimeValue(request.WordsBeforeCursor(), request.CurrentWord()).Some? ==> r.ctx.lookups == 0
  {
    var current := request.CurrentWord();
    var before := request.WordsBeforeCursor();
    var ctx := NewContext(request.runtime);
    var r :=
      match CompleteRuntimeValue(before, current)
      case Some(values) => Gen(values, ctx)
      case None =>
        match DetectSubcommand(before)
        case None => Gen(CompleteTopLevel(), ctx)
        case Some((i, sub)) =>
          var args := StripRuntimeTokens(before[i + 1..]);
          if sub == "auth" then CompleteAuth(current, args, ctx, p)
          else if sub == "create" then Gen(CompleteCreate(current, args), ctx)
          else if sub == "ls" then Gen(CompleteLs(current, args), ctx)
          else if sub == "rm" then CompleteRm(args, ctx, p)
          else if sub == "exec" then CompleteExec(current, args, ctx, p)
          else if sub == "reset" then CompleteReset(current, args, ctx, p)
          else if sub == "tunnel" then CompleteTunnel(current, args, ctx, p)
          else Gen([], ctx);
    AtMostOneLookupValid(ctx, p, r.ctx);
    r
  }

  /** `complete`: the generated candidates, finalized against the current word,
      and the first provider error. */
  function Complete(request: CompletionRequest, p: Provider): (r: CompletionResult)
    requires request.cword <= |request.words|
    ensures Sorted(r.candidates)
    ensures forall i :: 0 <= i < |r.candidates| ==> StartsWith(r.candidates[i].value, request.CurrentWord())
    ensures r.workspaceError.Some? ==> p(request.runtime) == Err(r.workspaceError.value)
    ensures p(request.runtime).Ok? ==> r.workspaceError.None?
  {
    var g := Generate(request, p);
    FinalizePrefixed(g.cands, request.CurrentWord());
    CompletionResult(Finalize(g.cands, request.CurrentWord()), g.ctx.workspaceError)
  }

  // ---------------------------------------------------------------------------
  // Properties

  /** In the runtime value slot only runtime names are offered, and the provider
      is not asked. */
  lemma RuntimeSlotOffersOnlyRuntimes(request: CompletionRequest, p: Provider)
    requires request.cword <= |request.words|
    requires CompleteRuntimeValue(request.WordsBeforeCursor(), request.CurrentWord()).Some?
    ensures Complete(request, p).workspaceError.None?
    ensures forall c :: c in Complete(request, p).candidates ==>
      exists x :: x in RUNTIME_VALUES && (c.value == x.0 || c.value == RUNTIME_INLINE + x.0)
  {
    var current := request.CurrentWord();
    var before := request.WordsBeforeCursor();
    var values := CompleteRuntimeValue(before, current).value;
    var g := Generate(request, p);
    assert g.cands == values;
    var out := Finalize(values, current);
    forall c | c in out
      ensures exists x :: x in RUNTIME_VALUES && (c.value == x.0 || c.value == RUNTIME_INLINE + x.0)
    {
      assert c.value in Values(out);
      var j :| 0 <= j < |values| && values[j].value == c.value;
      assert values[j] in values;
      if !StartsWith(current, RUNTIME_INLINE) {
        var none: seq<Candidate> := [];
        assert values[|none| + j] == Described(RUNTIME_VALUES[j].0, RUNTIME_VALUES[j].1);
        assert RUNTIME_VALUES[j] in RUNTIME_VALUES;
      }
    }
  }

  /** A failed lookup offers no names: `rm` then offers exactly its fixed part. */
  lemma FailedLookupKeepsStatic(before: seq<string>, ctx: WorkspaceContext, p: Provider)
    requires Valid(ctx, p) && p(ctx.runtime).Err?
    ensures CompleteRm(before, ctx, p).cands == Menu(RM_FLAGS)
  {
    var r := CompleteRm(before, ctx, p);
    assert r.cands == r.cands[..|Menu(RM_FLAGS)|] + r.cands[|Menu(RM_FLAGS)|..];
  }

  /** `rm` always offers `--all`. */
  lemma RmOffersAll(before: seq<string>, ctx: WorkspaceContext, p: Provider)
    ensures Described("--all", "Remove all workspaces") in CompleteRm(before, ctx, p).cands
  {
    var r := CompleteRm(before, ctx, p);
    assert Menu(RM_FLAGS)[0] == Described(RM_FLAGS[0].0, RM_FLAGS[0].1);
    assert r.cands[0] == Menu(RM_FLAGS)[0];
  }

  /** For `exec`, the value of `--user` is not taken for the workspace: names are
      still offered after `--user <name>`. */
  lemma ExecUserValueSkipped(current: string, value: string, rest: seq<string>, ctx: WorkspaceContext, p: Provider)
    requires ValueOption(["--user", value] + rest, current, EXEC_OPTIONS).None?
    requires FirstPositionalSkipping(rest, EXEC_OPTIONS).None?
    ensures CompleteExec(current, ["--user", value] + rest, ctx, p) == WithNames(Menu(EXEC_FLAGS), true, ctx, p)
  {
    OptionValueSkipped("--user", value, rest, EXEC_OPTIONS);
  }
}

=== FILE: engine_scan.dfy ===
/** The finite-lookahead token scans of the completion engine
    (`completion/engine.rs`): locating the subcommand, removing `--runtime`
    tokens, finding the first positional argument, and recognising the slot of
    an option's value under the cursor. */
module EngineScan {
  import opened Wrappers
  import opened Strings
  import opened TokenScan
  import opened Runtime
  import opened Candidates

  // ---------------------------------------------------------------------------
  // Positional arguments

  /** Index of the first token that does not start with `-`. */
  function FirstBare(args: seq<string>): (r: Option<nat>)
    ensures r.Some? ==> r.value < |args| && !IsDash(args[r.value])
    ensures r.Some? ==> forall j :: 0 <= j < r.value ==> IsDash(args[j])
    ensures r.None? ==> forall j :: 0 <= j < |args| ==> IsDash(args[j])
    decreases |args|
  {
    if |args| == 0 then None
    else if !IsDash(args[0]) then Some(0)
    else match FirstBare(args[1..])
      case None => None
      case Some(k) => Some(k + 1)
  }

  /** `first_positional`: the first token not starting with `-`; option values
      are not skipped. */
  function FirstPositional(args: seq<string>): (r: Option<string>)
    ensures r.Some? <==> FirstBare(args).Some?
    ensures r.Some? ==> r.value == args[FirstBare(args).value]
  {
    match FirstBare(args)
    case None => None
    case Some(i) => Some(args[i])
  }

  /** The token is `<option>=…` for one of `options`. */
  predicate IsInlineOf(options: seq<string>, t: string) {
    exists k :: 0 <= k < |options| && StartsWith(t, options[k] + "=")
  }

  /** `first_positional_skipping_options`, from index `idx`: a listed option
      consumes the token after it, `--option=value` and other `-` tokens only
      themselves. */
  function SkipFrom(args: seq<string>, options: seq<string>, idx: nat): (r: Option<string>)
    ensures r.Some? ==> r.value in args && !IsDash(r.value)
    decreases |args| - idx
  {
    if idx >= |args| then None
    else
      var t := args[idx];
      if t in options then SkipFrom(args, options, idx + 2)
      else if IsInlineOf(options, t) then SkipFrom(args, options, idx + 1)
      else if IsDash(t) then SkipFrom(args, options, idx + 1)
      else Some(t)
  }

  /** `first_positional_skipping_options` */
  function FirstPositionalSkipping(args: seq<string>, options: seq<string>): (r: Option<string>)
    ensures r.Some? ==> r.value in args && !IsDash(r.value)
  {
    SkipFrom(args, options, 0)
  }

  /** If no token is one of the value options, the scans agree. */
  lemma SkippingWithoutOptionTokens(args: seq<string>, options: seq<string>)
    requires forall j :: 0 <= j < |args| ==> args[j] !in options
    requires forall k :: 0 <= k < |options| ==> StartsWith(options[k], "-")
    ensures FirstPositionalSkipping(args, options) == FirstPositional(args)
  {
    SkipFromPlainDash(args, options, 0);
    assert args[0..] == args;
  }

  lemma {:induction false} SkipFromPlainDash(args: seq<string>, options: seq<string>, idx: nat)
    requires forall j :: 0 <= j < |args| ==> args[j] !in options
    requires forall k :: 0 <= k < |options| ==> StartsWith(options[k], "-")
    requires idx <= |args|
    ensures SkipFrom(args, options, idx) == FirstPositional(args[idx..])
    decreases |args| - idx
  {
    if idx < |args| {
      var t := args[idx];
      assert args[idx..][0] == t && args[idx..][1..] == args[idx + 1..];
      if IsInlineOf(options, t) {
        var k :| 0 <= k < |options| && StartsWith(t, options[k] + "=");
        assert StartsWith(options[k] + "=", "-");
        StartsWithTrans(t, options[k] + "=", "-");
        SkipFromPlainDash(args, options, idx + 1);
      } else if IsDash(t) {
        SkipFromPlainDash(args, options, idx + 1);
      }
    }
  }

  /** The token after a value option is that option's value, never the positional. */
  lemma OptionValueSkipped(option: string, value: string, rest: seq<string>, options: seq<string>)
    requires option in options
    ensures FirstPositionalSkipping([option, value] + rest, options) == FirstPositionalSkipping(rest, options)
  {
    var args := [option, value] + rest;
    assert args[0] == option;
    SkipFromShift(args, options, 2, rest);
  }

  /** Scanning a suffix from its start is scanning the whole from the suffix's offset. */
  lemma {:induction false} SkipFromShift(args: seq<string>, options: seq<string>, n: nat, rest: seq<string>)
    requires n <= |args| && args[n..] == rest
    ensures SkipFrom(args, options, n) == SkipFrom(rest, options, 0)
    decreases |args| - n
  {
    SkipFromShiftAt(args, options, n, rest, 0);
  }

  lemma {:induction false} SkipFromShiftAt(args: seq<string>, options: seq<string>, n: nat, rest: seq<string>, i: nat)
    requires n <= |args| && args[n..] == rest
    ensures SkipFrom(args, options, n + i) == SkipFrom(rest, options, i)
    decreases |rest| - i
  {
    if i < |rest| {
      assert args[n + i] == rest[i];
      SkipFromShiftAt(args, options, n, rest, i + 1);
      SkipFromShiftAt(args, options, n, rest, i + 2);
    }
  }

  // ---------------------------------------------------------------------------
  // The subcommand and the `--runtime` tokens

  /** The scan of `detect_subcommand` from index `idx`: a bare `--runtime`
      consumes the token after it, other `-` tokens only themselves. */
  function DetectFrom(w: seq<string>, idx: nat): (r: Option<(nat, string)>)
    ensures r.Some? ==> idx <= r.value.0 < |w| && r.value.1 == w[r.value.0] && !IsDash(r.value.1)
    decreases |w| - idx
  {
    if idx >= |w| then None
    else
      var t := w[idx];
      if t == RUNTIME_FLAG then DetectFrom(w, idx + 2)
      else if StartsWith(t, RUNTIME_INLINE) then DetectFrom(w, idx + 1)
      else if IsDash(t) then DetectFrom(w, idx + 1)
      else Some((idx, t))
  }

  /** `detect_subcommand`: the position and name of the subcommand among the
      words before the cursor; the program name at index 0 is never one. */
  function DetectSubcommand(before: seq<string>): (r: Option<(nat, string)>)
    ensures |before| <= 1 ==> r.None?
    ensures r.Some? ==> 1 <= r.value.0 < |before| && r.value.1 == before[r.value.0] && !IsDash(r.value.1)
  {
    if |before| <= 1 then None else DetectFrom(before, 1)
  }

  /** `strip_runtime_tokens`: drops each `--runtime` with the token after it, and
      each `--runtime=…`; keeps everything else in order. */
  function StripRuntimeTokens(args: seq<string>): (r: seq<string>)
    ensures |r| <= |args|
    ensures forall j :: 0 <= j < |r| ==> !IsRuntimeToken(r[j]) && r[j] in args
    decreases |args|
  {
    if |args| == 0 then []
    else if args[0] == RUNTIME_FLAG then (if |args| >= 2 then StripRuntimeTokens(args[2..]) else [])
    else if StartsWith(args[0], RUNTIME_INLINE) then StripRuntimeTokens(args[1..])
    else [args[0]] + StripRuntimeTokens(args[1..])
  }

  /** Tokens that are not `--runtime` tokens pass through unchanged. */
  lemma {:induction false} StripNothing(args: seq<string>)
    requires forall j :: 0 <= j < |args| ==> !IsRuntimeToken(args[j])
    ensures StripRuntimeTokens(args) == args
    decreases |args|
  {
    if |args| > 0 {
      StripNothing(args[1..]);
      assert args == [args[0]] + args[1..];
    }
  }

  /** A `--runtime` flag removes exactly the token after it. */
  lemma StripFlagAndValue(prefix: seq<string>, value: string, rest: seq<string>)
    requires forall j :: 0 <= j < |prefix| ==> !IsRuntimeToken(prefix[j])
    ensures StripRuntimeTokens(prefix + [RUNTIME_FLAG, value] + rest) == prefix + StripRuntimeTokens(rest)
  {
    StripConcatPlain(prefix, [RUNTIME_FLAG, value] + rest);
    assert prefix + [RUNTIME_FLAG, value] + rest == prefix + ([RUNTIME_FLAG, value] + rest);
    assert ([RUNTIME_FLAG, value] + rest)[2..] == rest;
  }

  lemma {:induction false} StripConcatPlain(prefix: seq<string>, rest: seq<string>)
    requires forall j :: 0 <= j < |prefix| ==> !IsRuntimeToken(prefix[j])
    ensures StripRuntimeTokens(prefix + rest) == prefix + StripRuntimeTokens(rest)
    decreases |prefix|
  {
    if |prefix| == 0 {
      assert prefix + rest == rest;
    } else {
      assert (prefix + rest)[0] == prefix[0];
      assert (prefix + rest)[1..] == prefix[1..] + rest;
      StripConcatPlain(prefix[1..], rest);
      assert prefix == [prefix[0]] + prefix[1..];
    }
  }

  /** On arguments the launcher accepts, the engine removes the same tokens as
      `resolve_runtime`: what is left is its cleaned argument list. */
  lemma StripAgreesWithResolve(args: seq<string>)
    requires ScanRuntime(args).Completed?
    ensures StripRuntimeTokens(args) == ScanRuntime(args).state.cleaned
  {
    StripAgreesWithRun(args, ScanState(None, []));
    assert [] + StripRuntimeTokens(args) == StripRuntimeTokens(args);
  }

  /** Whenever `resolve_runtime` succeeds, its cleaned arguments are the input
      with every `--runtime` token, and the value after a separate one, removed. */
  lemma ResolveRuntimeCleaned(args: seq<string>, env: Env)
    ensures ResolveRuntime(args, env).Ok? ==> ResolveRuntime(args, env).value.1 == StripRuntimeTokens(args)
  {
    if ResolveRuntime(args, env).Ok? {
      StripAgreesWithResolve(args);
    }
  }

  lemma {:induction false} StripAgreesWithRun(args: seq<string>, st: ScanState)
    requires Run(RuntimeStep, args, st).Completed?
    ensures Run(RuntimeStep, args, st).state.cleaned == st.cleaned + StripRuntimeTokens(args)
    decreases |args|
  {
    if |args| == 0 {
      assert st.cleaned + [] == st.cleaned;
    } else {
      var t := args[0];
      var s := RuntimeStep(st, t, Lookahead(args)).state;
      if t == RUNTIME_FLAG {
        StripFlagStep(args);
        StripAgreesWithRun(args[2..], s);
      } else if StartsWith(t, RUNTIME_INLINE) {
        StripInlineStep(args);
        StripAgreesWithRun(args[1..], s);
      } else {
        StripPlainStep(args);
        StripAgreesWithRun(args[1..], s);
        ConcatOneAssoc(st.cleaned, t, StripRuntimeTokens(args[1..]));
      }
    }
  }

  lemma StripFlagStep(args: seq<string>)
    requires |args| >= 2 && args[0] == RUNTIME_FLAG
    ensures StripRuntimeTokens(args) == StripRuntimeTokens(args[2..])
  {
  }

  lemma StripInlineStep(args: seq<string>)
    requires |args| >= 1 && args[0] != RUNTIME_FLAG && StartsWith(args[0], RUNTIME_INLINE)
    ensures StripRuntimeTokens(args) == StripRuntimeTokens(args[1..])
  {
  }

  lemma StripPlainStep(args: seq<string>)
    requires |args| >= 1 && !IsRuntimeToken(args[0])
    ensures StripRuntimeTokens(args) == [args[0]] + StripRuntimeTokens(args[1..])
  {
  }

  lemma ConcatOneAssoc(a: seq<string>, t: string, b: seq<string>)
    ensures a + [t] + b == a + ([t] + b)
  {
  }

  /** The subcommand is the first positional argument left once the `--runtime`
      tokens are removed. */
  lemma {:induction false} DetectFromStripped(w: seq<string>, idx: nat)
    requires idx <= |w|
    ensures (match DetectFrom(w, idx) case None => None case Some((_, t)) => Some(t))
         == FirstPositional(StripRuntimeTokens(w[idx..]))
    decreases |w| - idx
  {
    if idx < |w| {
      var a := w[idx..];
      var t := w[idx];
      assert a[0] == t && a[1..] == w[idx + 1..];
      if t == RUNTIME_FLAG {
        if idx + 2 <= |w| {
          assert a[2..] == w[idx + 2..];
          StripFlagStep(a);
          DetectFromStripped(w, idx + 2);
        }
      } else if StartsWith(t, RUNTIME_INLINE) {
        StripInlineStep(a);
        DetectFromStripped(w, idx + 1);
      } else {
        StripPlainStep(a);
        DetectFromStripped(w, idx + 1);
        FirstPositionalCons(t, StripRuntimeTokens(w[idx + 1..]));
      }
    }
  }

  /** A bare token in front is the first positional; a dashed one is skipped. */
  lemma FirstPositionalCons(t: string, rest: seq<string>)
    ensures !IsDash(t) ==> FirstPositional([t] + rest) == Some(t)
    ensures IsDash(t) ==> FirstPositional([t] + rest) == FirstPositional(rest)
  {
    assert ([t] + rest)[0] == t && ([t] + rest)[1..] == rest;
  }

  lemma DetectSubcommandIsFirstPositional(before: seq<string>)
    requires |before| > 1
    ensures (match DetectSubcommand(before) case None => None case Some((_, t)) => Some(t))
         == FirstPositional(StripRuntimeTokens(before[1..]))
  {
    DetectFromStripped(before, 1);
  }

  // ---------------------------------------------------------------------------
  // Option values

  /** Index of the first option `o` with the current word starting `o=`. */
  function InlineOption(options: seq<string>, current: string): (r: Option<nat>)
    ensures r.Some? ==> r.value < |options| && StartsWith(current, options[r.value] + "=")
    ensures r.Some? ==> forall k :: 0 <= k < r.value ==> !StartsWith(current, options[k] + "=")
    ensures r.None? ==> !IsInlineOf(options, current)
    decreases |options|
  {
    if |options| == 0 then None
    else if StartsWith(current, options[0] + "=") then Some(0)
    else match InlineOption(options[1..], current)
      case None => None
      case Some(k) =>
        assert options[1..][k] == options[k + 1];
        Some(k + 1)
  }

  /** `value_option`: the option whose value is being completed, and whether it
      is written inline (`--option=…`) in the current word. */
  function ValueOption(before: seq<string>, current: string, options: seq<string>): (r: Option<(string, bool)>)
    ensures r.Some? && r.value.1 ==>
      InlineOption(options, current).Some? && r.value.0 == options[InlineOption(options, current).value]
    ensures r.Some? && !r.value.1 ==>
      !IsInlineOf(options, current) && |before| > 0 && r.value.0 == before[|before| - 1] && r.value.0 in options
    ensures r.None? <==> !IsInlineOf(options, current) && (|before| == 0 || before[|before| - 1] !in options)
  {
    match InlineOption(options, current)
    case Some(k) => Some((options[k], true))
    case None =>
      if |before| > 0 && before[|before| - 1] in options then Some((before[|before| - 1], false))
      else None
  }

  /** `value_suggestions`: bare values, or `option=value` when written inline. */
  function ValueSuggestions(option: string, inline: bool, values: seq<string>): (r: seq<Candidate>)
    ensures |r| == |values|
    ensures forall i :: 0 <= i < |values| ==> r[i].description.None?
  {
    if inline then WithPrefix(option + "=", values)
    else
      var none: seq<Candidate> := [];
      var r := PushValues(none, values);
      assert forall i :: 0 <= i < |values| ==> r[i].description.None? by {
        forall i | 0 <= i < |values| ensures r[i].description.None? {
          assert r[|none| + i] == Bare(values[i]);
        }
      }
      r
  }

  /** `value_suggestions_described` */
  function ValueSuggestionsDescribed(option: string, inline: bool, values: seq<(string, string)>): (r: seq<Candidate>)
    ensures |r| == |values|
    ensures forall i :: 0 <= i < |values| ==> r[i].description == Some(values[i].1)
  {
    if inline then WithDescribedPrefix(option + "=", values) else PushDescribedValues([], values)
  }

  lemma PlainDescribed(option: string, values: seq<(string, string)>)
    ensures forall i :: 0 <= i < |values| ==>
      ValueSuggestionsDescribed(option, false, values)[i] == Described(values[i].0, values[i].1)
  {
    var plain := PushDescribedValues([], values);
    forall i | 0 <= i < |values|
      ensures plain[i] == Described(values[i].0, values[i].1)
    {
      assert plain[0 + i] == Described(values[i].0, values[i].1);
    }
  }

  /** The inline suggestions are the separate ones with `option=` in front. */
  lemma InlineSuggestionsPrefixed(option: string, values: seq<(string, string)>)
    ensures var plain := ValueSuggestionsDescribed(option, false, values);
            var inline := ValueSuggestionsDescribed(option, true, values);
            |inline| == |plain|
            && forall i :: 0 <= i < |plain| ==>
                 inline[i].value == option + "=" + plain[i].value && inline[i].description == plain[i].description
  {
    PlainDescribed(option, values);
  }

  lemma InlineBareSuggestionsPrefixed(option: string, values: seq<string>)
    ensures var plain := ValueSuggestions(option, false, values);
            var inline := ValueSuggestions(option, true, values);
            |inline| == |plain| && forall i :: 0 <= i < |plain| ==> inline[i].value == option + "=" + plain[i].value
  {
    var plain := ValueSuggestions(option, false, values);
    forall i | 0 <= i < |values| ensures plain[i].value == values[i] {
      assert plain[0 + i] == Bare(values[i]);
    }
  }

  /** `filter_described_values`: the pairs whose value starts with `prefix`, in order. */
  function FilterDescribedValues(values: seq<(string, string)>, prefix: string): (r: seq<(string, string)>)
    ensures |r| <= |values|
    ensures forall x :: x in r <==> x in values && StartsWith(x.0, prefix)
    decreases |values|
  {
    if |values| == 0 then []
    else
      var rest := FilterDescribedValues(values[1..], prefix);
      assert forall x :: x in values <==> x == values[0] || x in values[1..];
      if StartsWith(values[0].0, prefix) then [values[0]] + rest else rest
  }
}

=== FILE: exec_args.dfy ===
/** The arguments of `exec` on the host (`launcher/exec.rs`): options, then the
    workspace, then the command, which takes every remaining argument verbatim. */
module ExecArgs {
  import opened Wrappers
  import opened Strings
  import opened TokenScan

  datatype ParsedExec = ParsedExec(showHelp: bool, user: Option<string>, workspace: Option<string>, command: seq<string>)

  const INITIAL := ParsedExec(false, None, None, [])
  const USER_FLAG := "--user"
  const USER_INLINE := "--user="
  /** `--root` runs the command as uid 0. */
  const ROOT_USER := "0"

  /** One iteration of the `while idx < args.len()` loop. Once the workspace is
      known, every token belongs to the command. */
  function ExecStep(st: ParsedExec, t: string, next: Option<string>): (r: Step<ParsedExec>)
    ensures st.workspace.Some? ==> r == Next(st.(command := st.command + [t]), false)
    ensures r.Next? ==> r.state.showHelp == st.showHelp
  {
    if st.workspace.Some? then Next(st.(command := st.command + [t]), false)
    else if IsHelpFlag(t) then Stop(st.(showHelp := true))
    else if t == "--root" then Next(if st.user.None? then st.(user := Some(ROOT_USER)) else st, false)
    else if t == USER_FLAG then
      match next
      case None => Fail("missing value for --user")
      case Some(v) => Next(st.(user := Some(v)), true)
    else if StartsWith(t, USER_INLINE) then Next(st.(user := Some(t[|USER_INLINE|..])), false)
    else if IsDash(t) then Fail("unknown option for exec: " + t)
    else Next(st.(workspace := Some(t)), false)
  }

  lemma ExecStepWellFormed()
    ensures WellFormed(ExecStep)
  {
    assert forall s: ParsedExec, t: string :: ExecStep(s, t, None).Next? ==> !ExecStep(s, t, None).takesValue;
    assert forall s: ParsedExec, t: string, n: string ::
      !ExecStep(s, t, None).Fail? ==> ExecStep(s, t, Some(n)) == ExecStep(s, t, None);
  }

  /** The end of the loop: help returns at once; otherwise a workspace is required. */
  function FinishExec(o: Outcome<ParsedExec>): Result<ParsedExec> {
    match o
    case Failed(e) => Err(e)
    case Stopped(s) => Ok(s)
    case Completed(s) => if s.workspace.None? then Err("missing workspace name") else Ok(s)
  }

  /** `parse_exec_args` */
  function ParseExecArgs(args: seq<string>): (r: Result<ParsedExec>)
    ensures r.Ok? && !r.value.showHelp ==> r.value.workspace.Some?
    ensures r.Ok? && r.value.showHelp ==> r.value.workspace.None? && r.value.command == []
    ensures |args| == 0 ==> r == Err("missing workspace name")
  {
    var o := Run(ExecStep, args, INITIAL);
    ExecScanShape(args, INITIAL);
    FinishExec(o)
  }

  /** Help is only seen before the workspace, and the command is only filled after it. */
  predicate ShapeOk(s: ParsedExec) {
    (s.workspace.None? ==> s.command == []) && (s.showHelp ==> s.workspace.None?)
  }

  lemma {:induction false} ExecScanShape(args: seq<string>, st: ParsedExec)
    requires ShapeOk(st) && !st.showHelp
    ensures var o := Run(ExecStep, args, st);
      (o.Completed? ==> ShapeOk(o.state) && !o.state.showHelp)
      && (o.Stopped? ==> o.state.showHelp && o.state.workspace.None? && o.state.command == [])
    decreases |args|
  {
    if |args| > 0 {
      match ExecStep(st, args[0], Lookahead(args)) {
        case Fail(_) =>
        case Stop(_) =>
        case Next(s, takesValue) =>
          if takesValue && |args| >= 2 {
            ExecScanShape(args[2..], s);
          } else {
            ExecScanShape(args[1..], s);
          }
      }
    }
  }

  /** After the workspace, the remaining tokens are appended to the command as they are. */
  lemma {:induction false} CommandTakesRest(rest: seq<string>, st: ParsedExec)
    requires st.workspace.Some?
    ensures Run(ExecStep, rest, st) == Completed(st.(command := st.command + rest))
    decreases |rest|
  {
    if |rest| == 0 {
      assert st.command + rest == st.command;
    } else {
      CommandTakesRest(rest[1..], st.(command := st.command + [rest[0]]));
      assert st.command + [rest[0]] + rest[1..] == st.command + rest;
    }
  }

  /** The first token that is not an option is the workspace; everything after it,
      options included, is the command, unchanged and in order. */
  lemma WorkspaceThenCommand(opts: seq<string>, w: string, rest: seq<string>, s: ParsedExec)
    requires Run(ExecStep, opts, INITIAL) == Completed(s) && s.workspace.None?
    requires !IsDash(w)
    ensures ParseExecArgs(opts + [w] + rest) == Ok(s.(workspace := Some(w), command := rest))
  {
    ExecStepWellFormed();
    ExecScanShape(opts, INITIAL);
    PlainIsNotHelp(w);
    assert StartsWith("--root", "-") && StartsWith(USER_FLAG, "-") && StartsWith(USER_INLINE, "-");
    PlainIsNot(w, "--root");
    PlainIsNot(w, USER_FLAG);
    PlainIsNot(w, USER_INLINE);
    assert opts + [w] + rest == opts + ([w] + rest);
    RunConcat(ExecStep, opts, [w] + rest, INITIAL);
    RunCons(ExecStep, w, rest, s);
    assert ExecStep(s, w, Lookahead([w] + rest)) == Next(s.(workspace := Some(w)), false);
    CommandTakesRest(rest, s.(workspace := Some(w)));
    assert s.command == [] && s.command + rest == rest;
  }

  /** An example: `--user agent ws-test git status`. */
  lemma ExecExample()
    ensures ParseExecArgs(["--user", "agent", "ws-test", "git", "status"])
      == Ok(ParsedExec(false, Some("agent"), Some("ws-test"), ["git", "status"]))
  {
    var opts := ["--user", "agent"];
    assert Run(ExecStep, opts, INITIAL) == Completed(INITIAL.(user := Some("agent")));
    assert "ws-test"[0] == 'w';
    assert ["--user", "agent", "ws-test", "git", "status"] == opts + ["ws-test"] + ["git", "status"];
    WorkspaceThenCommand(opts, "ws-test", ["git", "status"], INITIAL.(user := Some("agent")));
  }

  /** Help before the workspace ends the parse with nothing else read. */
  lemma HelpReturnsAtOnce(opts: seq<string>, h: string, rest: seq<string>, s: ParsedExec)
    requires Run(ExecStep, opts, INITIAL) == Completed(s) && s.workspace.None?
    requires IsHelpFlag(h)
    ensures ParseExecArgs(opts + [h] + rest) == Ok(s.(showHelp := true))
  {
    ExecStepWellFormed();
    assert opts + [h] + rest == opts + ([h] + rest);
    RunConcat(ExecStep, opts, [h] + rest, INITIAL);
    RunCons(ExecStep, h, rest, s);
  }

  /** `--root` asks for uid 0 only when no user has been chosen yet; `--user`
      always replaces the user. */
  lemma RootKeepsChosenUser(opts: seq<string>, s: ParsedExec)
    requires Run(ExecStep, opts, INITIAL) == Completed(s) && s.workspace.None?
    ensures Run(ExecStep, opts + ["--root"], INITIAL)
      == Completed(if s.user.None? then s.(user := Some(ROOT_USER)) else s)
  {
    ExecStepWellFormed();
    RunSnoc(ExecStep, opts, "--root", INITIAL);
  }

  lemma UserOverrides(opts: seq<string>, v: string, s: ParsedExec)
    requires Run(ExecStep, opts, INITIAL) == Completed(s) && s.workspace.None?
    ensures Run(ExecStep, opts + [USER_FLAG, v], INITIAL) == Completed(s.(user := Some(v)))
    ensures Run(ExecStep, opts + [USER_INLINE + v], INITIAL) == Completed(s.(user := Some(v)))
  {
    ExecStepWellFormed();
    RunConcat(ExecStep, opts, [USER_FLAG, v], INITIAL);
    RunSnoc(ExecStep, opts, USER_INLINE + v, INITIAL);
    StartsWithConcat(USER_INLINE, v);
    assert (USER_INLINE + v)[|USER_INLINE|..] == v;
  }

  /** A `--user` with nothing after it, before the workspace, is an error. */
  lemma TrailingUserFails(opts: seq<string>, s: ParsedExec)
    requires Run(ExecStep, opts, INITIAL) == Completed(s) && s.workspace.None?
    ensures ParseExecArgs(opts + [USER_FLAG]) == Err("missing value for --user")
  {
    ExecStepWellFormed();
    RunSnoc(ExecStep, opts, USER_FLAG, INITIAL);
  }

  /** An option the parser does not know, before the workspace, is an error. */
  lemma UnknownOptionFails(opts: seq<string>, t: string, rest: seq<string>, s: ParsedExec)
    requires Run(ExecStep, opts, INITIAL) == Completed(s) && s.workspace.None?
    requires IsDash(t) && !IsHelpFlag(t) && t != "--root" && t != USER_FLAG && !StartsWith(t, USER_INLINE)
    ensures ParseExecArgs(opts + [t] + rest) == Err("unknown option for exec: " + t)
  {
    ExecStepWellFormed();
    assert opts + [t] + rest == opts + ([t] + rest);
    RunConcat(ExecStep, opts, [t] + rest, INITIAL);
    RunCons(ExecStep, t, rest, s);
  }
}

=== FILE: launcher.dfy ===
/** Pure helpers of the host launcher (`launcher.rs`): the variants of a
    workspace name and the order in which stored names are tried, the slug a new
    workspace is created under, repository specs, and JSON string escaping.
    Environment variables are an explicit map. */
module Launcher {
  import opened Wrappers
  import opened Strings
  import opened Runtime

  predicate NoDup(s: seq<string>) {
    forall i, j :: 0 <= i < j < |s| ==> s[i] != s[j]
  }

  /** A string as `trimmed_nonempty` returns it: non-empty, with nothing to trim. */
  predicate IsTrimmedName(s: string) {
    |s| > 0 && NoOuterWhitespace(s)
  }

  /** Every character is White_Space (the empty string included). */
  predicate IsBlank(s: string) {
    forall i :: 0 <= i < |s| ==> IsWhitespace(s[i])
  }

  /** `trimmed_nonempty`: the trimmed text, unless nothing is left. */
  function TrimmedNonempty(s: string): (r: Option<string>)
    ensures r.Some? ==> IsTrimmedName(r.value) && |r.value| <= |s|
    ensures IsTrimmedName(s) ==> r == Some(s)
  {
    TrimSpec(s);
    assert IsTrimmedName(s) ==> Trim(s) == s by {
      if IsTrimmedName(s) { TrimNoOp(s); }
    }
    var t := Trim(s);
    if |t| == 0 then None else Some(t)
  }

  /** Nothing is left exactly when the input is blank. */
  lemma TrimmedNonemptyBlank(s: string)
    ensures TrimmedNonempty(s).None? <==> IsBlank(s)
  {
    TrimSlice(s);
    var n := LeadingWhitespace(s);
    if |Trim(s)| > 0 {
      TrimSpec(s);
      assert Trim(s)[0] == s[n];
    }
  }

  /** A string without `c` keeps none after trimming. */
  lemma TrimKeepsAbsent(s: string, c: char)
    requires !HasChar(s, c)
    ensures !HasChar(Trim(s), c)
  {
    TrimSlice(s);
    var n := LeadingWhitespace(s);
    var t := Trim(s);
    forall i | 0 <= i < |t| ensures t[i] != c {
      assert t[i] == s[n + i];
    }
  }

  // ---------------------------------------------------------------------------
  // push_unique

  /** `push_unique`: appends the value unless it is already present. */
  function PushUnique(values: seq<string>, value: string): (r: seq<string>)
    ensures forall x :: x in r <==> x in values || x == value
    ensures |values| <= |r| <= |values| + 1 && r[..|values|] == values
    ensures value in values ==> r == values
    ensures NoDup(values) ==> NoDup(r)
  {
    if value in values then values else values + [value]
  }

  /** `push_unique` applied to each value in turn. */
  function PushAll(values: seq<string>, xs: seq<string>): (r: seq<string>)
    ensures forall x :: x in r <==> x in values || x in xs
    ensures |values| <= |r| && r[..|values|] == values
    ensures NoDup(values) ==> NoDup(r)
    decreases |xs|
  {
    if |xs| == 0 then values else PushAll(PushUnique(values, xs[0]), xs[1..])
  }

  /** Values that are all new and distinct are appended as they come. */
  lemma {:induction false} PushAllFresh(values: seq<string>, xs: seq<string>)
    requires NoDup(values + xs)
    ensures PushAll(values, xs) == values + xs
    decreases |xs|
  {
    if |xs| > 0 {
      assert xs[0] == (values + xs)[|values|];
      assert xs[0] !in values by {
        forall i | 0 <= i < |values| ensures values[i] != xs[0] {
          assert values[i] == (values + xs)[i];
        }
      }
      assert values + xs == (values + [xs[0]]) + xs[1..];
      PushAllFresh(values + [xs[0]], xs[1..]);
    }
  }

  // ---------------------------------------------------------------------------
  // workspace_prefixes

  const AGENT_PREFIX_VAR := "AGENT_WORKSPACE_PREFIX"
  const CODEX_PREFIX_VAR := "CODEX_WORKSPACE_PREFIX"
  const DEFAULT_PREFIXES: seq<string> := ["agent-ws", "codex-ws"]

  /** The trimmed, non-blank value of an environment variable. */
  function EnvValue(env: Env, key: string): (r: Option<string>)
    ensures r.Some? ==> key in env && IsTrimmedName(r.value)
  {
    if key in env then TrimmedNonempty(env[key]) else None
  }

  function OptionList(o: Option<string>): (r: seq<string>)
    ensures |r| <= 1
    ensures forall x :: x in r <==> o == Some(x)
  {
    match o
    case None => []
    case Some(v) => [v]
  }

  /** The prefixes set through the environment, in the order they are read. */
  function EnvPrefixes(env: Env): seq<string> {
    OptionList(EnvValue(env, AGENT_PREFIX_VAR)) + OptionList(EnvValue(env, CODEX_PREFIX_VAR))
  }

  /** `workspace_prefixes`: the configured prefixes, then `agent-ws`, then `codex-ws`,
      each once. */
  function WorkspacePrefixes(env: Env): (r: seq<string>)
    ensures NoDup(r)
    ensures forall x :: x in r <==> x in EnvPrefixes(env) || x in DEFAULT_PREFIXES
    ensures |EnvPrefixes(env)| > 0 ==> r[0] == EnvPrefixes(env)[0]
    ensures EnvValue(env, AGENT_PREFIX_VAR).Some? ==> r[0] == EnvValue(env, AGENT_PREFIX_VAR).value
  {
    var r := PushAll([], EnvPrefixes(env) + DEFAULT_PREFIXES);
    assert |EnvPrefixes(env)| > 0 ==> r[0] == EnvPrefixes(env)[0] by {
      if |EnvPrefixes(env)| > 0 {
        var xs := EnvPrefixes(env) + DEFAULT_PREFIXES;
        assert PushAll([], xs) == PushAll([xs[0]], xs[1..]);
      }
    }
    r
  }

  /** Without configured prefixes the list is the two defaults. */
  lemma DefaultWorkspacePrefixes(env: Env)
    requires AGENT_PREFIX_VAR !in env && CODEX_PREFIX_VAR !in env
    ensures WorkspacePrefixes(env) == DEFAULT_PREFIXES
  {
    assert EnvPrefixes(env) + DEFAULT_PREFIXES == DEFAULT_PREFIXES;
    assert "agent-ws"[0] != "codex-ws"[0];
    PushAllFresh([], DEFAULT_PREFIXES);
  }

  /** Configured prefixes that differ from each other and from the defaults come
      first, in order, followed by the defaults. */
  lemma ConfiguredPrefixesFirst(env: Env)
    requires NoDup(EnvPrefixes(env) + DEFAULT_PREFIXES)
    ensures WorkspacePrefixes(env) == EnvPrefixes(env) + DEFAULT_PREFIXES
  {
    PushAllFresh([], EnvPrefixes(env) + DEFAULT_PREFIXES);
    assert [] + (EnvPrefixes(env) + DEFAULT_PREFIXES) == EnvPrefixes(env) + DEFAULT_PREFIXES;
  }

  // ---------------------------------------------------------------------------
  // workspace_name_variants

  /** The first prefix `p`, in order, such that the name starts with `p-` and
      something non-blank follows; that remainder, trimmed. */
  function StripByPrefixes(current: string, prefixes: seq<string>): (r: Option<string>)
    ensures r.Some? ==> IsTrimmedName(r.value) && |r.value| < |current|
    decreases |prefixes|
  {
    if |prefixes| == 0 then None
    else
      var rest := StripPrefix(current, prefixes[0] + "-");
      if rest.Some? && TrimmedNonempty(rest.value).Some? then TrimmedNonempty(rest.value)
      else StripByPrefixes(current, prefixes[1..])
  }

  /** One round of the stripping loop: a configured prefix, failing that `ws-`. */
  function StripOnce(current: string, prefixes: seq<string>): (r: Option<string>)
    ensures r.Some? ==> IsTrimmedName(r.value) && |r.value| < |current|
  {
    var byPrefix := StripByPrefixes(current, prefixes);
    if byPrefix.Some? then byPrefix
    else
      var rest := StripPrefix(current, "ws-");
      if rest.Some? then TrimmedNonempty(rest.value) else None
  }

  /** `n` is what is left of `current` after removing `p-` and trimming. */
  predicate StrippedBy(current: string, p: string, n: string) {
    StartsWith(current, p + "-") && n == Trim(current[|p| + 1..])
  }

  /** What one round removes is `p-` for a listed prefix `p` or `ws-`. */
  lemma {:induction false} StripOnceRemovesPrefix(current: string, prefixes: seq<string>, n: string)
    requires StripOnce(current, prefixes) == Some(n)
    ensures StrippedBy(current, "ws", n) || exists k :: 0 <= k < |prefixes| && StrippedBy(current, prefixes[k], n)
  {
    if StripByPrefixes(current, prefixes).Some? {
      StripByPrefixesRemoves(current, prefixes, n);
    }
  }

  lemma {:induction false} StripByPrefixesRemoves(current: string, prefixes: seq<string>, n: string)
    requires StripByPrefixes(current, prefixes) == Some(n)
    ensures exists k :: 0 <= k < |prefixes| && StrippedBy(current, prefixes[k], n)
    decreases |prefixes|
  {
    var rest := StripPrefix(current, prefixes[0] + "-");
    if rest.Some? && TrimmedNonempty(rest.value).Some? {
      assert StrippedBy(current, prefixes[0], n);
    } else {
      StripByPrefixesRemoves(current, prefixes[1..], n);
      var k :| 0 <= k < |prefixes[1..]| && StrippedBy(current, prefixes[1..][k], n);
      assert StrippedBy(current, prefixes[k + 1], n);
    }
  }

  /** Consecutive variants are linked by one stripping round. */
  predicate StripLinked(vs: seq<string>, prefixes: seq<string>) {
    forall i :: 0 < i < |vs| ==> StripOnce(vs[i - 1], prefixes) == Some(vs[i])
  }

  /** Every variant is strictly shorter than all earlier ones. */
  predicate Shrinking(vs: seq<string>) {
    forall i, j :: 0 <= i < j < |vs| ==> |vs[j]| < |vs[i]|
  }

  lemma ShrinkingNoDup(vs: seq<string>)
    requires Shrinking(vs)
    ensures NoDup(vs)
  {
  }

  /** A name shorter than the last of a shrinking list is not in it. */
  lemma ShorterThanLastIsNew(vs: seq<string>, n: string)
    requires |vs| > 0 && Shrinking(vs) && |n| < |vs[|vs| - 1]|
    ensures n !in vs
  {
    forall j | 0 <= j < |vs| ensures vs[j] != n {
      if j < |vs| - 1 {
        assert |vs[|vs| - 1]| < |vs[j]|;
      }
    }
  }

  /** The body of the `loop`: strip the last variant again, stopping when nothing
      strips or the result is already known. */
  function VariantsFrom(prefixes: seq<string>, variants: seq<string>): (r: seq<string>)
    requires |variants| > 0 && StripLinked(variants, prefixes) && Shrinking(variants)
    ensures |variants| <= |r| && r[..|variants|] == variants
    ensures StripLinked(r, prefixes) && Shrinking(r)
    ensures StripOnce(r[|r| - 1], prefixes).Some? ==> StripOnce(r[|r| - 1], prefixes).value in r
    decreases |variants[|variants| - 1]|
  {
    var current := variants[|variants| - 1];
    match StripOnce(current, prefixes)
    case None => variants
    case Some(next) =>
      if next in variants then variants
      else
        var longer := variants + [next];
        ExtendChain(variants, next, prefixes);
        VariantsFrom(prefixes, longer)
  }

  /** Appending the next stripping round keeps the list linked and shrinking. */
  lemma ExtendChain(vs: seq<string>, next: string, prefixes: seq<string>)
    requires |vs| > 0 && StripLinked(vs, prefixes) && Shrinking(vs)
    requires StripOnce(vs[|vs| - 1], prefixes) == Some(next)
    ensures var longer := vs + [next];
      longer[|longer| - 1] == next && longer[..|vs|] == vs
      && StripLinked(longer, prefixes) && Shrinking(longer)
  {
    var longer := vs + [next];
    assert forall i :: 0 <= i < |vs| ==> longer[i] == vs[i];
    assert StripLinked(longer, prefixes) by {
      forall i | 0 < i < |longer| ensures StripOnce(longer[i - 1], prefixes) == Some(longer[i]) {
        if i < |vs| {
          assert StripOnce(vs[i - 1], prefixes) == Some(vs[i]);
        }
      }
    }
    assert Shrinking(longer) by {
      forall i, j | 0 <= i < j < |longer| ensures |longer[j]| < |longer[i]| {
        if j == |vs| && i < |vs| - 1 {
          assert |vs[|vs| - 1]| < |vs[i]|;
        }
      }
    }
  }

  /** `workspace_name_variants`: the trimmed name, then what is left after each
      round of prefix stripping, for as long as a round strips something. */
  function WorkspaceNameVariants(input: string, prefixes: seq<string>): (r: seq<string>)
    ensures |r| == 0 <==> TrimmedNonempty(input).None?
    ensures |r| > 0 ==> r[0] == Trim(input)
    ensures forall i :: 0 <= i < |r| ==> IsTrimmedName(r[i])
    ensures StripLinked(r, prefixes) && Shrinking(r) && NoDup(r)
    ensures |r| > 0 ==> StripOnce(r[|r| - 1], prefixes).None?
  {
    match TrimmedNonempty(input)
    case None => []
    case Some(current) =>
      var r := VariantsFrom(prefixes, [current]);
      ShrinkingNoDup(r);
      assert r[0] == current;
      VariantsTrimmed(r, prefixes);
      match StripOnce(r[|r| - 1], prefixes)
      case None => r
      case Some(n) =>
        ShorterThanLastIsNew(r, n);
        r
  }

  lemma VariantsTrimmed(vs: seq<string>, prefixes: seq<string>)
    requires |vs| > 0 && IsTrimmedName(vs[0]) && StripLinked(vs, prefixes)
    ensures forall i :: 0 <= i < |vs| ==> IsTrimmedName(vs[i])
  {
    forall i | 0 < i < |vs| ensures IsTrimmedName(vs[i]) {
      assert StripOnce(vs[i - 1], prefixes) == Some(vs[i]);
    }
  }

  /** Reference definition: follow the stripping rounds from `name` until one
      strips nothing. */
  function StripChain(name: string, prefixes: seq<string>): (r: seq<string>)
    ensures |r| > 0 && r[0] == name
    decreases |name|
  {
    match StripOnce(name, prefixes)
    case None => [name]
    case Some(n) => [name] + StripChain(n, prefixes)
  }

  lemma {:induction false} VariantsFromChain(prefixes: seq<string>, variants: seq<string>)
    requires |variants| > 0 && StripLinked(variants, prefixes) && Shrinking(variants)
    ensures VariantsFrom(prefixes, variants) == variants + StripChain(variants[|variants| - 1], prefixes)[1..]
    decreases |variants[|variants| - 1]|, 1
  {
    var current := variants[|variants| - 1];
    match StripOnce(current, prefixes)
    case None =>
    case Some(next) =>
      VariantsFromChainStep(prefixes, variants, next);
  }

  lemma {:induction false} VariantsFromChainStep(prefixes: seq<string>, variants: seq<string>, next: string)
    requires |variants| > 0 && StripLinked(variants, prefixes) && Shrinking(variants)
    requires StripOnce(variants[|variants| - 1], prefixes) == Some(next)
    ensures VariantsFrom(prefixes, variants) == variants + StripChain(variants[|variants| - 1], prefixes)[1..]
    decreases |variants[|variants| - 1]|, 0
  {
    var current := variants[|variants| - 1];
    ShorterThanLastIsNew(variants, next);
    var longer := variants + [next];
    ExtendChain(variants, next, prefixes);
    assert VariantsFrom(prefixes, variants) == VariantsFrom(prefixes, longer);
    VariantsFromChain(prefixes, longer);
    var chain := StripChain(next, prefixes);
    assert StripChain(current, prefixes)[1..] == chain;
    assert chain == [next] + chain[1..];
    AppendAssoc(variants, [next], chain[1..]);
  }

  lemma AppendAssoc(a: seq<string>, b: seq<string>, c: seq<string>)
    ensures (a + b) + c == a + (b + c)
  {
  }

  /** The duplicate check of the loop never fires: the variants are exactly the
      chain of stripping rounds starting at the trimmed name. */
  lemma VariantsAreStripChain(input: string, prefixes: seq<string>)
    requires TrimmedNonempty(input).Some?
    ensures WorkspaceNameVariants(input, prefixes) == StripChain(Trim(input), prefixes)
  {
    var current := Trim(input);
    VariantsFromChain(prefixes, [current]);
    assert StripChain(current, prefixes) == [current] + StripChain(current, prefixes)[1..];
  }

  /** An example: `agent-ws-ws-demo` with the default prefixes. */
  lemma VariantsExample()
    ensures WorkspaceNameVariants("agent-ws-ws-demo", DEFAULT_PREFIXES) == ["agent-ws-ws-demo", "ws-demo", "demo"]
  {
    TrimNoOp("agent-ws-ws-demo");
    ExampleChain();
    VariantsAreStripChain("agent-ws-ws-demo", DEFAULT_PREFIXES);
  }

  lemma ExampleChain()
    ensures StripChain("agent-ws-ws-demo", DEFAULT_PREFIXES) == ["agent-ws-ws-demo", "ws-demo", "demo"]
  {
    ExampleStrips();
    assert StripChain("demo", DEFAULT_PREFIXES) == ["demo"];
    assert StripChain("ws-demo", DEFAULT_PREFIXES) == ["ws-demo", "demo"];
  }

  /** The strip steps of the example: the configured prefix, then `ws-`, then none. */
  lemma ExampleStrips()
    ensures StripOnce("agent-ws-ws-demo", DEFAULT_PREFIXES) == Some("ws-demo")
    ensures StripOnce("ws-demo", DEFAULT_PREFIXES) == Some("demo")
    ensures StripOnce("demo", DEFAULT_PREFIXES) == None
  {
    ExampleFirstStrip();
    ExampleSecondStrip();
    assert !StartsWith("demo", "ws-");
  }

  lemma ExampleFirstStrip()
    ensures StripOnce("agent-ws-ws-demo", DEFAULT_PREFIXES) == Some("ws-demo")
  {
    TrimNoOp("ws-demo");
    assert StripPrefix("agent-ws-ws-demo", "agent-ws-") == Some("ws-demo");
  }

  lemma ExampleSecondStrip()
    ensures StripOnce("ws-demo", DEFAULT_PREFIXES) == Some("demo")
  {
    TrimNoOp("demo");
    assert !StartsWith("ws-demo", "agent-ws-");
    assert !StartsWith("ws-demo", "codex-ws-");
    assert StripPrefix("ws-demo", "ws-") == Some("demo");
  }

  // ---------------------------------------------------------------------------
  // workspace_resolution_candidates

  /** A variant under a prefix: kept as is when it already carries `prefix-`. */
  function Prefixed(prefix: string, variant: string): (r: string)
    ensures StartsWith(r, prefix + "-")
    ensures EndsWith(r, variant)
  {
    if StartsWith(variant, prefix + "-") then variant
    else
      var r := prefix + "-" + variant;
      assert r[..|prefix + "-"|] == prefix + "-";
      assert r[|r| - |variant|..] == variant;
      r
  }

  /** `x` is some variant under some prefix. */
  predicate IsPrefixedVariant(x: string, variants: seq<string>, prefixes: seq<string>) {
    exists i, k :: 0 <= i < |variants| && 0 <= k < |prefixes| && x == Prefixed(prefixes[k], variants[i])
  }

  /** The first variant under each prefix. */
  function PrefixedHead(variant: string, prefixes: seq<string>): (r: seq<string>)
    ensures |r| == |prefixes|
    ensures forall k :: 0 <= k < |prefixes| ==> r[k] == Prefixed(prefixes[k], variant)
    decreases |prefixes|
  {
    if |prefixes| == 0 then [] else [Prefixed(prefixes[0], variant)] + PrefixedHead(variant, prefixes[1..])
  }

  /** What is built from the later variants is built from the variants. */
  lemma PrefixedOfTail(variants: seq<string>, prefixes: seq<string>, x: string)
    requires |variants| > 0 && IsPrefixedVariant(x, variants[1..], prefixes)
    ensures IsPrefixedVariant(x, variants, prefixes)
  {
    var i, k :| 0 <= i < |variants[1..]| && 0 <= k < |prefixes| && x == Prefixed(prefixes[k], variants[1..][i]);
    assert x == Prefixed(prefixes[k], variants[i + 1]);
  }

  /** A variant under a prefix is built from the first variant or a later one. */
  lemma PrefixedOfCons(variants: seq<string>, prefixes: seq<string>, x: string)
    requires |variants| > 0 && IsPrefixedVariant(x, variants, prefixes)
    ensures x in PrefixedHead(variants[0], prefixes) || IsPrefixedVariant(x, variants[1..], prefixes)
  {
    var i, k :| 0 <= i < |variants| && 0 <= k < |prefixes| && x == Prefixed(prefixes[k], variants[i]);
    if i == 0 {
      assert PrefixedHead(variants[0], prefixes)[k] == x;
    } else {
      assert variants[i] == variants[1..][i - 1];
    }
  }

  /** Every variant under every prefix, variant by variant. */
  function PrefixedAll(variants: seq<string>, prefixes: seq<string>): (r: seq<string>)
    ensures forall x :: x in r <==> IsPrefixedVariant(x, variants, prefixes)
    decreases |variants|
  {
    if |variants| == 0 then []
    else
      var head := PrefixedHead(variants[0], prefixes);
      var tail := PrefixedAll(variants[1..], prefixes);
      assert forall x :: x in head + tail ==> IsPrefixedVariant(x, variants, prefixes) by {
        forall x | x in head + tail
          ensures IsPrefixedVariant(x, variants, prefixes)
        {
          if x in tail {
            PrefixedOfTail(variants, prefixes, x);
          } else {
            var k :| 0 <= k < |head| && head[k] == x;
            assert x == Prefixed(prefixes[k], variants[0]);
          }
        }
      }
      assert forall x :: IsPrefixedVariant(x, variants, prefixes) ==> x in head + tail by {
        forall x | IsPrefixedVariant(x, variants, prefixes)
          ensures x in head + tail
        {
          PrefixedOfCons(variants, prefixes, x);
        }
      }
      head + tail
  }

  /** `workspace_resolution_candidates`: the variants first, in order, then each
      variant under each prefix, without repeats. */
  function WorkspaceResolutionCandidates(name: string, prefixes: seq<string>): (r: seq<string>)
    ensures NoDup(r)
    ensures var vs := WorkspaceNameVariants(name, prefixes); |vs| <= |r| && r[..|vs|] == vs
    ensures forall x :: x in r <==>
      var vs := WorkspaceNameVariants(name, prefixes);
      x in vs || IsPrefixedVariant(x, vs, prefixes)
    ensures TrimmedNonempty(name).None? ==> r == []
  {
    var vs := WorkspaceNameVariants(name, prefixes);
    PushAllFresh([], vs);
    assert [] + vs == vs;
    PushAll(PushAll([], vs), PrefixedAll(vs, prefixes))
  }

  // ---------------------------------------------------------------------------
  // slugify_name and normalize_workspace_name_for_create

  const FALLBACK_NAME := "workspace"

  predicate IsSlugChar(c: char) {
    IsAsciiDigit(c) || IsAsciiLower(c) || c == '-' || c == '_'
  }

  predicate AllSlugChars(s: string) {
    forall i :: 0 <= i < |s| ==> IsSlugChar(s[i])
  }

  /** A slug: non-empty, over `[a-z0-9_-]`, not starting or ending with `-`. */
  predicate IsSlug(s: string) {
    |s| > 0 && AllSlugChars(s) && s[0] != '-' && s[|s| - 1] != '-'
  }

  /** Characters that become a single `-`. */
  predicate IsWordBreak(c: char) {
    IsAsciiWhitespace(c) || c == '/' || c == '.' || c == ':'
  }

  /** One iteration of the character loop in `slugify_name`. */
  function SlugPush(out: string, c: char): string {
    if IsAsciiAlphanumeric(c) || c == '-' || c == '_' then out + [LowerChar(c)]
    else if IsWordBreak(c) && !EndsWith(out, "-") then out + ['-']
    else out
  }

  function SlugBuild(out: string, s: string): string
    decreases |s|
  {
    if |s| == 0 then out else SlugBuild(SlugPush(out, s[0]), s[1..])
  }

  lemma {:induction false} SlugBuildChars(out: string, s: string)
    requires AllSlugChars(out)
    ensures AllSlugChars(SlugBuild(out, s))
    decreases |s|
  {
    if |s| > 0 {
      SlugBuildChars(SlugPush(out, s[0]), s[1..]);
    }
  }

  /** Slug characters are copied through unchanged. */
  lemma {:induction false} SlugBuildCopies(out: string, s: string)
    requires AllSlugChars(s)
    ensures SlugBuild(out, s) == out + s
    decreases |s|
  {
    if |s| > 0 {
      assert SlugPush(out, s[0]) == out + [s[0]];
      SlugBuildCopies(out + [s[0]], s[1..]);
      assert out + [s[0]] + s[1..] == out + s;
    }
  }

  /** A character the loop copies into the slug. */
  predicate KeepsInSlug(c: char) {
    IsAsciiAlphanumeric(c) || c == '_'
  }

  predicate AllDashes(s: string) {
    forall i :: 0 <= i < |s| ==> s[i] == '-'
  }

  /** Without a letter, digit or `_` to copy, the loop writes only dashes. */
  lemma {:induction false} SlugBuildDashes(out: string, s: string)
    requires AllDashes(out)
    requires forall i :: 0 <= i < |s| ==> !KeepsInSlug(s[i])
    ensures AllDashes(SlugBuild(out, s))
    decreases |s|
  {
    if |s| > 0 {
      assert s[0] == '-' ==> LowerChar(s[0]) == '-';
      assert AllDashes(SlugPush(out, s[0]));
      SlugBuildDashes(SlugPush(out, s[0]), s[1..]);
    }
  }

  /** `slugify_name` */
  function SlugifyName(name: string): (r: string)
    ensures IsSlug(r)
  {
    var built := SlugBuild("", name);
    SlugBuildChars("", name);
    var out := TrimMatchesChar(built, '-');
    if |out| == 0 then FALLBACK_NAME else out
  }

  /** A name with no letter, digit or `_` slugifies to the fallback `workspace`. */
  lemma SlugifyFallback(name: string)
    requires forall i :: 0 <= i < |name| ==> !KeepsInSlug(name[i])
    ensures SlugifyName(name) == FALLBACK_NAME
  {
    var built := SlugBuild("", name);
    SlugBuildDashes("", name);
    assert |TrimMatchesChar(built, '-')| == 0;
  }

  /** A slug is its own slug, so slugifying twice is slugifying once. */
  lemma SlugifyKeepsSlug(s: string)
    requires IsSlug(s)
    ensures SlugifyName(s) == s
  {
    SlugBuildCopies("", s);
    assert "" + s == s;
    assert !StartsWith(s, "-") by { assert s[..1] == [s[0]]; }
    assert !EndsWith(s, "-") by { assert s[|s| - 1..] == [s[|s| - 1]]; }
  }

  lemma SlugifyIdempotent(name: string)
    ensures SlugifyName(SlugifyName(name)) == SlugifyName(name)
  {
    SlugifyKeepsSlug(SlugifyName(name));
  }

  /** `normalize_workspace_name_for_create`: the slug of the last variant. */
  function NormalizeWorkspaceNameForCreate(name: string, prefixes: seq<string>): (r: string)
    ensures IsSlug(r)
  {
    var vs := WorkspaceNameVariants(name, prefixes);
    var resolved :=
      if |vs| > 0 then vs[|vs| - 1]
      else match TrimmedNonempty(name)
        case Some(t) => t
        case None => FALLBACK_NAME;
    SlugifyName(resolved)
  }

  /** The name that is slugified is the end of the stripping chain, and a blank
      name becomes `workspace`. */
  lemma NormalizeUsesStrippedName(name: string, prefixes: seq<string>)
    ensures TrimmedNonempty(name).Some? ==>
      var chain := StripChain(Trim(name), prefixes);
      NormalizeWorkspaceNameForCreate(name, prefixes) == SlugifyName(chain[|chain| - 1])
      && StripOnce(chain[|chain| - 1], prefixes).None?
    ensures TrimmedNonempty(name).None? ==> NormalizeWorkspaceNameForCreate(name, prefixes) == FALLBACK_NAME
  {
    if TrimmedNonempty(name).Some? {
      VariantsAreStripChain(name, prefixes);
    } else {
      assert IsSlug(FALLBACK_NAME);
      SlugifyKeepsSlug(FALLBACK_NAME);
    }
  }

  lemma NormalizeExample()
    ensures NormalizeWorkspaceNameForCreate("agent-ws-ws-demo", DEFAULT_PREFIXES) == "demo"
  {
    VariantsExample();
    assert IsSlug("demo");
    SlugifyKeepsSlug("demo");
  }

  // ---------------------------------------------------------------------------
  // json_escape

  predicate IsRawControl(c: char) {
    c == '\n' || c == '\r' || c == '\t'
  }

  predicate NeedsEscape(c: char) {
    c == '"' || c == '\\' || IsRawControl(c)
  }

  function EscapeChar(c: char): string {
    match c
    case '"' => "\\\""
    case '\\' => "\\\\"
    case '\n' => "\\n"
    case '\r' => "\\r"
    case '\t' => "\\t"
    case _ => [c]
  }

  /** `json_escape` */
  function JsonEscape(s: string): (r: string)
    ensures forall i :: 0 <= i < |r| ==> !IsRawControl(r[i])
    decreases |s|
  {
    if |s| == 0 then "" else EscapeChar(s[0]) + JsonEscape(s[1..])
  }

  /** Text with nothing to escape is returned unchanged. */
  lemma {:induction false} JsonEscapeClean(s: string)
    requires forall i :: 0 <= i < |s| ==> !NeedsEscape(s[i])
    ensures JsonEscape(s) == s
    decreases |s|
  {
    if |s| > 0 {
      JsonEscapeClean(s[1..]);
      assert s == [s[0]] + s[1..];
    }
  }

  function UnescapeChar(c: char): char {
    match c
    case 'n' => '\n'
    case 'r' => '\r'
    case 't' => '\t'
    case _ => c
  }

  /** Reading a JSON string body back: a backslash and the character after it
      stand for one character. */
  function JsonUnescape(s: string): string
    decreases |s|
  {
    if |s| == 0 then ""
    else if s[0] == '\\' && |s| >= 2 then [UnescapeChar(s[1])] + JsonUnescape(s[2..])
    else [s[0]] + JsonUnescape(s[1..])
  }

  /** Escaping loses nothing: unescaping gives the original text back. */
  lemma {:induction false} JsonEscapeRoundTrip(s: string)
    ensures JsonUnescape(JsonEscape(s)) == s
    decreases |s|
  {
    if |s| > 0 {
      var e := EscapeChar(s[0]);
      var rest := JsonEscape(s[1..]);
      JsonEscapeRoundTrip(s[1..]);
      if NeedsEscape(s[0]) {
        assert |e| == 2 && e[0] == '\\' && UnescapeChar(e[1]) == s[0];
        assert (e + rest)[2..] == rest;
      } else {
        assert e == [s[0]];
        assert (e + rest)[1..] == rest;
      }
      assert s == [s[0]] + s[1..];
    }
  }

  // ---------------------------------------------------------------------------
  // parse_repo_spec

  datatype RepoSpec = RepoSpec(owner: string, repo: string, ownerRepo: string, cloneUrl: string)

  const HTTP_SCHEME := "http://"
  const HTTPS_SCHEME := "https://"
  const SCP_USER := "git@"
  const SSH_USER := "ssh://git@"

  function CloneUrl(host: string, owner: string, repo: string): string {
    "https://" + host + "/" + owner + "/" + repo + ".git"
  }

  /** A spec written as a URL (`http(s)://`, `git@host:`, `ssh://git@host/`). */
  predicate UrlForm(cleaned: string) {
    StartsWith(cleaned, HTTP_SCHEME) || StartsWith(cleaned, HTTPS_SCHEME)
    || StartsWith(cleaned, SCP_USER) || StartsWith(cleaned, SSH_USER)
  }

  /** The host and the `owner/repo` part. In an `http://` or `https://` spec the
      first `://` is the one that ends the scheme, so what follows the scheme is
      what `split_once("://")` returns. */
  function RepoLocation(cleaned: string, defaultHost: string): (r: Option<(string, string)>)
    ensures !UrlForm(cleaned) ==> r == Some((defaultHost, cleaned))
  {
    if StartsWith(cleaned, HTTP_SCHEME) || StartsWith(cleaned, HTTPS_SCHEME) then
      var withoutScheme := if StartsWith(cleaned, HTTP_SCHEME) then cleaned[|HTTP_SCHEME|..] else cleaned[|HTTPS_SCHEME|..];
      SplitOnce(withoutScheme, '/')
    else if StartsWith(cleaned, SCP_USER) then SplitOnce(cleaned[|SCP_USER|..], ':')
    else if StartsWith(cleaned, SSH_USER) then SplitOnce(cleaned[|SSH_USER|..], '/')
    else Some((defaultHost, cleaned))
  }

  /** `parse_repo_spec` */
  function ParseRepoSpec(input: string, defaultHost: string): (r: Option<RepoSpec>)
    ensures TrimmedNonempty(input).None? ==> r.None?
    ensures r.Some? ==>
      var spec := r.value;
      IsTrimmedName(spec.owner) && IsTrimmedName(spec.repo)
      && !HasChar(spec.owner, '/') && !HasChar(spec.repo, '/')
      && spec.ownerRepo == spec.owner + "/" + spec.repo
      && RepoLocation(Trim(input), defaultHost).Some?
      && spec.cloneUrl == CloneUrl(RepoLocation(Trim(input), defaultHost).value.0, spec.owner, spec.repo)
    ensures r.Some? && !UrlForm(Trim(input)) ==>
      r.value.cloneUrl == CloneUrl(defaultHost, r.value.owner, r.value.repo)
  {
    var cleaned := Trim(input);
    if |cleaned| == 0 then None
    else match RepoLocation(cleaned, defaultHost)
      case None => None
      case Some((host, path)) =>
        var ownerRepo := OwnerRepoPart(path);
        var pieces := SplitOn(ownerRepo, '/');
        if |pieces| < 2 then None
        else
          var owner := Trim(pieces[0]);
          var repo := Trim(pieces[1]);
          TrimKeepsAbsent(pieces[0], '/');
          TrimKeepsAbsent(pieces[1], '/');
          TrimSpec(pieces[0]);
          TrimSpec(pieces[1]);
          if |owner| == 0 || |repo| == 0 then None
          else Some(RepoSpec(owner, repo, owner + "/" + repo, CloneUrl(host, owner, repo)))
  }

  /** Trimming a pattern off `s + pat` is trimming it off `s`. */
  lemma TrimEndMatchesAppended(s: string, pat: string)
    requires |pat| > 0
    ensures TrimEndMatches(s + pat, pat) == TrimEndMatches(s, pat)
  {
    assert (s + pat)[|s + pat| - |pat|..] == pat;
    assert (s + pat)[..|s + pat| - |pat|] == s;
  }

  /** `owner/repo` with a repository name that neither ends in `.git` nor holds a
      `/` survives the suffix trimming and splits into its two names. */
  lemma OwnerRepoPieces(owner: string, repo: string)
    requires |owner| > 0 && |repo| > 0 && !HasChar(owner, '/') && !HasChar(repo, '/')
    requires !EndsWith(repo, ".git")
    ensures TrimEndMatches(TrimEndMatches(owner + "/" + repo, ".git"), "/") == owner + "/" + repo
    ensures SplitOn(owner + "/" + repo, '/') == [owner, repo]
  {
    OwnerRepoSuffixes(owner, repo);
    assert Join([owner, repo], "/") == owner + "/" + repo;
    SplitOnJoin([owner, repo], '/');
  }

  lemma OwnerRepoSuffixes(owner: string, repo: string)
    requires |repo| > 0 && !HasChar(repo, '/')
    requires !EndsWith(repo, ".git")
    ensures TrimEndMatches(TrimEndMatches(owner + "/" + repo, ".git"), "/") == owner + "/" + repo
  {
    var s := owner + "/" + repo;
    assert !EndsWith(s, ".git") by {
      if |repo| >= 4 {
        assert s[|s| - 4..] == repo[|repo| - 4..];
      } else if |s| >= 4 {
        assert s[|s| - |repo| - 1] == '/';
        assert forall k :: 0 <= k < 4 ==> ".git"[k] != '/';
        assert s[|s| - 4..][4 - |repo| - 1] == '/';
      }
    }
    assert !EndsWith(s, "/") by {
      assert s[|s| - 1] == repo[|repo| - 1];
      assert s[|s| - 1..] == [s[|s| - 1]];
    }
  }

  /** A prefix of a string without `c` has no `c` either. */
  lemma PrefixLacks(s: string, t: string, c: char)
    requires !HasChar(s, c) && |t| <= |s| && t == s[..|t|]
    ensures !HasChar(t, c)
  {
    assert forall i :: 0 <= i < |t| ==> t[i] == s[i];
  }

  /** A string without `c` splits into itself alone. */
  lemma SplitOnLacking(s: string, c: char)
    requires !HasChar(s, c)
    ensures SplitOn(s, c) == [s]
  {
  }

  /** The `owner/repo` part of a spec after `.git` and trailing `/` are trimmed off. */
  function OwnerRepoPart(path: string): (r: string)
    ensures |r| <= |path| && r == path[..|r|]
  {
    TrimEndMatches(TrimEndMatches(path, ".git"), "/")
  }

  /** A spec whose `owner/repo` part holds no `/` names no repository:
      `octo` and `https://github.com/octo` are refused. */
  lemma MissingRepo(input: string, defaultHost: string)
    requires RepoLocation(Trim(input), defaultHost).Some?
    requires !HasChar(RepoLocation(Trim(input), defaultHost).value.1, '/')
    ensures ParseRepoSpec(input, defaultHost).None?
  {
    var path := RepoLocation(Trim(input), defaultHost).value.1;
    var part := OwnerRepoPart(path);
    PrefixLacks(path, part, '/');
    SplitOnLacking(part, '/');
  }

  /** A spec whose owner is blank is refused: `/demo`, `https://github.com//demo`. */
  lemma BlankOwner(input: string, defaultHost: string, owner: string, rest: string)
    requires RepoLocation(Trim(input), defaultHost).Some?
    requires RepoLocation(Trim(input), defaultHost).value.1 == owner + "/" + rest
    requires !HasChar(owner, '/') && Trim(owner) == ""
    ensures ParseRepoSpec(input, defaultHost).None?
  {
    BlankOwnerPieces(owner, rest);
  }

  /** After `owner/` with a blank owner, the first piece is blank or there is only one. */
  lemma BlankOwnerPieces(owner: string, rest: string)
    requires !HasChar(owner, '/') && Trim(owner) == ""
    ensures var pieces := SplitOn(OwnerRepoPart(owner + "/" + rest), '/');
      |pieces| < 2 || Trim(pieces[0]) == ""
  {
    var path := owner + "/" + rest;
    var part := OwnerRepoPart(path);
    if |part| <= |owner| {
      assert part == owner[..|part|];
      PrefixLacks(owner, part, '/');
      SplitOnLacking(part, '/');
    } else {
      var tail := part[|owner| + 1..];
      assert part == owner + ['/'] + tail;
      SplitOnceAt(owner, '/', tail);
    }
  }

  /** A spec whose owner is followed only by slashes names no repository:
      `octo/` and `octo//` are refused. */
  lemma SlashesOnlyAfterOwner(input: string, defaultHost: string, owner: string, slashes: string)
    requires RepoLocation(Trim(input), defaultHost).Some?
    requires RepoLocation(Trim(input), defaultHost).value.1 == owner + "/" + slashes
    requires !HasChar(owner, '/') && forall i :: 0 <= i < |slashes| ==> slashes[i] == '/'
    ensures ParseRepoSpec(input, defaultHost).None?
  {
    var part := OwnerRepoPart(owner + "/" + slashes);
    SlashesTrimmedAway(owner, slashes);
    assert part == owner[..|part|];
    PrefixLacks(owner, part, '/');
    SplitOnLacking(part, '/');
  }

  /** Trimming `.git` and trailing `/` off `owner/` plus slashes leaves at most the owner. */
  lemma SlashesTrimmedAway(owner: string, slashes: string)
    requires forall i :: 0 <= i < |slashes| ==> slashes[i] == '/'
    ensures |OwnerRepoPart(owner + "/" + slashes)| <= |owner|
  {
    var path := owner + "/" + slashes;
    assert path[|path| - 1] == '/';
    assert !EndsWith(path, ".git") by {
      if |path| >= 4 { assert path[|path| - 4..][3] == path[|path| - 1]; }
    }
    var part := TrimEndMatches(path, "/");
    assert part == OwnerRepoPart(path);
    assert |part| == 0 || part[|part| - 1] != '/' by {
      if |part| > 0 { assert part[|part| - 1..] == [part[|part| - 1]]; }
    }
  }

  /** The short form `owner/repo` is read with the default host. */
  lemma ShortSpecParses(owner: string, repo: string, host: string)
    requires IsTrimmedName(owner) && IsTrimmedName(repo)
    requires !HasChar(owner, '/') && !HasChar(repo, '/') && !EndsWith(repo, ".git")
    requires !UrlForm(owner + "/" + repo)
    ensures ParseRepoSpec(owner + "/" + repo, host)
      == Some(RepoSpec(owner, repo, owner + "/" + repo, CloneUrl(host, owner, repo)))
  {
    var s := owner + "/" + repo;
    TrimNoOp(s);
    OwnerRepoPieces(owner, repo);
    TrimNoOp(owner);
    TrimNoOp(repo);
  }

  /** Parsing a clone URL gives back the owner and repository it was built from. */
  lemma CloneUrlParses(host: string, owner: string, repo: string, defaultHost: string)
    requires !HasChar(host, '/')
    requires IsTrimmedName(owner) && IsTrimmedName(repo)
    requires !HasChar(owner, '/') && !HasChar(repo, '/') && !EndsWith(repo, ".git")
    ensures ParseRepoSpec(CloneUrl(host, owner, repo), defaultHost)
      == Some(RepoSpec(owner, repo, owner + "/" + repo, CloneUrl(host, owner, repo)))
  {
    CloneUrlLocation(host, owner, repo, defaultHost);
    GitPathPieces(owner, repo);
    TrimNoOp(owner);
    TrimNoOp(repo);
  }

  /** A clone URL is read as its host and the `owner/repo.git` path after it. */
  lemma CloneUrlLocation(host: string, owner: string, repo: string, defaultHost: string)
    requires !HasChar(host, '/')
    ensures Trim(CloneUrl(host, owner, repo)) == CloneUrl(host, owner, repo)
    ensures RepoLocation(CloneUrl(host, owner, repo), defaultHost) == Some((host, owner + "/" + repo + ".git"))
  {
    var url := CloneUrl(host, owner, repo);
    var ownerRepo := owner + "/" + repo;
    var rest := host + "/" + ownerRepo + ".git";
    assert url == HTTPS_SCHEME + rest;
    StartsWithConcat(HTTPS_SCHEME, rest);
    assert url[4] == 's';
    assert !StartsWith(url, HTTP_SCHEME) by { assert HTTP_SCHEME[4] == ':'; }
    assert url[|url| - 1] == 't';
    TrimNoOp(url);
    assert url[|HTTPS_SCHEME|..] == rest;
    assert rest == host + "/" + (ownerRepo + ".git");
    SplitOnceAt(host, '/', ownerRepo + ".git");
  }

  /** The path `owner/repo.git` loses its suffix and splits into its two names. */
  lemma GitPathPieces(owner: string, repo: string)
    requires |owner| > 0 && |repo| > 0 && !HasChar(owner, '/') && !HasChar(repo, '/')
    requires !EndsWith(repo, ".git")
    ensures OwnerRepoPart(owner + "/" + repo + ".git") == owner + "/" + repo
    ensures SplitOn(owner + "/" + repo, '/') == [owner, repo]
  {
    TrimEndMatchesAppended(owner + "/" + repo, ".git");
    OwnerRepoPieces(owner, repo);
  }

  /** A path `owner/repo` followed by nothing or by further `/` pieces splits
      with `owner` and `repo` as its first two pieces. */
  lemma FirstTwoPieces(owner: string, repo: string, rest: string)
    requires !HasChar(owner, '/') && !HasChar(repo, '/')
    requires rest == "" || rest[0] == '/'
    ensures var pieces := SplitOn(owner + "/" + repo + rest, '/');
      |pieces| >= 2 && pieces[0] == owner && pieces[1] == repo
  {
    assert owner + "/" + repo + rest == owner + ['/'] + (repo + rest);
    SplitOnceAt(owner, '/', repo + rest);
    if rest == "" {
      assert repo + rest == repo;
      SplitOnLacking(repo, '/');
    } else {
      assert repo + rest == repo + ['/'] + rest[1..];
      SplitOnceAt(repo, '/', rest[1..]);
    }
  }

  /** The owner and repository are the first two `/` pieces of the trimmed path,
      each trimmed; later pieces are dropped, and a blank one of the two is refused. */
  lemma OwnerRepoFromPieces(input: string, host: string, owner: string, repo: string, rest: string)
    requires RepoLocation(Trim(input), host).Some?
    requires OwnerRepoPart(RepoLocation(Trim(input), host).value.1) == owner + "/" + repo + rest
    requires !HasChar(owner, '/') && !HasChar(repo, '/')
    requires rest == "" || rest[0] == '/'
    ensures Trim(owner) == "" || Trim(repo) == "" ==> ParseRepoSpec(input, host).None?
    ensures Trim(owner) != "" && Trim(repo) != "" ==>
      ParseRepoSpec(input, host).Some?
      && ParseRepoSpec(input, host).value.owner == Trim(owner)
      && ParseRepoSpec(input, host).value.repo == Trim(repo)
  {
    FirstTwoPieces(owner, repo, rest);
  }

  /** An `https://` spec is read as the host up to the first `/` and the path after it. */
  lemma HttpsLocation(host: string, path: string, defaultHost: string)
    requires !HasChar(host, '/')
    ensures RepoLocation(HTTPS_SCHEME + host + "/" + path, defaultHost) == Some((host, path))
  {
    var url := HTTPS_SCHEME + host + "/" + path;
    var rest := host + "/" + path;
    assert url == HTTPS_SCHEME + rest;
    StartsWithConcat(HTTPS_SCHEME, rest);
    assert url[4] == 's';
    assert !StartsWith(url, HTTP_SCHEME) by { assert HTTP_SCHEME[4] == ':'; }
    assert url[|HTTPS_SCHEME|..] == rest;
    assert rest == host + ['/'] + path;
    SplitOnceAt(host, '/', path);
  }

  /** A path that ends in neither `/` nor `.git` is its own `owner/repo` part. */
  lemma PartKept(path: string)
    requires |path| > 0 && path[|path| - 1] != '/' && !EndsWith(path, ".git")
    ensures OwnerRepoPart(path) == path
  {
    assert !EndsWith(path, "/") by { assert path[|path| - 1..] != "/"; }
  }

  /** An `https://` spec names the first two pieces of its path, whatever follows
      them, and builds the clone URL on the spec's own host. */
  lemma HttpsUrlParses(host: string, owner: string, repo: string, rest: string, defaultHost: string)
    requires !HasChar(host, '/')
    requires IsTrimmedName(owner) && IsTrimmedName(repo) && !HasChar(owner, '/') && !HasChar(repo, '/')
    requires rest == "" || (rest[0] == '/' && rest[|rest| - 1] != '/')
    requires !EndsWith(owner + "/" + repo + rest, ".git") && NoOuterWhitespace(rest)
    ensures ParseRepoSpec(HTTPS_SCHEME + host + "/" + (owner + "/" + repo + rest), defaultHost)
      == Some(RepoSpec(owner, repo, owner + "/" + repo, CloneUrl(host, owner, repo)))
  {
    var url := HTTPS_SCHEME + host + "/" + (owner + "/" + repo + rest);
    assert url[0] == 'h';
    assert url[|url| - 1] == if rest == "" then repo[|repo| - 1] else rest[|rest| - 1];
    TrimNoOp(url);
    var path := owner + "/" + repo + rest;
    assert path[|path| - 1] == if rest == "" then repo[|repo| - 1] else rest[|rest| - 1];
    PartKept(path);
    HttpsLocation(host, path, defaultHost);
    OwnerRepoFromPieces(url, defaultHost, owner, repo, rest);
    TrimNoOp(owner);
    TrimNoOp(repo);
  }

  /** An example: a blank middle piece names no repository. */
  lemma BlankRepoPieceExample()
    ensures ParseRepoSpec("octo//demo", "github.com").None?
  {
    BlankRepoPieceShape();
    OwnerRepoFromPieces("octo//demo", "github.com", "octo", "", "/demo");
  }

  lemma BlankRepoPieceShape()
    ensures RepoLocation(Trim("octo//demo"), "github.com").Some?
    ensures OwnerRepoPart(RepoLocation(Trim("octo//demo"), "github.com").value.1) == "octo" + "/" + "" + "/demo"
  {
    var s := "octo//demo";
    TrimNoOp(s);
    assert !UrlForm(s);
    assert s[|s| - 1] == 'o' && s[|s| - 4..] != ".git";
    PartKept(s);
    assert s == "octo" + "/" + "" + "/demo";
  }
}

=== FILE: ls_args.dfy ===
/** The arguments of `ls` on the host (`launcher/ls.rs`): only help and the JSON
    output switches; every positional argument is an error. */
module LsArgs {
  import opened Wrappers
  import opened Strings
  import opened TokenScan

  datatype ParsedLs = ParsedLs(showHelp: bool, json: bool)

  const INITIAL := ParsedLs(false, false)
  const JSON_FLAG := "--json"
  const OUTPUT_FLAG := "--output"
  const OUTPUT_INLINE := "--output="
  const JSON := "json"

  /** One iteration of the `while idx < args.len()` loop. */
  function LsStep(st: ParsedLs, t: string, next: Option<string>): (r: Step<ParsedLs>)
    ensures !r.Stop?
  {
    if IsHelpFlag(t) then Next(st.(showHelp := true), false)
    else if t == JSON_FLAG then Next(st.(json := true), false)
    else if t == OUTPUT_FLAG then
      match next
      case None => Fail("missing value for --output")
      case Some(v) => if v != JSON then Fail("unsupported --output value: " + v) else Next(st.(json := true), true)
    else if StartsWith(t, OUTPUT_INLINE) then
      var v := t[|OUTPUT_INLINE|..];
      if v != JSON then Fail("unsupported --output value: " + v) else Next(st.(json := true), false)
    else if IsDash(t) then Fail("unknown option for ls: " + t)
    else Fail("unexpected arg for ls: " + t)
  }

  lemma LsStepWellFormed()
    ensures WellFormed(LsStep)
  {
    assert forall s: ParsedLs, t: string :: LsStep(s, t, None).Next? ==> !LsStep(s, t, None).takesValue;
    assert forall s: ParsedLs, t: string, n: string ::
      !LsStep(s, t, None).Fail? ==> LsStep(s, t, Some(n)) == LsStep(s, t, None);
  }

  /** The tokens that ask for JSON output on their own. */
  predicate IsJsonRequest(t: string) { t == JSON_FLAG || t == OUTPUT_FLAG || t == OUTPUT_INLINE + JSON }

  predicate AnyJsonRequest(args: seq<string>) { exists i :: 0 <= i < |args| && IsJsonRequest(args[i]) }
  predicate AnyHelp(args: seq<string>) { exists i :: 0 <= i < |args| && IsHelpFlag(args[i]) }

  /** The arguments `ls` accepts, as a grammar: each is a help flag, `--json`,
      `--output=json`, or `--output` followed by `json`. */
  predicate LsGrammar(args: seq<string>)
    decreases |args|
  {
    if |args| == 0 then true
    else if IsHelpFlag(args[0]) || args[0] == JSON_FLAG || args[0] == OUTPUT_INLINE + JSON then LsGrammar(args[1..])
    else args[0] == OUTPUT_FLAG && |args| >= 2 && args[1] == JSON && LsGrammar(args[2..])
  }

  /** `parse_ls_args` */
  function ParseLsArgs(args: seq<string>): (r: Result<ParsedLs>)
    ensures r.Ok? <==> LsGrammar(args)
    ensures r.Ok? ==> (r.value.json <==> AnyJsonRequest(args)) && (r.value.showHelp <==> AnyHelp(args))
  {
    LsScan(args, INITIAL);
    match Run(LsStep, args, INITIAL)
    case Failed(e) => Err(e)
    case Completed(s) => Ok(s)
    case Stopped(s) => Ok(s)
  }

  lemma AnyCons(args: seq<string>)
    requires |args| > 0
    ensures AnyJsonRequest(args) <==> IsJsonRequest(args[0]) || AnyJsonRequest(args[1..])
    ensures AnyHelp(args) <==> IsHelpFlag(args[0]) || AnyHelp(args[1..])
  {
    if AnyJsonRequest(args) && !IsJsonRequest(args[0]) {
      var i :| 0 <= i < |args| && IsJsonRequest(args[i]);
      assert args[1..][i - 1] == args[i];
    }
    if AnyHelp(args) && !IsHelpFlag(args[0]) {
      var i :| 0 <= i < |args| && IsHelpFlag(args[i]);
      assert args[1..][i - 1] == args[i];
    }
    if AnyJsonRequest(args[1..]) {
      var i :| 0 <= i < |args[1..]| && IsJsonRequest(args[1..][i]);
      assert args[i + 1] == args[1..][i];
    }
    if AnyHelp(args[1..]) {
      var i :| 0 <= i < |args[1..]| && IsHelpFlag(args[1..][i]);
      assert args[i + 1] == args[1..][i];
    }
  }

  /** The scan succeeds exactly on the grammar, and each flag ends set exactly when
      it started set or some token asks for it. */
  lemma {:induction false} LsScan(args: seq<string>, st: ParsedLs)
    ensures var o := Run(LsStep, args, st);
      !o.Stopped? && (o.Completed? <==> LsGrammar(args))
      && (o.Completed? ==> (o.state.json <==> st.json || AnyJsonRequest(args)))
      && (o.Completed? ==> (o.state.showHelp <==> st.showHelp || AnyHelp(args)))
    decreases |args|
  {
    if |args| > 0 {
      var t := args[0];
      AnyCons(args);
      assert "--json"[0] == '-' && "--output"[0] == '-' && "--output=json"[0] == '-';
      if t == OUTPUT_FLAG && |args| >= 2 && args[1] == JSON {
        AnyCons(args[1..]);
        assert args[1..][1..] == args[2..];
        LsScan(args[2..], st.(json := true));
      } else if StartsWith(t, OUTPUT_INLINE) && t[|OUTPUT_INLINE|..] == JSON {
        assert t == OUTPUT_INLINE + JSON;
        LsScan(args[1..], st.(json := true));
      } else if IsHelpFlag(t) {
        LsScan(args[1..], st.(showHelp := true));
      } else if t == JSON_FLAG {
        LsScan(args[1..], st.(json := true));
      } else {
        assert t != OUTPUT_INLINE + JSON by {
          if t == OUTPUT_INLINE + JSON {
            StartsWithConcat(OUTPUT_INLINE, JSON);
          }
        }
      }
    }
  }

  /** Any positional argument is an error. */
  lemma PositionalFails(opts: seq<string>, t: string, rest: seq<string>)
    requires Run(LsStep, opts, INITIAL).Completed?
    requires !IsDash(t)
    ensures ParseLsArgs(opts + [t] + rest) == Err("unexpected arg for ls: " + t)
  {
    LsStepWellFormed();
    PlainIsNotHelp(t);
    RunAfter(LsStep, opts, t, rest, INITIAL);
    assert "--json"[0] == '-' && "--output"[0] == '-' && "--output="[0] == '-';
    PlainIsNot(t, OUTPUT_INLINE);
  }

  /** `--output` with any value but `json` is an error naming the value. */
  lemma UnsupportedOutputFails(opts: seq<string>, v: string, rest: seq<string>)
    requires Run(LsStep, opts, INITIAL).Completed?
    requires v != JSON
    ensures ParseLsArgs(opts + [OUTPUT_FLAG, v] + rest) == Err("unsupported --output value: " + v)
    ensures ParseLsArgs(opts + [OUTPUT_INLINE + v] + rest) == Err("unsupported --output value: " + v)
  {
    LsStepWellFormed();
    assert opts + [OUTPUT_FLAG, v] + rest == opts + [OUTPUT_FLAG] + ([v] + rest);
    RunAfter(LsStep, opts, OUTPUT_FLAG, [v] + rest, INITIAL);
    var t := OUTPUT_INLINE + v;
    RunAfter(LsStep, opts, t, rest, INITIAL);
    StartsWithConcat(OUTPUT_INLINE, v);
    assert t[|OUTPUT_INLINE|..] == v;
    assert !IsHelpFlag(t) && t != JSON_FLAG && t != OUTPUT_FLAG by {
      assert |t| >= |OUTPUT_INLINE|;
    }
  }

  /** An unknown option is an error naming it. */
  lemma UnknownOptionFails(opts: seq<string>, t: string, rest: seq<string>)
    requires Run(LsStep, opts, INITIAL).Completed?
    requires IsDash(t) && !IsHelpFlag(t) && t != JSON_FLAG && t != OUTPUT_FLAG && !StartsWith(t, OUTPUT_INLINE)
    ensures ParseLsArgs(opts + [t] + rest) == Err("unknown option for ls: " + t)
  {
    LsStepWellFormed();
    RunAfter(LsStep, opts, t, rest, INITIAL);
  }

  /** `--output` as the last argument has no value. */
  lemma TrailingOutputFails(opts: seq<string>)
    requires Run(LsStep, opts, INITIAL).Completed?
    ensures ParseLsArgs(opts + [OUTPUT_FLAG]) == Err("missing value for --output")
  {
    LsStepWellFormed();
    RunSnoc(LsStep, opts, OUTPUT_FLAG, INITIAL);
  }

  /** An example: `--output json` and `--help`. */
  lemma LsExample()
    ensures ParseLsArgs(["--output", "json", "--help"]) == Ok(ParsedLs(true, true))
  {
    assert LsGrammar(["--output", "json", "--help"]) by {
      assert ["--output", "json", "--help"][2..] == ["--help"];
      assert ["--help"][1..] == [];
    }
    assert IsJsonRequest(["--output", "json", "--help"][0]);
    assert IsHelpFlag(["--output", "json", "--help"][2]);
  }
}

=== FILE: output.dfy ===
/** Rendering completion candidates for a shell (`completion/output.rs`): one
    line per candidate, with the description after a tab in the described
    format. Line breaks and tabs inside values and descriptions become spaces,
    so the lines and their two fields can always be split apart again. */
module Output {
  import opened Wrappers
  import opened Strings
  import opened Candidates
  import opened Protocol

  /** The characters that would break the line format. */
  predicate IsSeparator(c: char) {
    c == '\n' || c == '\r' || c == '\t'
  }

  predicate NoSeparators(s: string) {
    forall i :: 0 <= i < |s| ==> !IsSeparator(s[i])
  }

  /** `sanitize_segment`: every line feed, carriage return or tab becomes a space. */
  function SanitizeSegment(s: string): (r: string)
    ensures |r| == |s|
    ensures NoSeparators(r)
    ensures forall i :: 0 <= i < |s| && !IsSeparator(s[i]) ==> r[i] == s[i]
    ensures forall i :: 0 <= i < |s| && IsSeparator(s[i]) ==> r[i] == ' '
  {
    seq(|s|, i requires 0 <= i < |s| => if IsSeparator(s[i]) then ' ' else s[i])
  }

  /** A segment without separators is left alone, so sanitizing twice is
      sanitizing once. */
  lemma SanitizeKeepsClean(s: string)
    requires NoSeparators(s)
    ensures SanitizeSegment(s) == s
  {
  }

  lemma SanitizeIdempotent(s: string)
    ensures SanitizeSegment(SanitizeSegment(s)) == SanitizeSegment(s)
  {
    SanitizeKeepsClean(SanitizeSegment(s));
  }

  /** `escape_for_shell`: both shells receive the sanitized value unchanged. */
  function EscapeForShell(shell: Shell, value: string): (r: string)
    ensures r == SanitizeSegment(value)
  {
    match shell
    case Bash => SanitizeSegment(value)
    case Zsh => SanitizeSegment(value)
  }

  /** The line a candidate becomes in the given format. */
  function Line(shell: Shell, format: OutputFormat, c: Candidate): (r: string)
    ensures !HasChar(r, '\n')
    ensures format.Plain? || c.description.None? ==> r == EscapeForShell(shell, c.value)
    ensures format.Describe? && c.description.Some?
            ==> r == EscapeForShell(shell, c.value) + "\t" + SanitizeSegment(c.description.value)
  {
    var value := EscapeForShell(shell, c.value);
    if format.Describe? && c.description.Some? then
      var line := value + "\t" + SanitizeSegment(c.description.value);
      assert forall i :: 0 <= i < |line| ==> line[i] != '\n' by {
        forall i | 0 <= i < |line|
          ensures line[i] != '\n'
        {
          if i < |value| {
            assert line[i] == value[i];
          } else if i > |value| {
            assert line[i] == SanitizeSegment(c.description.value)[i - |value| - 1];
          }
        }
      }
      line
    else
      value
  }

  function Lines(shell: Shell, format: OutputFormat, cs: seq<Candidate>): (r: seq<string>)
    ensures |r| == |cs|
    ensures forall i :: 0 <= i < |cs| ==> r[i] == Line(shell, format, cs[i])
  {
    seq(|cs|, i requires 0 <= i < |cs| => Line(shell, format, cs[i]))
  }

  /** `render_plain`: the escaped values, one per line. */
  function RenderPlain(shell: Shell, cs: seq<Candidate>): (r: string)
    ensures |cs| == 0 ==> r == ""
    ensures |cs| > 0 ==> SplitOn(r, '\n') == seq(|cs|, i requires 0 <= i < |cs| => SanitizeSegment(cs[i].value))
  {
    var ls := Lines(shell, Plain, cs);
    if |ls| > 0 then
      SplitOnJoin(ls, '\n');
      Join(ls, "\n")
    else Join(ls, "\n")
  }

  /** `render_described`: as plain, with `\t<description>` after described values. */
  function RenderDescribed(shell: Shell, cs: seq<Candidate>): (r: string)
    ensures |cs| == 0 ==> r == ""
    ensures |cs| > 0 ==> |SplitOn(r, '\n')| == |cs|
    ensures |cs| > 0 ==> forall i :: 0 <= i < |cs| ==>
      SplitOn(r, '\n')[i] == (if cs[i].description.Some?
        then SanitizeSegment(cs[i].value) + "\t" + SanitizeSegment(cs[i].description.value)
        else SanitizeSegment(cs[i].value))
  {
    var ls := Lines(shell, Describe, cs);
    if |ls| > 0 then
      SplitOnJoin(ls, '\n');
      Join(ls, "\n")
    else Join(ls, "\n")
  }

  /** `render` */
  function Render(shell: Shell, format: OutputFormat, cs: seq<Candidate>): (r: string)
    ensures |cs| == 0 ==> r == ""
  {
    match format
    case Plain => RenderPlain(shell, cs)
    case Describe => RenderDescribed(shell, cs)
  }

  // ---------------------------------------------------------------------------
  // Reading the output back

  /** Splitting the output at line feeds gives one line per candidate, in order. */
  lemma RenderSplitsIntoLines(shell: Shell, format: OutputFormat, cs: seq<Candidate>)
    requires |cs| > 0
    ensures SplitOn(Render(shell, format, cs), '\n') == Lines(shell, format, cs)
  {
    var ls := Lines(shell, format, cs);
    assert Render(shell, format, cs) == Join(ls, ['\n']);
    SplitOnJoin(ls, '\n');
  }

  /** The plain output lists each value, sanitized, on its own line. */
  lemma PlainLineIsValue(shell: Shell, cs: seq<Candidate>, i: nat)
    requires i < |cs|
    ensures var ls := SplitOn(Render(shell, Plain, cs), '\n');
      |ls| == |cs| && ls[i] == SanitizeSegment(cs[i].value)
  {
    RenderSplitsIntoLines(shell, Plain, cs);
  }

  /** In the described output, a described candidate's line splits at its first
      tab into the sanitized value and the sanitized description; an undescribed
      candidate's line holds no tab. */
  lemma DescribedLineFields(shell: Shell, cs: seq<Candidate>, i: nat)
    requires i < |cs|
    ensures var ls := SplitOn(Render(shell, Describe, cs), '\n');
      |ls| == |cs|
      && (cs[i].description.Some? ==>
            SplitOnce(ls[i], '\t') == Some((SanitizeSegment(cs[i].value), SanitizeSegment(cs[i].description.value))))
      && (cs[i].description.None? ==> ls[i] == SanitizeSegment(cs[i].value) && !HasChar(ls[i], '\t'))
  {
    RenderSplitsIntoLines(shell, Describe, cs);
    var v := SanitizeSegment(cs[i].value);
    assert !HasChar(v, '\t') by {
      forall k | 0 <= k < |v| ensures v[k] != '\t' { assert !IsSeparator(v[k]); }
    }
    if cs[i].description.Some? {
      var d := SanitizeSegment(cs[i].description.value);
      assert Line(shell, Describe, cs[i]) == v + ['\t'] + d;
      SplitOnceAt(v, '\t', d);
    }
  }

  /** The two shells are rendered identically. */
  lemma ShellsRenderAlike(format: OutputFormat, cs: seq<Candidate>)
    ensures Render(Bash, format, cs) == Render(Zsh, format, cs)
  {
    assert Lines(Bash, format, cs) == Lines(Zsh, format, cs);
  }

  /** Without descriptions, the described format is the plain format. */
  lemma UndescribedRenderAlike(shell: Shell, cs: seq<Candidate>)
    requires forall i :: 0 <= i < |cs| ==> cs[i].description.None?
    ensures Render(shell, Describe, cs) == Render(shell, Plain, cs)
  {
    assert Lines(shell, Describe, cs) == Lines(shell, Plain, cs);
  }

  /** The plain format drops descriptions: it depends on the values alone. */
  lemma PlainIgnoresDescriptions(shell: Shell, cs: seq<Candidate>, ds: seq<Candidate>)
    requires |cs| == |ds|
    requires forall i :: 0 <= i < |cs| ==> cs[i].value == ds[i].value
    ensures Render(shell, Plain, cs) == Render(shell, Plain, ds)
  {
    assert Lines(shell, Plain, cs) == Lines(shell, Plain, ds);
  }
}

=== FILE: protocol.dfy ===
/** The hidden `__complete` request protocol (`completion/protocol.rs`): the
    arguments a shell adapter passes, parsed into a completion request. */
module Protocol {
  import opened Wrappers
  import opened Strings
  import opened TokenScan
  import opened Runtime

  datatype Shell = Bash | Zsh
  datatype Mode = Rust | Legacy
  datatype OutputFormat = Plain | Describe

  datatype CompletionRequest = CompletionRequest(
    shell: Shell,
    words: seq<string>,
    cword: nat,
    runtime: Runtime,
    mode: Mode,
    output: OutputFormat)
  {
    /** `current_word`: the word under the cursor, or empty past the end. */
    function CurrentWord(): (w: string)
      ensures cword < |words| ==> w == words[cword]
      ensures cword >= |words| ==> w == ""
    {
      if cword < |words| then words[cword] else ""
    }

    /** `words_before_cursor` */
    function WordsBeforeCursor(): (ws: seq<string>)
      requires cword <= |words|
      ensures |ws| == cword && ws + words[cword..] == words
    {
      words[..cword]
    }
  }

  const ENV_COMPLETION_MODE := "AGENT_WORKSPACE_COMPLETION_MODE"

  // ---------------------------------------------------------------------------
  // Option values

  function ShellName(s: Shell): string {
    match s
    case Bash => "bash"
    case Zsh => "zsh"
  }

  function FormatName(f: OutputFormat): string {
    match f
    case Plain => "plain"
    case Describe => "describe"
  }

  function ModeName(m: Mode): string {
    match m
    case Rust => "rust"
    case Legacy => "legacy"
  }

  /** `parse_shell`: trimmed, ASCII case-insensitive. */
  function ParseShell(raw: string): (r: Result<Shell>)
    ensures r.Err? ==> r.error == "invalid --shell value: " + raw + " (expected: bash|zsh)"
  {
    var n := ToAsciiLower(Trim(raw));
    if n == "bash" then Ok(Bash)
    else if n == "zsh" then Ok(Zsh)
    else Err("invalid --shell value: " + raw + " (expected: bash|zsh)")
  }

  /** A shell is selected exactly by its name, in any ASCII case and surrounded by
      any whitespace. */
  lemma ParseShellSpec(raw: string, sh: Shell)
    ensures ParseShell(raw) == Ok(sh) <==> ToAsciiLower(Trim(raw)) == ShellName(sh)
  {
  }

  /** `parse_output`: `described` is accepted as a synonym of `describe`. */
  function ParseOutput(raw: string): (r: Result<OutputFormat>)
    ensures r.Err? ==> r.error == "invalid --format value: " + raw + " (expected: plain|describe)"
  {
    var n := ToAsciiLower(Trim(raw));
    if n == "plain" then Ok(Plain)
    else if n == "describe" || n == "described" then Ok(Describe)
    else Err("invalid --format value: " + raw + " (expected: plain|describe)")
  }

  lemma ParseOutputSpec(raw: string, f: OutputFormat)
    ensures ParseOutput(raw) == Ok(f)
        <==> ToAsciiLower(Trim(raw)) == FormatName(f) || (f == Describe && ToAsciiLower(Trim(raw)) == "described")
  {
  }

  /** `parse_cword`: a trimmed `usize`. */
  function ParseCword(raw: string): (r: Result<nat>)
    ensures r.Ok? <==> ParseUnsigned(Trim(raw), USIZE_BOUND).Some?
    ensures r.Ok? ==> r.value == ParseUnsigned(Trim(raw), USIZE_BOUND).value && r.value < USIZE_BOUND
    ensures r.Err? ==> r.error == "invalid --cword value: " + raw
  {
    match ParseUnsigned(Trim(raw), USIZE_BOUND)
    case Some(n) => Ok(n)
    case None => Err("invalid --cword value: " + raw)
  }

  /** `parse_mode_value`: blank means the default, `rust`. */
  function ParseModeValue(raw: string): (r: Result<Mode>)
    ensures r.Err? ==> r.error == "invalid AGENT_WORKSPACE_COMPLETION_MODE value: " + raw + " (expected: rust|legacy)"
  {
    var n := ToAsciiLower(Trim(raw));
    if n == "" || n == "rust" then Ok(Rust)
    else if n == "legacy" then Ok(Legacy)
    else Err("invalid AGENT_WORKSPACE_COMPLETION_MODE value: " + raw + " (expected: rust|legacy)")
  }

  lemma ParseModeValueSpec(raw: string, m: Mode)
    ensures ParseModeValue(raw) == Ok(m)
        <==> ToAsciiLower(Trim(raw)) == ModeName(m) || (m == Rust && ToAsciiLower(Trim(raw)) == "")
  {
  }

  /** `parse_mode_from_env`: an unset variable means `rust`. */
  function ModeFromEnv(env: Env): (r: Result<Mode>)
    ensures ENV_COMPLETION_MODE !in env ==> r == Ok(Rust)
    ensures ENV_COMPLETION_MODE in env ==> r == ParseModeValue(env[ENV_COMPLETION_MODE])
  {
    // An unset variable stands for the value `rust`, which parses to `Rust`
    // (ParseModeName).
    if ENV_COMPLETION_MODE in env then ParseModeValue(env[ENV_COMPLETION_MODE]) else Ok(Rust)
  }

  /** The canonical names parse back to their values. */
  lemma ParseShellName(sh: Shell)
    ensures ParseShell(ShellName(sh)) == Ok(sh)
  {
    LowerWordNormal(ShellName(sh));
    ParseShellSpec(ShellName(sh), sh);
  }

  lemma ParseFormatName(f: OutputFormat)
    ensures ParseOutput(FormatName(f)) == Ok(f)
  {
    LowerWordNormal(FormatName(f));
    ParseOutputSpec(FormatName(f), f);
  }

  lemma ParseModeName(m: Mode)
    ensures ParseModeValue(ModeName(m)) == Ok(m)
  {
    LowerWordNormal(ModeName(m));
    ParseModeValueSpec(ModeName(m), m);
  }

  // ---------------------------------------------------------------------------
  // The word list

  /** `parse_words_blob`: whitespace-separated words; trailing whitespace means the
      cursor sits on a new, empty word; a blank blob is one empty word. */
  function ParseWordsBlob(raw: string): (r: seq<string>)
    ensures |r| >= 1
    ensures |raw| > 0 && IsWhitespace(raw[|raw| - 1]) ==> r[|r| - 1] == ""
  {
    var words := SplitWhitespace(raw);
    var words := if |raw| > 0 && IsWhitespace(raw[|raw| - 1]) then words + [""] else words;
    if |words| == 0 then [""] else words
  }

  /** Words joined by spaces come back as they were. */
  lemma WordsBlobRoundTrip(ws: seq<string>)
    requires |ws| > 0
    requires forall i :: 0 <= i < |ws| ==> IsWord(ws[i])
    ensures ParseWordsBlob(Join(ws, " ")) == ws
  {
    SplitWhitespaceJoin(ws, "");
    assert Join(ws, " ") + "" == Join(ws, " ");
    JoinLast(ws, " ");
    var last := ws[|ws| - 1];
    assert IsWord(last);
  }

  /** One more space after the words adds an empty word for the cursor. */
  lemma WordsBlobCursor(ws: seq<string>)
    requires |ws| > 0
    requires forall i :: 0 <= i < |ws| ==> IsWord(ws[i])
    ensures ParseWordsBlob(Join(ws, " ") + " ") == ws + [""]
  {
    SplitWhitespaceJoin(ws, " ");
  }

  lemma {:induction false} JoinLast(ws: seq<string>, sep: string)
    requires |ws| > 0
    ensures var j := Join(ws, sep); |j| >= |ws[|ws| - 1]| && j[|j| - |ws[|ws| - 1]|..] == ws[|ws| - 1]
    decreases |ws|
  {
    if |ws| > 1 {
      JoinLast(ws[1..], sep);
      assert ws[1..][|ws[1..]| - 1] == ws[|ws| - 1];
      var j := Join(ws, sep);
      var tail := Join(ws[1..], sep);
      assert j == ws[0] + sep + tail;
      assert j[|j| - |ws[|ws| - 1]|..] == tail[|tail| - |ws[|ws| - 1]|..];
    }
  }

  // ---------------------------------------------------------------------------
  // Runtime hint from the words before the cursor

  /** The runtime one environment variable names, if it is set and valid. */
  function EnvHint(env: Env, key: string): Option<Runtime> {
    if key in env then ParseRuntimeValue(Trim(env[key])).ToOption() else None
  }

  /** The runtime the environment suggests for completion: `AGENT_WORKSPACE_RUNTIME`,
      then `AWL_RUNTIME`, then the container; unlike the launcher itself, an invalid
      value is skipped rather than reported. */
  function LenientRuntimeFromEnv(env: Env): (r: Runtime)
    ensures ENV_RUNTIME in env && ParseRuntimeValue(env[ENV_RUNTIME]).Ok? ==> r == ParseRuntimeValue(env[ENV_RUNTIME]).value
    ensures r == Host ==>
      (ENV_RUNTIME in env && ParseRuntimeValue(env[ENV_RUNTIME]) == Ok(Host))
      || (ENV_RUNTIME_COMPAT in env && ParseRuntimeValue(env[ENV_RUNTIME_COMPAT]) == Ok(Host))
  {
    EnvHintSpec(env, ENV_RUNTIME);
    EnvHintSpec(env, ENV_RUNTIME_COMPAT);
    match EnvHint(env, ENV_RUNTIME)
    case Some(rt) => rt
    case None =>
      match EnvHint(env, ENV_RUNTIME_COMPAT)
      case Some(rt) => rt
      case None => Container
  }

  /** A variable hints at a runtime exactly when it is set to a valid value. */
  lemma EnvHintSpec(env: Env, key: string)
    ensures forall rt: Runtime :: EnvHint(env, key) == Some(rt) <==> key in env && ParseRuntimeValue(env[key]) == Ok(rt)
  {
    if key in env {
      ParseTrimmed(env[key], Container);
      ParseTrimmed(env[key], Host);
    }
  }

  /** Trimming before parsing changes at most the error message. */
  lemma ParseTrimmed(raw: string, rt: Runtime)
    ensures ParseRuntimeValue(Trim(raw)) == Ok(rt) <==> ParseRuntimeValue(raw) == Ok(rt)
  {
    TrimIdempotent(raw);
    ParseRuntimeValueSpec(raw, rt);
    ParseRuntimeValueSpec(Trim(raw), rt);
  }

  /** Where the launcher's own lookup succeeds, completion suggests the same runtime. */
  lemma LenientAgreesWithStrict(env: Env, rt: Runtime)
    requires RuntimeFromEnv(env) == Ok(rt)
    ensures LenientRuntimeFromEnv(env) == rt
  {
    if ENV_RUNTIME in env {
      ParseTrimmed(env[ENV_RUNTIME], rt);
    } else if ENV_RUNTIME_COMPAT in env {
      ParseTrimmed(env[ENV_RUNTIME_COMPAT], rt);
    }
  }

  /** An invalid `AGENT_WORKSPACE_RUNTIME` counts as unset, where the launcher
      itself would report it. */
  lemma LenientSkipsInvalid(env: Env)
    requires ENV_RUNTIME in env && ParseRuntimeValue(env[ENV_RUNTIME]).Err?
    ensures LenientRuntimeFromEnv(env) == LenientRuntimeFromEnv(env - {ENV_RUNTIME})
    ensures RuntimeFromEnv(env).Err?
  {
    ParseTrimmed(env[ENV_RUNTIME], Container);
    ParseTrimmed(env[ENV_RUNTIME], Host);
    assert EnvHint(env, ENV_RUNTIME) == None;
    assert EnvHint(env, ENV_RUNTIME_COMPAT) == EnvHint(env - {ENV_RUNTIME}, ENV_RUNTIME_COMPAT);
  }

  /** A runtime flag value before the cursor replaces the one found so far only
      when it is valid. */
  function HintValue(raw: string, found: Option<Runtime>): Option<Runtime> {
    match ParseRuntimeValue(Trim(raw))
    case Ok(rt) => Some(rt)
    case Err(_) => found
  }

  /** How the loop of `resolve_runtime_from_words` reads one word: a separate
      `--runtime`, an inline `--runtime=<value>`, or anything else. */
  datatype WordKind = FlagWord | InlineWord(value: string) | OtherWord

  function Classify(w: string): WordKind {
    var token := Trim(w);
    if token == RUNTIME_FLAG then FlagWord
    else if StartsWith(token, RUNTIME_INLINE) then InlineWord(token[|RUNTIME_INLINE|..])
    else OtherWord
  }

  /** The word is trimmed before it is compared, and the inline value is what
      follows the prefix in the trimmed word. */
  lemma ClassifySpec(w: string)
    ensures Classify(w) == FlagWord <==> Trim(w) == RUNTIME_FLAG
    ensures Classify(w).InlineWord? <==> Trim(w) != RUNTIME_FLAG && StartsWith(Trim(w), RUNTIME_INLINE)
    ensures Classify(w).InlineWord? ==> Trim(w) == RUNTIME_INLINE + Classify(w).value
  {
    var token := Trim(w);
    if Classify(w).InlineWord? {
      assert token == token[..|RUNTIME_INLINE|] + token[|RUNTIME_INLINE|..];
    }
  }

  /** The loop variables of `resolve_runtime_from_words`. */
  datatype Cursor = Cursor(idx: nat, found: Option<Runtime>)

  /** One iteration of that loop over `before` (the words before the cursor). */
  function HintStep(before: seq<string>, c: Cursor): (r: Cursor)
    requires c.idx < |before|
    ensures c.idx < r.idx
  {
    match Classify(before[c.idx])
    case FlagWord =>
      if c.idx + 1 < |before| then Cursor(c.idx + 2, HintValue(before[c.idx + 1], c.found))
      else Cursor(c.idx + 1, c.found)
    case InlineWord(v) => Cursor(c.idx + 1, HintValue(v, c.found))
    case OtherWord => Cursor(c.idx + 1, c.found)
  }

  /** The runtime the loop settles on, from cursor `c` to the end of `before`. */
  function FlagBeforeCursor(before: seq<string>, c: Cursor): Option<Runtime>
    decreases |before| - c.idx
  {
    if c.idx >= |before| then c.found else FlagBeforeCursor(before, HintStep(before, c))
  }

  /** The loop, started at cursor `c`, looks at word `k`: the index takes the value
      `k`. A word taken as the value of a separate `--runtime` is never looked at. */
  predicate Visits(before: seq<string>, c: Cursor, k: nat)
    decreases |before| - c.idx
  {
    c.idx == k || (c.idx < k && c.idx < |before| && Visits(before, HintStep(before, c), k))
  }

  /** Word `k` of `before`, when looked at, names runtime `rt`: a `--runtime` whose
      value is also before the cursor and parses to `rt`, or a `--runtime=<value>`
      whose value does. */
  predicate SetsAt(before: seq<string>, k: nat, rt: Runtime) {
    k < |before| &&
    match Classify(before[k])
    case FlagWord => k + 1 < |before| && ParseRuntimeValue(Trim(before[k + 1])) == Ok(rt)
    case InlineWord(v) => ParseRuntimeValue(Trim(v)) == Ok(rt)
    case OtherWord => false
  }

  /** A runtime the scan settles on was there at the start, or was named by a word
      the scan looked at. */
  lemma {:induction false} FlagProvenance(before: seq<string>, c: Cursor, rt: Runtime)
    requires FlagBeforeCursor(before, c) == Some(rt)
    ensures c.found == Some(rt) || exists k :: Visits(before, c, k) && SetsAt(before, k, rt)
    decreases |before| - c.idx
  {
    if c.idx < |before| {
      var n := HintStep(before, c);
      FlagProvenance(before, n, rt);
      if n.found == Some(rt) && c.found != Some(rt) {
        StepSets(before, c, rt);
        assert Visits(before, c, c.idx);
      } else if n.found != Some(rt) {
        var k :| Visits(before, n, k) && SetsAt(before, k, rt);
        VisitsAfterStep(before, c, k);
      }
    }
  }

  /** A step that changes the runtime found so far reads a word that names it. */
  lemma StepSets(before: seq<string>, c: Cursor, rt: Runtime)
    requires c.idx < |before| && HintStep(before, c).found == Some(rt) && c.found != Some(rt)
    ensures SetsAt(before, c.idx, rt)
  {
    match Classify(before[c.idx])
    case FlagWord =>
      assert c.idx + 1 < |before|;
      assert HintValue(before[c.idx + 1], c.found) == Some(rt);
    case InlineWord(v) =>
      assert HintValue(v, c.found) == Some(rt);
    case OtherWord =>
  }

  /** A step that reads no word naming a runtime keeps the runtime found so far. */
  lemma StepKeeps(before: seq<string>, c: Cursor)
    requires c.idx < |before| && !SetsAt(before, c.idx, Container) && !SetsAt(before, c.idx, Host)
    ensures HintStep(before, c).found == c.found
  {
    match Classify(before[c.idx])
    case FlagWord =>
      if c.idx + 1 < |before| {
        assert ParseRuntimeValue(Trim(before[c.idx + 1])).Err?;
      }
    case InlineWord(v) =>
      assert ParseRuntimeValue(Trim(v)).Err?;
    case OtherWord =>
  }

  /** A word the next step's scan looks at is looked at from here too. */
  lemma VisitsAfterStep(before: seq<string>, c: Cursor, k: nat)
    requires c.idx < |before| && Visits(before, HintStep(before, c), k)
    ensures Visits(before, c, k)
  {
    assert c.idx < HintStep(before, c).idx <= k by { VisitsFrom(before, HintStep(before, c), k); }
  }

  /** The scan only looks forward. */
  lemma {:induction false} VisitsFrom(before: seq<string>, c: Cursor, k: nat)
    requires Visits(before, c, k)
    ensures c.idx <= k
  {
  }

  /** When no word the scan looks at names a runtime, the scan ends with what it
      started with. */
  lemma {:induction false} NoSettingKeepsFound(before: seq<string>, c: Cursor)
    requires forall k: nat, rt: Runtime :: Visits(before, c, k) ==> !SetsAt(before, k, rt)
    ensures FlagBeforeCursor(before, c) == c.found
    decreases |before| - c.idx
  {
    if c.idx < |before| {
      var n := HintStep(before, c);
      assert Visits(before, c, c.idx);
      StepKeeps(before, c);
      forall k: nat, rt: Runtime | Visits(before, n, k)
        ensures !SetsAt(before, k, rt)
      {
        VisitsAfterStep(before, c, k);
      }
      NoSettingKeepsFound(before, n);
    }
  }

  /** The last word the scan looks at that names a runtime decides. */
  lemma {:induction false} LastSettingWins(before: seq<string>, c: Cursor, k: nat, rt: Runtime)
    requires Visits(before, c, k) && SetsAt(before, k, rt)
    requires forall j: nat, other: Runtime :: k < j && Visits(before, c, j) ==> !SetsAt(before, j, other)
    ensures FlagBeforeCursor(before, c) == Some(rt)
    decreases |before| - c.idx
  {
    var n := HintStep(before, c);
    forall j: nat, other: Runtime | k < j && Visits(before, n, j)
      ensures !SetsAt(before, j, other)
    {
      VisitsAfterStep(before, c, j);
    }
    if c.idx == k {
      assert n.found == Some(rt);
      forall j: nat, other: Runtime | Visits(before, n, j)
        ensures !SetsAt(before, j, other)
      {
        VisitsFrom(before, n, j);
      }
      NoSettingKeepsFound(before, n);
    } else {
      LastSettingWins(before, n, k, rt);
    }
  }

  /** `resolve_runtime_from_words`: the last valid `--runtime` before the cursor
      (the program name at position 0 is skipped), else the environment. */
  function ResolveRuntimeFromWords(words: seq<string>, cword: nat, env: Env): (r: Runtime)
    requires cword <= |words|
    ensures r == LenientRuntimeFromEnv(env)
         || exists k :: Visits(words[..cword], Cursor(1, None), k) && SetsAt(words[..cword], k, r)
    ensures (forall k: nat, rt: Runtime :: Visits(words[..cword], Cursor(1, None), k) ==> !SetsAt(words[..cword], k, rt))
         ==> r == LenientRuntimeFromEnv(env)
  {
    var before := words[..cword];
    match FlagBeforeCursor(before, Cursor(1, None))
    case Some(rt) => FlagProvenance(before, Cursor(1, None), rt); rt
    case None =>
      assert (forall k: nat, rt: Runtime :: Visits(before, Cursor(1, None), k) ==> !SetsAt(before, k, rt))
        ==> FlagBeforeCursor(before, Cursor(1, None)) == None by {
        if forall k: nat, rt: Runtime :: Visits(before, Cursor(1, None), k) ==> !SetsAt(before, k, rt) {
          NoSettingKeepsFound(before, Cursor(1, None));
        }
      }
      LenientRuntimeFromEnv(env)
  }

  /** Only the words before the cursor matter. */
  lemma RuntimeHintIgnoresWordsAfterCursor(words: seq<string>, other: seq<string>, cword: nat, env: Env)
    requires cword <= |words| && cword <= |other| && words[..cword] == other[..cword]
    ensures ResolveRuntimeFromWords(words, cword, env) == ResolveRuntimeFromWords(other, cword, env)
  {
  }

  /** Without runtime flags from the cursor on, the hint found so far stands. */
  lemma {:induction false} FlagBeforeCursorSkipsPlain(before: seq<string>, c: Cursor)
    requires forall k :: c.idx <= k < |before| ==> Classify(before[k]) == OtherWord
    ensures FlagBeforeCursor(before, c) == c.found
    decreases |before| - c.idx
  {
    if c.idx < |before| {
      assert HintStep(before, c) == Cursor(c.idx + 1, c.found);
      FlagBeforeCursorSkipsPlain(before, HintStep(before, c));
    }
  }

  /** Without runtime flags before the cursor the environment decides. */
  lemma RuntimeHintFromEnv(words: seq<string>, cword: nat, env: Env)
    requires cword <= |words|
    requires forall k :: 1 <= k < cword ==> Classify(words[k]) == OtherWord
    ensures ResolveRuntimeFromWords(words, cword, env) == LenientRuntimeFromEnv(env)
  {
    var before := words[..cword];
    assert forall k :: 1 <= k < |before| ==> before[k] == words[k];
    FlagBeforeCursorSkipsPlain(before, Cursor(1, None));
  }

  /** The last step of a `--runtime <value>` pair at the end of `before`. */
  lemma FlagPairLast(before: seq<string>, c: Cursor, v: Runtime)
    requires |before| >= 2 && c.idx == |before| - 2
    requires Classify(before[|before| - 2]) == FlagWord
    requires ParseRuntimeValue(Trim(before[|before| - 1])) == Ok(v)
    ensures FlagBeforeCursor(before, c) == Some(v)
  {
    FlagPairStep(before, c, v);
    assert FlagBeforeCursor(before, Cursor(|before|, Some(v))) == Some(v);
  }

  /** A valid `--runtime <value>` pair is one step that records the runtime. */
  lemma FlagPairStep(before: seq<string>, c: Cursor, v: Runtime)
    requires c.idx + 1 < |before| && Classify(before[c.idx]) == FlagWord
    requires ParseRuntimeValue(Trim(before[c.idx + 1])) == Ok(v)
    ensures HintStep(before, c) == Cursor(c.idx + 2, Some(v))
  {
    HintValueValid(before[c.idx + 1], c.found, v);
  }

  /** A valid value replaces whatever was found before it. */
  lemma HintValueValid(raw: string, found: Option<Runtime>, v: Runtime)
    requires ParseRuntimeValue(Trim(raw)) == Ok(v)
    ensures HintValue(raw, found) == Some(v)
  {
  }

  /** A valid `--runtime <value>` at the end of `before` wins when no earlier
      `--runtime` could have swallowed it as its value. */
  lemma {:induction false} FlagPairAtEnd(before: seq<string>, c: Cursor, v: Runtime)
    requires |before| >= 2 && c.idx <= |before| - 2
    requires Classify(before[|before| - 2]) == FlagWord
    requires ParseRuntimeValue(Trim(before[|before| - 1])) == Ok(v)
    requires forall k :: c.idx <= k < |before| - 2 ==> Classify(before[k]) != FlagWord
    ensures FlagBeforeCursor(before, c) == Some(v)
    decreases |before| - c.idx
  {
    if c.idx < |before| - 2 {
      assert HintStep(before, c).idx == c.idx + 1;
      FlagPairAtEnd(before, HintStep(before, c), v);
    } else {
      FlagPairLast(before, c, v);
    }
  }

  /** The last step of a `--runtime=<value>` at the end of `before`. */
  lemma InlineFlagLast(before: seq<string>, c: Cursor, v: Runtime)
    requires |before| >= 1 && c.idx == |before| - 1
    requires Classify(before[|before| - 1]).InlineWord?
    requires ParseRuntimeValue(Trim(Classify(before[|before| - 1]).value)) == Ok(v)
    ensures FlagBeforeCursor(before, c) == Some(v)
  {
    var n := |before|;
    assert HintValue(Classify(before[n - 1]).value, c.found) == Some(v);
    var next := HintStep(before, c);
    assert next == Cursor(n, Some(v));
    assert FlagBeforeCursor(before, next) == Some(v);
  }

  /** The same for a valid `--runtime=<value>` at the end of `before`. */
  lemma {:induction false} InlineFlagAtEnd(before: seq<string>, c: Cursor, v: Runtime)
    requires |before| >= 1 && c.idx <= |before| - 1
    requires Classify(before[|before| - 1]).InlineWord?
    requires ParseRuntimeValue(Trim(Classify(before[|before| - 1]).value)) == Ok(v)
    requires forall k :: c.idx <= k < |before| - 1 ==> Classify(before[k]) != FlagWord
    ensures FlagBeforeCursor(before, c) == Some(v)
    decreases |before| - c.idx
  {
    if c.idx < |before| - 1 {
      assert HintStep(before, c).idx == c.idx + 1;
      InlineFlagAtEnd(before, HintStep(before, c), v);
    } else {
      InlineFlagLast(before, c, v);
    }
  }

  /** A valid `--runtime <value>` just before the cursor selects the runtime,
      whatever the environment says, when no `--runtime` after the program name
      comes earlier. */
  lemma RuntimeHintLastFlagWins(words: seq<string>, cword: nat, v: Runtime, env: Env)
    requires 3 <= cword <= |words|
    requires Classify(words[cword - 2]) == FlagWord
    requires ParseRuntimeValue(Trim(words[cword - 1])) == Ok(v)
    requires forall k :: 1 <= k < cword - 2 ==> Classify(words[k]) != FlagWord
    ensures ResolveRuntimeFromWords(words, cword, env) == v
  {
    var before := words[..cword];
    assert forall k :: 0 <= k < cword ==> before[k] == words[k];
    FlagPairAtEnd(before, Cursor(1, None), v);
  }

  /** The same for a valid `--runtime=<value>` just before the cursor. */
  lemma RuntimeHintLastInlineFlagWins(words: seq<string>, cword: nat, v: Runtime, env: Env)
    requires 2 <= cword <= |words|
    requires Classify(words[cword - 1]).InlineWord?
    requires ParseRuntimeValue(Trim(Classify(words[cword - 1]).value)) == Ok(v)
    requires forall k :: 1 <= k < cword - 1 ==> Classify(words[k]) != FlagWord
    ensures ResolveRuntimeFromWords(words, cword, env) == v
  {
    var before := words[..cword];
    assert forall k :: 0 <= k < cword ==> before[k] == words[k];
    InlineFlagAtEnd(before, Cursor(1, None), v);
  }

  /** In general: the last word before the cursor that the loop looks at and that
      names a valid runtime decides, whatever the environment says. */
  lemma RuntimeHintLastSettingWins(words: seq<string>, cword: nat, k: nat, rt: Runtime, env: Env)
    requires cword <= |words|
    requires Visits(words[..cword], Cursor(1, None), k) && SetsAt(words[..cword], k, rt)
    requires forall j: nat, other: Runtime :: k < j && Visits(words[..cword], Cursor(1, None), j) ==> !SetsAt(words[..cword], j, other)
    ensures ResolveRuntimeFromWords(words, cword, env) == rt
  {
    LastSettingWins(words[..cword], Cursor(1, None), k, rt);
  }

  /** `--runtime k8s` names no runtime, so the environment decides. */
  lemma RuntimeHintInvalidValueIgnored(env: Env)
    ensures ResolveRuntimeFromWords(["agent-workspace", RUNTIME_FLAG, "k8s"], 3, env) == LenientRuntimeFromEnv(env)
  {
    var before := ["agent-workspace", RUNTIME_FLAG, "k8s"];
    assert before[..3] == before;
    TrimNoOp(RUNTIME_FLAG);
    TrimNoOp("k8s");
    assert ToAsciiLower("k8s") == "k8s";
    assert ParseRuntimeValue("k8s").Err?;
    NoSettingOnePair(before);
  }

  /** The only word after the program name is a `--runtime` whose value is not looked
      at: nothing is named. */
  lemma NoSettingOnePair(before: seq<string>)
    requires |before| == 3 && Classify(before[1]) == FlagWord && ParseRuntimeValue(Trim(before[2])).Err?
    ensures forall k: nat, rt: Runtime :: Visits(before, Cursor(1, None), k) ==> !SetsAt(before, k, rt)
  {
    forall k: nat, rt: Runtime | Visits(before, Cursor(1, None), k)
      ensures !SetsAt(before, k, rt)
    {
      var n := HintStep(before, Cursor(1, None));
      assert n.idx == 3;
      if k != 1 {
        assert Visits(before, n, k);
        VisitsFrom(before, n, k);
      }
    }
  }

  /** A `--runtime` whose value sits at the cursor names nothing: the value is not
      yet typed, so the environment decides. */
  lemma RuntimeHintValueAtCursorIgnored(value: string, env: Env)
    ensures ResolveRuntimeFromWords(["agent-workspace", RUNTIME_FLAG, value], 2, env) == LenientRuntimeFromEnv(env)
  {
    var before := ["agent-workspace", RUNTIME_FLAG, value][..2];
    assert before == ["agent-workspace", RUNTIME_FLAG];
    forall k: nat, rt: Runtime | Visits(before, Cursor(1, None), k)
      ensures !SetsAt(before, k, rt)
    {
      if k != 1 {
        assert Visits(before, HintStep(before, Cursor(1, None)), k);
        VisitsFrom(before, HintStep(before, Cursor(1, None)), k);
      }
    }
  }

  // ---------------------------------------------------------------------------
  // The request arguments

  datatype ParseState = ParseState(
    shell: Option<Shell>,
    cword: Option<nat>,
    wordsRaw: Option<string>,
    words: seq<string>,
    output: OutputFormat)

  const INITIAL := ParseState(None, None, None, [], Plain)

  /** The options that take a separate value. */
  predicate IsValueOption(token: string) {
    token == "--shell" || token == "--cword" || token == "--word" || token == "--words" || token == "--format"
  }

  /** A value option followed by its value. */
  function ValueStep(st: ParseState, option: string, v: string): (r: Step<ParseState>)
    requires IsValueOption(option)
    ensures r.Next? ==> r.takesValue
    ensures !r.Stop?
  {
    if option == "--shell" then
      (match ParseShell(v)
       case Err(e) => Fail(e)
       case Ok(s) => Next(st.(shell := Some(s)), true))
    else if option == "--cword" then
      (match ParseCword(v)
       case Err(e) => Fail(e)
       case Ok(c) => Next(st.(cword := Some(c)), true))
    else if option == "--word" then Next(st.(words := st.words + [v]), true)
    else if option == "--words" then Next(st.(wordsRaw := Some(v)), true)
    else
      match ParseOutput(v)
      case Err(e) => Fail(e)
      case Ok(f) => Next(st.(output := f), true)
  }

  /** An inline `--option=value` token, or an unknown token. */
  function InlineStep(st: ParseState, token: string): (r: Step<ParseState>)
    ensures r.Next? ==> !r.takesValue
    ensures !r.Stop?
  {
    if StartsWith(token, "--shell=") then
      match ParseShell(token[8..])
      case Err(e) => Fail(e)
      case Ok(s) => Next(st.(shell := Some(s)), false)
    else if StartsWith(token, "--cword=") then
      match ParseCword(token[8..])
      case Err(e) => Fail(e)
      case Ok(c) => Next(st.(cword := Some(c)), false)
    else if StartsWith(token, "--word=") then
      Next(st.(words := st.words + [token[7..]]), false)
    else if StartsWith(token, "--words=") then
      Next(st.(wordsRaw := Some(token[8..])), false)
    else if StartsWith(token, "--format=") then
      match ParseOutput(token[9..])
      case Err(e) => Fail(e)
      case Ok(f) => Next(st.(output := f), false)
    else Fail("unknown option for __complete: " + token)
  }

  /** One iteration of the `CompletionRequest::parse` loop. */
  function ParseStep(st: ParseState, token: string, next: Option<string>): (r: Step<ParseState>)
    ensures !r.Stop?
  {
    if IsValueOption(token) then
      match next
      case None => Fail("missing value for " + token)
      case Some(v) => ValueStep(st, token, v)
    else InlineStep(st, token)
  }

  lemma ParseStepWellFormed()
    ensures WellFormed(ParseStep)
  {
    assert forall s: ParseState, t: string ::
      ParseStep(s, t, None).Next? ==> !ParseStep(s, t, None).takesValue;
    assert forall s: ParseState, t: string, n: string ::
      !ParseStep(s, t, None).Fail? ==> ParseStep(s, t, Some(n)) == ParseStep(s, t, None);
  }

  /** A token the request parser accepts as an option. */
  predicate KnownOption(token: string) {
    IsValueOption(token)
    || StartsWith(token, "--shell=") || StartsWith(token, "--cword=") || StartsWith(token, "--word=")
    || StartsWith(token, "--words=") || StartsWith(token, "--format=")
  }

  /** The words of the request: the `--word` values, else the split `--words` blob. */
  function RequestWords(st: ParseState): (r: Result<seq<string>>)
    ensures r.Ok? ==> |r.value| > 0
    ensures r.Err? <==> |st.words| == 0 && st.wordsRaw.None?
  {
    if |st.words| > 0 then Ok(st.words)
    else match st.wordsRaw
      case None => Err("missing --word or --words")
      case Some(raw) => Ok(ParseWordsBlob(raw))
  }

  /** The request once the option loop is done: the checks run in this order. */
  function Finish(st: ParseState, env: Env): (r: Result<CompletionRequest>)
    ensures r.Ok? ==> 0 < |r.value.words| && r.value.cword < |r.value.words|
    ensures r.Ok? ==> RequestWords(st) == Ok(r.value.words)
    ensures r.Ok? ==> Some(r.value.shell) == st.shell && Some(r.value.cword) == st.cword && r.value.output == st.output
    ensures r.Ok? ==> ModeFromEnv(env) == Ok(r.value.mode)
    ensures r.Ok? ==> r.value.runtime == ResolveRuntimeFromWords(r.value.words, r.value.cword, env)
  {
    var words :- RequestWords(st);
    if |words| == 0 then Err("completion words cannot be empty")
    else if st.cword.None? then Err("missing --cword")
    else if st.cword.value >= |words| then
      Err("invalid --cword index " + NatToString(st.cword.value) + " for " + NatToString(|words|) + " word(s)")
    else if st.shell.None? then Err("missing --shell")
    else
      var mode :- ModeFromEnv(env);
      Ok(CompletionRequest(st.shell.value, words, st.cword.value,
                           ResolveRuntimeFromWords(words, st.cword.value, env), mode, st.output))
  }

  /** `CompletionRequest::parse`, with the environment as a parameter. */
  function Parse(args: seq<string>, env: Env): (r: Result<CompletionRequest>)
    ensures r.Ok? ==> 0 < |r.value.words| && r.value.cword < |r.value.words|
  {
    match Run(ParseStep, args, INITIAL)
    case Failed(e) => Err(e)
    case Completed(st) => Finish(st, env)
    case Stopped(st) => Finish(st, env)
  }

  /** After the loop, the checks fail in this order: no words, no cursor,
      a cursor past the words, no shell, a bad mode variable. */
  lemma FinishErrors(st: ParseState, env: Env)
    ensures |st.words| == 0 && st.wordsRaw.None? ==> Finish(st, env) == Err("missing --word or --words")
    ensures RequestWords(st).Ok? && st.cword.None? ==> Finish(st, env) == Err("missing --cword")
    ensures RequestWords(st).Ok? && st.cword.Some? && st.cword.value >= |RequestWords(st).value|
            ==> Finish(st, env) == Err("invalid --cword index " + NatToString(st.cword.value) + " for "
                                       + NatToString(|RequestWords(st).value|) + " word(s)")
    ensures RequestWords(st).Ok? && st.cword.Some? && st.cword.value < |RequestWords(st).value| && st.shell.None?
            ==> Finish(st, env) == Err("missing --shell")
  {
  }

  /** "completion words cannot be empty" is never reported after the loop: a blob
      always yields at least one word. */
  lemma WordsNeverEmpty(st: ParseState, env: Env)
    ensures Finish(st, env) != Err("completion words cannot be empty")
  {
    var w := RequestWords(st);
    if w.Ok? && st.cword.Some? && st.cword.value < |w.value| && st.shell.Some? && ModeFromEnv(env).Err? {
      var raw := env[ENV_COMPLETION_MODE];
      var e := ModeFromEnv(env).error;
      var p := "invalid AGENT_WORKSPACE_COMPLETION_MODE value: ";
      var q := " (expected: rust|legacy)";
      assert e == p + raw + q;
      assert |e| > |"completion words cannot be empty"|;
    }
  }

  /** Once there are `--word` values, a `--words` blob does not matter. */
  lemma FinishIgnoresBlob(st: ParseState, raw: Option<string>, env: Env)
    requires |st.words| > 0
    ensures Finish(st.(wordsRaw := raw), env) == Finish(st, env)
  {
    assert RequestWords(st.(wordsRaw := raw)) == RequestWords(st);
  }

  // ---------------------------------------------------------------------------
  // Encoding a request

  function WordArgs(words: seq<string>): (r: seq<string>)
    ensures |r| == 2 * |words|
    decreases |words|
  {
    if |words| == 0 then [] else ["--word", words[0]] + WordArgs(words[1..])
  }

  /** The arguments a shell adapter passes for a request: one `--word` per word. */
  function RequestArgs(shell: Shell, words: seq<string>, cword: nat, output: OutputFormat): (r: seq<string>)
    ensures |r| == 6 + 2 * |words|
  {
    ["--shell", ShellName(shell)]
      + (["--cword", NatToString(cword)] + (["--format", FormatName(output)] + WordArgs(words)))
  }

  /** A value option and its value are one step of the loop. */
  lemma RunValueOption(option: string, v: string, rest: seq<string>, st: ParseState)
    requires IsValueOption(option)
    requires ValueStep(st, option, v).Next?
    ensures Run(ParseStep, [option, v] + rest, st) == Run(ParseStep, rest, ValueStep(st, option, v).state)
  {
    var a := [option, v] + rest;
    assert a[0] == option && Lookahead(a) == Some(v);
    assert a[2..] == rest;
  }

  lemma {:induction false} RunWordArgs(words: seq<string>, st: ParseState)
    ensures Run(ParseStep, WordArgs(words), st) == Completed(st.(words := st.words + words))
    decreases |words|
  {
    if |words| == 0 {
      assert st.words + words == st.words;
    } else {
      RunValueOption("--word", words[0], WordArgs(words[1..]), st);
      RunWordArgs(words[1..], st.(words := st.words + [words[0]]));
      assert st.words + [words[0]] + words[1..] == st.words + words;
    }
  }

  /** The state the loop reaches on the arguments an adapter builds. */
  lemma RunRequestArgs(shell: Shell, words: seq<string>, cword: nat, output: OutputFormat)
    requires cword < USIZE_BOUND
    ensures Run(ParseStep, RequestArgs(shell, words, cword, output), INITIAL)
         == Completed(ParseState(Some(shell), Some(cword), None, words, output))
  {
    ParseShellName(shell);
    ParseFormatName(output);
    NatToStringRoundTrip(cword, USIZE_BOUND);
    DigitsTrim(NatToString(cword));
    var s1 := INITIAL.(shell := Some(shell));
    var s2 := s1.(cword := Some(cword));
    var s3 := s2.(output := output);
    var tail := WordArgs(words);
    RunValueOption("--shell", ShellName(shell), ["--cword", NatToString(cword)] + (["--format", FormatName(output)] + tail), INITIAL);
    RunValueOption("--cword", NatToString(cword), ["--format", FormatName(output)] + tail, s1);
    RunValueOption("--format", FormatName(output), tail, s2);
    RunWordArgs(words, s3);
    assert [] + words == words;
  }

  /** Parsing the arguments an adapter builds recovers the request. */
  lemma RequestRoundTrip(shell: Shell, words: seq<string>, cword: nat, output: OutputFormat, mode: Mode, env: Env)
    requires |words| > 0 && cword < |words| && cword < USIZE_BOUND
    requires ModeFromEnv(env) == Ok(mode)
    ensures Parse(RequestArgs(shell, words, cword, output), env)
         == Ok(CompletionRequest(shell, words, cword, ResolveRuntimeFromWords(words, cword, env), mode, output))
  {
    RunRequestArgs(shell, words, cword, output);
  }

  /** A cursor past the words is rejected with both numbers. */
  lemma CursorOutOfRange(shell: Shell, words: seq<string>, cword: nat, output: OutputFormat, env: Env)
    requires |words| > 0 && |words| <= cword < USIZE_BOUND
    ensures Parse(RequestArgs(shell, words, cword, output), env)
         == Err("invalid --cword index " + NatToString(cword) + " for " + NatToString(|words|) + " word(s)")
  {
    RunRequestArgs(shell, words, cword, output);
  }

  /** With at least one `--word`, a `--words` blob is ignored. */
  lemma WordOverridesBlob(args: seq<string>, blob: string, env: Env)
    requires Run(ParseStep, args, INITIAL).Completed?
    requires |Run(ParseStep, args, INITIAL).state.words| > 0
    ensures Parse(args + ["--words", blob], env) == Parse(args, env)
  {
    var st := Run(ParseStep, args, INITIAL).state;
    ParseStepWellFormed();
    RunConcat(ParseStep, args, ["--words", blob], INITIAL);
    RunValueOption("--words", blob, [], st);
    assert ["--words", blob] + [] == ["--words", blob];
    FinishIgnoresBlob(st, Some(blob), env);
  }

  /** A token that is no option of the protocol fails the parse, whatever follows. */
  lemma UnknownOptionFails(args: seq<string>, token: string, rest: seq<string>, env: Env)
    requires Run(ParseStep, args, INITIAL).Completed?
    requires !KnownOption(token)
    ensures Parse(args + [token] + rest, env) == Err("unknown option for __complete: " + token)
  {
    ParseStepWellFormed();
    RunConcat(ParseStep, args, [token] + rest, INITIAL);
    assert args + [token] + rest == args + ([token] + rest);
    assert ([token] + rest)[0] == token;
  }

  /** A value option at the very end reports its missing value. */
  lemma TrailingOptionFails(args: seq<string>, option: string, env: Env)
    requires Run(ParseStep, args, INITIAL).Completed?
    requires IsValueOption(option)
    ensures Parse(args + [option], env) == Err("missing value for " + option)
  {
    ParseStepWellFormed();
    RunSnoc(ParseStep, args, option, INITIAL);
  }
}

=== FILE: repo_paths.dfy ===
/** Where a repository path typed by the user points: on the host, relative to a
    workspace directory (`map_workspace_repo_path` in `launcher/reset.rs`), and in
    the container, relative to a default root (`map_container_repo_path` in
    `launcher/container.rs`). Paths are strings with `/` as the separator. */
module RepoPaths {
  import opened Wrappers
  import opened Strings

  /** `PathBuf::join`: an absolute path replaces the base; otherwise a `/` is put
      between them unless the base is empty or already ends in one. */
  function PathJoin(base: string, p: string): (r: string)
    ensures StartsWith(p, "/") ==> r == p
    ensures !StartsWith(p, "/") ==> StartsWith(r, base) && EndsWith(r, p) && |r| <= |base| + 1 + |p|
  {
    if StartsWith(p, "/") then p
    else if |base| > 0 && !EndsWith(base, "/") then base + "/" + p
    else base + p
  }

  /** Joining a relative path onto a base that does not end in `/` puts exactly
      one separator between them. */
  lemma JoinAddsSeparator(base: string, p: string)
    requires |base| > 0 && !EndsWith(base, "/") && !StartsWith(p, "/")
    ensures PathJoin(base, p) == base + "/" + p
  {
  }

  // ---------------------------------------------------------------------------
  // map_workspace_repo_path

  /** The container paths the host mirrors inside the workspace directory, with the
      sub-directory each one maps to. */
  predicate IsMount(mount: string, dir: string) {
    (mount, dir) == ("/work", "work") || (mount, dir) == ("/opt", "opt") || (mount, dir) == ("~/.private", "private")
  }

  /** `c` is the mount point itself or lies below it. */
  predicate UnderMount(c: string, mount: string) {
    c == mount || StartsWith(c, mount + "/")
  }

  predicate UnderAnyMount(c: string) {
    UnderMount(c, "/work") || UnderMount(c, "/opt") || UnderMount(c, "~/.private")
  }

  /** The host path of `c` when `c` is `mount` or below it. */
  function MapMount(ws: string, c: string, mount: string, dir: string): (r: Option<string>)
    ensures r.Some? <==> UnderMount(c, mount)
  {
    if c == mount then Some(PathJoin(ws, dir))
    else
      var rest := StripPrefix(c, mount + "/");
      if rest.Some? then Some(PathJoin(PathJoin(ws, dir), rest.value)) else None
  }

  /** A path under a mount point begins like it. */
  lemma MountHead(c: string, mount: string)
    requires UnderMount(c, mount) && |mount| >= 2
    ensures |c| >= 2 && c[0] == mount[0] && c[1] == mount[1]
  {
    if c != mount {
      assert c[..|mount| + 1] == mount + "/";
      assert c[0] == (mount + "/")[0] && c[1] == (mount + "/")[1];
    }
  }

  /** No path lies under two of the mount points. */
  lemma MountsDisjoint(c: string)
    ensures !(UnderMount(c, "/work") && UnderMount(c, "/opt"))
    ensures !(UnderMount(c, "/work") && UnderMount(c, "~/.private"))
    ensures !(UnderMount(c, "/opt") && UnderMount(c, "~/.private"))
  {
    assert "/work"[0] == '/' && "/work"[1] == 'w';
    assert "/opt"[0] == '/' && "/opt"[1] == 'o';
    assert "~/.private"[0] == '~';
    if UnderMount(c, "/work") { MountHead(c, "/work"); }
    if UnderMount(c, "/opt") { MountHead(c, "/opt"); }
    if UnderMount(c, "~/.private") { MountHead(c, "~/.private"); }
  }

  /** `map_workspace_repo_path`: a blank input is the workspace itself, any other
      absolute path outside the mount points is kept, and a relative one is joined
      onto the workspace. The mount points are `MountedPaths`. */
  function MapWorkspaceRepoPath(ws: string, raw: string): (r: string)
    ensures Trim(raw) == "" ==> r == ws
    ensures Trim(raw) != "" && !UnderAnyMount(Trim(raw)) ==>
      r == if StartsWith(Trim(raw), "/") then Trim(raw) else PathJoin(ws, Trim(raw))
  {
    var c := Trim(raw);
    var work := MapMount(ws, c, "/work", "work");
    var opt := MapMount(ws, c, "/opt", "opt");
    var private := MapMount(ws, c, "~/.private", "private");
    if c == "" then ws
    else if work.Some? then work.value
    else if opt.Some? then opt.value
    else if private.Some? then private.value
    else if StartsWith(c, "/") then c
    else PathJoin(ws, c)
  }

  /** Each mount point maps to its sub-directory of the workspace, and what follows
      it is joined onto that directory. */
  lemma MountedPaths(ws: string, raw: string, mount: string, dir: string)
    requires IsMount(mount, dir)
    ensures Trim(raw) == mount ==> MapWorkspaceRepoPath(ws, raw) == PathJoin(ws, dir)
    ensures StartsWith(Trim(raw), mount + "/") ==>
      MapWorkspaceRepoPath(ws, raw) == PathJoin(PathJoin(ws, dir), Trim(raw)[|mount| + 1..])
  {
    MountsDisjoint(Trim(raw));
  }

  /** A path below `/work` maps below the workspace's `work` directory. */
  lemma UnderWork(ws: string, rest: string)
    requires NoOuterWhitespace("/work/" + rest)
    ensures MapWorkspaceRepoPath(ws, "/work/" + rest) == PathJoin(PathJoin(ws, "work"), rest)
  {
    var c := "/work/" + rest;
    TrimNoOp(c);
    StartsWithConcat("/work/", rest);
    MountedPaths(ws, c, "/work", "work");
    assert c[|"/work"| + 1..] == rest;
  }

  /** A rest that is itself absolute replaces the whole path, as `Path::join` does:
      `/work//etc` maps to `/etc`. */
  lemma AbsoluteRestReplaces(ws: string, rest: string)
    requires StartsWith(rest, "/") && NoOuterWhitespace(rest)
    ensures MapWorkspaceRepoPath(ws, "/work/" + rest) == rest
  {
    var c := "/work/" + rest;
    assert NoOuterWhitespace(c) by { assert c[|c| - 1] == rest[|rest| - 1]; }
    UnderWork(ws, rest);
  }

  // ---------------------------------------------------------------------------
  // map_container_repo_path

  /** `map_container_repo_path`: a blank input is the default root and an absolute
      one is kept; a relative one goes below the root, without the root's trailing
      `/` and without the input's leading `./`. */
  function MapContainerRepoPath(raw: string, root: string): (r: string)
    ensures Trim(raw) == "" ==> r == root
    ensures StartsWith(Trim(raw), "/") ==> r == Trim(raw)
    ensures Trim(raw) != "" && !StartsWith(Trim(raw), "/") ==>
      var base := TrimEndMatches(root, "/");
      (StartsWith(r, base + "/") && !EndsWith(base, "/")
       && !StartsWith(r[|base| + 1..], "./") && EndsWith(Trim(raw), r[|base| + 1..]))
  {
    var c := Trim(raw);
    if c == "" then root
    else if StartsWith(c, "/") then c
    else
      var base := TrimEndMatches(root, "/");
      var tail := TrimStartMatches(c, "./");
      var r := base + "/" + tail;
      assert r[|base| + 1..] == tail;
      StartsWithConcat(base + "/", tail);
      r
  }

  /** With an absolute root every result is absolute. */
  lemma ContainerPathIsAbsolute(raw: string, root: string)
    requires StartsWith(root, "/")
    ensures StartsWith(MapContainerRepoPath(raw, root), "/")
  {
    var c := Trim(raw);
    if c != "" && !StartsWith(c, "/") {
      var base := TrimEndMatches(root, "/");
      var r := MapContainerRepoPath(raw, root);
      if |base| > 0 {
        assert base[0] == root[0];
        assert r[0] == base[0];
      } else {
        assert r[0] == '/';
      }
    }
  }

  lemma WorkRootKept()
    ensures TrimEndMatches("/work", "/") + "/" == "/work/"
  {
    assert !EndsWith("/work", "/") by { assert "/work"[4] == 'k'; }
    assert "/work" + "/" == "/work/";
  }

  /** `/work/` followed by the end of a trimmed string has no outer whitespace. */
  lemma WorkPathUnpadded(c: string, tail: string)
    requires |c| > 0 && NoOuterWhitespace(c) && |tail| <= |c| && tail == c[|c| - |tail|..]
    ensures NoOuterWhitespace("/work/" + tail)
  {
    var p := "/work/" + tail;
    if |tail| > 0 {
      assert p[|p| - 1] == tail[|tail| - 1] == c[|c| - 1];
    }
  }

  /** A relative path in the container's default root `/work` lands below `/work/`. */
  lemma ContainerWorkPath(raw: string)
    requires Trim(raw) != "" && !StartsWith(Trim(raw), "/")
    ensures var p := MapContainerRepoPath(raw, "/work");
      p == "/work/" + TrimStartMatches(Trim(raw), "./") && NoOuterWhitespace(p)
  {
    var c := Trim(raw);
    var tail := TrimStartMatches(c, "./");
    RelativeContainerPath(raw, "/work");
    WorkRootKept();
    assert TrimEndMatches("/work", "/") + "/" + tail == "/work/" + tail;
    TrimSpec(raw);
    WorkPathUnpadded(c, tail);
  }

  lemma RelativeContainerPath(raw: string, root: string)
    requires Trim(raw) != "" && !StartsWith(Trim(raw), "/")
    ensures MapContainerRepoPath(raw, root) == TrimEndMatches(root, "/") + "/" + TrimStartMatches(Trim(raw), "./")
  {
  }

  /** A relative path in the container's default root `/work` is found by the host
      under the workspace's `work` directory: the two mappings agree. */
  lemma HostMirrorsContainer(ws: string, raw: string)
    requires Trim(raw) != "" && !StartsWith(Trim(raw), "/")
    ensures MapWorkspaceRepoPath(ws, MapContainerRepoPath(raw, "/work"))
      == PathJoin(PathJoin(ws, "work"), TrimStartMatches(Trim(raw), "./"))
  {
    ContainerWorkPath(raw);
    UnderWork(ws, TrimStartMatches(Trim(raw), "./"));
  }

  /** The exception to the agreement above: when what follows the leading `./` is
      itself absolute (`.//etc`), the host's join replaces the `work` directory and
      the host sees that absolute path. */
  lemma ContainerAbsoluteTailEscapes(ws: string, raw: string)
    requires Trim(raw) != "" && !StartsWith(Trim(raw), "/")
    requires StartsWith(TrimStartMatches(Trim(raw), "./"), "/")
    ensures MapWorkspaceRepoPath(ws, MapContainerRepoPath(raw, "/work")) == TrimStartMatches(Trim(raw), "./")
  {
    var tail := TrimStartMatches(Trim(raw), "./");
    ContainerWorkPath(raw);
    var p := "/work/" + tail;
    assert NoOuterWhitespace(tail) by {
      assert tail[0] == '/' && tail[|tail| - 1] == p[|p| - 1];
    }
    AbsoluteRestReplaces(ws, tail);
  }
}

=== FILE: reset_args.dfy ===
/** The arguments of the `reset` subcommands, on the host (`launcher/reset.rs`) and
    in the container launcher (`launcher/container.rs`): `reset repo`, `reset
    work-repos`, and the simpler `reset opt-repos`, `reset private-repo` (host) and
    the shared simple parser of the container launcher. */
module ResetArgs {
  import opened Wrappers
  import opened Strings
  import opened TokenScan
  import opened Runtime

  /** The git ref a reset moves to unless `--ref` says otherwise. */
  const DEFAULT_REF := "origin/main"
  const REF_FLAG := "--ref"
  const REF_INLINE := "--ref="

  predicate IsYesFlag(t: string) { t == "-y" || t == "--yes" }

  /** The spellings every reset parser compares a token against. */
  lemma Spellings()
    ensures IsDash(REF_FLAG) && IsDash(REF_INLINE) && IsDash("-y") && IsDash("--yes")
    ensures IsDash("--root") && IsDash("--root=") && IsDash("--depth") && IsDash("--depth=")
  {
    assert REF_FLAG[0] == '-' && REF_INLINE[0] == '-' && "-y"[0] == '-' && "--yes"[0] == '-';
    assert "--root"[0] == '-' && "--root="[0] == '-' && "--depth"[0] == '-' && "--depth="[0] == '-';
  }

  /** A plain token is none of the options of any reset parser. */
  lemma PlainToken(t: string)
    requires !IsDash(t)
    ensures !IsHelpFlag(t) && !IsYesFlag(t) && t != REF_FLAG && !StartsWith(t, REF_INLINE)
    ensures t != "--root" && t != "--depth" && !StartsWith(t, "--root=") && !StartsWith(t, "--depth=")
  {
    Spellings();
    PlainIsNotHelp(t);
    PlainIsNot(t, REF_FLAG);
    PlainIsNot(t, REF_INLINE);
    PlainIsNot(t, "-y");
    PlainIsNot(t, "--yes");
    PlainIsNot(t, "--root");
    PlainIsNot(t, "--root=");
    PlainIsNot(t, "--depth");
    PlainIsNot(t, "--depth=");
  }

  /** `--ref=<v>` is read as the inline ref and nothing else. */
  lemma InlineRefToken(v: string)
    ensures var t := REF_INLINE + v;
      StartsWith(t, REF_INLINE) && t[|REF_INLINE|..] == v && !IsHelpFlag(t) && !IsYesFlag(t) && t != REF_FLAG
      && t != "--root" && t != "--depth" && !StartsWith(t, "--root=") && !StartsWith(t, "--depth=")
  {
    var t := REF_INLINE + v;
    StartsWithConcat(REF_INLINE, v);
    assert t[|REF_INLINE|..] == v;
    assert t[2] == 'r' && t[3] == 'e' && t[5] == '=';
    assert "--root="[3] == 'o' && "--depth="[2] == 'd' && "--root"[3] == 'o';
  }

  // ---------------------------------------------------------------------------
  // `parse_positive_u32` (container launcher)

  function PositiveIntegerError(optionName: string, raw: string): string {
    optionName + " must be a positive integer (got: " + raw + ")"
  }

  /** A positive 32-bit count, surrounding whitespace allowed; the error quotes the
      text as given. */
  function ParsePositiveU32(raw: string, optionName: string): (r: Result<nat>)
    ensures r.Ok? ==> 0 < r.value < U32_BOUND
    ensures r.Err? ==> r.error == PositiveIntegerError(optionName, raw)
  {
    var value := ParseUnsigned(Trim(raw), U32_BOUND);
    if value.None? || value.value == 0 then Err(PositiveIntegerError(optionName, raw)) else Ok(value.value)
  }

  /** Every positive 32-bit count, written in decimal, parses back to itself; zero
      is refused. */
  lemma PositiveU32RoundTrip(n: nat, optionName: string)
    requires 0 < n < U32_BOUND
    ensures ParsePositiveU32(NatToString(n), optionName) == Ok(n)
  {
    DigitsTrim(NatToString(n));
    NatToStringRoundTrip(n, U32_BOUND);
  }

  lemma ZeroIsNotPositive(optionName: string)
    ensures ParsePositiveU32("0", optionName) == Err(PositiveIntegerError(optionName, "0"))
  {
    DigitsTrim("0");
  }

  // ---------------------------------------------------------------------------
  // `reset repo`

  datatype ParsedResetRepo = ParsedResetRepo(
    showHelp: bool, workspace: Option<string>, repoDir: Option<string>, refspec: string, yes: bool)

  const INITIAL_REPO := ParsedResetRepo(false, None, None, DEFAULT_REF, false)

  function RepoUnknown(side: Runtime, t: string): string {
    if side == Host then "unknown arg: " + t else "unknown option for reset repo: " + t
  }

  function RepoUnexpected(side: Runtime, t: string): string {
    if side == Host then "unexpected arg: " + t else "unexpected arg for reset repo: " + t
  }

  /** The first positional argument is the workspace, the second the repository. */
  function RepoPositional(side: Runtime, p: ParsedResetRepo, t: string): (r: Step<ParsedResetRepo>)
    ensures r.Next? ==> !r.takesValue && (r.state.repoDir.Some? ==> r.state.workspace.Some?)
  {
    if p.workspace.None? then Next(p.(workspace := Some(t)), false)
    else if p.repoDir.None? then Next(p.(repoDir := Some(t)), false)
    else Fail(RepoUnexpected(side, t))
  }

  /** One iteration of the `while idx < args.len()` loop. */
  function RepoStep(side: Runtime, st: ParsedResetRepo, t: string, next: Option<string>): (r: Step<ParsedResetRepo>)
    ensures !r.Stop?
    ensures r.Next? && (st.repoDir.Some? ==> st.workspace.Some?) ==> (r.state.repoDir.Some? ==> r.state.workspace.Some?)
  {
    if IsHelpFlag(t) then Next(st.(showHelp := true), false)
    else if IsYesFlag(t) then Next(st.(yes := true), false)
    else if t == REF_FLAG then
      (match next
       case None => Fail("missing value for --ref")
       case Some(v) => Next(st.(refspec := v), true))
    else if StartsWith(t, REF_INLINE) then Next(st.(refspec := t[|REF_INLINE|..]), false)
    else if IsDash(t) then Fail(RepoUnknown(side, t))
    else RepoPositional(side, st, t)
  }

  function RepoSteps(side: Runtime): StepFn<ParsedResetRepo> {
    (s, t, n) => RepoStep(side, s, t, n)
  }

  lemma RepoStepWellFormed(side: Runtime)
    ensures WellFormed(RepoSteps(side))
  {
    assert forall s: ParsedResetRepo, t: string :: RepoStep(side, s, t, None).Next? ==> !RepoStep(side, s, t, None).takesValue;
    assert forall s: ParsedResetRepo, t: string, n: string ::
      !RepoStep(side, s, t, None).Fail? ==> RepoStep(side, s, t, Some(n)) == RepoStep(side, s, t, None);
  }

  function Finish<S>(o: Outcome<S>): Result<S> {
    match o
    case Failed(e) => Err(e)
    case Completed(s) => Ok(s)
    case Stopped(s) => Ok(s)
  }

  /** `parse_reset_repo_args`: a repository directory is only ever given after a
      workspace. */
  function ParseResetRepoArgs(side: Runtime, args: seq<string>): (r: Result<ParsedResetRepo>)
    ensures r.Ok? && r.value.repoDir.Some? ==> r.value.workspace.Some?
    ensures |args| == 0 ==> r == Ok(INITIAL_REPO)
  {
    RunInvariant(RepoSteps(side), (s: ParsedResetRepo) => s.repoDir.Some? ==> s.workspace.Some?, args, INITIAL_REPO);
    Finish(Run(RepoSteps(side), args, INITIAL_REPO))
  }

  /** A positional argument fills the workspace, then the repository directory; a
      third is an error. */
  lemma RepoPositionalFills(side: Runtime, opts: seq<string>, t: string, rest: seq<string>, s: ParsedResetRepo)
    requires Run(RepoSteps(side), opts, INITIAL_REPO) == Completed(s)
    requires !IsDash(t)
    ensures ParseResetRepoArgs(side, opts + [t] + rest) ==
      if s.workspace.None? then Finish(Run(RepoSteps(side), rest, s.(workspace := Some(t))))
      else if s.repoDir.None? then Finish(Run(RepoSteps(side), rest, s.(repoDir := Some(t))))
      else Err(RepoUnexpected(side, t))
  {
    RepoStepWellFormed(side);
    RunAfter(RepoSteps(side), opts, t, rest, INITIAL_REPO);
    PlainToken(t);
  }

  /** `--ref <v>` and `--ref=<v>` set the ref; a later one replaces an earlier one. */
  lemma RepoRefSets(side: Runtime, opts: seq<string>, v: string, rest: seq<string>, s: ParsedResetRepo)
    requires Run(RepoSteps(side), opts, INITIAL_REPO) == Completed(s)
    ensures ParseResetRepoArgs(side, opts + [REF_FLAG, v] + rest) == Finish(Run(RepoSteps(side), rest, s.(refspec := v)))
    ensures ParseResetRepoArgs(side, opts + [REF_INLINE + v] + rest) == Finish(Run(RepoSteps(side), rest, s.(refspec := v)))
  {
    RepoStepWellFormed(side);
    Spellings();
    assert opts + [REF_FLAG, v] + rest == opts + [REF_FLAG] + ([v] + rest);
    RunAfter(RepoSteps(side), opts, REF_FLAG, [v] + rest, INITIAL_REPO);
    assert ([v] + rest)[1..] == rest;
    assert !IsHelpFlag(REF_FLAG) && !IsYesFlag(REF_FLAG) by { assert REF_FLAG[2] == 'r'; }
    RunAfter(RepoSteps(side), opts, REF_INLINE + v, rest, INITIAL_REPO);
    InlineRefToken(v);
  }

  lemma RepoTrailingRefFails(side: Runtime, opts: seq<string>, s: ParsedResetRepo)
    requires Run(RepoSteps(side), opts, INITIAL_REPO) == Completed(s)
    ensures ParseResetRepoArgs(side, opts + [REF_FLAG]) == Err("missing value for --ref")
  {
    RepoStepWellFormed(side);
    RunSnoc(RepoSteps(side), opts, REF_FLAG, INITIAL_REPO);
    assert !IsHelpFlag(REF_FLAG) && !IsYesFlag(REF_FLAG) by { assert REF_FLAG[2] == 'r'; }
  }

  lemma RepoUnknownOptionFails(side: Runtime, opts: seq<string>, t: string, rest: seq<string>, s: ParsedResetRepo)
    requires Run(RepoSteps(side), opts, INITIAL_REPO) == Completed(s)
    requires IsDash(t) && !IsHelpFlag(t) && !IsYesFlag(t) && t != REF_FLAG && !StartsWith(t, REF_INLINE)
    ensures ParseResetRepoArgs(side, opts + [t] + rest) == Err(RepoUnknown(side, t))
  {
    RepoStepWellFormed(side);
    RunAfter(RepoSteps(side), opts, t, rest, INITIAL_REPO);
  }

  // ---------------------------------------------------------------------------
  // `reset work-repos`

  datatype ParsedResetWorkRepos = ParsedResetWorkRepos(
    showHelp: bool, workspace: Option<string>, root: string, depth: nat, refspec: string, yes: bool)

  /** The defaults differ: the host scans three levels deep, the container four. */
  function InitialWorkRepos(side: Runtime): ParsedResetWorkRepos {
    ParsedResetWorkRepos(false, None, "/work", if side == Host then 3 else 4, DEFAULT_REF, false)
  }

  const DEPTH_ERROR := "--depth must be a positive integer"

  /** The value of `--depth`: any 32-bit number on the host (zero is refused only
      after the loop), a positive one in the container launcher. */
  function DepthValue(side: Runtime, raw: string): (r: Result<nat>)
    ensures r.Ok? ==> r.value < U32_BOUND
    ensures side == Container && r.Ok? ==> r.value > 0
  {
    if side == Container then ParsePositiveU32(raw, "--depth")
    else
      var parsed := ParseUnsigned(raw, U32_BOUND);
      if parsed.None? then Err(DEPTH_ERROR) else Ok(parsed.value)
  }

  function WorkUnknown(side: Runtime, t: string): string {
    if side == Host then "unknown arg: " + t else "unknown option for reset work-repos: " + t
  }

  function WorkUnexpected(side: Runtime, t: string): string {
    if side == Host then "unexpected arg: " + t else "unexpected arg for reset work-repos: " + t
  }

  function SetDepth(side: Runtime, st: ParsedResetWorkRepos, raw: string, takesValue: bool): (r: Step<ParsedResetWorkRepos>)
    ensures r.Next? ==> r.takesValue == takesValue && r.state == st.(depth := r.state.depth)
    ensures r.Next? ==> r.state.depth < U32_BOUND && (side == Container ==> r.state.depth > 0)
  {
    var d := DepthValue(side, raw);
    if d.Err? then Fail(d.error) else Next(st.(depth := d.value), takesValue)
  }

  /** The depth stays a 32-bit number, and a positive one in the container launcher. */
  predicate DepthInRange(side: Runtime, p: ParsedResetWorkRepos) {
    p.depth < U32_BOUND && (side == Container ==> p.depth > 0)
  }

  /** One iteration of the `while idx < args.len()` loop. */
  function WorkStep(side: Runtime, st: ParsedResetWorkRepos, t: string, next: Option<string>): (r: Step<ParsedResetWorkRepos>)
    ensures !r.Stop?
    ensures r.Next? && DepthInRange(side, st) ==> DepthInRange(side, r.state)
  {
    if IsHelpFlag(t) then Next(st.(showHelp := true), false)
    else if IsYesFlag(t) then Next(st.(yes := true), false)
    else if t == "--root" || t == "--depth" || t == REF_FLAG then
      (match next
       case None => Fail("missing value for " + t)
       case Some(v) =>
         if t == "--root" then Next(st.(root := v), true)
         else if t == "--depth" then SetDepth(side, st, v, true)
         else Next(st.(refspec := v), true))
    else if StartsWith(t, "--root=") then Next(st.(root := t[|"--root="|..]), false)
    else if StartsWith(t, "--depth=") then SetDepth(side, st, t[|"--depth="|..], false)
    else if StartsWith(t, REF_INLINE) then Next(st.(refspec := t[|REF_INLINE|..]), false)
    else if IsDash(t) then Fail(WorkUnknown(side, t))
    else if st.workspace.Some? then Fail(WorkUnexpected(side, t))
    else Next(st.(workspace := Some(t)), false)
  }

  function WorkSteps(side: Runtime): StepFn<ParsedResetWorkRepos> {
    (s, t, n) => WorkStep(side, s, t, n)
  }

  lemma WorkStepWellFormed(side: Runtime)
    ensures WellFormed(WorkSteps(side))
  {
    assert forall s: ParsedResetWorkRepos, t: string :: WorkStep(side, s, t, None).Next? ==> !WorkStep(side, s, t, None).takesValue;
    assert forall s: ParsedResetWorkRepos, t: string, n: string ::
      !WorkStep(side, s, t, None).Fail? ==> WorkStep(side, s, t, Some(n)) == WorkStep(side, s, t, None);
  }

  /** After the loop the host refuses a zero depth. */
  function FinishWorkRepos(side: Runtime, o: Outcome<ParsedResetWorkRepos>): Result<ParsedResetWorkRepos> {
    match o
    case Failed(e) => Err(e)
    case _ => if side == Host && o.state.depth == 0 then Err(DEPTH_ERROR) else Ok(o.state)
  }

  /** `parse_reset_work_repos_args`: the depth is always a positive 32-bit number. */
  function ParseResetWorkReposArgs(side: Runtime, args: seq<string>): (r: Result<ParsedResetWorkRepos>)
    ensures r.Ok? ==> 0 < r.value.depth < U32_BOUND
    ensures |args| == 0 ==> r == Ok(InitialWorkRepos(side))
  {
    RunInvariant(WorkSteps(side), (s: ParsedResetWorkRepos) => DepthInRange(side, s), args, InitialWorkRepos(side));
    FinishWorkRepos(side, Run(WorkSteps(side), args, InitialWorkRepos(side)))
  }

  /** What one `--depth <v>` does after a completed scan of `opts`. */
  lemma DepthOption(side: Runtime, opts: seq<string>, v: string, rest: seq<string>, s: ParsedResetWorkRepos)
    requires Run(WorkSteps(side), opts, InitialWorkRepos(side)) == Completed(s)
    ensures var d := DepthValue(side, v);
      ParseResetWorkReposArgs(side, opts + ["--depth", v] + rest)
        == if d.Err? then Err(d.error) else FinishWorkRepos(side, Run(WorkSteps(side), rest, s.(depth := d.value)))
  {
    WorkStepWellFormed(side);
    Spellings();
    assert opts + ["--depth", v] + rest == opts + ["--depth"] + ([v] + rest);
    RunAfter(WorkSteps(side), opts, "--depth", [v] + rest, InitialWorkRepos(side));
    assert ([v] + rest)[1..] == rest;
    assert !IsHelpFlag("--depth") && !IsYesFlag("--depth") by { assert "--depth"[2] == 'd'; }
  }

  /** Every positive 32-bit depth, written in decimal, is taken as given. */
  lemma DepthRoundTrip(side: Runtime, n: nat)
    requires 0 < n < U32_BOUND
    ensures ParseResetWorkReposArgs(side, ["--depth", NatToString(n)]) == Ok(InitialWorkRepos(side).(depth := n))
  {
    PositiveU32RoundTrip(n, "--depth");
    NatToStringRoundTrip(n, U32_BOUND);
    DepthOption(side, [], NatToString(n), [], InitialWorkRepos(side));
    assert [] + ["--depth", NatToString(n)] + [] == ["--depth", NatToString(n)];
  }

  /** A zero depth: the host reports it after the loop, with its general message;
      the container launcher at once, quoting the value. */
  lemma ZeroDepth(opts: seq<string>, sh: ParsedResetWorkRepos, sc: ParsedResetWorkRepos)
    requires Run(WorkSteps(Host), opts, InitialWorkRepos(Host)) == Completed(sh)
    requires Run(WorkSteps(Container), opts, InitialWorkRepos(Container)) == Completed(sc)
    ensures ParseResetWorkReposArgs(Host, opts + ["--depth", "0"]) == Err(DEPTH_ERROR)
    ensures ParseResetWorkReposArgs(Container, opts + ["--depth", "0"]) == Err(PositiveIntegerError("--depth", "0"))
  {
    ZeroIsNotPositive("--depth");
    assert ParseUnsigned("0", U32_BOUND) == Some(0) by {
      assert AllDigits("0");
      assert DecimalValue("0") == DecimalValue("0"[..0]) * 10 + DigitValue('0');
    }
    DepthOption(Host, opts, "0", [], sh);
    DepthOption(Container, opts, "0", [], sc);
    assert opts + ["--depth", "0"] + [] == opts + ["--depth", "0"];
  }

  /** A second workspace name is an error. */
  lemma WorkSecondWorkspaceFails(side: Runtime, opts: seq<string>, t: string, rest: seq<string>, s: ParsedResetWorkRepos)
    requires Run(WorkSteps(side), opts, InitialWorkRepos(side)) == Completed(s) && s.workspace.Some?
    requires !IsDash(t)
    ensures ParseResetWorkReposArgs(side, opts + [t] + rest) == Err(WorkUnexpected(side, t))
  {
    WorkStepWellFormed(side);
    RunAfter(WorkSteps(side), opts, t, rest, InitialWorkRepos(side));
    PlainToken(t);
  }

  lemma WorkUnknownOptionFails(side: Runtime, opts: seq<string>, t: string, rest: seq<string>, s: ParsedResetWorkRepos)
    requires Run(WorkSteps(side), opts, InitialWorkRepos(side)) == Completed(s)
    requires IsDash(t) && !IsHelpFlag(t) && !IsYesFlag(t) && t != "--root" && t != "--depth" && t != REF_FLAG
    requires !StartsWith(t, "--root=") && !StartsWith(t, "--depth=") && !StartsWith(t, REF_INLINE)
    ensures ParseResetWorkReposArgs(side, opts + [t] + rest) == Err(WorkUnknown(side, t))
  {
    WorkStepWellFormed(side);
    RunAfter(WorkSteps(side), opts, t, rest, InitialWorkRepos(side));
  }

  // ---------------------------------------------------------------------------
  // `reset opt-repos`, `reset private-repo` (host) and the container's simple resets

  /** Which simple parser: the host's `opt-repos` (no `--ref`), the host's
      `private-repo`, or the container launcher's shared one. */
  datatype SimpleFlavor = OptRepos | PrivateRepo | ContainerSimple

  datatype ParsedResetSimple = ParsedResetSimple(showHelp: bool, workspace: Option<string>, yes: bool, refspec: string)

  function SimpleUnknown(flavor: SimpleFlavor, t: string): string {
    if flavor == ContainerSimple then "unknown option: " + t else "unknown arg: " + t
  }

  /** One iteration of the loop. */
  function SimpleStep(flavor: SimpleFlavor, st: ParsedResetSimple, t: string, next: Option<string>): (r: Step<ParsedResetSimple>)
    ensures !r.Stop?
    ensures flavor == OptRepos && r.Next? ==> r.state.refspec == st.refspec
  {
    if IsHelpFlag(t) then Next(st.(showHelp := true), false)
    else if IsYesFlag(t) then Next(st.(yes := true), false)
    else if flavor != OptRepos && t == REF_FLAG then
      (match next
       case None => Fail("missing value for --ref")
       case Some(v) => Next(st.(refspec := v), true))
    else if flavor != OptRepos && StartsWith(t, REF_INLINE) then Next(st.(refspec := t[|REF_INLINE|..]), false)
    else if IsDash(t) then Fail(SimpleUnknown(flavor, t))
    else if st.workspace.Some? then Fail("unexpected arg: " + t)
    else Next(st.(workspace := Some(t)), false)
  }

  function SimpleSteps(flavor: SimpleFlavor): StepFn<ParsedResetSimple> {
    (s, t, n) => SimpleStep(flavor, s, t, n)
  }

  lemma SimpleStepWellFormed(flavor: SimpleFlavor)
    ensures WellFormed(SimpleSteps(flavor))
  {
    assert forall s: ParsedResetSimple, t: string :: SimpleStep(flavor, s, t, None).Next? ==> !SimpleStep(flavor, s, t, None).takesValue;
    assert forall s: ParsedResetSimple, t: string, n: string ::
      !SimpleStep(flavor, s, t, None).Fail? ==> SimpleStep(flavor, s, t, Some(n)) == SimpleStep(flavor, s, t, None);
  }

  /** `parse_reset_opt_repos_args`, `parse_reset_private_repo_args` (both with
      `DEFAULT_REF`) and the container's `parse_reset_simple_args(args, default_ref)`.
      The host's `opt-repos` has no ref at all: it keeps the default. */
  function ParseResetSimpleArgs(flavor: SimpleFlavor, defaultRef: string, args: seq<string>): (r: Result<ParsedResetSimple>)
    ensures flavor == OptRepos && r.Ok? ==> r.value.refspec == defaultRef
    ensures |args| == 0 ==> r == Ok(ParsedResetSimple(false, None, false, defaultRef))
  {
    var st := ParsedResetSimple(false, None, false, defaultRef);
    RunInvariant(SimpleSteps(flavor), (s: ParsedResetSimple) => flavor == OptRepos ==> s.refspec == defaultRef, args, st);
    Finish(Run(SimpleSteps(flavor), args, st))
  }

  /** The first positional argument is the workspace; a second is an error. */
  lemma SimplePositional(flavor: SimpleFlavor, defaultRef: string, opts: seq<string>, t: string, rest: seq<string>, s: ParsedResetSimple)
    requires Run(SimpleSteps(flavor), opts, ParsedResetSimple(false, None, false, defaultRef)) == Completed(s)
    requires !IsDash(t)
    ensures ParseResetSimpleArgs(flavor, defaultRef, opts + [t] + rest)
      == if s.workspace.Some? then Err("unexpected arg: " + t)
         else Finish(Run(SimpleSteps(flavor), rest, s.(workspace := Some(t))))
  {
    SimpleStepWellFormed(flavor);
    RunAfter(SimpleSteps(flavor), opts, t, rest, ParsedResetSimple(false, None, false, defaultRef));
    PlainToken(t);
  }

  /** `--ref` sets the ref where it is known, and is an unknown option for the
      host's `opt-repos`. */
  lemma SimpleRef(flavor: SimpleFlavor, defaultRef: string, opts: seq<string>, v: string, rest: seq<string>, s: ParsedResetSimple)
    requires Run(SimpleSteps(flavor), opts, ParsedResetSimple(false, None, false, defaultRef)) == Completed(s)
    ensures ParseResetSimpleArgs(flavor, defaultRef, opts + [REF_FLAG, v] + rest)
      == if flavor == OptRepos then Err("unknown arg: --ref")
         else Finish(Run(SimpleSteps(flavor), rest, s.(refspec := v)))
  {
    SimpleStepWellFormed(flavor);
    Spellings();
    assert opts + [REF_FLAG, v] + rest == opts + [REF_FLAG] + ([v] + rest);
    RunAfter(SimpleSteps(flavor), opts, REF_FLAG, [v] + rest, ParsedResetSimple(false, None, false, defaultRef));
    assert ([v] + rest)[1..] == rest;
    assert !IsHelpFlag(REF_FLAG) && !IsYesFlag(REF_FLAG) by { assert REF_FLAG[2] == 'r'; }
  }

  lemma SimpleUnknownOptionFails(flavor: SimpleFlavor, defaultRef: string, opts: seq<string>, t: string, rest: seq<string>, s: ParsedResetSimple)
    requires Run(SimpleSteps(flavor), opts, ParsedResetSimple(false, None, false, defaultRef)) == Completed(s)
    requires IsDash(t) && !IsHelpFlag(t) && !IsYesFlag(t) && t != REF_FLAG && !StartsWith(t, REF_INLINE)
    ensures ParseResetSimpleArgs(flavor, defaultRef, opts + [t] + rest) == Err(SimpleUnknown(flavor, t))
  {
    SimpleStepWellFormed(flavor);
    RunAfter(SimpleSteps(flavor), opts, t, rest, ParsedResetSimple(false, None, false, defaultRef));
  }
}

=== FILE: rm_args.dfy ===
/** The arguments of `rm`, on the host (`launcher/rm.rs`) and in the container
    launcher (`launcher/container.rs`): flags and at most one workspace name. The
    container launcher also knows `--keep-volumes` and `--volumes`. */
module RmArgs {
  import opened Wrappers
  import opened Strings
  import opened TokenScan
  import opened Runtime

  datatype ParsedRm = ParsedRm(showHelp: bool, all: bool, yes: bool, keepVolumes: bool, workspace: Option<string>)

  const INITIAL := ParsedRm(false, false, false, false, None)
  const ALL_FLAG := "--all"
  const KEEP_VOLUMES := "--keep-volumes"
  const VOLUMES := "--volumes"
  const TOO_MANY := "rm accepts at most one workspace name"

  predicate IsYesFlag(t: string) { t == "-y" || t == "--yes" }

  /** The options `rm` knows on each side. */
  predicate IsRmFlag(side: Runtime, t: string) {
    IsHelpFlag(t) || t == ALL_FLAG || IsYesFlag(t) || (side == Container && (t == KEEP_VOLUMES || t == VOLUMES))
  }

  /** One iteration of the `for arg in args` loop. */
  function RmStep(side: Runtime, st: ParsedRm, t: string, next: Option<string>): (r: Step<ParsedRm>)
    ensures !r.Stop? && (r.Next? ==> !r.takesValue)
    ensures r.Fail? <==> if IsDash(t) then !IsRmFlag(side, t) else st.workspace.Some?
    ensures r.Next? ==> r.state.showHelp == (st.showHelp || t == "-h" || t == "--help")
    ensures r.Next? ==> r.state.all == (st.all || t == ALL_FLAG)
    ensures r.Next? ==> r.state.yes == (st.yes || t == "-y" || t == "--yes")
    ensures r.Next? ==> r.state.keepVolumes == (t == KEEP_VOLUMES || (st.keepVolumes && t != VOLUMES))
    ensures r.Next? ==> r.state.workspace == if IsDash(t) then st.workspace else Some(t)
    ensures r.Fail? ==> r.error == if IsDash(t) then "unknown option for rm: " + t else TOO_MANY
  {
    assert IsDash(ALL_FLAG) && IsDash("--yes") && IsDash("-y") && IsDash(KEEP_VOLUMES) && IsDash(VOLUMES) by {
      assert "--all"[0] == '-' && "--yes"[0] == '-' && "-y"[0] == '-';
      assert "--keep-volumes"[0] == '-' && "--volumes"[0] == '-';
    }
    if IsHelpFlag(t) then Next(st.(showHelp := true), false)
    else if t == ALL_FLAG then Next(st.(all := true), false)
    else if IsYesFlag(t) then Next(st.(yes := true), false)
    else if side == Container && t == KEEP_VOLUMES then Next(st.(keepVolumes := true), false)
    else if side == Container && t == VOLUMES then Next(st.(keepVolumes := false), false)
    else if IsDash(t) then Fail("unknown option for rm: " + t)
    else if st.workspace.Some? then Fail(TOO_MANY)
    else Next(st.(workspace := Some(t)), false)
  }

  function RmSteps(side: Runtime): StepFn<ParsedRm> {
    (s, t, n) => RmStep(side, s, t, n)
  }

  /** Every option is one `rm` knows. */
  predicate OnlyKnownOptions(side: Runtime, args: seq<string>) {
    forall t :: t in args && IsDash(t) ==> IsRmFlag(side, t)
  }

  /** `--keep-volumes` appears and no `--volumes` after it: the last of the two wins. */
  predicate KeepsVolumes(args: seq<string>) {
    exists i :: 0 <= i < |args| && args[i] == KEEP_VOLUMES && VOLUMES !in args[i + 1..]
  }

  /** The error is one the loop reports. */
  predicate RmError(side: Runtime, args: seq<string>, e: string) {
    e == TOO_MANY || exists t :: t in args && IsDash(t) && !IsRmFlag(side, t) && e == "unknown option for rm: " + t
  }

  /** `parse_rm_args`: it succeeds exactly when every option is known and there is
      at most one positional argument; each flag is set exactly when it is given;
      the workspace is the positional argument. */
  function ParseRmArgs(side: Runtime, args: seq<string>): (r: Result<ParsedRm>)
    ensures r.Ok? <==> OnlyKnownOptions(side, args) && |Positionals(args)| <= 1
    ensures r.Ok? ==> r.value.showHelp == ("-h" in args || "--help" in args)
    ensures r.Ok? ==> r.value.all == (ALL_FLAG in args)
    ensures r.Ok? ==> r.value.yes == ("-y" in args || "--yes" in args)
    ensures r.Ok? ==> r.value.keepVolumes == KeepsVolumes(args)
    ensures r.Ok? ==> r.value.workspace == if |Positionals(args)| == 0 then None else Some(Positionals(args)[0])
    ensures r.Err? ==> RmError(side, args, r.error)
  {
    RmScan(side, args, INITIAL);
    match Run(RmSteps(side), args, INITIAL)
    case Failed(e) => Err(e)
    case Completed(s) => Ok(s)
    case Stopped(s) => Ok(s)
  }

  lemma KeepsVolumesCons(args: seq<string>)
    requires |args| > 0
    ensures KeepsVolumes(args) <==> KeepsVolumes(args[1..]) || (args[0] == KEEP_VOLUMES && VOLUMES !in args[1..])
  {
    var rest := args[1..];
    if KeepsVolumes(args) && args[0] != KEEP_VOLUMES {
      var i :| 0 <= i < |args| && args[i] == KEEP_VOLUMES && VOLUMES !in args[i + 1..];
      assert rest[i - 1] == args[i] && rest[i..] == args[i + 1..];
    }
    if KeepsVolumes(args) && args[0] == KEEP_VOLUMES && VOLUMES in rest {
      var i :| 0 <= i < |args| && args[i] == KEEP_VOLUMES && VOLUMES !in args[i + 1..];
      assert i > 0;
      assert rest[i - 1] == args[i] && rest[i..] == args[i + 1..];
    }
    if KeepsVolumes(rest) {
      var i :| 0 <= i < |rest| && rest[i] == KEEP_VOLUMES && VOLUMES !in rest[i + 1..];
      assert args[i + 1] == rest[i] && args[i + 2..] == rest[i + 1..];
    }
    if args[0] == KEEP_VOLUMES && VOLUMES !in rest {
      assert args[1..] == rest;
    }
  }

  /** The scan, from any state: the conjunction of the properties below. */
  lemma RmScan(side: Runtime, args: seq<string>, st: ParsedRm)
    ensures var o := Run(RmSteps(side), args, st);
      && !o.Stopped?
      && (o.Completed? <==> OnlyKnownOptions(side, args) && |Positionals(args)| <= (if st.workspace.Some? then 0 else 1))
      && (o.Completed? ==> o.state.showHelp == (st.showHelp || "-h" in args || "--help" in args))
      && (o.Completed? ==> o.state.all == (st.all || ALL_FLAG in args))
      && (o.Completed? ==> o.state.yes == (st.yes || "-y" in args || "--yes" in args))
      && (o.Completed? ==> o.state.keepVolumes == (KeepsVolumes(args) || (st.keepVolumes && VOLUMES !in args)))
      && (o.Completed? ==> o.state.workspace == if |Positionals(args)| == 0 then st.workspace else Some(Positionals(args)[0]))
      && (o.Failed? ==> RmError(side, args, o.error))
  {
    RmScanAccepts(side, args, st);
    RmScanFlags(side, args, st);
    RmScanVolumes(side, args, st);
    RmScanWorkspace(side, args, st);
  }

  /** The scan's first step, and what the rest of the arguments hold. */
  lemma FirstStep(side: Runtime, args: seq<string>, st: ParsedRm) returns (r: Step<ParsedRm>)
    requires |args| > 0
    ensures r == RmStep(side, st, args[0], Lookahead(args))
    ensures Run(RmSteps(side), args, st) == match r
      case Fail(e) => Failed(e)
      case Stop(s) => Stopped(s)
      case Next(s, _) => Run(RmSteps(side), args[1..], s)
    ensures forall x :: x in args <==> x == args[0] || x in args[1..]
    ensures Positionals(args) == (if IsDash(args[0]) then [] else [args[0]]) + Positionals(args[1..])
  {
    r := RmStep(side, st, args[0], Lookahead(args));
    assert RmSteps(side)(st, args[0], Lookahead(args)) == r;
    assert args == [args[0]] + args[1..];
  }

  lemma {:induction false} RmScanAccepts(side: Runtime, args: seq<string>, st: ParsedRm)
    ensures var o := Run(RmSteps(side), args, st);
      && !o.Stopped?
      && (o.Completed? <==> OnlyKnownOptions(side, args) && |Positionals(args)| <= (if st.workspace.Some? then 0 else 1))
      && (o.Failed? ==> RmError(side, args, o.error))
    decreases |args|
  {
    if |args| > 0 {
      var r := FirstStep(side, args, st);
      if r.Next? {
        RmScanAccepts(side, args[1..], r.state);
      }
    }
  }

  lemma {:induction false} RmScanFlags(side: Runtime, args: seq<string>, st: ParsedRm)
    ensures var o := Run(RmSteps(side), args, st);
      && (o.Completed? ==> o.state.showHelp == (st.showHelp || "-h" in args || "--help" in args))
      && (o.Completed? ==> o.state.all == (st.all || ALL_FLAG in args))
      && (o.Completed? ==> o.state.yes == (st.yes || "-y" in args || "--yes" in args))
    decreases |args|
  {
    if |args| > 0 {
      var r := FirstStep(side, args, st);
      if r.Next? {
        RmScanFlags(side, args[1..], r.state);
      }
    }
  }

  lemma {:induction false} RmScanVolumes(side: Runtime, args: seq<string>, st: ParsedRm)
    ensures var o := Run(RmSteps(side), args, st);
      o.Completed? ==> o.state.keepVolumes == (KeepsVolumes(args) || (st.keepVolumes && VOLUMES !in args))
    decreases |args|
  {
    if |args| > 0 {
      KeepsVolumesCons(args);
      var r := FirstStep(side, args, st);
      if r.Next? {
        RmScanVolumes(side, args[1..], r.state);
      }
    } else {
      assert !KeepsVolumes(args);
    }
  }

  lemma {:induction false} RmScanWorkspace(side: Runtime, args: seq<string>, st: ParsedRm)
    ensures var o := Run(RmSteps(side), args, st);
      o.Completed? ==> o.state.workspace == if |Positionals(args)| == 0 then st.workspace else Some(Positionals(args)[0])
    decreases |args|
  {
    if |args| > 0 {
      var r := FirstStep(side, args, st);
      if r.Next? {
        RmScanAccepts(side, args[1..], r.state);
        RmScanWorkspace(side, args[1..], r.state);
      }
    }
  }

  /** The host launcher knows no volume options: they are unknown there. */
  lemma HostRejectsVolumeOptions(args: seq<string>)
    requires KEEP_VOLUMES in args || VOLUMES in args
    ensures ParseRmArgs(Host, args).Err?
  {
    assert "--keep-volumes"[0] == '-' && "--volumes"[0] == '-';
  }

  /** An example: `--keep-volumes -y ws-test --volumes` in the container
      launcher asks to remove the volumes, since the last volume option wins. */
  const EXAMPLE := ["--keep-volumes", "-y", "ws-test", "--volumes"]

  lemma RmExample()
    ensures ParseRmArgs(Container, EXAMPLE) == Ok(ParsedRm(false, false, true, false, Some("ws-test")))
  {
    ExampleOptions();
    ExampleVolumes();
    var r := ParseRmArgs(Container, EXAMPLE);
    assert r.value == ParsedRm(false, false, true, false, Some("ws-test"));
  }

  lemma ExampleOptions()
    ensures Positionals(EXAMPLE) == ["ws-test"] && OnlyKnownOptions(Container, EXAMPLE)
    ensures "-h" !in EXAMPLE && "--help" !in EXAMPLE && ALL_FLAG !in EXAMPLE && "-y" in EXAMPLE
  {
    ExamplePositionals();
    ExampleFlags();
  }

  lemma ExamplePositionals()
    ensures Positionals(EXAMPLE) == ["ws-test"]
  {
    assert "ws-test"[0] == 'w';
    assert "--keep-volumes"[0] == '-' && "--volumes"[0] == '-' && "-y"[0] == '-';
    assert EXAMPLE[1..][1..][1..][1..] == [];
  }

  lemma ExampleFlags()
    ensures "-h" !in EXAMPLE && "--help" !in EXAMPLE && ALL_FLAG !in EXAMPLE && "-y" in EXAMPLE
    ensures OnlyKnownOptions(Container, EXAMPLE)
  {
    assert EXAMPLE[0][2] == 'k' && EXAMPLE[1][1] == 'y' && EXAMPLE[2][0] == 'w' && EXAMPLE[3][2] == 'v';
  }

  lemma ExampleVolumes()
    ensures !KeepsVolumes(EXAMPLE)
  {
    forall i | 0 <= i < |EXAMPLE| && EXAMPLE[i] == KEEP_VOLUMES
      ensures VOLUMES in EXAMPLE[i + 1..]
    {
      assert i == 0;
      assert EXAMPLE[1..][2] == VOLUMES;
    }
  }
}

=== FILE: runtime.dfy ===
/** Runtime selection (`runtime.rs`): the `--runtime` flag of the launcher and
    its environment fallbacks. */
module Runtime {
  import opened Wrappers
  import opened Strings
  import opened TokenScan

  /** Where workspaces live. The argument parsers of the two launchers differ in a
      few options and messages, so they take the runtime whose launcher they model. */
  datatype Runtime = Container | Host

  /** The environment, as the variables that are set and valid Unicode. */
  type Env = map<string, string>

  const RUNTIME_FLAG := "--runtime"
  const RUNTIME_INLINE := "--runtime="
  const ENV_RUNTIME := "AGENT_WORKSPACE_RUNTIME"
  const ENV_RUNTIME_COMPAT := "AWL_RUNTIME"

  /** The canonical spelling of a runtime. */
  function RuntimeName(r: Runtime): string {
    match r
    case Container => "container"
    case Host => "host"
  }

  /** The spellings `parse_runtime_value` accepts for a runtime. */
  predicate IsAlias(r: Runtime, n: string) {
    match r
    case Container => n == "container" || n == "docker"
    case Host => n == "host" || n == "native"
  }

  /** `parse_runtime_value`: trims, lower-cases (ASCII), and accepts the canonical
      names and the aliases `docker` and `native`. */
  function ParseRuntimeValue(raw: string): (r: Result<Runtime>)
    ensures r.Ok? ==> IsAlias(r.value, ToAsciiLower(Trim(raw)))
    ensures r.Err? ==> !IsAlias(Container, ToAsciiLower(Trim(raw))) && !IsAlias(Host, ToAsciiLower(Trim(raw)))
    ensures r.Err? ==> StartsWith(r.error, "invalid runtime value: ")
  {
    var normalized := ToAsciiLower(Trim(raw));
    if normalized == "container" || normalized == "docker" then Ok(Container)
    else if normalized == "host" || normalized == "native" then Ok(Host)
    else if normalized == "" then Err("invalid runtime value: empty (expected: container|host)")
    else Err("invalid runtime value: " + raw + " (expected: container|host)")
  }

  /** A value selects a runtime exactly when its normalized form is one of that
      runtime's spellings. */
  lemma ParseRuntimeValueSpec(raw: string, rt: Runtime)
    ensures ParseRuntimeValue(raw) == Ok(rt) <==> IsAlias(rt, ToAsciiLower(Trim(raw)))
  {
  }

  /** Any other value is an error that names the raw value, or says it was empty. */
  lemma ParseRuntimeValueError(raw: string)
    ensures ParseRuntimeValue(raw).Err? <==>
      !IsAlias(Container, ToAsciiLower(Trim(raw))) && !IsAlias(Host, ToAsciiLower(Trim(raw)))
    ensures ParseRuntimeValue(raw).Err? && Trim(raw) == ""
            ==> ParseRuntimeValue(raw).error == "invalid runtime value: empty (expected: container|host)"
    ensures ParseRuntimeValue(raw).Err? && Trim(raw) != ""
            ==> ParseRuntimeValue(raw).error == "invalid runtime value: " + raw + " (expected: container|host)"
  {
    if Trim(raw) == "" {
      assert ToAsciiLower(Trim(raw)) == "";
    }
  }

  /** A lower-case spelling of a runtime parses to it. */
  lemma ParseAlias(v: string, rt: Runtime)
    requires IsLowerWord(v) && IsAlias(rt, v)
    ensures ParseRuntimeValue(v) == Ok(rt)
  {
    LowerWordNormal(v);
    ParseRuntimeValueSpec(v, rt);
  }

  /** Every runtime's canonical name parses back to it. */
  lemma ParseRuntimeName(r: Runtime)
    ensures ParseRuntimeValue(RuntimeName(r)) == Ok(r)
  {
    ParseAlias(RuntimeName(r), r);
  }

  /** A token the runtime scan consumes rather than passing on. */
  predicate IsRuntimeToken(t: string) {
    t == RUNTIME_FLAG || StartsWith(t, RUNTIME_INLINE)
  }

  datatype ScanState = ScanState(flag: Option<Runtime>, cleaned: seq<string>)

  /** One iteration of the `resolve_runtime` loop. */
  function RuntimeStep(st: ScanState, token: string, next: Option<string>): (r: Step<ScanState>)
    ensures r.Next? && !IsRuntimeToken(token) ==> r.state == st.(cleaned := st.cleaned + [token]) && !r.takesValue
    ensures r.Next? && IsRuntimeToken(token) ==> r.state.cleaned == st.cleaned && r.state.flag.Some?
    ensures r.Next? ==> (r.takesValue <==> token == RUNTIME_FLAG)
    ensures r.Next? && token == RUNTIME_FLAG ==> next.Some?
    ensures !r.Stop?
  {
    if token == RUNTIME_FLAG then
      match next
      case None => Fail("missing value for --runtime")
      case Some(v) =>
        match ParseRuntimeValue(v)
        case Err(e) => Fail(e)
        case Ok(rt) => Next(st.(flag := Some(rt)), true)
    else if StartsWith(token, RUNTIME_INLINE) then
      match ParseRuntimeValue(token[|RUNTIME_INLINE|..])
      case Err(e) => Fail(e)
      case Ok(rt) => Next(st.(flag := Some(rt)), false)
    else Next(st.(cleaned := st.cleaned + [token]), false)
  }

  lemma RuntimeStepWellFormed()
    ensures WellFormed(RuntimeStep)
  {
  }

  function ScanRuntime(args: seq<string>): Outcome<ScanState> {
    Run(RuntimeStep, args, ScanState(None, []))
  }

  /** The runtime named by the environment: `AGENT_WORKSPACE_RUNTIME` first, then
      `AWL_RUNTIME`; an invalid value is an error, no value means the container. */
  function RuntimeFromEnv(env: Env): (r: Result<Runtime>)
    ensures ENV_RUNTIME in env ==> r == ParseRuntimeValue(env[ENV_RUNTIME])
    ensures ENV_RUNTIME !in env && ENV_RUNTIME_COMPAT in env ==> r == ParseRuntimeValue(env[ENV_RUNTIME_COMPAT])
    ensures ENV_RUNTIME !in env && ENV_RUNTIME_COMPAT !in env ==> r == Ok(Container)
  {
    if ENV_RUNTIME in env then ParseRuntimeValue(env[ENV_RUNTIME])
    else if ENV_RUNTIME_COMPAT in env then ParseRuntimeValue(env[ENV_RUNTIME_COMPAT])
    else Ok(Container)
  }

  /** `resolve_runtime`: the selected runtime and the arguments with every runtime
      flag (and the value of a separate `--runtime`) removed. */
  function ResolveRuntime(args: seq<string>, env: Env): (r: Result<(Runtime, seq<string>)>)
    ensures r.Ok? ==> forall i :: 0 <= i < |r.value.1| ==> !IsRuntimeToken(r.value.1[i])
    ensures r.Ok? ==> |r.value.1| <= |args|
    ensures r.Ok? ==> ScanRuntime(args).Completed? && r.value.1 == ScanRuntime(args).state.cleaned
    ensures ScanRuntime(args).Failed? ==> r == Err(ScanRuntime(args).error)
  {
    var scan := ScanRuntime(args);
    CleanedHasNoRuntimeTokens(args);
    RunNeverStops(RuntimeStep, args, ScanState(None, []));
    if scan.Failed? then Err(scan.error)
    else
      var cleaned := scan.state.cleaned;
      match scan.state.flag
      case Some(rt) => Ok((rt, cleaned))
      case None =>
        match RuntimeFromEnv(env)
        case Err(e) => Err(e)
        case Ok(rt) => Ok((rt, cleaned))
  }

  lemma {:induction false} CleanedHasNoRuntimeTokensFrom(args: seq<string>, st: ScanState)
    requires forall i :: 0 <= i < |st.cleaned| ==> !IsRuntimeToken(st.cleaned[i])
    ensures var o := Run(RuntimeStep, args, st);
      !o.Failed? ==> (|o.state.cleaned| <= |st.cleaned| + |args|
                      && forall i :: 0 <= i < |o.state.cleaned| ==> !IsRuntimeToken(o.state.cleaned[i]))
    decreases |args|
  {
    if |args| > 0 {
      match RuntimeStep(st, args[0], Lookahead(args)) {
        case Fail(_) =>
        case Next(s, takesValue) =>
          if takesValue && |args| >= 2 {
            CleanedHasNoRuntimeTokensFrom(args[2..], s);
          } else {
            CleanedHasNoRuntimeTokensFrom(args[1..], s);
          }
      }
    }
  }

  lemma CleanedHasNoRuntimeTokens(args: seq<string>)
    ensures var o := ScanRuntime(args);
      !o.Failed? ==> (|o.state.cleaned| <= |args|
                      && forall i :: 0 <= i < |o.state.cleaned| ==> !IsRuntimeToken(o.state.cleaned[i]))
  {
    CleanedHasNoRuntimeTokensFrom(args, ScanState(None, []));
  }

  /** Tokens that are not runtime flags pass through the scan untouched. */
  lemma {:induction false} ScanPassesPlainTokens(args: seq<string>, st: ScanState)
    requires forall i :: 0 <= i < |args| ==> !IsRuntimeToken(args[i])
    ensures Run(RuntimeStep, args, st) == Completed(st.(cleaned := st.cleaned + args))
    decreases |args|
  {
    if |args| == 0 {
      assert st.cleaned + args == st.cleaned;
    } else {
      ScanPassesPlainTokens(args[1..], st.(cleaned := st.cleaned + [args[0]]));
      assert st.cleaned + [args[0]] + args[1..] == st.cleaned + args;
    }
  }

  /** Without a runtime flag the arguments are kept and the environment decides. */
  lemma EnvDecidesWithoutFlag(args: seq<string>, env: Env)
    requires forall i :: 0 <= i < |args| ==> !IsRuntimeToken(args[i])
    ensures ResolveRuntime(args, env) == match RuntimeFromEnv(env)
      case Ok(rt) => Ok((rt, args))
      case Err(e) => Err(e)
  {
    ScanPassesPlainTokens(args, ScanState(None, []));
    assert [] + args == args;
  }

  /** A valid `--runtime <value>` appended to a scan that completed wins over any
      earlier flag and over the environment, and is removed from the arguments. */
  lemma LastFlagWins(args: seq<string>, value: string, rt: Runtime, env: Env)
    requires ScanRuntime(args).Completed?
    requires ParseRuntimeValue(value) == Ok(rt)
    ensures ResolveRuntime(args + [RUNTIME_FLAG, value], env) == Ok((rt, ScanRuntime(args).state.cleaned))
  {
    RuntimeStepWellFormed();
    RunConcat(RuntimeStep, args, [RUNTIME_FLAG, value], ScanState(None, []));
    var s := ScanRuntime(args).state;
    assert [RUNTIME_FLAG, value][2..] == [];
    assert Run(RuntimeStep, [RUNTIME_FLAG, value], s)
        == Completed(s.(flag := Some(rt)));
  }

  /** The same for the inline spelling `--runtime=<value>`. */
  lemma LastInlineFlagWins(args: seq<string>, value: string, rt: Runtime, env: Env)
    requires ScanRuntime(args).Completed?
    requires ParseRuntimeValue(value) == Ok(rt)
    ensures ResolveRuntime(args + [RUNTIME_INLINE + value], env) == Ok((rt, ScanRuntime(args).state.cleaned))
  {
    RuntimeStepWellFormed();
    RunSnoc(RuntimeStep, args, RUNTIME_INLINE + value, ScanState(None, []));
    StartsWithConcat(RUNTIME_INLINE, value);
    assert (RUNTIME_INLINE + value)[|RUNTIME_INLINE|..] == value;
  }

  /** A trailing `--runtime` without a value is an error. */
  lemma TrailingFlagIsMissingValue(args: seq<string>, env: Env)
    requires ScanRuntime(args).Completed?
    ensures ResolveRuntime(args + [RUNTIME_FLAG], env) == Err("missing value for --runtime")
  {
    RuntimeStepWellFormed();
    RunSnoc(RuntimeStep, args, RUNTIME_FLAG, ScanState(None, []));
  }

  /** An unparsable flag value is reported, whatever the environment says. */
  lemma InvalidFlagValueFails(args: seq<string>, value: string, env: Env)
    requires ScanRuntime(args).Completed?
    requires ParseRuntimeValue(value).Err?
    ensures ResolveRuntime(args + [RUNTIME_FLAG, value], env) == Err(ParseRuntimeValue(value).error)
  {
    RuntimeStepWellFormed();
    RunConcat(RuntimeStep, args, [RUNTIME_FLAG, value], ScanState(None, []));
  }

  /** The first unit test of `runtime.rs`: no flag and no environment selects the
      container. */
  lemma ExampleDefault()
    ensures ResolveRuntime([], map[]) == Ok((Container, []))
  {
  }

  /** A leading flag decides the runtime whatever the environment holds; the
      remaining plain arguments are kept (the `flag_overrides_env` unit test). */
  lemma LeadingFlagDecides(value: string, rt: Runtime, rest: seq<string>, env: Env)
    requires ParseRuntimeValue(value) == Ok(rt)
    requires forall i :: 0 <= i < |rest| ==> !IsRuntimeToken(rest[i])
    ensures ResolveRuntime([RUNTIME_FLAG, value] + rest, env) == Ok((rt, rest))
  {
    var a := [RUNTIME_FLAG, value] + rest;
    assert a[0] == RUNTIME_FLAG && Lookahead(a) == Some(value);
    assert a[2..] == rest;
    ScanPassesPlainTokens(rest, ScanState(Some(rt), []));
    assert [] + rest == rest;
  }

  /** The same for a leading `--runtime=<value>` (the
      `parses_inline_flag_and_strips_it_from_args` unit test). */
  lemma LeadingInlineFlagDecides(value: string, rt: Runtime, rest: seq<string>, env: Env)
    requires ParseRuntimeValue(value) == Ok(rt)
    requires forall i :: 0 <= i < |rest| ==> !IsRuntimeToken(rest[i])
    ensures ResolveRuntime([RUNTIME_INLINE + value] + rest, env) == Ok((rt, rest))
  {
    var a := [RUNTIME_INLINE + value] + rest;
    StartsWithConcat(RUNTIME_INLINE, value);
    assert a[0][|RUNTIME_INLINE|..] == value;
    assert RuntimeStep(ScanState(None, []), a[0], Lookahead(a)) == Next(ScanState(Some(rt), []), false);
    assert a[1..] == rest;
    ScanPassesPlainTokens(rest, ScanState(Some(rt), []));
    assert [] + rest == rest;
  }

  /** The last unit test of `runtime.rs`: an unknown runtime name is rejected,
      naming the value and the accepted ones, whatever the environment says. */
  lemma ExampleInvalidValue(args: seq<string>, env: Env)
    requires args == ["--runtime", "k8s"]
    ensures ResolveRuntime(args, env).Err?
    ensures ResolveRuntime(args, env).error == "invalid runtime value: " + args[1] + " (expected: container|host)"
  {
    var v := args[1];
    assert |ToAsciiLower(Trim(v))| < 4 && Trim(v) != "" by {
      assert !IsWhitespace(v[0]) && !IsWhitespace(v[2]);
    }
    ParseRuntimeValueError(v);
    InvalidFlagValueFails([], v, env);
    assert [] + [RUNTIME_FLAG, v] == args;
  }
}

=== FILE: strings.dfy ===
/** Text primitives of the Rust standard library that the launcher relies on:
    `char::is_whitespace`, `str::trim`, `split_whitespace`, `to_ascii_lowercase`,
    `starts_with`/`strip_prefix`, `split_once`, `split`, `trim_*_matches`,
    `parse::<uN>` and decimal rendering. Strings are sequences of Unicode scalar values. */
module Strings {
  import opened Wrappers

  // ---------------------------------------------------------------------------
  // Character classes

  /** Unicode White_Space, the set `char::is_whitespace` (and so `trim` and
      `split_whitespace`) uses. */
  predicate IsWhitespace(c: char) {
    c == ' ' || ('\t' <= c <= '\r') || c == '\U{85}' || c == '\U{A0}' || c == '\U{1680}'
    || ('\U{2000}' <= c <= '\U{200A}') || c == '\U{2028}' || c == '\U{2029}'
    || c == '\U{202F}' || c == '\U{205F}' || c == '\U{3000}'
  }

  /** `char::is_ascii_whitespace`: space, tab, line feed, form feed, carriage return
      (vertical tab is not included). */
  predicate IsAsciiWhitespace(c: char) {
    c == ' ' || c == '\t' || c == '\n' || c == '\U{C}' || c == '\r'
  }

  predicate IsAsciiDigit(c: char) { '0' <= c <= '9' }
  predicate IsAsciiLower(c: char) { 'a' <= c <= 'z' }
  predicate IsAsciiUpper(c: char) { 'A' <= c <= 'Z' }
  predicate IsAsciiAlphanumeric(c: char) { IsAsciiDigit(c) || IsAsciiLower(c) || IsAsciiUpper(c) }

  /** `char::to_ascii_lowercase` */
  function LowerChar(c: char): (r: char)
    ensures IsAsciiUpper(c) ==> IsAsciiLower(r)
    ensures !IsAsciiUpper(c) ==> r == c
  {
    if IsAsciiUpper(c) then (c as int + 32) as char else c
  }

  /** `str::to_ascii_lowercase` */
  function ToAsciiLower(s: string): (r: string)
    ensures |r| == |s|
    ensures forall i :: 0 <= i < |s| ==> r[i] == LowerChar(s[i])
    decreases |s|
  {
    if |s| == 0 then [] else [LowerChar(s[0])] + ToAsciiLower(s[1..])
  }

  lemma ToAsciiLowerNoUpper(s: string)
    requires forall i :: 0 <= i < |s| ==> !IsAsciiUpper(s[i])
    ensures ToAsciiLower(s) == s
  {
  }

  /** A non-empty word of lower-case ASCII letters. */
  predicate IsLowerWord(s: string) {
    |s| > 0 && forall i :: 0 <= i < |s| ==> 'a' <= s[i] <= 'z'
  }

  // ---------------------------------------------------------------------------
  // Prefixes and suffixes

  predicate StartsWith(s: string, p: string) { |p| <= |s| && s[..|p|] == p }
  predicate EndsWith(s: string, p: string) { |p| <= |s| && s[|s| - |p|..] == p }

  /** `str::strip_prefix` */
  function StripPrefix(s: string, p: string): (r: Option<string>)
    ensures r.Some? <==> StartsWith(s, p)
    ensures r.Some? ==> s == p + r.value
  {
    if StartsWith(s, p) then Some(s[|p|..]) else None
  }

  /** `str::strip_suffix` */
  function StripSuffix(s: string, p: string): (r: Option<string>)
    ensures r.Some? <==> EndsWith(s, p)
    ensures r.Some? ==> s == r.value + p
  {
    if EndsWith(s, p) then Some(s[..|s| - |p|]) else None
  }

  lemma StartsWithConcat(p: string, s: string)
    ensures StartsWith(p + s, p)
  {
    assert (p + s)[..|p|] == p;
  }

  lemma StartsWithTrans(s: string, p: string, q: string)
    requires StartsWith(s, p) && StartsWith(p, q)
    ensures StartsWith(s, q)
  {
    assert s[..|q|] == s[..|p|][..|q|];
  }

  predicate HasChar(s: string, c: char) { exists i :: 0 <= i < |s| && s[i] == c }

  // ---------------------------------------------------------------------------
  // Trimming
  //
  // The trimming and splitting functions carry no postconditions of their own:
  // their facts are lemmas, so that proofs which only pass trimmed words around
  // do not have to reason about White_Space.

  /** `str::trim_start`: drops leading White_Space. */
  function TrimStart(s: string): string
    decreases |s|
  {
    if |s| > 0 && IsWhitespace(s[0]) then TrimStart(s[1..]) else s
  }

  /** `TrimStart` keeps a suffix, drops only White_Space, and leaves none in front. */
  lemma {:induction false} TrimStartSpec(s: string)
    ensures |TrimStart(s)| <= |s| && TrimStart(s) == s[|s| - |TrimStart(s)|..]
    ensures |TrimStart(s)| == 0 || !IsWhitespace(TrimStart(s)[0])
    ensures forall i :: 0 <= i < |s| - |TrimStart(s)| ==> IsWhitespace(s[i])
    decreases |s|
  {
    if |s| > 0 && IsWhitespace(s[0]) {
      TrimStartSpec(s[1..]);
    }
  }

  /** `str::trim_end`: drops trailing White_Space. */
  function TrimEnd(s: string): string
    decreases |s|
  {
    if |s| > 0 && IsWhitespace(s[|s| - 1]) then TrimEnd(s[..|s| - 1]) else s
  }

  /** `TrimEnd` keeps a prefix, drops only White_Space, and leaves none behind. */
  lemma {:induction false} TrimEndSpec(s: string)
    ensures |TrimEnd(s)| <= |s| && TrimEnd(s) == s[..|TrimEnd(s)|]
    ensures |TrimEnd(s)| == 0 || !IsWhitespace(TrimEnd(s)[|TrimEnd(s)| - 1])
    ensures forall i :: |TrimEnd(s)| <= i < |s| ==> IsWhitespace(s[i])
    decreases |s|
  {
    if |s| > 0 && IsWhitespace(s[|s| - 1]) {
      TrimEndSpec(s[..|s| - 1]);
    }
  }

  /** Number of leading White_Space characters. */
  function LeadingWhitespace(s: string): (n: nat)
    ensures n <= |s|
  {
    TrimStartSpec(s);
    |s| - |TrimStart(s)|
  }

  /** `str::trim` */
  function Trim(s: string): string {
    TrimEnd(TrimStart(s))
  }

  predicate NoOuterWhitespace(s: string) {
    |s| == 0 || (!IsWhitespace(s[0]) && !IsWhitespace(s[|s| - 1]))
  }

  /** The trimmed string is no longer and has no White_Space at either end. */
  lemma TrimSpec(s: string)
    ensures |Trim(s)| <= |s|
    ensures NoOuterWhitespace(Trim(s))
  {
    TrimStartSpec(s);
    var t := TrimStart(s);
    TrimEndSpec(t);
    if |Trim(s)| > 0 {
      assert Trim(s)[0] == t[0];
    }
  }

  /** What `Trim` removes is White_Space at both ends, and nothing else. */
  lemma TrimSlice(s: string)
    ensures LeadingWhitespace(s) + |Trim(s)| <= |s|
    ensures Trim(s) == s[LeadingWhitespace(s)..LeadingWhitespace(s) + |Trim(s)|]
    ensures forall i :: 0 <= i < LeadingWhitespace(s) ==> IsWhitespace(s[i])
    ensures forall i :: LeadingWhitespace(s) + |Trim(s)| <= i < |s| ==> IsWhitespace(s[i])
  {
    TrimStartSpec(s);
    var t := TrimStart(s);
    TrimEndSpec(t);
    var r := TrimEnd(t);
    assert r == s[|s| - |t|..|s| - |t| + |r|];
  }

  /** A string without White_Space at its ends is its own trim. */
  lemma TrimNoOp(s: string)
    requires NoOuterWhitespace(s)
    ensures Trim(s) == s
  {
  }

  /** A lower-case word is left alone by trimming and lower-casing: the names the
      option parsers compare against are fixed points of their normalization. */
  lemma LowerWordNormal(s: string)
    requires IsLowerWord(s)
    ensures ToAsciiLower(Trim(s)) == s
  {
    assert !IsWhitespace(s[0]) && !IsWhitespace(s[|s| - 1]);
    assert TrimStart(s) == s;
    assert TrimEnd(s) == s;
    ToAsciiLowerNoUpper(s);
  }

  lemma TrimIdempotent(s: string)
    ensures Trim(Trim(s)) == Trim(s)
  {
    TrimSpec(s);
    TrimNoOp(Trim(s));
  }

  lemma {:induction false} TrimEndConcat(p: string, v: string)
    requires |p| > 0 && !IsWhitespace(p[|p| - 1])
    ensures TrimEnd(p + v) == p + TrimEnd(v)
    decreases |v|
  {
    if |v| == 0 {
      assert p + v == p;
    } else if IsWhitespace(v[|v| - 1]) {
      assert (p + v)[..|p + v| - 1] == p + v[..|v| - 1];
      TrimEndConcat(p, v[..|v| - 1]);
    } else {
    }
  }

  // ---------------------------------------------------------------------------
  // Splitting

  /** The longest prefix free of White_Space. */
  function TakeWord(s: string): string
    decreases |s|
  {
    if |s| == 0 || IsWhitespace(s[0]) then [] else [s[0]] + TakeWord(s[1..])
  }

  lemma {:induction false} TakeWordSpec(s: string)
    ensures |TakeWord(s)| <= |s| && TakeWord(s) == s[..|TakeWord(s)|]
    ensures forall i :: 0 <= i < |TakeWord(s)| ==> !IsWhitespace(TakeWord(s)[i])
    ensures |TakeWord(s)| == |s| || IsWhitespace(s[|TakeWord(s)|])
    decreases |s|
  {
    if |s| > 0 && !IsWhitespace(s[0]) {
      TakeWordSpec(s[1..]);
    }
  }

  /** A non-empty run of non-White_Space characters. */
  predicate IsWord(w: string) {
    |w| > 0 && forall j :: 0 <= j < |w| ==> !IsWhitespace(w[j])
  }

  /** `str::split_whitespace`: maximal runs of non-White_Space characters. */
  function SplitWhitespace(s: string): seq<string>
    decreases |s|
  {
    TrimStartSpec(s);
    var t := TrimStart(s);
    if |t| == 0 then []
    else
      TakeWordSpec(t);
      var w := TakeWord(t);
      [w] + SplitWhitespace(t[|w|..])
  }

  /** Every piece is a word. */
  lemma {:induction false} SplitWhitespaceWords(s: string)
    ensures forall i :: 0 <= i < |SplitWhitespace(s)| ==> IsWord(SplitWhitespace(s)[i])
    decreases |s|
  {
    TrimStartSpec(s);
    var t := TrimStart(s);
    if |t| > 0 {
      TakeWordSpec(t);
      var w := TakeWord(t);
      SplitWhitespaceWords(t[|w|..]);
    }
  }

  lemma {:induction false} TrimStartWhitespacePrefix(p: string, s: string)
    requires forall i :: 0 <= i < |p| ==> IsWhitespace(p[i])
    ensures TrimStart(p + s) == TrimStart(s)
    decreases |p|
  {
    if |p| == 0 {
      assert p + s == s;
    } else {
      assert (p + s)[1..] == p[1..] + s;
      TrimStartWhitespacePrefix(p[1..], s);
    }
  }

  lemma {:induction false} TakeWordConcat(w: string, s: string)
    requires forall i :: 0 <= i < |w| ==> !IsWhitespace(w[i])
    requires |s| == 0 || IsWhitespace(s[0])
    ensures TakeWord(w + s) == w
    decreases |w|
  {
    if |w| == 0 {
      assert w + s == s;
    } else {
      assert (w + s)[1..] == w[1..] + s;
      TakeWordConcat(w[1..], s);
      assert w == [w[0]] + w[1..];
    }
  }

  lemma SplitWhitespaceSkip(p: string, x: string)
    requires forall i :: 0 <= i < |p| ==> IsWhitespace(p[i])
    ensures SplitWhitespace(p + x) == SplitWhitespace(x)
  {
    TrimStartWhitespacePrefix(p, x);
  }

  lemma SplitWhitespaceWord(w: string, rest: string)
    requires IsWord(w)
    requires |rest| == 0 || IsWhitespace(rest[0])
    ensures SplitWhitespace(w + rest) == [w] + SplitWhitespace(rest)
  {
    var s := w + rest;
    assert TrimStart(s) == s by { assert s[0] == w[0]; }
    TakeWordConcat(w, rest);
    assert s[|w|..] == rest;
  }

  /** Splitting words joined by single spaces, followed by any whitespace, gives
      the words back. */
  lemma {:induction false} SplitWhitespaceJoin(ws: seq<string>, tail: string)
    requires forall i :: 0 <= i < |ws| ==> IsWord(ws[i])
    requires forall i :: 0 <= i < |tail| ==> IsWhitespace(tail[i])
    ensures SplitWhitespace(Join(ws, " ") + tail) == ws
    decreases |ws|
  {
    if |ws| == 0 {
      SplitWhitespaceSkip(tail, "");
      assert tail + "" == tail;
      assert Join(ws, " ") + tail == tail;
      assert TrimStart("") == "";
    } else if |ws| == 1 {
      SplitWhitespaceLast(ws[0], tail);
    } else {
      var inner := Join(ws[1..], " ") + tail;
      calc {
        SplitWhitespace(Join(ws, " ") + tail);
        == { JoinSpace(ws, tail); }
        SplitWhitespace(ws[0] + (" " + inner));
        == { SplitWhitespaceWord(ws[0], " " + inner); }
        [ws[0]] + SplitWhitespace(" " + inner);
        == { SplitWhitespaceSkip(" ", inner); SplitWhitespaceJoin(ws[1..], tail); }
        [ws[0]] + ws[1..];
      }
      assert ws == [ws[0]] + ws[1..];
    }
  }

  lemma JoinSpace(ws: seq<string>, tail: string)
    requires |ws| > 1
    ensures Join(ws, " ") + tail == ws[0] + (" " + (Join(ws[1..], " ") + tail))
  {
    assert Join(ws, " ") == ws[0] + " " + Join(ws[1..], " ");
  }

  lemma SplitWhitespaceLast(w: string, tail: string)
    requires IsWord(w)
    requires forall i :: 0 <= i < |tail| ==> IsWhitespace(tail[i])
    ensures SplitWhitespace(Join([w], " ") + tail) == [w]
  {
    SplitWhitespaceWord(w, tail);
    SplitWhitespaceSkip(tail, "");
    assert tail + "" == tail;
  }

  /** Index of the first occurrence of `c`. */
  function Find(s: string, c: char): (r: Option<nat>)
    ensures r.Some? ==> r.value < |s| && s[r.value] == c && forall j :: 0 <= j < r.value ==> s[j] != c
    ensures r.None? ==> forall j :: 0 <= j < |s| ==> s[j] != c
    decreases |s|
  {
    if |s| == 0 then None
    else if s[0] == c then Some(0)
    else match Find(s[1..], c)
      case None => None
      case Some(k) => Some(k + 1)
  }

  /** `str::split_once(c)` */
  function SplitOnce(s: string, c: char): (r: Option<(string, string)>)
    ensures r.Some? ==> s == r.value.0 + [c] + r.value.1 && !HasChar(r.value.0, c)
    ensures r.None? <==> !HasChar(s, c)
  {
    match Find(s, c)
    case None => None
    case Some(i) =>
      assert s == s[..i] + [c] + s[i + 1..];
      Some((s[..i], s[i + 1..]))
  }

  /** `str::split(c)`: the pieces between occurrences of `c`; always at least one. */
  function SplitOn(s: string, c: char): (r: seq<string>)
    ensures |r| >= 1
    ensures forall i :: 0 <= i < |r| ==> !HasChar(r[i], c)
    decreases |s|
  {
    match SplitOnce(s, c)
    case None => [s]
    case Some((head, tail)) => [head] + SplitOn(tail, c)
  }

  /** `[T]::join(sep)` on strings. */
  function Join(parts: seq<string>, sep: string): string
    decreases |parts|
  {
    if |parts| == 0 then ""
    else if |parts| == 1 then parts[0]
    else parts[0] + sep + Join(parts[1..], sep)
  }

  lemma {:induction false} SplitOnJoin(parts: seq<string>, c: char)
    requires |parts| >= 1
    requires forall i :: 0 <= i < |parts| ==> !HasChar(parts[i], c)
    ensures SplitOn(Join(parts, [c]), c) == parts
    decreases |parts|
  {
    if |parts| == 1 {
      assert Join(parts, [c]) == parts[0];
    } else {
      var rest := Join(parts[1..], [c]);
      assert Join(parts, [c]) == parts[0] + [c] + rest;
      SplitOnceAt(parts[0], c, rest);
      SplitOnJoin(parts[1..], c);
    }
  }

  lemma SplitOnceAt(head: string, c: char, tail: string)
    requires !HasChar(head, c)
    ensures SplitOnce(head + [c] + tail, c) == Some((head, tail))
  {
    var s := head + [c] + tail;
    assert s[|head|] == c;
    var r := SplitOnce(s, c);
    assert r.Some?;
    var i := Find(s, c).value;
    assert forall j :: 0 <= j < |head| ==> s[j] == head[j];
    assert i == |head|;
    assert s[..i] == head;
    assert s[i + 1..] == tail;
  }

  // ---------------------------------------------------------------------------
  // Repeated prefix / suffix removal

  /** `str::trim_end_matches(pat)` for a non-empty literal pattern. */
  function TrimEndMatches(s: string, pat: string): (r: string)
    requires |pat| > 0
    ensures |r| <= |s| && r == s[..|r|] && !EndsWith(r, pat)
    decreases |s|
  {
    if EndsWith(s, pat) then TrimEndMatches(s[..|s| - |pat|], pat) else s
  }

  /** `str::trim_start_matches(pat)` for a non-empty literal pattern. */
  function TrimStartMatches(s: string, pat: string): (r: string)
    requires |pat| > 0
    ensures |r| <= |s| && r == s[|s| - |r|..] && !StartsWith(r, pat)
    decreases |s|
  {
    if StartsWith(s, pat) then TrimStartMatches(s[|pat|..], pat) else s
  }

  /** `str::trim_matches(c)` for one character. */
  function TrimMatchesChar(s: string, c: char): (r: string)
    ensures |r| <= |s|
    ensures |r| == 0 || (r[0] != c && r[|r| - 1] != c)
    ensures forall x :: x in r ==> x in s
  {
    var t := TrimStartMatches(s, [c]);
    var r := TrimEndMatches(t, [c]);
    assert |r| == 0 || r[0] != c by {
      if |r| > 0 {
        assert r[0] == t[0];
        assert t[..1] == [t[0]];
      }
    }
    assert |r| == 0 || r[|r| - 1] != c by {
      if |r| > 0 { assert r[|r| - 1..] == [r[|r| - 1]]; }
    }
    r
  }

  // ---------------------------------------------------------------------------
  // Decimal numbers

  predicate AllDigits(s: string) { forall i :: 0 <= i < |s| ==> IsAsciiDigit(s[i]) }

  function DigitValue(c: char): nat
    requires IsAsciiDigit(c)
  {
    c as int - '0' as int
  }

  function DecimalValue(s: string): nat
    requires AllDigits(s)
    decreases |s|
  {
    if |s| == 0 then 0 else DecimalValue(s[..|s| - 1]) * 10 + DigitValue(s[|s| - 1])
  }

  /** `str::parse::<uN>()` where `bound` is 2^N: an optional `+` followed by at least
      one ASCII digit, with a value that fits in N bits. No whitespace is accepted. */
  function ParseUnsigned(s: string, bound: nat): (r: Option<nat>)
    ensures r.Some? ==> r.value < bound
    ensures r.Some? ==> |s| > 0
  {
    var digits := if |s| >= 2 && s[0] == '+' then s[1..] else s;
    if |digits| > 0 && AllDigits(digits) && DecimalValue(digits) < bound then Some(DecimalValue(digits))
    else None
  }

  const U32_BOUND: nat := 0x1_0000_0000
  const USIZE_BOUND: nat := 0x1_0000_0000_0000_0000

  function DigitChar(d: nat): (c: char)
    requires d < 10
    ensures IsAsciiDigit(c) && DigitValue(c) == d
  {
    ('0' as int + d) as char
  }

  /** Decimal rendering of a natural number (`Display` for unsigned integers). */
  function NatToString(n: nat): (s: string)
    ensures |s| > 0 && AllDigits(s)
    decreases n
  {
    if n < 10 then [DigitChar(n)] else NatToString(n / 10) + [DigitChar(n % 10)]
  }

  lemma {:induction false} NatToStringValue(n: nat)
    ensures DecimalValue(NatToString(n)) == n
    decreases n
  {
    var s := NatToString(n);
    if n >= 10 {
      NatToStringValue(n / 10);
      assert s[..|s| - 1] == NatToString(n / 10);
    }
  }

  /** A non-empty run of digits has no whitespace to trim. */
  lemma DigitsTrim(s: string)
    requires |s| > 0 && AllDigits(s)
    ensures Trim(s) == s
  {
    assert IsAsciiDigit(s[0]) && IsAsciiDigit(s[|s| - 1]);
    TrimNoOp(s);
  }

  /** Rendering a number and parsing it back gives the number. */
  lemma NatToStringRoundTrip(n: nat, bound: nat)
    requires n < bound
    ensures ParseUnsigned(NatToString(n), bound) == Some(n)
  {
    NatToStringValue(n);
    var s := NatToString(n);
    assert IsAsciiDigit(s[0]);
  }
}

=== FILE: token_scan.dfy ===
/** The argument-scanning loop shared by every command-line parser of the
    launcher: `let mut iter = args.iter(); while let Some(arg) = iter.next() { match … }`.
    One step inspects the current token and, for options that take a separate
    value, the token after it (`iter.next()`); it either continues (consuming
    one or two tokens), stops the scan early (a help flag), or fails. */
module TokenScan {
  import opened Wrappers
  import opened Strings

  /** A token that reads as an option: it starts with `-`. */
  predicate IsDash(t: string) { StartsWith(t, "-") }

  /** `-h` or `--help`. */
  predicate IsHelpFlag(t: string) { t == "-h" || t == "--help" }

  /** A token that starts with an option's spelling reads as an option itself. */
  lemma DashedPrefix(t: string, p: string)
    requires StartsWith(p, "-") && StartsWith(t, p)
    ensures IsDash(t)
  {
    StartsWithTrans(t, p, "-");
  }

  /** A token that does not start with `-` is no help flag. */
  lemma PlainIsNotHelp(t: string)
    requires !IsDash(t)
    ensures !IsHelpFlag(t)
  {
    assert "-h"[..1] == "-";
    assert "--help"[..1] == "-";
  }

  /** A token that does not start with `-` is no option and no inline `--option=value`. */
  lemma PlainIsNot(t: string, option: string)
    requires !IsDash(t) && IsDash(option)
    ensures t != option && !StartsWith(t, option)
  {
    assert option[..1] == "-";
    if |t| >= |option| {
      assert t[..|option|][..1] == t[..1];
    }
  }

  /** The tokens that are not options, in order. */
  function Positionals(args: seq<string>): (r: seq<string>)
    ensures |r| <= |args|
    ensures forall t :: t in r <==> t in args && !IsDash(t)
  {
    if |args| == 0 then [] else (if IsDash(args[0]) then [] else [args[0]]) + Positionals(args[1..])
  }

  datatype Step<S> =
    | Next(state: S, takesValue: bool)   // continue; `takesValue` consumes the following token too
    | Stop(state: S)                     // leave the loop early, e.g. on `--help`
    | Fail(error: string)                // return an error

  datatype Outcome<S> =
    | Completed(state: S)
    | Stopped(state: S)
    | Failed(error: string)

  type StepFn<!S> = (S, string, Option<string>) -> Step<S>

  /** The token an option could consume as its value. */
  function Lookahead(args: seq<string>): (r: Option<string>)
    ensures r.Some? <==> |args| > 1
    ensures r.Some? ==> r.value == args[1]
  {
    if |args| > 1 then Some(args[1]) else None
  }

  function Run<S>(step: StepFn<S>, args: seq<string>, st: S): (r: Outcome<S>)
    ensures |args| == 0 ==> r == Completed(st)
    decreases |args|
  {
    if |args| == 0 then Completed(st)
    else match step(st, args[0], Lookahead(args))
      case Fail(e) => Failed(e)
      case Stop(s) => Stopped(s)
      case Next(s, takesValue) =>
        if takesValue && |args| >= 2 then Run(step, args[2..], s) else Run(step, args[1..], s)
  }

  /** Scanning a token in front of `rest` is one step on it. */
  lemma RunCons<S>(step: StepFn<S>, t: string, rest: seq<string>, st: S)
    ensures Run(step, [t] + rest, st) == match step(st, t, Lookahead([t] + rest))
      case Fail(e) => Failed(e)
      case Stop(s) => Stopped(s)
      case Next(s, takesValue) => if takesValue && |rest| >= 1 then Run(step, rest[1..], s) else Run(step, rest, s)
  {
    assert ([t] + rest)[0] == t;
    assert ([t] + rest)[1..] == rest;
    if |rest| >= 1 {
      assert ([t] + rest)[2..] == rest[1..];
    }
  }

  /** A step function reads the lookahead only to take it as a value: without one it
      never asks to consume a value, and whenever it does not fail without one, the
      lookahead does not change its decision. Every parser of the launcher has this
      shape (`let Some(v) = iter.next() else { return Err(..) }`). */
  ghost predicate WellFormed<S(!new)>(step: StepFn<S>) {
    forall s: S, t: string, n: string ::
      (step(s, t, None).Next? ==> !step(s, t, None).takesValue)
      && (!step(s, t, None).Fail? ==> step(s, t, Some(n)) == step(s, t, None))
  }

  /** Scanning `a + b` is scanning `a` and then, from the state it completed in, `b`. */
  lemma {:induction false} RunConcat<S(!new)>(step: StepFn<S>, a: seq<string>, b: seq<string>, st: S)
    requires WellFormed(step)
    requires Run(step, a, st).Completed?
    ensures Run(step, a + b, st) == Run(step, b, Run(step, a, st).state)
    decreases |a|
  {
    if |a| == 0 {
      assert a + b == b;
    } else if |a| == 1 {
      assert (a + b)[0] == a[0];
      assert (a + b)[1..] == b;
      if |b| > 0 {
        assert Lookahead(a + b) == Some(b[0]);
        assert step(st, a[0], Some(b[0])) == step(st, a[0], None);
      }
    } else {
      assert (a + b)[0] == a[0];
      assert Lookahead(a + b) == Lookahead(a);
      match step(st, a[0], Lookahead(a)) {
        case Next(s, takesValue) =>
          if takesValue {
            assert (a + b)[2..] == a[2..] + b;
            RunConcat(step, a[2..], b, s);
          } else {
            assert (a + b)[1..] == a[1..] + b;
            RunConcat(step, a[1..], b, s);
          }
      }
    }
  }

  /** Once the scan stops early, whatever follows is never read. */
  lemma {:induction false} RunStoppedConcat<S(!new)>(step: StepFn<S>, a: seq<string>, b: seq<string>, st: S)
    requires WellFormed(step)
    requires Run(step, a, st).Stopped?
    ensures Run(step, a + b, st) == Run(step, a, st)
    decreases |a|
  {
    assert (a + b)[0] == a[0];
    if |a| == 1 {
      if |b| > 0 {
        assert Lookahead(a + b) == Some(b[0]);
        assert step(st, a[0], Some(b[0])) == step(st, a[0], None);
      }
    } else {
      assert Lookahead(a + b) == Lookahead(a);
      match step(st, a[0], Lookahead(a)) {
        case Stop(_) =>
        case Next(s, takesValue) =>
          if takesValue {
            assert (a + b)[2..] == a[2..] + b;
            RunStoppedConcat(step, a[2..], b, s);
          } else {
            assert (a + b)[1..] == a[1..] + b;
            RunStoppedConcat(step, a[1..], b, s);
          }
      }
    }
  }

  /** After a completed scan of `opts`, the token `t` is one step on the state it
      completed in, with the rest of the arguments as its lookahead. */
  lemma RunAfter<S(!new)>(step: StepFn<S>, opts: seq<string>, t: string, rest: seq<string>, st: S)
    requires WellFormed(step)
    requires Run(step, opts, st).Completed?
    ensures Run(step, opts + [t] + rest, st) == match step(Run(step, opts, st).state, t, Lookahead([t] + rest))
      case Fail(e) => Failed(e)
      case Stop(s) => Stopped(s)
      case Next(s, takesValue) => if takesValue && |rest| >= 1 then Run(step, rest[1..], s) else Run(step, rest, s)
  {
    assert opts + [t] + rest == opts + ([t] + rest);
    RunConcat(step, opts, [t] + rest, st);
    RunCons(step, t, rest, Run(step, opts, st).state);
  }

  /** Scanning one more token after a completed scan is one more step without a
      lookahead. */
  lemma RunSnoc<S(!new)>(step: StepFn<S>, a: seq<string>, t: string, st: S)
    requires WellFormed(step)
    requires Run(step, a, st).Completed?
    ensures Run(step, a + [t], st) == match step(Run(step, a, st).state, t, None)
      case Next(s, _) => Completed(s)
      case Stop(s) => Stopped(s)
      case Fail(e) => Failed(e)
  {
    RunConcat(step, a, [t], st);
  }

  /** A property every non-failing step keeps holds of the state a scan ends in. */
  lemma {:induction false} RunInvariant<S(!new)>(step: StepFn<S>, inv: S -> bool, args: seq<string>, st: S)
    requires forall s: S, t: string, n: Option<string> :: inv(s) && step(s, t, n).Next? ==> inv(step(s, t, n).state)
    requires forall s: S, t: string, n: Option<string> :: inv(s) && step(s, t, n).Stop? ==> inv(step(s, t, n).state)
    requires inv(st)
    ensures !Run(step, args, st).Failed? ==> inv(Run(step, args, st).state)
    decreases |args|
  {
    if |args| > 0 {
      match step(st, args[0], Lookahead(args)) {
        case Fail(_) =>
        case Stop(_) =>
        case Next(s, takesValue) =>
          if takesValue && |args| >= 2 {
            RunInvariant(step, inv, args[2..], s);
          } else {
            RunInvariant(step, inv, args[1..], s);
          }
      }
    }
  }

  /** A scan whose steps never stop early ends either completed or failed. */
  lemma {:induction false} RunNeverStops<S>(step: StepFn<S>, args: seq<string>, st: S)
    requires forall s: S, t: string, n: Option<string> :: !step(s, t, n).Stop?
    ensures !Run(step, args, st).Stopped?
    decreases |args|
  {
    if |args| > 0 {
      match step(st, args[0], Lookahead(args)) {
        case Fail(_) =>
        case Stop(_) =>
        case Next(s, takesValue) =>
          if takesValue && |args| >= 2 {
            RunNeverStops(step, args[2..], s);
          } else {
            RunNeverStops(step, args[1..], s);
          }
      }
    }
  }
}

=== FILE: tunnel_args.dfy ===
/** The arguments of `tunnel` on the host (`launcher/tunnel.rs`): at most one
    workspace, a tunnel name, `--detach`, and `--output json`. */
module TunnelArgs {
  import opened Wrappers
  import opened Strings
  import opened TokenScan
  import opened Launcher

  datatype ParsedTunnel = ParsedTunnel(
    showHelp: bool, workspace: Option<string>, tunnelName: Option<string>, detach: bool, outputJson: bool)

  const INITIAL := ParsedTunnel(false, None, None, false, false)
  const NAME_FLAG := "--name"
  const NAME_INLINE := "--name="
  const OUTPUT_FLAG := "--output"
  const OUTPUT_INLINE := "--output="
  const DETACH_FLAG := "--detach"
  /** The only output format `--output` accepts. */
  const JSON := "json"

  /** The value of `--output`: only `json` is supported. */
  function OutputChoice(st: ParsedTunnel, value: string, takesValue: bool): (r: Step<ParsedTunnel>)
    ensures r.Next? <==> value == JSON
    ensures r.Next? ==> r == Next(st.(outputJson := true), takesValue)
  {
    if value != JSON then Fail("unsupported --output value: " + value)
    else Next(st.(outputJson := true), takesValue)
  }

  /** One iteration of the `while idx < args.len()` loop. */
  function TunnelStep(st: ParsedTunnel, t: string, next: Option<string>): (r: Step<ParsedTunnel>)
    ensures !r.Stop?
    ensures r.Next? && st.detach ==> r.state.detach
  {
    if IsHelpFlag(t) then Next(st.(showHelp := true), false)
    else if t == DETACH_FLAG then Next(st.(detach := true), false)
    else if t == NAME_FLAG then
      match next
      case None => Fail("missing value for --name")
      case Some(v) => Next(st.(tunnelName := TrimmedNonempty(v)), true)
    else if t == OUTPUT_FLAG then
      match next
      case None => Fail("missing value for --output")
      case Some(v) => OutputChoice(st, v, true)
    else if StartsWith(t, NAME_INLINE) then Next(st.(tunnelName := TrimmedNonempty(t[|NAME_INLINE|..])), false)
    else if StartsWith(t, OUTPUT_INLINE) then OutputChoice(st, t[|OUTPUT_INLINE|..], false)
    else if IsDash(t) then Fail("unknown option for tunnel: " + t)
    else if st.workspace.Some? then Fail("unexpected arg for tunnel: " + t)
    else Next(st.(workspace := Some(t)), false)
  }

  lemma TunnelStepWellFormed()
    ensures WellFormed(TunnelStep)
  {
    assert forall s: ParsedTunnel, t: string :: TunnelStep(s, t, None).Next? ==> !TunnelStep(s, t, None).takesValue;
    assert forall s: ParsedTunnel, t: string, n: string ::
      !TunnelStep(s, t, None).Fail? ==> TunnelStep(s, t, Some(n)) == TunnelStep(s, t, None);
  }

  /** The parse continued from a state: the loop's result. */
  function ParseTunnelFrom(st: ParsedTunnel, args: seq<string>): Result<ParsedTunnel> {
    match Run(TunnelStep, args, st)
    case Failed(e) => Err(e)
    case Completed(s) => Ok(s)
    case Stopped(s) => Ok(s)
  }

  /** `parse_tunnel_args` */
  function ParseTunnelArgs(args: seq<string>): (r: Result<ParsedTunnel>)
    ensures r.Ok? && r.value.tunnelName.Some? ==> IsTrimmedName(r.value.tunnelName.value)
    ensures |args| == 0 ==> r == Ok(INITIAL)
  {
    NamesTrimmed(args, INITIAL);
    ParseTunnelFrom(INITIAL, args)
  }

  lemma NamesTrimmed(args: seq<string>, st: ParsedTunnel)
    requires st.tunnelName.Some? ==> IsTrimmedName(st.tunnelName.value)
    ensures var o := Run(TunnelStep, args, st);
      !o.Failed? && o.state.tunnelName.Some? ==> IsTrimmedName(o.state.tunnelName.value)
  {
    var inv := (s: ParsedTunnel) => s.tunnelName.Some? ==> IsTrimmedName(s.tunnelName.value);
    RunInvariant(TunnelStep, inv, args, st);
  }

  /** Reaching `opts + rest` through a completed scan of `opts`. */
  lemma ParseAfter(opts: seq<string>, rest: seq<string>, s: ParsedTunnel)
    requires Run(TunnelStep, opts, INITIAL) == Completed(s)
    ensures ParseTunnelArgs(opts + rest) == ParseTunnelFrom(s, rest)
  {
    TunnelStepWellFormed();
    RunConcat(TunnelStep, opts, rest, INITIAL);
  }

  /** A second workspace name is an error. */
  lemma SecondWorkspaceFails(opts: seq<string>, t: string, rest: seq<string>, s: ParsedTunnel)
    requires Run(TunnelStep, opts, INITIAL) == Completed(s) && s.workspace.Some?
    requires !IsDash(t)
    ensures ParseTunnelArgs(opts + [t] + rest) == Err("unexpected arg for tunnel: " + t)
  {
    assert opts + [t] + rest == opts + ([t] + rest);
    ParseAfter(opts, [t] + rest, s);
    PlainIsNotHelp(t);
    RunCons(TunnelStep, t, rest, s);
    NotAnOption(t);
  }

  /** A plain token is none of the options. */
  lemma NotAnOption(t: string)
    requires !IsDash(t)
    ensures t != DETACH_FLAG && t != NAME_FLAG && t != OUTPUT_FLAG
    ensures !StartsWith(t, NAME_INLINE) && !StartsWith(t, OUTPUT_INLINE)
  {
    assert StartsWith(DETACH_FLAG, "-") && StartsWith(NAME_FLAG, "-") && StartsWith(OUTPUT_FLAG, "-");
    assert StartsWith(NAME_INLINE, "-") && StartsWith(OUTPUT_INLINE, "-");
    PlainIsNot(t, NAME_INLINE);
    PlainIsNot(t, OUTPUT_INLINE);
  }

  /** `--output <v>` and `--output=<v>` accept `json` and nothing else. */
  lemma OutputOnlyJson(opts: seq<string>, v: string, rest: seq<string>, s: ParsedTunnel)
    requires Run(TunnelStep, opts, INITIAL) == Completed(s)
    ensures ParseTunnelArgs(opts + [OUTPUT_FLAG, v] + rest)
      == if v == JSON then ParseTunnelFrom(s.(outputJson := true), rest) else Err("unsupported --output value: " + v)
    ensures ParseTunnelArgs(opts + [OUTPUT_INLINE + v] + rest)
      == if v == JSON then ParseTunnelFrom(s.(outputJson := true), rest) else Err("unsupported --output value: " + v)
  {
    OutputFlagOnlyJson(opts, v, rest, s);
    OutputInlineOnlyJson(opts, v, rest, s);
  }

  lemma OutputFlagOnlyJson(opts: seq<string>, v: string, rest: seq<string>, s: ParsedTunnel)
    requires Run(TunnelStep, opts, INITIAL) == Completed(s)
    ensures ParseTunnelArgs(opts + [OUTPUT_FLAG, v] + rest)
      == if v == JSON then ParseTunnelFrom(s.(outputJson := true), rest) else Err("unsupported --output value: " + v)
  {
    assert opts + [OUTPUT_FLAG, v] + rest == opts + ([OUTPUT_FLAG] + ([v] + rest));
    ParseAfter(opts, [OUTPUT_FLAG] + ([v] + rest), s);
    RunCons(TunnelStep, OUTPUT_FLAG, [v] + rest, s);
    assert ([v] + rest)[1..] == rest;
  }

  lemma OutputInlineOnlyJson(opts: seq<string>, v: string, rest: seq<string>, s: ParsedTunnel)
    requires Run(TunnelStep, opts, INITIAL) == Completed(s)
    ensures ParseTunnelArgs(opts + [OUTPUT_INLINE + v] + rest)
      == if v == JSON then ParseTunnelFrom(s.(outputJson := true), rest) else Err("unsupported --output value: " + v)
  {
    var t := OUTPUT_INLINE + v;
    assert opts + [t] + rest == opts + ([t] + rest);
    ParseAfter(opts, [t] + rest, s);
    RunCons(TunnelStep, t, rest, s);
    StartsWithConcat(OUTPUT_INLINE, v);
    assert t[|OUTPUT_INLINE|..] == v;
    assert !IsHelpFlag(t) && t != DETACH_FLAG && t != NAME_FLAG && t != OUTPUT_FLAG by {
      assert |t| >= |OUTPUT_INLINE|;
    }
    assert !StartsWith(t, NAME_INLINE) by { assert t[2] == 'o'; }
  }

  /** The tunnel name is stored trimmed, and not at all when blank. */
  lemma NameIsTrimmed(opts: seq<string>, v: string, rest: seq<string>, s: ParsedTunnel)
    requires Run(TunnelStep, opts, INITIAL) == Completed(s)
    ensures ParseTunnelArgs(opts + [NAME_FLAG, v] + rest) == ParseTunnelFrom(s.(tunnelName := TrimmedNonempty(v)), rest)
    ensures ParseTunnelArgs(opts + [NAME_INLINE + v] + rest) == ParseTunnelFrom(s.(tunnelName := TrimmedNonempty(v)), rest)
  {
    assert opts + [NAME_FLAG, v] + rest == opts + ([NAME_FLAG] + ([v] + rest));
    ParseAfter(opts, [NAME_FLAG] + ([v] + rest), s);
    RunCons(TunnelStep, NAME_FLAG, [v] + rest, s);
    assert ([v] + rest)[1..] == rest;
    var t := NAME_INLINE + v;
    assert opts + [t] + rest == opts + ([t] + rest);
    ParseAfter(opts, [t] + rest, s);
    RunCons(TunnelStep, t, rest, s);
    StartsWithConcat(NAME_INLINE, v);
    assert t[|NAME_INLINE|..] == v;
    assert !IsHelpFlag(t) && t != DETACH_FLAG && t != NAME_FLAG && t != OUTPUT_FLAG by {
      assert |t| >= |NAME_INLINE|;
      assert t[2] == 'n';
    }
  }

  /** Once set, `detach` stays set: `--detach` counts wherever it appears. */
  lemma DetachAnywhere(opts: seq<string>, rest: seq<string>, s: ParsedTunnel)
    requires Run(TunnelStep, opts, INITIAL) == Completed(s)
    ensures var r := ParseTunnelArgs(opts + [DETACH_FLAG] + rest); r.Ok? ==> r.value.detach
  {
    assert opts + [DETACH_FLAG] + rest == opts + ([DETACH_FLAG] + rest);
    ParseAfter(opts, [DETACH_FLAG] + rest, s);
    RunCons(TunnelStep, DETACH_FLAG, rest, s);
    RunInvariant(TunnelStep, (x: ParsedTunnel) => x.detach, rest, s.(detach := true));
  }

  /** An unknown option is an error, and so is a value option with no value. */
  lemma UnknownOptionFails(opts: seq<string>, t: string, rest: seq<string>, s: ParsedTunnel)
    requires Run(TunnelStep, opts, INITIAL) == Completed(s)
    requires IsDash(t) && !IsHelpFlag(t) && t != DETACH_FLAG && t != NAME_FLAG && t != OUTPUT_FLAG
    requires !StartsWith(t, NAME_INLINE) && !StartsWith(t, OUTPUT_INLINE)
    ensures ParseTunnelArgs(opts + [t] + rest) == Err("unknown option for tunnel: " + t)
  {
    assert opts + [t] + rest == opts + ([t] + rest);
    ParseAfter(opts, [t] + rest, s);
    RunCons(TunnelStep, t, rest, s);
  }

  lemma TrailingValueOptionFails(opts: seq<string>, s: ParsedTunnel)
    requires Run(TunnelStep, opts, INITIAL) == Completed(s)
    ensures ParseTunnelArgs(opts + [NAME_FLAG]) == Err("missing value for --name")
    ensures ParseTunnelArgs(opts + [OUTPUT_FLAG]) == Err("missing value for --output")
  {
    TunnelStepWellFormed();
    RunSnoc(TunnelStep, opts, NAME_FLAG, INITIAL);
    RunSnoc(TunnelStep, opts, OUTPUT_FLAG, INITIAL);
  }

  /** An example: `ws-test --detach --output json`. */
  lemma TunnelExample()
    ensures ParseTunnelArgs(["ws-test", "--detach", "--output", "json"])
      == Ok(ParsedTunnel(false, Some("ws-test"), None, true, true))
  {
    var args := ["ws-test", "--detach", "--output", "json"];
    assert "ws-test"[0] == 'w';
    NotAnOption("ws-test");
    PlainIsNotHelp("ws-test");
    var s1 := INITIAL.(workspace := Some("ws-test"));
    assert Run(TunnelStep, ["ws-test"], INITIAL) == Completed(s1);
    assert Run(TunnelStep, ["ws-test", "--detach"], INITIAL) == Completed(s1.(detach := true)) by {
      RunSnoc(TunnelStep, ["ws-test"], DETACH_FLAG, INITIAL);
      TunnelStepWellFormed();
    }
    OutputOnlyJson(["ws-test", "--detach"], JSON, [], s1.(detach := true));
    assert ["ws-test", "--detach"] + [OUTPUT_FLAG, JSON] + [] == args;
  }
}

=== FILE: wrappers.dfy ===
/** Option and Result types shared by every module of the model.
    Errors are the exact message strings the launcher reports. */
module Wrappers {

  datatype Option<+T> = None | Some(value: T) {
    function GetOr(default: T): T {
      match this
      case Some(v) => v
      case None => default
    }
  }

  datatype Result<+T> = Ok(value: T) | Err(error: string) {
    function ToOption(): Option<T> {
      match this
      case Ok(v) => Some(v)
      case Err(_) => None
    }

    predicate IsFailure() {
      Err?
    }

    function PropagateFailure<U>(): Result<U>
      requires Err?
    {
      Err(error)
    }

    function Extract(): T
      requires Ok?
    {
      value
    }
  }
}
